=== FILE: README.md ===
# Ingenii Azure Data Platform: a Dafny model of its logic

The Ingenii Azure Data Platform deploys a data platform on Azure with Pulumi:
storage, Data Factory, Databricks workspaces, a key vault, firewalls and
monitoring. Most of its code declares cloud resources. Around those
declarations sits a set of small, deterministic pieces of logic, and this
project models those pieces as pure Dafny functions over strings, sequences,
maps and naturals, and proves their properties:

- **file ingestion** (module `Ingestion`): the Databricks notebook that moves a
  ledger entry through NEW, ARCHIVED, STAGED, CLEANED, INSERTED and COMPLETED.
  Each block runs only from the stage just before its own. The run fails unless
  the re-read stage is COMPLETED, and only then does it propagate downstream.
  The notebook's collaborators (archiving, staging, the dbt test runner,
  merging, tidying, propagation) are inputs. The notebook's calls on them are
  recorded as a trace;
- **Data Factory helpers** (`AdfPipelines`): the `D.HH:MM:00` timeout encoding,
  success dependencies, and the workspace-sync pipeline's per-container
  variables and `schema|item;item` table-details strings;
- **the table check** (`TableCheck`): parsing those strings, and the
  new-table detection that fails the Data Factory run;
- **naming and addressing** (`Naming`, `Cidr`, `Storage`, `DevopsDeployment`,
  `ConfigRegistry`):
  - the resource-naming convention;
  - IPv4 subnetting in prefix notation (section 3.1 of RFC 4632), with Python
    `ipaddress` semantics;
  - resource-id builders and the key-vault id parser, which round-trip;
- **configuration algebra**:
  - `Firewall`: sorted, de-duplicated access lists and the `+` merge;
  - `Config`: regions, stack short names, file-merge order and shared-output
    lookup;
  - `Databricks`: cluster-settings precedence;
  - `Kubernetes`: cluster enablement;
  - `Logs`: diagnostic-settings gating and categories;
  - `PrivateEndpoints`: private-endpoint group filtering;
- **registries and transforms**:
  - `Iam`: role-assignment names and the two-way role cache;
  - `ConfigRegistry`: the key-vault fallback store;
  - `Extensions`: extension-namespace registration;
  - `UiOutputs`: the UI output payload and its merge;
  - `Migration`: the Databricks-provider state migration;
  - `BlobToShare`: the blob-to-file-share mirror job, over an in-memory share.

Shared helper modules: `Wrappers` (`Option`, `Result`), `Strings` (Python's
`split`, `join`, `replace`, `strip`, `int()` of decimal text, and `lower`,
`upper` and `title` on the ASCII letters),
`Order` (Python's string order, `sorted` and `sorted(set(...))`) and `Json`
(the dictionaries, lists and scalars read from YAML and stack outputs, with
Python's truthiness and `[]`/`.get` lookups).

Where a source operation can raise, the model returns a `Result` whose error
names the exception. The code's own behaviour is followed, including three
points a reader might not expect:

- `ip_network(...).subnets(new_prefix)` of a /32 network yields the network
  itself whatever `new_prefix` is;
- a negative `network_number` counts from the end of the subnet list;
- a failed data-quality test does not let the run carry on with the rows that
  passed. The notebook moves the failing rows to review and writes no stage, so
  the completion check then fails the run at STAGED (`Ingestion.FailedTestsFinish`).

## Model

| member | source | states |
|---|---|---|
| Ingestion.Rank | src/pulumi/core-dtap/analytics/databricks/notebooks/engineering/data_pipeline.py:90-157 | the stages run NEW, ARCHIVED, STAGED, CLEANED, INSERTED, COMPLETED; rank 0 is exactly NEW and rank 5 exactly COMPLETED |
| Ingestion.Next | src/pulumi/core-dtap/analytics/databricks/notebooks/engineering/data_pipeline.py:90-157 | each block moves an entry exactly one stage forward |
| Ingestion.SplitFilePath | src/pulumi/core-dtap/analytics/databricks/notebooks/engineering/data_pipeline.py:53-55 | a path that unpacks gives two slash-free names which, joined by "/", are the path with "raw/" removed and outer slashes stripped |
| Ingestion.SourceAndTable | src/pulumi/core-dtap/analytics/databricks/notebooks/engineering/data_pipeline.py:53-55 | when source or table is missing and a path is given both come from the path, and a path of other than two pieces fails; otherwise the given names stay |
| Ingestion.SplitFilePathOfRawPath | src/pulumi/core-dtap/analytics/databricks/notebooks/engineering/data_pipeline.py:53-55 | a landing path raw/<source>/<table> yields exactly that source and table |
| Ingestion.Prepare | src/pulumi/core-dtap/analytics/databricks/notebooks/engineering/data_pipeline.py:47-76 | a run gets past its preamble only when the parameters pass, the increment parses as an integer and the source declares the table; the key is made of those values |
| Ingestion.PaddedIncrement | src/pulumi/core-dtap/analytics/databricks/notebooks/engineering/data_pipeline.py:60 | an increment of ` 3` is read as `int()` reads it, so the run prepares exactly as with `3` |
| Ingestion.FindOrCreate | src/pulumi/core-dtap/analytics/databricks/notebooks/engineering/data_pipeline.py:81-83 | the entry is the ledger's entry for the key, or a fresh NEW entry with no row count |
| Ingestion.ArchiveBlock | src/pulumi/core-dtap/analytics/databricks/notebooks/engineering/data_pipeline.py:90-92 | runs only at NEW; the entry reaches ARCHIVED exactly when archiving succeeds, and an archiving failure is the run's failure |
| Ingestion.StageBlock | src/pulumi/core-dtap/analytics/databricks/notebooks/engineering/data_pipeline.py:97-103 | runs only at ARCHIVED; reaches STAGED exactly when pre-processing and table creation succeed, and then records the row count before the status, in that call order |
| Ingestion.TestActions | src/pulumi/core-dtap/analytics/databricks/notebooks/engineering/data_pipeline.py:111-122 | the STAGED block writes the yml, fetches the token once and runs the tests with that token, in that order |
| Ingestion.TestFailure | src/pulumi/core-dtap/analytics/databricks/notebooks/engineering/data_pipeline.py:125-143 | passing tests never raise |
| Ingestion.TestFailureMessage | src/pulumi/core-dtap/analytics/databricks/notebooks/engineering/data_pipeline.py:138-141 | the raised text is the runner's stdout and stderr under "stdout:" and "stderr:" lines |
| Ingestion.TestBlock | src/pulumi/core-dtap/analytics/databricks/notebooks/engineering/data_pipeline.py:111-143 | runs only at STAGED; reaches CLEANED exactly when the yml is written and the tests pass; it fetches the token once exactly when it runs the tests |
| Ingestion.MergeBlock | src/pulumi/core-dtap/analytics/databricks/notebooks/engineering/data_pipeline.py:148-150 | runs only at CLEANED; reaches INSERTED exactly when the merge succeeds |
| Ingestion.TidyBlock | src/pulumi/core-dtap/analytics/databricks/notebooks/engineering/data_pipeline.py:155-160 | runs only at INSERTED; reaches COMPLETED exactly when the file table is removed |
| Ingestion.Finish | src/pulumi/core-dtap/analytics/databricks/notebooks/engineering/data_pipeline.py:164-183 | anything short of COMPLETED raises naming the stage; otherwise the token is fetched only if not already held, and the data is propagated with the project name, source and table |
| Ingestion.Pipeline | src/pulumi/core-dtap/analytics/databricks/notebooks/engineering/data_pipeline.py:47-183 | a preamble failure leaves the ledger untouched; otherwise only the run's own entry is created or changed, and a schema mismatch stops the run before any block |
| Ingestion.BlocksForwardOnly | src/pulumi/core-dtap/analytics/databricks/notebooks/engineering/data_pipeline.py:90-157 | the blocks never move an entry's stage backwards and only append calls |
| Ingestion.NoPropagationInBlocks | src/pulumi/core-dtap/analytics/databricks/notebooks/engineering/data_pipeline.py:90-160 | none of the stage blocks propagates data |
| Ingestion.FetchesInBlocks | src/pulumi/core-dtap/analytics/databricks/notebooks/engineering/data_pipeline.py:111-117 | over the blocks the token is fetched once exactly when the STAGED block ran, and the run then holds that token |
| Ingestion.TokenFetchedAtMostOnce | src/pulumi/core-dtap/analytics/databricks/notebooks/engineering/data_pipeline.py:111-178 | a whole run fetches the dbt token at most once |
| Ingestion.NewFileCompletes | src/pulumi/core-dtap/analytics/databricks/notebooks/engineering/data_pipeline.py:90-183 | a new file whose collaborators all succeed ends COMPLETED with its row count, after exactly the full sequence of calls |
| Ingestion.CompletedFileOnlyPropagates | src/pulumi/core-dtap/analytics/databricks/notebooks/engineering/data_pipeline.py:164-183 | a re-run of a completed file leaves the ledger as it was, only fetches the token and propagates, and fails only if propagation does |
| Ingestion.RowsReadBeforeStaged | src/pulumi/core-dtap/analytics/databricks/notebooks/engineering/data_pipeline.py:101-103 | every STAGED status update comes right after the row count is recorded |
| Ingestion.StagedEntryCarriesRowCount | src/pulumi/core-dtap/analytics/databricks/notebooks/engineering/data_pipeline.py:101-103 | an entry a run moves to STAGED or beyond carries the staging table's row count |
| Ingestion.CleanedOnlyOnSuccess | src/pulumi/core-dtap/analytics/databricks/notebooks/engineering/data_pipeline.py:125-143 | an entry reaches CLEANED in a run only if the test runner reported success |
| Ingestion.FailedTestsMoveRowsToReview | src/pulumi/core-dtap/analytics/databricks/notebooks/engineering/data_pipeline.py:125-136 | failed tests with failing-row queries move those rows to review, change no status and leave the run failing the completion check at STAGED |
| Ingestion.FailedTestsWithoutQueriesRaise | src/pulumi/core-dtap/analytics/databricks/notebooks/engineering/data_pipeline.py:137-141 | failed tests without failing-row queries raise with the runner's output, after the yml is reverted |
| Ingestion.SucceedsOnlyWhenCompleted | src/pulumi/core-dtap/analytics/databricks/notebooks/engineering/data_pipeline.py:164-170 | a run succeeds or propagates only with its entry at COMPLETED, and blocks that stop short raise at the completion check without propagating |
| Ingestion.UnknownTableLeavesLedger | src/pulumi/core-dtap/analytics/databricks/notebooks/engineering/data_pipeline.py:72-75 | a table the source does not declare raises "Table schema '<table>' not found for source '<source>'" with the ledger untouched |
| Ingestion.HappyArchive | src/pulumi/core-dtap/analytics/databricks/notebooks/engineering/data_pipeline.py:90-92 | when archiving succeeds, a NEW entry is archived and moved to ARCHIVED, in that order |
| Ingestion.HappyStage | src/pulumi/core-dtap/analytics/databricks/notebooks/engineering/data_pipeline.py:97-103 | when staging succeeds, an ARCHIVED entry is pre-processed, its table created, its row count recorded and it moves to STAGED, in that order |
| Ingestion.HappyTest | src/pulumi/core-dtap/analytics/databricks/notebooks/engineering/data_pipeline.py:111-143 | when the tests pass, a STAGED entry gets the yml written, the token fetched, the tests run with it, the yml reverted, and moves to CLEANED |
| Ingestion.HappyMergeTidy | src/pulumi/core-dtap/analytics/databricks/notebooks/engineering/data_pipeline.py:148-160 | when merging and tidying succeed, a CLEANED entry is merged, moved to INSERTED, its file table removed, moved to COMPLETED, and the table optimised |
| Ingestion.HappyBlocks | src/pulumi/core-dtap/analytics/databricks/notebooks/engineering/data_pipeline.py:90-160 | a NEW entry whose collaborators all succeed goes through every block to COMPLETED with its row count, the token fetched, and exactly the calls of the four stages in order |
| Ingestion.RowsRecordedBlocks | src/pulumi/core-dtap/analytics/databricks/notebooks/engineering/data_pipeline.py:101-103 | the blocks keep every STAGED status update right after the recording of the row count |
| Ingestion.BlocksStagedRowCount | src/pulumi/core-dtap/analytics/databricks/notebooks/engineering/data_pipeline.py:101-103 | an entry the blocks move from before STAGED to STAGED or beyond carries the staging table's row count |
| Ingestion.BlocksReachCleaned | src/pulumi/core-dtap/analytics/databricks/notebooks/engineering/data_pipeline.py:125-143 | an entry the blocks move from before CLEANED to CLEANED or beyond had tests that passed |
| Ingestion.FailedTestsBlocks | src/pulumi/core-dtap/analytics/databricks/notebooks/engineering/data_pipeline.py:111-157 | from STAGED, failed tests add only the test block's calls and its failure, leaving the stage where it is, so the later blocks do nothing |
| Ingestion.ReviewActions | src/pulumi/core-dtap/analytics/databricks/notebooks/engineering/data_pipeline.py:111-136 | failed tests with failing-row queries write the yml, fetch the token, run the tests, revert the yml and move the rows to review |
| Ingestion.FailedTestsFinish | src/pulumi/core-dtap/analytics/databricks/notebooks/engineering/data_pipeline.py:111-170 | from STAGED, failed tests with failing-row queries move the rows to review, leave the entry as it was, and end with the incomplete-stage error unless the move failed |
| AdfPipelines.MinutesToStringRoundTrip | src/pulumi/core-dtap/analytics/datafactory/orchestration_pipelines.py:12-18 | reading the rendered timeout back as D.HH:MM:SS gives whole days, hours below 24, minutes below 60 and zero seconds, which add up to exactly the given minutes |
| AdfPipelines.ParseTimeSpan | src/pulumi/core-dtap/analytics/datafactory/orchestration_pipelines.py:18 | a string that reads as a TimeSpan has a dot separating the day count |
| AdfPipelines.IngestionTimeoutDefault | src/pulumi/core-dtap/analytics/datafactory/orchestration_pipelines.py:58 | the ingestion notebook's default 20-minute timeout renders as 0.00:20:00 |
| AdfPipelines.SyncTimeoutDefault | src/pulumi/core-dtap/analytics/datafactory/orchestration_pipelines.py:108 | the sync activities' 1-minute timeout renders as 0.00:01:00 |
| AdfPipelines.DependsSuccessful | src/pulumi/core-dtap/analytics/datafactory/orchestration_pipelines.py:115-122 | one dependency per name, each on the SUCCEEDED condition alone |
| AdfPipelines.DependsSuccessfulNames | src/pulumi/core-dtap/analytics/datafactory/orchestration_pipelines.py:115-122 | the dependencies name exactly the given activities, in argument order |
| AdfPipelines.PerContainerActivities | src/pulumi/core-dtap/analytics/datafactory/orchestration_pipelines.py:124-267 | three activities per container: the folder listing, the table-folder search depending on it, and the per-schema check depending on the search; the search's if-branch sets the temp variable to the union of the Tables variable with the new entry, which drops an entry already there, and then copies it into the Tables variable |
| AdfPipelines.SyncActivities | src/pulumi/core-dtap/analytics/datafactory/orchestration_pipelines.py:275-279 | the sync pipeline has three activities per container |
| AdfPipelines.SyncActivitiesAt | src/pulumi/core-dtap/analytics/datafactory/orchestration_pipelines.py:275-279 | activity k of the sync pipeline is activity k mod 3 of container k div 3 |
| AdfPipelines.SyncDependenciesPointBack | src/pulumi/core-dtap/analytics/datafactory/orchestration_pipelines.py:124-279 | every dependency in the sync pipeline names the activity just before it |
| AdfPipelines.SyncVariables | src/pulumi/core-dtap/analytics/datafactory/orchestration_pipelines.py:280-289 | a variable is declared exactly when it is {c}Tables or {c}TablesTemp for one of the containers |
| AdfPipelines.SetVariablesDeclared | src/pulumi/core-dtap/analytics/datafactory/orchestration_pipelines.py:207-229 | every variable a sync activity sets is declared by the pipeline |
| AdfPipelines.VariableNamesInjective | src/pulumi/core-dtap/analytics/datafactory/orchestration_pipelines.py:280-289 | distinct containers declare distinct variables |
| AdfPipelines.VariableNamesDisjoint | src/pulumi/core-dtap/analytics/datafactory/orchestration_pipelines.py:280-289 | a Tables variable never coincides with a TablesTemp variable |
| AdfPipelines.DeployedSyncVariables | src/pulumi/core-dtap/analytics/datafactory/orchestration_pipelines.py:105 | the deployed pipeline, over models, snapshots and source, declares exactly six array variables |
| AdfPipelines.TableDetailsEntry | src/pulumi/core-dtap/analytics/datafactory/orchestration_pipelines.py:215 | an entry starts with the folder's mount path /mnt/<container>/<folder> and a bar |
| AdfPipelines.MinutesToStringParts | src/pulumi/core-dtap/analytics/datafactory/orchestration_pipelines.py:12-18 | the rendered timeout is days, a dot, two-digit hours, a colon, two-digit minutes and ":00", the fields holding the whole days, the remaining hours and the remaining minutes |
| AdfPipelines.DayHourMinute | src/pulumi/core-dtap/analytics/datafactory/orchestration_pipelines.py:14-17 | days, hours and minutes together make up the given minutes, with fewer than 24 hours |
| AdfPipelines.TimeSpanLayout | src/pulumi/core-dtap/analytics/datafactory/orchestration_pipelines.py:18 | the separators of the rendered text sit right after the day field, and after each two-digit field |
| AdfPipelines.ParseTimeSpanFields | src/pulumi/core-dtap/analytics/datafactory/orchestration_pipelines.py:18 | reading text of this layout gives back the values of its three digit fields and zero seconds |
| AdfPipelines.UnderAnHour | src/pulumi/core-dtap/analytics/datafactory/orchestration_pipelines.py:12-18 | a timeout below an hour renders as "0.00:MM:00" with the minutes zero-padded to two digits |
| AdfPipelines.PerContainer | src/pulumi/core-dtap/analytics/datafactory/orchestration_pipelines.py:124-279 | the sync pipeline has one block of activities per container, in container order |
| AdfPipelines.OwnDependencyPointsBack | src/pulumi/core-dtap/analytics/datafactory/orchestration_pipelines.py:124-267 | within one container's activities, every dependency names the activity just before it |
| AdfPipelines.DependencyPointsBack | src/pulumi/core-dtap/analytics/datafactory/orchestration_pipelines.py:124-279 | across the sync pipeline, every dependency names the activity just before it |
| TableCheck.ItemName | src/pulumi/core-dtap/analytics/databricks/notebooks/analytics/check_tables_exist_adf.py:21 | a name is read only from the exact folder object Data Factory writes, and the item is that object for the name |
| TableCheck.ControlCharacterItem | src/pulumi/core-dtap/analytics/databricks/notebooks/analytics/check_tables_exist_adf.py:21 | a folder item whose name holds a raw line break is rejected, as `json.loads` rejects it |
| TableCheck.ItemNameOfFolderItem | src/pulumi/core-dtap/analytics/databricks/notebooks/analytics/check_tables_exist_adf.py:21 | the folder object of a plain name reads back as that name |
| TableCheck.ItemNames | src/pulumi/core-dtap/analytics/databricks/notebooks/analytics/check_tables_exist_adf.py:21 | all names in item order, or the first item that is not a folder object |
| TableCheck.ItemNamesOfFolderItems | src/pulumi/core-dtap/analytics/databricks/notebooks/analytics/check_tables_exist_adf.py:21 | the folder objects of plain names read back as those names |
| TableCheck.LastSegment | src/pulumi/core-dtap/analytics/databricks/notebooks/analytics/check_tables_exist_adf.py:14 | the schema is slash-free |
| TableCheck.ParseTableDetails | src/pulumi/core-dtap/analytics/databricks/notebooks/analytics/check_tables_exist_adf.py:11-21 | a readable entry gives a slash-free schema and at least one plain table name |
| TableCheck.ParseTableDetailsOfPipeCount | src/pulumi/core-dtap/analytics/databricks/notebooks/analytics/check_tables_exist_adf.py:12 | text that does not split into exactly two pieces at the bar fails the unpacking |
| TableCheck.ParseTableDetailsOfEntry | src/pulumi/core-dtap/analytics/databricks/notebooks/analytics/check_tables_exist_adf.py:11-21 | an entry the sync pipeline builds for a non-empty folder reads back as the folder's name and its tables' names |
| TableCheck.ParseTableDetailsOfEmptyEntry | src/pulumi/core-dtap/analytics/databricks/notebooks/analytics/check_tables_exist_adf.py:21 | an entry with no table folders fails, since the empty text is not JSON |
| TableCheck.MountPathSegments | src/pulumi/core-dtap/analytics/databricks/notebooks/analytics/check_tables_exist_adf.py:14 | the schema of /mnt/<container>/<folder> is the folder |
| TableCheck.NewTables | src/pulumi/core-dtap/analytics/databricks/notebooks/analytics/check_tables_exist_adf.py:24 | a table is new exactly when the folder has it and the workspace does not; each new table appears as often as the folder lists it, and no known table appears |
| TableCheck.NewTablesAppend | src/pulumi/core-dtap/analytics/databricks/notebooks/analytics/check_tables_exist_adf.py:24 | the new tables keep the folder's order: those of a split listing are the first part's followed by the second's |
| TableCheck.NoNewTables | src/pulumi/core-dtap/analytics/databricks/notebooks/analytics/check_tables_exist_adf.py:24-25 | there are no new tables exactly when every folder table is known |
| TableCheck.StrRepr | src/pulumi/core-dtap/analytics/databricks/notebooks/analytics/check_tables_exist_adf.py:28 | the repr of an escape-free string is the string between two quotes |
| TableCheck.ListRepr | src/pulumi/core-dtap/analytics/databricks/notebooks/analytics/check_tables_exist_adf.py:28 | a list's text is bracketed |
| TableCheck.CheckDetails | src/pulumi/core-dtap/analytics/databricks/notebooks/analytics/check_tables_exist_adf.py:24-31 | succeeds exactly when every table is known, with the schema; otherwise fails with the message naming the sorted new tables |
| TableCheck.CheckTables | src/pulumi/core-dtap/analytics/databricks/notebooks/analytics/check_tables_exist_adf.py:12-31 | a malformed entry fails with its parse error; otherwise the check succeeds exactly when every table is known, yielding the schema |
| TableCheck.CheckTablesMessage | src/pulumi/core-dtap/analytics/databricks/notebooks/analytics/check_tables_exist_adf.py:26-30 | a failing check's message names the tables missing from the workspace, sorted |
| TableCheck.FolderItems | src/pulumi/core-dtap/analytics/databricks/notebooks/analytics/check_tables_exist_adf.py:21 | one folder item per name, in order |
| TableCheck.ItemNamesAll | src/pulumi/core-dtap/analytics/databricks/notebooks/analytics/check_tables_exist_adf.py:21 | when every item reads as a name, all names are read, in order |
| Naming.ResourceName | src/python/ingenii_azure_data_platform/ingenii_azure_data_platform/utils.py:79-126 | the type is lower-cased first; an unknown type fails naming that lower-cased type, and every known type gets its own name shape |
| Naming.ResourceNameIgnoresCase | src/python/ingenii_azure_data_platform/ingenii_azure_data_platform/utils.py:79 | two types that agree after lower-casing give the same name |
| Naming.ResourceNameOfUpper | src/python/ingenii_azure_data_platform/ingenii_azure_data_platform/utils.py:79 | an upper-cased type names the same as the type itself |
| Naming.AbbreviatedName | src/python/ingenii_azure_data_platform/ingenii_azure_data_platform/utils.py:122-123 | a table-driven type gives prefix, stack, region, the type's abbreviation and the lower-cased name, joined by dashes |
| Naming.TableDrivenName | src/python/ingenii_azure_data_platform/ingenii_azure_data_platform/utils.py:122-123 | with dash-free platform fields, splitting a table-driven name on dashes gives back prefix, stack, region and abbreviation, then the pieces of the lower-cased name |
| Naming.AbbreviationsDashFree | src/python/ingenii_azure_data_platform/ingenii_azure_data_platform/utils.py:36-77 | every abbreviation in the table is non-empty and dash-free |
| Naming.UserGroupName | src/python/ingenii_azure_data_platform/ingenii_azure_data_platform/utils.py:87-90 | a user group is the upper-cased prefix, the title-cased stack and the title-cased name |
| Naming.GatewaySubnetName | src/python/ingenii_azure_data_platform/ingenii_azure_data_platform/utils.py:93-94 | a gateway subnet is called Gateway whatever the name and platform |
| Naming.DatafactoryName | src/python/ingenii_azure_data_platform/ingenii_azure_data_platform/utils.py:103-107 | a data factory carries the lower-cased name under legacy naming, and the name and unique id otherwise |
| Naming.StorageAccountName | src/python/ingenii_azure_data_platform/ingenii_azure_data_platform/utils.py:114-115 | a storage account is prefix, stack, name and unique id run together, with no dash added |
| Naming.LogAnalyticsWorkspaceName | src/python/ingenii_azure_data_platform/ingenii_azure_data_platform/utils.py:118-119 | a Log Analytics workspace has the law infix, the lower-cased name and the unique id |
| Cidr.Subnets | src/python/ingenii_azure_data_platform/ingenii_azure_data_platform/utils.py:153 | a /32 network's subnets are the network itself; otherwise a new prefix shorter than the network's or longer than 32 fails, and the list is the 2^(new-old) subnets in address order |
| Cidr.SubnetAddress | src/python/ingenii_azure_data_platform/ingenii_azure_data_platform/utils.py:153 | subnet i starts i blocks of the new size after the network's address |
| Cidr.SubnetInside | src/python/ingenii_azure_data_platform/ingenii_azure_data_platform/utils.py:153 | every address a subnet covers is covered by the network |
| Cidr.SubnetsDisjoint | src/python/ingenii_azure_data_platform/ingenii_azure_data_platform/utils.py:153 | two different subnets do not overlap, and the earlier one ends before the later one starts |
| Cidr.SubnetsCover | src/python/ingenii_azure_data_platform/ingenii_azure_data_platform/utils.py:153 | every address of the network lies in some subnet |
| Cidr.ParseNetwork | src/python/ingenii_azure_data_platform/ingenii_azure_data_platform/utils.py:153 | a parsed network is a valid IPv4 network |
| Cidr.NetworkAt | src/python/ingenii_azure_data_platform/ingenii_azure_data_platform/utils.py:153 | an address and prefix give the network at that address exactly when no host bit is set |
| Cidr.ParseAddressOfFormat | src/python/ingenii_azure_data_platform/ingenii_azure_data_platform/utils.py:155 | a dotted-quad address printed and read back is the same address, and its text holds no slash |
| Cidr.ParseNetworkOfFormat | src/python/ingenii_azure_data_platform/ingenii_azure_data_platform/utils.py:155 | printing a network with .exploded and parsing it back gives the same network |
| Cidr.ListIndex | src/python/ingenii_azure_data_platform/ingenii_azure_data_platform/utils.py:153-155 | an index into a list of length n is accepted exactly when -n <= index < n, counting from the end when negative |
| Cidr.GenerateCidr | src/python/ingenii_azure_data_platform/ingenii_azure_data_platform/utils.py:148-155 | an unparsable CIDR fails with the parse error; otherwise the result is the indexed subnet of the parsed network |
| Cidr.PickSubnetValue | src/python/ingenii_azure_data_platform/ingenii_azure_data_platform/utils.py:153-155 | for an in-range index the result is the text of that subnet |
| Cidr.GenerateCidrIsSubnet | src/python/ingenii_azure_data_platform/ingenii_azure_data_platform/utils.py:148-155 | for an in-range index the result is the printed subnet, which parses back to the subnet, and the subnet lies inside the given network |
| Cidr.GenerateCidrIndexOutOfRange | src/python/ingenii_azure_data_platform/ingenii_azure_data_platform/utils.py:153-155 | an index beyond the subnet list, either way, fails with IndexError |
| Cidr.GenerateCidrBadPrefix | src/python/ingenii_azure_data_platform/ingenii_azure_data_platform/utils.py:153 | a new prefix shorter than the network's or longer than 32 fails |
| Cidr.GenerateCidrOfHost | src/python/ingenii_azure_data_platform/ingenii_azure_data_platform/utils.py:153-155 | a /32 network yields itself at index 0 or -1, whatever the new prefix, and any other index fails |
| Cidr.Address | src/python/ingenii_azure_data_platform/ingenii_azure_data_platform/utils.py:153 | a network's block of addresses lies inside the 32-bit address space |
| Cidr.BlockSplit | src/python/ingenii_azure_data_platform/ingenii_azure_data_platform/utils.py:153 | a block of one prefix length splits into 2^(k-p) blocks of the longer prefix k |
| Cidr.Subnet | src/python/ingenii_azure_data_platform/ingenii_azure_data_platform/utils.py:153 | each subnet of a network is a valid network of the new prefix length |
| Cidr.CoverStep | src/python/ingenii_azure_data_platform/ingenii_azure_data_platform/utils.py:153 | an address inside a run of equal blocks falls in exactly one of them |
| Cidr.Octets | src/python/ingenii_azure_data_platform/ingenii_azure_data_platform/utils.py:155 | an address splits into four bytes, most significant first |
| Cidr.OctetsOfAddress | src/python/ingenii_azure_data_platform/ingenii_azure_data_platform/utils.py:155 | the four bytes of a 32-bit address are bytes and recombine into the address |
| Cidr.ParseOctet | src/python/ingenii_azure_data_platform/ingenii_azure_data_platform/utils.py:153 | a parsed octet is a byte value |
| Cidr.ParseAddress | src/python/ingenii_azure_data_platform/ingenii_azure_data_platform/utils.py:153 | a parsed dotted-quad address fits in 32 bits |
| Cidr.ParsePrefix | src/python/ingenii_azure_data_platform/ingenii_azure_data_platform/utils.py:153 | a parsed prefix length is at most 32 |
| Cidr.AlignedNetwork | src/python/ingenii_azure_data_platform/ingenii_azure_data_platform/utils.py:153 | an address whose host bits are clear is the address of a valid network of that prefix |
| Cidr.AlignedIndex | src/python/ingenii_azure_data_platform/ingenii_azure_data_platform/utils.py:153 | an address that is a multiple of the block size indexes a block within range |
| Cidr.OctetTexts | src/python/ingenii_azure_data_platform/ingenii_azure_data_platform/utils.py:155 | each byte's decimal text holds no dot or slash and reads back as that byte |
| Order.Sort | src/python/ingenii_azure_data_platform/ingenii_azure_data_platform/network.py:16 | sorted() returns an ordered permutation of its argument |
| Order.SortedSet | src/python/ingenii_azure_data_platform/ingenii_azure_data_platform/network.py:14-15 | sorted(list(set(xs))) is strictly ordered and holds exactly the elements of xs |
| Order.SortedUnique | src/python/ingenii_azure_data_platform/ingenii_azure_data_platform/network.py:16 | two ordered lists with the same elements, counted with multiplicity, are equal, so sorting has one answer |
| Order.StrictlySortedUnique | src/python/ingenii_azure_data_platform/ingenii_azure_data_platform/network.py:14-15 | two strictly ordered lists with the same elements are equal |
| Order.SortedKeys | src/python/ingenii_azure_data_platform/ingenii_azure_data_platform/logs.py:53 | `sorted` of a dictionary lists each key once, strictly increasing |
| Order.SortedKeysOfListing | src/python/ingenii_azure_data_platform/ingenii_azure_data_platform/logs.py:53 | sorting any duplicate-free listing of the keys gives the sorted keys, so the dictionary's own order does not matter |
| Firewall.Create | src/python/ingenii_azure_data_platform/ingenii_azure_data_platform/network.py:4-18 | the constructor keeps the flags, defaults the action to Deny, and stores the IP and VNet lists deduplicated and sorted and the resource list sorted with its duplicates |
| Firewall.DefaultFirewall | src/python/ingenii_azure_data_platform/ingenii_azure_data_platform/network.py:4-18 | a firewall built with no arguments is disabled, has empty lists, denies by default and does not trust Azure services |
| Firewall.Add | src/python/ingenii_azure_data_platform/ingenii_azure_data_platform/network.py:32-54 | the sum takes the flags and default action of the right operand; an enabled left operand unions the lists, a disabled one contributes nothing |
| Firewall.SetOrderIrrelevant | src/python/ingenii_azure_data_platform/ingenii_azure_data_platform/network.py:34-39 | whatever order set() lists its elements in, the constructor's sorting gives the same list |
| Firewall.AddDisabledIdentity | src/python/ingenii_azure_data_platform/ingenii_azure_data_platform/network.py:42-54 | adding a disabled firewall to a constructed one gives that one back |
| Firewall.AddSelf | src/python/ingenii_azure_data_platform/ingenii_azure_data_platform/network.py:32-54 | an enabled firewall without resource duplicates added to itself is unchanged |
| Firewall.BypassServices | src/python/ingenii_azure_data_platform/ingenii_azure_data_platform/network.py:76-80 | the bypass is AzureServices exactly when Azure services are trusted, and absent otherwise |
| Config.LowercaseKeys | src/python/ingenii_azure_data_platform/ingenii_azure_data_platform/config.py:72 | the lower-cased table has exactly the lower-cased region names as keys |
| Config.LowercaseKeysLast | src/python/ingenii_azure_data_platform/ingenii_azure_data_platform/config.py:72 | the short name stored under a lower-cased key is that of the last table entry with that key |
| Config.FirstKey | src/python/ingenii_azure_data_platform/ingenii_azure_data_platform/config.py:84-88 | the canonical name found lower-cases to the wanted name, and none is found exactly when no table entry lower-cases to it |
| Config.CloudRegion | src/python/ingenii_azure_data_platform/ingenii_azure_data_platform/config.py:74-78 | a region is accepted exactly when its lower-cased name is in the table, and is kept lower-cased; otherwise the error names the lower-cased name |
| Config.CloudRegionIgnoresCase | src/python/ingenii_azure_data_platform/ingenii_azure_data_platform/config.py:75 | two names that agree after lower-casing give the same region or the same error |
| Config.ShortName | src/python/ingenii_azure_data_platform/ingenii_azure_data_platform/config.py:80-82 | the short name is the table value of an entry whose name lower-cases to the region's |
| Config.LongName | src/python/ingenii_azure_data_platform/ingenii_azure_data_platform/config.py:84-88 | a known region has a canonical name, and it lower-cases to the region's name |
| Config.LongNameRoundTrip | src/python/ingenii_azure_data_platform/ingenii_azure_data_platform/config.py:74-88 | constructing a region from its canonical name gives the same region back |
| Config.StackShortName | src/python/ingenii_azure_data_platform/ingenii_azure_data_platform/config.py:140-144 | test, prod and shared shorten to tst, prd and shr; any other stack is kept, lower-cased |
| Config.StackShortNameIdempotent | src/python/ingenii_azure_data_platform/ingenii_azure_data_platform/config.py:140-144 | the short name is lower-case, and shortening it again changes nothing |
| Config.ReportedStackShortName | src/python/ingenii_azure_data_platform/ingenii_azure_data_platform/config.py:225-232 | legacy naming reports the full lower-cased stack, the current convention the short name |
| Config.MergeFiles | src/python/ingenii_azure_data_platform/ingenii_azure_data_platform/config.py:150-161 | the merge starts with the default file, adds the stack's default only if it exists and is not already listed, and adds the custom file last when one is given |
| Config.NoStackFileWithoutDefaultsName | src/python/ingenii_azure_data_platform/ingenii_azure_data_platform/config.py:153-157 | a default path without defaults.yml in it never brings in a stack file |
| Config.Environments | src/python/ingenii_azure_data_platform/ingenii_azure_data_platform/config.py:185-186 | the shared stack without configured environments gets dev, test and prod; configured environments and other stacks are left alone |
| Config.SetItem | src/python/ingenii_azure_data_platform/ingenii_azure_data_platform/config.py:261-262 | writing to the configuration always fails |
| Config.ResourceProtection | src/python/ingenii_azure_data_platform/ingenii_azure_data_platform/config.py:204 | protection is on when the variable is unset; a set value must parse as an integer, and protection is on exactly when that integer is not zero |
| Config.ResourceProtectionSwitch | src/python/ingenii_azure_data_platform/ingenii_azure_data_platform/config.py:204 | the variable at 0 switches protection off and at 1 keeps it on |
| Config.ResourceProtectionPythonSyntax | src/python/ingenii_azure_data_platform/ingenii_azure_data_platform/config.py:204 | the value is read as Python's `int()` reads it: ` 0` switches protection off, `1_0` keeps it on, and `1__0` is an invalid integer |
| Config.Lift | src/python/ingenii_azure_data_platform/ingenii_azure_data_platform/config.py:278-283 | an unknown value stays unknown, a dictionary gives the key's value or {} when it is missing, and anything else fails as .get would |
| Config.SharedGet | src/python/ingenii_azure_data_platform/ingenii_azure_data_platform/config.py:272-291 | a failing lookup fails; outside a dry run the result is the lookup itself; during a dry run a final {} becomes the preview value and any other value found is kept |
| Config.SharedGetPresent | src/python/ingenii_azure_data_platform/ingenii_azure_data_platform/config.py:272-291 | where every key is present the value strict indexing finds is returned, except that during a dry run a final {} becomes the preview value |
| Config.FollowPresent | src/python/ingenii_azure_data_platform/ingenii_azure_data_platform/config.py:285-289 | where every key is present the lookup finds what strict nested indexing finds |
| Config.FollowEmpty | src/python/ingenii_azure_data_platform/ingenii_azure_data_platform/config.py:283-289 | once at {} the lookup stays at {} through any further keys |
| Config.FollowUnknown | src/python/ingenii_azure_data_platform/ingenii_azure_data_platform/config.py:280-281 | a lookup that starts unknown stays unknown |
| Config.FollowMissing | src/python/ingenii_azure_data_platform/ingenii_azure_data_platform/config.py:283-289 | a key missing at some depth makes the lookup {} whatever keys follow |
| Config.SharedGetMissing | src/python/ingenii_azure_data_platform/ingenii_azure_data_platform/config.py:272-291 | a key missing at some depth gives {} outside a dry run and the preview value during one |
| Kubernetes.EnabledOf | src/python/ingenii_azure_data_platform/ingenii_azure_data_platform/kubernetes.py:16 | reading a service's enabled flag succeeds exactly when its config is a dictionary holding the key, and gives that value's truthiness |
| Kubernetes.AnyEnabled | src/python/ingenii_azure_data_platform/ingenii_azure_data_platform/kubernetes.py:16 | true only if some service is enabled, false only if every service's flag reads as false |
| Kubernetes.AnyWindows | src/python/ingenii_azure_data_platform/ingenii_azure_data_platform/kubernetes.py:17-20 | true only if some enabled service runs on Windows, false only if every flag reads and no enabled service runs on Windows |
| Kubernetes.GetClusterConfig | src/python/ingenii_azure_data_platform/ingenii_azure_data_platform/kubernetes.py:8-22 | the configs are the data factory runtime's and JupyterLab's settings under their service names |
| Kubernetes.ServicesScans | src/python/ingenii_azure_data_platform/ingenii_azure_data_platform/kubernetes.py:10-20 | the scans stop at the data factory runtime when it is enabled or unreadable, and look at JupyterLab only otherwise |
| Kubernetes.ClusterConfigFlags | src/python/ingenii_azure_data_platform/ingenii_azure_data_platform/kubernetes.py:15-20 | the cluster is enabled exactly when either service is, needs Windows exactly when the data factory runtime is enabled, and needs Windows only when enabled |
| Kubernetes.ClusterConfigFailure | src/python/ingenii_azure_data_platform/ingenii_azure_data_platform/kubernetes.py:16-20 | the lookup raises exactly when the data factory runtime's flag is missing, or that flag is off and JupyterLab's is missing |
| Logs.Get | src/python/ingenii_azure_data_platform/ingenii_azure_data_platform/logs.py:21-22 | a dictionary lookup with a default succeeds exactly on dictionaries and gives the stored value or the default |
| Logs.CategoryNames | src/python/ingenii_azure_data_platform/ingenii_azure_data_platform/logs.py:34-54 | configured categories are read as `sorted` iterates them: a list of strings gives those strings in order, a string gives one category per character, a dictionary gives its keys, each once; any other value fails |
| Logs.Enable | src/python/ingenii_azure_data_platform/ingenii_azure_data_platform/logs.py:44-54 | every category becomes an enabled entry with a zero-day retention policy that is switched off, one entry per category in order |
| Logs.CategoriesOf | src/python/ingenii_azure_data_platform/ingenii_azure_data_platform/logs.py:44-54 | reading the categories back gives one name per entry, in order |
| Logs.CategoriesOfEnable | src/python/ingenii_azure_data_platform/ingenii_azure_data_platform/logs.py:44-54 | turning categories into entries and reading them back gives the same list |
| Logs.Entries | src/python/ingenii_azure_data_platform/ingenii_azure_data_platform/logs.py:31-72 | a kind that is switched off gets no entries; a kind that is on gets entries that are enabled, carry retention off, and are sorted; with no categories configured it lists exactly the categories the resource offers |
| Logs.ConfiguredEntries | src/python/ingenii_azure_data_platform/ingenii_azure_data_platform/logs.py:33-35 | with categories configured, the entries list exactly those categories in sorted order |
| Logs.DictionaryCategories | src/python/ingenii_azure_data_platform/ingenii_azure_data_platform/logs.py:33-54 | a dictionary of categories gives one entry per key, in sorted key order |
| Logs.StringCategories | src/python/ingenii_azure_data_platform/ingenii_azure_data_platform/logs.py:33-54 | a string of categories gives one entry per character, sorted |
| Logs.Setting | src/python/ingenii_azure_data_platform/ingenii_azure_data_platform/logs.py:74-83 | the setting is named after the resource with a "-diagnostic-setting" suffix, targets the resource and the workspace |
| Logs.SettingNameAndFetch | src/python/ingenii_azure_data_platform/ingenii_azure_data_platform/logs.py:16-40 | the setting's display name says "Configured" for each kind whose categories were given and "All" otherwise, and categories are fetched exactly when either kind lacks them |
| Logs.AllCategories | src/python/ingenii_azure_data_platform/ingenii_azure_data_platform/logs.py:15-30 | with neither config given, the categories are fetched, the setting is called "All Logs, All Metrics", and it lists every offered log and metric category in sorted order |
| Logs.EntriesOfEmpty | src/python/ingenii_azure_data_platform/ingenii_azure_data_platform/logs.py:16-54 | an absent config lists every offered category, sorted and enabled |
| Logs.LogDiagnosticSettings | src/python/ingenii_azure_data_platform/ingenii_azure_data_platform/logs.py:99-121 | the call fails exactly when a switch is read from a non-dictionary or the setting cannot be built; it creates a setting exactly when it gets past both switches, and that setting is the one built for the resource |
| Logs.ResourceTypeOff | src/python/ingenii_azure_data_platform/ingenii_azure_data_platform/logs.py:96-106 | a switched-off resource type with neither kind explicitly enabled creates nothing |
| Logs.BothOff | src/python/ingenii_azure_data_platform/ingenii_azure_data_platform/logs.py:108-110 | logs and metrics both switched off creates nothing |
| Logs.InterfaceNamesDistinct | src/python/ingenii_azure_data_platform/ingenii_azure_data_platform/logs.py:139 | different interface positions get different resource names |
| Logs.InterfaceSettings | src/python/ingenii_azure_data_platform/ingenii_azure_data_platform/logs.py:132-145 | one result per network interface from the given position on |
| Logs.InterfaceSettingsAt | src/python/ingenii_azure_data_platform/ingenii_azure_data_platform/logs.py:132-145 | the result for each interface is the diagnostic setting call for that interface's id under its positional name |
| Logs.LogNetworkInterfaces | src/python/ingenii_azure_data_platform/ingenii_azure_data_platform/logs.py:124-145 | one result per network interface |
| Logs.LogNetworkInterfacesAt | src/python/ingenii_azure_data_platform/ingenii_azure_data_platform/logs.py:133-143 | the result at position k is the diagnostic setting call for interface k, with the network interface resource type and the name "{resource}-network_interface-{k}" |
| Logs.InterfaceSettingNames | src/python/ingenii_azure_data_platform/ingenii_azure_data_platform/logs.py:75-139 | a created interface setting is named "{resource}-network_interface-{k}-diagnostic-setting" |
| PrivateEndpoints.Get | src/python/ingenii_azure_data_platform/ingenii_azure_data_platform/private_endpoints.py:21-26 | a lookup with a default succeeds exactly on dictionaries and gives the stored value or the default |
| PrivateEndpoints.Filter | src/python/ingenii_azure_data_platform/ingenii_azure_data_platform/private_endpoints.py:29 | filtering succeeds when the allowed value supports membership (or nothing is filtered); it keeps exactly the requested group ids the allowed value admits and never adds any |
| PrivateEndpoints.FilterAppend | src/python/ingenii_azure_data_platform/ingenii_azure_data_platform/private_endpoints.py:29 | filtering distributes over concatenating the requested ids, so the kept ids stay in their requested order |
| PrivateEndpoints.FilterAllAdmitted | src/python/ingenii_azure_data_platform/ingenii_azure_data_platform/private_endpoints.py:29 | when every requested id is admitted, filtering keeps the list unchanged |
| PrivateEndpoints.AllowedGroupIds | src/python/ingenii_azure_data_platform/ingenii_azure_data_platform/private_endpoints.py:26-29 | without a non-empty allowed list the requested ids pass through; with one they are filtered by it |
| PrivateEndpoints.CreatePrivateEndpoint | src/python/ingenii_azure_data_platform/ingenii_azure_data_platform/private_endpoints.py:21-104 | nothing is created when endpoints are off or filtering leaves no ids; an endpoint is named by the private endpoint naming rule, sits in the given location or the region's, links to the resource, keeps some group id when any was requested, and is locked under resource protection; a DNS zone group exists exactly when a zone id is given, is named by the private DNS zone naming rule, points at the endpoint and the zone, and is locked likewise |
| PrivateEndpoints.DisabledCreatesNothing | src/python/ingenii_azure_data_platform/ingenii_azure_data_platform/private_endpoints.py:21-24 | endpoints switched off for the environment create neither resource |
| PrivateEndpoints.FilteredOutCreatesNothing | src/python/ingenii_azure_data_platform/ingenii_azure_data_platform/private_endpoints.py:26-32 | an allowed list that admits none of the requested ids creates neither resource |
| PrivateEndpoints.ConnectedGroupIds | src/python/ingenii_azure_data_platform/ingenii_azure_data_platform/private_endpoints.py:26-50 | the endpoint connects exactly the requested ids without an allowed list, and the non-empty filtered ids with one |
| ConfigRegistry.ParseResourceId | src/python/ingenii_azure_data_platform/ingenii_azure_data_platform/clients/config_registry.py:72-76 | an id parses exactly when it has at least eight non-empty segments, giving the vault name from the eighth and the resource group from the fourth; shorter ids raise an index error |
| ConfigRegistry.ParseResourceIdOfParts | src/python/ingenii_azure_data_platform/ingenii_azure_data_platform/clients/config_registry.py:72-76 | parsing a resource id assembled from eight clean segments recovers its resource group and vault name |
| ConfigRegistry.Construct | src/python/ingenii_azure_data_platform/ingenii_azure_data_platform/clients/config_registry.py:92-103 | a string or a deferred output is parsed the same way; any other argument is a type error |
| ConfigRegistry.GetValue | src/python/ingenii_azure_data_platform/ingenii_azure_data_platform/clients/config_registry.py:122-137 | a secret the vault returns wins; a "does not exist" vault error falls back to the values set in this deployment, raising a key error naming the key when absent; any other error is raised again |
| ConfigRegistry.SetValue | src/python/ingenii_azure_data_platform/ingenii_azure_data_platform/clients/config_registry.py:152-161 | the value is recorded under its key whether or not the secret is declared, and the secret is "config-registry-{key}" in the parsed vault and resource group |
| ConfigRegistry.GetAfterSet | src/python/ingenii_azure_data_platform/ingenii_azure_data_platform/clients/config_registry.py:127-161 | a value set is read back while the vault does not have the secret yet |
| ConfigRegistry.GetOtherAfterSet | src/python/ingenii_azure_data_platform/ingenii_azure_data_platform/clients/config_registry.py:127-161 | setting one key does not change what any other key reads |
| ConfigRegistry.OtherErrorsRaised | src/python/ingenii_azure_data_platform/ingenii_azure_data_platform/clients/config_registry.py:127-137 | a vault error other than a missing secret is raised whatever values are stored |
| Storage.ContainerRegistryIdRoundTrip | src/python/ingenii_azure_data_platform/ingenii_azure_data_platform/storage.py:1-4 | a container registry's resource id, built from clean parts, parses back into its resource group and registry name |
| DevopsDeployment.IdentityNameShape | src/pulumi/core-shared/automation/devops_deployment.py:26-29 | an identity's name is the platform prefix, the deployment identity kind and the environment joined by dashes |
| DevopsDeployment.IdentityNameInjective | src/pulumi/core-shared/automation/devops_deployment.py:26-29 | different environments get different identity names |
| DevopsDeployment.IdentityIdShape | src/pulumi/core-shared/automation/devops_deployment.py:32-42 | an identity's id is the security resource group's user-assigned-identity path followed by the identity's name |
| DevopsDeployment.IdentityIdInjective | src/pulumi/core-shared/automation/devops_deployment.py:32-42 | different environments get different identity ids |
| DevopsDeployment.IdentityIdSegments | src/pulumi/core-shared/automation/devops_deployment.py:32-42 | the joined id is the standard eight-segment resource id under the managed identity provider |
| DevopsDeployment.ProviderSegments | src/pulumi/core-shared/automation/devops_deployment.py:39 | the provider part of the id is three segments |
| DevopsDeployment.IdentityIdRoundTrip | src/pulumi/core-shared/automation/devops_deployment.py:32-42 | an identity id parses back into the resource group and the identity's name when the parts hold no slash |
| DevopsDeployment.Distinct | src/pulumi/core-shared/automation/devops_deployment.py:48-57 | building a dictionary from the environments keeps each environment once and no others |
| DevopsDeployment.Identities | src/pulumi/core-shared/automation/devops_deployment.py:48-57 | there is one identity per configured environment, keyed by it and named for it |
| DevopsDeployment.Variables | src/pulumi/core-shared/automation/devops_deployment.py:190-196 | the managed-identity variable group publishes one variable per distinct environment, in order, named after the upper-cased environment |
| DevopsDeployment.ScaleSetIdentities | src/pulumi/core-shared/automation/devops_deployment.py:156-161 | the scale set is attached to the id of every environment's identity and to nothing else |
| DevopsDeployment.ScaleSetIdentityCount | src/pulumi/core-shared/automation/devops_deployment.py:158-161 | the scale set carries exactly as many identities as there are distinct environments |
| DevopsDeployment.ImageCount | src/pulumi/core-shared/automation/devops_deployment.py:158-161 | an injective naming of a duplicate-free list gives as many names as entries |
| Iam.QueryByName | src/python/ingenii_azure_data_platform/ingenii_azure_data_platform/iam.py:30-35 | a role found by name is a role of the directory with that name; none is found only when no role has it |
| Iam.QueryById | src/python/ingenii_azure_data_platform/ingenii_azure_data_platform/iam.py:51-55 | a role found by id is a role of the directory with that id; none is found only when no role has it |
| Iam.RoleIdByName | src/python/ingenii_azure_data_platform/ingenii_azure_data_platform/iam.py:26-45 | a cached name is answered from the cache without a query; otherwise the directory is queried, a miss raises "role '{name}' not found at scope '{scope}'" and leaves the cache alone, and a hit returns a matching role's id and caches name to id and id to name |
| Iam.RoleNameById | src/python/ingenii_azure_data_platform/ingenii_azure_data_platform/iam.py:47-65 | a cached id is answered from the cache without a query; otherwise the directory is queried, a miss raises "role id '{id}' not found at scope '{scope}'", and a hit returns the role's name and caches both directions |
| Iam.LookupsKeepSound | src/python/ingenii_azure_data_platform/ingenii_azure_data_platform/iam.py:26-65 | every entry either lookup adds maps a role's name to its id or its id to its name |
| Iam.CacheTransparent | src/python/ingenii_azure_data_platform/ingenii_azure_data_platform/iam.py:26-65 | over a directory where names and ids are unique and never clash, a sound cache never changes the answer of a lookup |
| Iam.IndexOf | src/python/ingenii_azure_data_platform/ingenii_azure_data_platform/iam.py:30-35 | a role of the directory has a position in it |
| Iam.LookupCachesBothWays | src/python/ingenii_azure_data_platform/ingenii_azure_data_platform/iam.py:42-45 | after a name is looked up, both the name and the id it gave are answered from the cache |
| Iam.PrincipalType | src/python/ingenii_azure_data_platform/ingenii_azure_data_platform/iam.py:140-221 | user assignments pass "User", group assignments "Group", and service-principal and user-assigned-identity assignments both pass "ServicePrincipal" |
| Iam.AssignmentNameClean | src/python/ingenii_azure_data_platform/ingenii_azure_data_platform/iam.py:94-108 | an assignment's resource name holds no space and no upper-case letter |
| Iam.ReplaceRemovesChar | src/python/ingenii_azure_data_platform/ingenii_azure_data_platform/iam.py:107 | replacing a character by text without it removes every occurrence |
| Iam.ReplaceKeepsLower | src/python/ingenii_azure_data_platform/ingenii_azure_data_platform/iam.py:106-107 | replacing with lower-case text keeps lower-case text lower-case |
| Iam.CreateRoleAssignment | src/python/ingenii_azure_data_platform/ingenii_azure_data_platform/iam.py:88-119 | with neither a role name nor a role id the assignment is refused; it keeps the principal and the scope; a given role name goes into the resource name; a non-empty role id is used as the definition id, and otherwise the id is looked up by the role name, failing when the lookup fails |
| Iam.AssignRole | src/python/ingenii_azure_data_platform/ingenii_azure_data_platform/iam.py:122-227 | each assignment class fixes the principal type, and only user and group assignments use other than "ServicePrincipal" |
| Iam.AssignmentByIdNamesRole | src/python/ingenii_azure_data_platform/ingenii_azure_data_platform/iam.py:91-114 | given only a role id, the resource name uses the role name that id looks up and the definition id is the given id |
| Databricks.GetConfig | src/python/ingenii_azure_data_platform/ingenii_azure_data_platform/databricks.py:35-40 | a setting comes from the cluster's configuration, else from the defaults, else the given default |
| Databricks.LibraryList | src/python/ingenii_azure_data_platform/ingenii_azure_data_platform/databricks.py:23-29 | a configuration without libraries contributes no libraries |
| Databricks.PypiLibraries | src/python/ingenii_azure_data_platform/ingenii_azure_data_platform/databricks.py:16-24 | PyPI entries are accepted exactly when each is a dictionary, giving one library per entry with its package and repository |
| Databricks.ClusterLibraries | src/python/ingenii_azure_data_platform/ingenii_azure_data_platform/databricks.py:16-51 | the libraries are the cluster's PyPI entries followed by the defaults', plus exactly the whl entries of both as a set, and the setting is empty when there are none |
| Databricks.MergedConf | src/python/ingenii_azure_data_platform/ingenii_azure_data_platform/databricks.py:54-61 | a merged spark map has the keys of both maps, the cluster's value wins and the default fills the rest; it fails when either side is not a dictionary |
| Databricks.SparkConfPrecedence | src/python/ingenii_azure_data_platform/ingenii_azure_data_platform/databricks.py:54-61 | for any key, the merged spark map holds it when either side does, with the cluster's value taking precedence |
| Databricks.BaseSettings | src/python/ingenii_azure_data_platform/ingenii_azure_data_platform/databricks.py:42-64 | the settings have the literal's keys and the extra settings', and every extra setting overrides the literal |
| Databricks.Literal | src/python/ingenii_azure_data_platform/ingenii_azure_data_platform/databricks.py:42-62 | the dictionary literal sets exactly its ten keys, from auto-termination to the spark version |
| Databricks.BaseSettingsValues | src/python/ingenii_azure_data_platform/ingenii_azure_data_platform/databricks.py:43-44 | unless overridden, the cluster name is the given name when non-empty and the display name otherwise, and auto-termination defaults to 15 minutes |
| Databricks.BaseSettingsFixed | src/python/ingenii_azure_data_platform/ingenii_azure_data_platform/databricks.py:45-50 | unless overridden, the cluster is pinned when asked or when configured (default pinned), and logs go to dbfs:/mnt/cluster_logs |
| Databricks.BaseSettingsMerged | src/python/ingenii_azure_data_platform/ingenii_azure_data_platform/databricks.py:51-61 | unless overridden, the libraries and both spark maps are the merged ones |
| Databricks.LiteralMerged | src/python/ingenii_azure_data_platform/ingenii_azure_data_platform/databricks.py:51-61 | the literal carries the libraries and spark maps it is given |
| Databricks.WorkerSettings | src/python/ingenii_azure_data_platform/ingenii_azure_data_platform/databricks.py:66-86 | a cluster with both autoscale bounds set autoscales between them and otherwise gets the worker count; spot instances give spot-with-fallback availability with the configured or default first-on-demand (1) and bid (100), otherwise on-demand at bid 100; a spot setting that is not a dictionary fails |
| Databricks.PoolSettings | src/python/ingenii_azure_data_platform/ingenii_azure_data_platform/databricks.py:92-104 | without a pool reference nothing changes; a reference must name a known pool, sets the pool id and removes any node type, and touches nothing else |
| Databricks.PoolDropsNodeType | src/python/ingenii_azure_data_platform/ingenii_azure_data_platform/databricks.py:92-97 | a pool reference removes a node type that was set |
| Databricks.Rules | src/python/ingenii_azure_data_platform/ingenii_azure_data_platform/databricks.py:66-104 | the type-specific rules change only the worker, availability, image, pool and node type settings |
| Databricks.KeepsTransitive | src/python/ingenii_azure_data_platform/ingenii_azure_data_platform/databricks.py:66-104 | rules applied in sequence change only the union of the keys each touches |
| Databricks.Sized | src/python/ingenii_azure_data_platform/ingenii_azure_data_platform/databricks.py:66 | a single-node cluster skips the worker rules; any other applies them |
| Databricks.Imaged | src/python/ingenii_azure_data_platform/ingenii_azure_data_platform/databricks.py:88-91 | a configured docker image URL sets the image and nothing else |
| Databricks.ClusterName | src/python/ingenii_azure_data_platform/ingenii_azure_data_platform/databricks.py:107-111 | the cluster resource is named by the platform prefix, stack, region, the abbreviation "dbwc" and the lower-cased resource name |
| Databricks.ClusterAbbreviation | src/python/ingenii_azure_data_platform/ingenii_azure_data_platform/databricks.py:108 | the cluster resource type abbreviates to "dbwc" |
| Databricks.CreateCluster | src/python/ingenii_azure_data_platform/ingenii_azure_data_platform/databricks.py:106-116 | the cluster is created exactly when the settings and the rules succeed and no extra setting is called "opts"; it carries the generated name and the settings after the rules |
| Databricks.OptsKept | src/python/ingenii_azure_data_platform/ingenii_azure_data_platform/databricks.py:106-116 | "opts" is among the settings exactly when it is an extra setting |
| Databricks.SingleNodeHasNoWorkers | src/python/ingenii_azure_data_platform/ingenii_azure_data_platform/databricks.py:66 | a single-node cluster gets worker settings only from the extra settings |
| Databricks.WorkersOfMultiNode | src/python/ingenii_azure_data_platform/ingenii_azure_data_platform/databricks.py:66-86 | every cluster that is not single-node is sized, by autoscale or a worker count, and has Azure attributes |
| Databricks.RulesAfterSizing | src/python/ingenii_azure_data_platform/ingenii_azure_data_platform/databricks.py:88-104 | after the worker rules only the image, the pools and the node type change |
| Databricks.PoolsDropNodeType | src/python/ingenii_azure_data_platform/ingenii_azure_data_platform/databricks.py:92-104 | with either pool reference no node type is left set |
| Extensions.TakenMessage | src/pulumi/core-extensions/__main__.py:23-25 | the duplicate-namespace message quotes the namespace |
| Extensions.RegisterNamespace | src/pulumi/core-extensions/__main__.py:18-25 | registering succeeds exactly when the namespace is new, appending it at the end; a taken namespace raises the duplicate error for it |
| Extensions.RegisterKeepsDistinct | src/pulumi/core-extensions/__main__.py:18-21 | registration keeps the namespace list free of duplicates |
| Extensions.CaseSensitive | src/pulumi/core-extensions/__main__.py:19 | namespaces compare exactly, so "Sales" may follow "sales" |
| Extensions.Namespaces | src/pulumi/core-extensions/__main__.py:35 | one namespace per initialised package, in order |
| Extensions.NamespacesCons | src/pulumi/core-extensions/__main__.py:32-35 | the namespaces of a longer list start with the first package's |
| Extensions.Register | src/pulumi/core-extensions/__main__.py:32-45 | the namespaces taken are those before the loop, then the initialised packages', then the name of a package whose import failed; the loop initialises every package or stops early with the error of a package that is not a dictionary, whose namespace is taken, or whose name cannot be imported |
| Extensions.RegisterInits | src/pulumi/core-extensions/__main__.py:33-45 | the initialised packages are the first ones in order, each with its own name as namespace and its own configuration |
| Extensions.RegisterStops | src/pulumi/core-extensions/__main__.py:32-36 | the loop stops at the first package that is not a dictionary, whose name is already taken, or whose name cannot be imported |
| Extensions.RegisterDistinct | src/pulumi/core-extensions/__main__.py:32-35 | the namespaces taken after the loop are distinct when those before were |
| Extensions.Names | src/pulumi/core-extensions/__main__.py:33 | the package names exist exactly when every entry is a dictionary, one name per entry |
| Extensions.RegisterSucceeds | src/pulumi/core-extensions/__main__.py:32-45 | every package is initialised exactly when every entry is a dictionary, every name can be imported, and the names, together with those already taken, never repeat |
| Extensions.NamelessPackage | src/pulumi/core-extensions/__main__.py:33-36 | a package without a name registers `None` as its namespace and then fails at the import |
| Extensions.Unimported | src/pulumi/core-extensions/__main__.py:35-36 | a failed import leaves exactly one name registered, the failing package's |
| Extensions.Packages | src/pulumi/core-extensions/__main__.py:30-32 | absent packages mean none; a list's entries are the packages; a non-empty dictionary or string fails at the first entry's lookup, and a scalar is not iterable |
| Extensions.LoadPackages | src/pulumi/core-extensions/__main__.py:28-45 | the script registers the configured packages from an empty namespace list, or stops with the error of reading them |
| UiOutputs.Index | src/scripts/export_outputs_for_ui.py:97-109 | indexing succeeds exactly on a dictionary holding the key, giving its value |
| UiOutputs.Get | src/scripts/export_outputs_for_ui.py:110-127 | a lookup with a default succeeds exactly on dictionaries, giving the stored value or the default |
| UiOutputs.NestedUrl | src/scripts/export_outputs_for_ui.py:114-118 | an absent workspace or factory section gives no URL rather than an error |
| UiOutputs.PathStep | src/scripts/export_outputs_for_ui.py:94-109 | a path lookup descends one key at a time |
| UiOutputs.DtapSections | src/scripts/export_outputs_for_ui.py:105-110 | the credentials store is read from the security outputs, and a missing JupyterLab section counts as empty |
| UiOutputs.DtapFieldsOf | src/scripts/export_outputs_for_ui.py:112-122 | a dev, test or prod payload has exactly its seven fields, the credentials store name is the key vault's name, and a missing JupyterLab URL is an empty dictionary |
| UiOutputs.DtapPayload | src/scripts/export_outputs_for_ui.py:104-122 | a dev, test or prod payload has exactly its seven fields, names the key vault of the credentials store, and gives an empty JupyterLab URL when the analytics outputs have no JupyterLab section |
| UiOutputs.SharedPayload | src/scripts/export_outputs_for_ui.py:123-128 | the shared payload has only the DevOps project URL, which is absent when there are no DevOps outputs |
| UiOutputs.ParsePlatformOutputs | src/scripts/export_outputs_for_ui.py:92-130 | the organisation and project ids come from the root metadata; dev, test and prod get the seven-field payload under their name, shared gets the DevOps URL under its name, and any other environment an empty payload |
| UiOutputs.OtherEnvironmentNeedsOnlyMetadata | src/scripts/export_outputs_for_ui.py:96-123 | an environment outside dev, test, prod and shared parses whenever the metadata ids are present |
| UiOutputs.Str | src/scripts/export_outputs_for_ui.py:136-137 | the row keys are the text of the ids: strings as they are, integers in decimal |
| UiOutputs.Merge | src/scripts/export_outputs_for_ui.py:152 | the merged payload has the keys of both, the new value winning |
| UiOutputs.SavePlatformOutputs | src/scripts/export_outputs_for_ui.py:133-165 | the row is keyed by organisation and project; without a stored row or payload the new payload is written as it is, with one it is merged over the stored one, and a stored payload that is not a dictionary fails |
| UiOutputs.SaveKeepsOtherEnvironments | src/scripts/export_outputs_for_ui.py:148-152 | saving one environment keeps every other environment already stored |
| UiOutputs.SaveIdempotent | src/scripts/export_outputs_for_ui.py:133-165 | saving the same outputs again over what was written changes nothing |
| Migration.Change | scripts/databricks_020_to_040.py:9-10 | after the change no old module prefix is left, and text without one is unchanged |
| Migration.ChangeIdempotent | scripts/databricks_020_to_040.py:9-10 | changing twice is changing once |
| Migration.ChangeRemovesAll | scripts/databricks_020_to_040.py:9-10 | replacing every old prefix never leaves or creates another old prefix |
| Migration.ChangeRenamesModule | scripts/databricks_020_to_040.py:9-10 | an old-module type token whose name holds no slash moves to the index module with its name kept |
| Migration.ShortNotContains | scripts/databricks_020_to_040.py:9-10 | text shorter than a pattern does not contain it |
| Migration.NewNotOld | scripts/databricks_020_to_040.py:9-10 | no suffix of the new prefix, followed by anything, starts with the old prefix |
| Migration.NewNotOldTail | scripts/databricks_020_to_040.py:9-10 | the new prefix followed by anything does not start with a proper tail of the old prefix |
| Migration.NotContainsAfterNew | scripts/databricks_020_to_040.py:9-10 | putting a suffix of the new prefix in front of text free of the old prefix keeps it free |
| Migration.ChangePrefix | scripts/databricks_020_to_040.py:9-10 | after replacement, text can start with a tail of the old prefix only if it did before |
| Migration.OldPrefixD | scripts/databricks_020_to_040.py:9 | the positions of 'd' in the old prefix |
| Migration.NewPrefixD | scripts/databricks_020_to_040.py:9 | the positions of 'd' in the new prefix |
| Migration.Strs | scripts/databricks_020_to_040.py:12-13 | a value can be iterated as strings exactly when it is a list of strings, a string or a dictionary: a list gives its items in order, a string each of its characters, a dictionary each of its keys once |
| Migration.MapStrings | scripts/databricks_020_to_040.py:12-21 | the comprehension succeeds exactly when the value can be iterated as strings, and gives a list of each visited string rewritten, in order |
| Migration.ChangeList | scripts/databricks_020_to_040.py:12-13 | rewriting a value changes each string it iterates over, keeping their number and order; it fails exactly on a value that is not iterable or a list holding a non-string |
| Migration.ChangeListOfString | scripts/databricks_020_to_040.py:12-13 | a string is rewritten as the list of its characters |
| Migration.ChangeListOfDictionary | scripts/databricks_020_to_040.py:12-13 | a dictionary is rewritten as a list of its changed keys: every key appears, and nothing else |
| Migration.ChangeListIdempotent | scripts/databricks_020_to_040.py:12-13 | a rewritten list holds no old prefix, and rewriting it again changes nothing |
| Migration.ChangeDependency | scripts/databricks_020_to_040.py:17-21 | a dependency is changed, then the old mount name is renamed; without an old mount name only the change applies |
| Migration.Field | scripts/databricks_020_to_040.py:23-39 | indexing succeeds exactly when the key is present |
| Migration.RewriteDependencies | scripts/databricks_020_to_040.py:16-21 | a resource without dependencies is unchanged; with them, each string the dependencies iterate over is rewritten in order into a list, and nothing else changes; it fails exactly when they cannot be iterated as strings |
| Migration.SecretTestOfSecret | scripts/databricks_020_to_040.py:31 | the secret test selects the secret resource and not the mount one |
| Migration.MountTestOfMount | scripts/databricks_020_to_040.py:34 | the mount test selects the mount resource and not the secret one |
| Migration.ClusterIsNoSecret | scripts/databricks_020_to_040.py:31 | a cluster is not taken for a secret |
| Migration.ClusterIsNoMount | scripts/databricks_020_to_040.py:34 | a cluster is not taken for a mount |
| Migration.TestsOfFragments | scripts/databricks_020_to_040.py:31-34 | the parenthesised string makes the tests substring tests, so an empty type or a fragment such as "Mount" passes them |
| Migration.RewriteEntry | scripts/databricks_020_to_040.py:32-35 | a property dependency entry is rewritten into a list of its changed strings, failing exactly when the entry is missing or cannot be iterated as strings; the other entries are kept |
| Migration.RewriteMountEntries | scripts/databricks_020_to_040.py:35-37 | a mount's cluster id dependencies are rewritten, and its abfs dependencies when present; nothing else changes |
| Migration.RewriteProperties | scripts/databricks_020_to_040.py:31-37 | only the property dependencies change, and only for secrets and mounts |
| Migration.Retyped | scripts/databricks_020_to_040.py:27-40 | a resource that is not a mount gets the changed token |
| Migration.Stamp | scripts/databricks_020_to_040.py:27-29 | the new urn and type are set, the sequence number becomes 1, and nothing else changes |
| Migration.Retype | scripts/databricks_020_to_040.py:25-40 | a provider type must split into exactly two parts at "/"; the urn and type are rewritten, renaming mounts, the sequence number becomes 1, and fields the script does not name are kept |
| Migration.UpdateResource | scripts/databricks_020_to_040.py:15-42 | the dependencies are rewritten first; a type outside the provider is otherwise kept, and a provider type is retyped |
| Migration.StringDependencies | scripts/databricks_020_to_040.py:15-21 | a resource outside the provider whose dependencies are the string "ab" comes back with dependencies ["a", "b"] |
| Migration.ProviderResourceRetyped | scripts/databricks_020_to_040.py:23-29 | a provider resource is renumbered and, unless it is a mount, its type loses the old module prefix |
| Migration.OtherFieldsKept | scripts/databricks_020_to_040.py:15-42 | fields the script does not name are carried over unchanged |
| Migration.MapAll | scripts/databricks_020_to_040.py:49-52 | a comprehension whose step may raise succeeds exactly when every step does, giving each step's result in order |
| Migration.UpdateAll | scripts/databricks_020_to_040.py:49-52 | every resource is updated, in order, and the whole update fails when one does |
| Migration.Migrate | scripts/databricks_020_to_040.py:49-52 | only the deployment's resource list changes, to the updated resources |
| Migration.MigrateKeepsResources | scripts/databricks_020_to_040.py:49-52 | the migration keeps the number of resources |
| Migration.StackFileNameInjective | scripts/databricks_020_to_040.py:46 | different stacks are read from different files |
| Migration.RunAsWritten | scripts/databricks_020_to_040.py:44-55 | as written, the migrated stack is written to a file literally named "pulumi.stack.core.dtap.{stack}.json", and every other file is unchanged |
| Migration.AsWrittenLeavesStackFileStale | scripts/databricks_020_to_040.py:46-54 | as written, the stack file that was read is left as it was |
| Migration.StackFileNameDiffers | scripts/databricks_020_to_040.py:46-54 | the file read and the file written have different names |
| Migration.Run | scripts/databricks_020_to_040.py:44-55 | as intended, the stack file is replaced by its migration and no other file changes; a missing stack file fails |
| BlobToShare.FindEnvVar | images/blob_to_share/src/blob_to_share.go:18-24 | an environment variable is read exactly when it is set; otherwise the job stops with "Environment variable {name} not found!" |
| BlobToShare.ReadSettings | images/blob_to_share/src/blob_to_share.go:110-111 | the settings are read exactly when all four variables are set, and a missing account name is reported first |
| BlobToShare.Contains | images/blob_to_share/src/blob_to_share.go:26-33 | the search finds a name exactly when the list holds it |
| BlobToShare.FolderPrefixes | images/blob_to_share/src/blob_to_share.go:174-183 | a blob name with n path parts has n-1 folders on its path |
| BlobToShare.NoSlashNoFolders | images/blob_to_share/src/blob_to_share.go:176 | a blob at the top level needs no folder |
| BlobToShare.FolderPrefixStep | images/blob_to_share/src/blob_to_share.go:179-180 | each folder on a blob's path is the previous one with the next part appended |
| BlobToShare.FolderPrefixOfName | images/blob_to_share/src/blob_to_share.go:179-180 | every folder on a blob's path is a leading part of its name followed by "/" |
| BlobToShare.FolderPrefixesIncreasing | images/blob_to_share/src/blob_to_share.go:179-180 | the folders are created from the outermost inwards |
| BlobToShare.CheckAndCreateFolder | images/blob_to_share/src/blob_to_share.go:35-47 | a folder is created exactly when it does not exist yet, and exists afterwards |
| BlobToShare.CheckAndCreateFolderIdempotent | images/blob_to_share/src/blob_to_share.go:35-47 | checking a folder a second time creates nothing |
| BlobToShare.EnsureFolders | images/blob_to_share/src/blob_to_share.go:174-184 | afterwards every folder on the blob's path exists, and exactly the missing ones were created |
| BlobToShare.UploadBlob | images/blob_to_share/src/blob_to_share.go:173-208 | uploading a blob creates the folders on its path and writes its bytes at the blob's own name, overwriting any file there |
| BlobToShare.UrlPath | images/blob_to_share/src/blob_to_share.go:187 | the path `url.Parse` keeps is the name up to its first `#` or `?` |
| BlobToShare.AsWrittenTargetIsName | images/blob_to_share/src/blob_to_share.go:187 | the upload as written targets the blob's own name exactly when the name has no `%`, `#` or `?` |
| BlobToShare.PercentDecode | images/blob_to_share/src/blob_to_share.go:151 | decoding the path never lengthens it, shortens any path holding an escape, and leaves a path without `%` as it is |
| BlobToShare.Fragment | images/blob_to_share/src/blob_to_share.go:151 | the fragment is empty when the name has no `#`, and shorter than the name |
| BlobToShare.AsWrittenDownloadIsName | images/blob_to_share/src/blob_to_share.go:151-160 | the download as written reads the blob of the listed name exactly when that name has no `%`, `#` or `?` |
| BlobToShare.EscapeName | images/blob_to_share/src/blob_to_share.go:151 | an escaped name holds no `#` or `?` |
| BlobToShare.EscapeChar | images/blob_to_share/src/blob_to_share.go:151 | an escaped character holds no `#` or `?` |
| BlobToShare.EscapeCharDecodes | images/blob_to_share/src/blob_to_share.go:151 | decoding undoes the escape of one character |
| BlobToShare.EscapeNameDecodes | images/blob_to_share/src/blob_to_share.go:151 | an escaped name has valid escapes and decodes back to the name |
| BlobToShare.EscapedDownload | images/blob_to_share/src/blob_to_share.go:151-160 | with the name escaped, the download reads the blob of that very name |
| BlobToShare.CopyAsWritten | images/blob_to_share/src/blob_to_share.go:151-208 | a copy that goes through has created every folder of the listed name |
| BlobToShare.CopyAsWrittenOfPlainName | images/blob_to_share/src/blob_to_share.go:151-208 | for a stored blob whose name has no `%`, `#` or `?`, the copy as written writes the blob's bytes at its own name, as the corrected upload does |
| BlobToShare.AsWrittenLosesBlob | images/blob_to_share/src/blob_to_share.go:151-216 | as written, blob `a#b` reads blob `a`: the job stops when there is no blob `a`, and otherwise blob `a`'s bytes go to share file `a`, which the clean-up keeps, so `a#b` never reaches the share; blob `50%` stops the job at the download |
| BlobToShare.WrittenKeys | images/blob_to_share/src/blob_to_share.go:143-210 | after the uploads the share holds its earlier files and one file per blob name |
| BlobToShare.WrittenOther | images/blob_to_share/src/blob_to_share.go:143-210 | a share file that no blob names keeps its contents through the uploads |
| BlobToShare.WrittenLast | images/blob_to_share/src/blob_to_share.go:192-194 | a file named by several blobs ends with the last one's bytes |
| BlobToShare.UploadAll | images/blob_to_share/src/blob_to_share.go:143-212 | after the uploads the share has a file for every blob, each with the bytes of the last blob of that name, untouched files unchanged, and every folder on every blob's path |
| BlobToShare.PathOf | images/blob_to_share/src/blob_to_share.go:65-95 | at the root an entry's path is its name; inside a folder it is the folder, "/" and the name |
| BlobToShare.FilePaths | images/blob_to_share/src/blob_to_share.go:64-68 | one path per file of a folder, in listing order |
| BlobToShare.FlattenMember | images/blob_to_share/src/blob_to_share.go:91-98 | a path is found in the walk of the sub-folders exactly when some sub-folder's walk has it |
| BlobToShare.Absent | images/blob_to_share/src/blob_to_share.go:72-86 | the files deleted from a folder are exactly those whose paths no blob has |
| BlobToShare.KeptNames | images/blob_to_share/src/blob_to_share.go:72-73 | the files kept in a folder are exactly those whose paths some blob has |
| BlobToShare.Prune | images/blob_to_share/src/blob_to_share.go:49-105 | the clean-up walk keeps every sub-folder, in order and under its name |
| BlobToShare.DeletedIff | images/blob_to_share/src/blob_to_share.go:49-105 | a file is deleted by the clean-up exactly when it is in the share and no blob has its path |
| BlobToShare.PrunePaths | images/blob_to_share/src/blob_to_share.go:49-105 | after the clean-up the share holds exactly the files whose paths are blob names |
| BlobToShare.PruneKeepsFolders | images/blob_to_share/src/blob_to_share.go:49-105 | the clean-up deletes no folder, even an emptied one |
| BlobToShare.AbsentAllPresent | images/blob_to_share/src/blob_to_share.go:72 | a folder whose files all are blobs loses none |
| BlobToShare.FlattenEmpty | images/blob_to_share/src/blob_to_share.go:91-98 | sub-folders that delete nothing delete nothing together |
| BlobToShare.PruneThenNothingDeleted | images/blob_to_share/src/blob_to_share.go:49-105 | a second clean-up deletes nothing |

## Left out

- Ingestion: the Spark, dbt and Azure work itself (`ImportFileEntry`, `archive_file`, `create_file_table`, `test_file_table`, `move_rows_to_review`, `add_to_source_table`, `remove_file_table`, `propagate_source_data`). Their source is not part of this model, so each one's outcome is an input and its call is a trace entry.
- Ingestion: the checks inside `check_parameters`, `check_source_schema` and `compare_schema_and_table`. Each is a boolean outcome; the model does not restate its rules.
- Ingestion: the dynamic `import_module` of the pre-processing package and its `init`. They are one outcome, `preProcessOk`.
- Ingestion: the OPTIMIZE statement on the ledger table. It is a maintenance hint with no effect on the stage.
- Ingestion: the final re-read returns the stage this run last wrote. Another writer changing the ledger during the run is a scheduling matter and is not modelled.
- AdfPipelines: the Pulumi resource arguments of the pipelines, and Data Factory's `concurrency=1` guarantee. The first is resource declaration and the second a scheduler property.
- AdfPipelines.MinutesToString: negative minute counts are not covered. The parameter is a natural, as the callers pass.
- TableCheck.StrRepr: the repr is modelled only for names free of quotes, backslashes and control characters below U+0020; characters Python's `repr` also escapes, such as U+007F and other non-printable code points, are written as they are.
- TableCheck: general JSON decoding of folder items. An item is read only in the exact form Data Factory writes, `{"name":"…","type":"Folder"}`, with a name free of escapes: no quote, no backslash and no control character below U+0020 (which JSON does not allow raw in a string either). Any other item is a `MalformedItem` failure.
- Strings: `lower`, `upper`, `title` and the letter tests cover only the ASCII letters `A`-`Z` and `a`-`z`. Python also maps other cased letters, such as `É`; the model leaves them unchanged, and `title` treats them as word breaks.
- Strings.ParseInt: only the ASCII digits `0`-`9` are read as digits. Python's `int()` also accepts other Unicode decimal digits, such as `٣`. Whitespace stripping, one sign and single underscores between digits follow Python.
- Naming: `generate_hash` (MD5), `get_os_root_path` (filesystem), `ensure_type` (a type assertion) and `lock_resource` (a Pulumi resource option).
- Cidr: only IPv4 prefix notation (`a.b.c.d/n`). Netmask and hostmask forms, IPv6 and `strict=False` host bits are not modelled.
- Firewall: `resource_access_list` entries are modelled as strings, so that they can be ordered. Real dictionaries would make `sorted`/`set` raise `TypeError`.
- Config: YAML loading, yamale schema validation, environment-variable reads other than the resource-protection switch, and the Pulumi `Output`/`apply` plumbing. A shared output is `Config.Known` with an already resolved `Json.Value`, or `Config.Unknown` for a value not yet known during a preview.
- Config: the simple attribute accessors (`prefix`, `tags`, `unique_id`, `metadata`, `global_firewall`, `__getitem__`). They return configuration entries unchanged.
- Kubernetes: the rest of the platform-configuration reads around `get_cluster_config`. They declare resources.
- Logs: the monitoring API call that lists a resource's categories. Its answer is an input.
- Logs.CategoryNames: a list holding a value that is not a string is taken to fail. Python would sort numbers, say, and pass them on as categories, and would raise `TypeError` only for a mix it cannot compare.
- Logs.InterfaceSettings: the contract states only the length of the result. The per-position content is in `Logs.InterfaceSettingsAt`.
- Logs.LogNetworkInterfaces: the contract states only the length of the result. The per-position content is in `Logs.LogNetworkInterfacesAt`.
- PrivateEndpoints: the `PrivateEndpoint` and `PrivateDnsZoneGroup` resources are records of their arguments. Only the arguments the logic decides are modelled. The call to `log_network_interfaces` (private_endpoints.py:68-75) is not made here. It is modelled as `Logs.LogNetworkInterfaces`, whose interface ids come from the created endpoint at deployment time. So the model does not raise the `AttributeError` that a logs-and-metrics config that is not a dictionary gives at `.get`.
- Databricks: the Databricks SDK resource objects. The cluster is the map of settings passed to the resource. Library entries are `Json` values.
- Iam: the authorization API's role-definition listing is an input sequence, searched in order.
- ConfigRegistry: the key-vault read and the secret resource. The read is an input outcome, either a value or an error message.
- ConfigRegistry: `_values` is shared by all clients, so it is one store threaded through the calls.
- DevopsDeployment: the password generation, the scale-set configuration body, the configuration-registry variable group and the per-environment role assignments (devops_deployment.py:67-174 and 199-226). They declare resources.
- Extensions: the package `init` functions. The loop records each call's arguments instead of running it.
- Extensions.Register: a name that `import_module` accepts (a non-empty string without a leading dot) is assumed to name an installed package. Which packages are installed is outside the configuration, so a `ModuleNotFoundError` is not modelled.
- UiOutputs: reading the outputs file, `json.dumps` formatting, and the table-storage client. The stored payload is a `Json.Value`, and the existing row is an input.
- UiOutputs.Str: only `str()` of a scalar is modelled. For a list or a dictionary, Python gives its repr, such as `['a']`, while the model gives `"[...]"` or `"{...}"`. So an organisation or project id that is a container gets a different PartitionKey or RowKey. A dictionary's repr follows the key order of the outputs file, which `Json.Object` does not keep.
- Migration: `json.dump` formatting. The script rewrites its dictionaries in place; the model builds the rewritten value instead, with the same result.
- Migration.MapStrings: a dictionary is iterated in sorted key order, where Python takes the order of the keys in the stack file; `Json.Object` keeps no key order, so the contract states only that each key is visited once.
- Migration: the tests at scripts/databricks_020_to_040.py:31 and 34 are substring tests on a string, and the model keeps them that way (`Migration.TestsOfFragments`). No real resource type tells the two readings apart, so this is not listed as a finding.
- BlobToShare: blob download and upload bytes, listing pagination, credentials and logging. The folder and listing addresses (blob_to_share.go:36 and 53) are taken to be the folder paths themselves, so a folder name with `#`, `?` or `%` is not modelled. The share is modelled twice: as folder paths plus files for the upload, and as the directory tree the listing returns for the clean-up. The model does not prove the two views agree.
- BlobToShare.UploadTargetAsWritten: any `%` in a name is taken to stop the job. Two exceptions are not modelled: a `%` after the first `?` lands in the query, which `url.Parse` does not check, and `%%` followed by two hex digits becomes a valid escape.
- BlobToShare.PercentDecode: an escape above `%7F` decodes here to one character, where Go decodes a byte of UTF-8. The query after a `?` in the download address is taken to be ignored by the service.

## Findings

| source | as written | input that shows it | evidently intended | confidence | as-written member | corrected member |
|---|---|---|---|---|---|---|
| scripts/databricks_020_to_040.py:54 | the output file name `"pulumi.stack.core.dtap.{stack}.json"` has no `f` prefix, so `{stack}` stays literal | stack `dev`: the script reads `pulumi.stack.core.dtap.dev.json` and writes `pulumi.stack.core.dtap.{stack}.json`, leaving the stack file unmigrated | write the migrated stack back to the file it was read from | not executed; high | Migration.AsWrittenLeavesStackFileStale | Migration.Run |
| images/blob_to_share/src/blob_to_share.go:151-187 | the raw blob name goes into the download address (line 151) and, as a `fmt.Sprintf` format string, into the upload address (line 187); both are parsed as URLs, and the upload's parse error is dropped | blob `a#b`: the download reads blob `a`, so the job stops at `log.Fatal` (line 159) when there is no blob `a`, and otherwise copies blob `a`'s bytes to share file `a`, which the clean-up keeps; `a#b` never reaches the share. Blob `50%` is a bad escape, so the job stops at the download | copy each blob under its own name: escape the name in both addresses and keep the format string constant | not executed; high | BlobToShare.AsWrittenLosesBlob | BlobToShare.UploadBlob |

=== FILE: blob_to_share.dfy ===
/**
 The job that mirrors a blob container into an Azure file share: every blob
 is copied to the share under the same path, creating the folders on its
 path first, and afterwards every share file whose path is not a blob name
 is deleted. The share is modelled twice: as its set of folder paths and
 its files (for the upload), and as the directory tree the listing returns
 (for the clean-up walk).
 */
module BlobToShare {
  import opened Wrappers
  import Strings

  // ---------------------------------------------------------------------
  // Settings

  /** `findEnvVar`: the value of a variable, or the fatal message when it is unset. */
  function FindEnvVar(env: map<string, string>, name: string): (r: Result<string, string>)
    ensures r.Success? <==> name in env
    ensures r.Success? ==> r.value == env[name]
    ensures r.Failure? ==> r.error == "Environment variable " + name + " not found!"
  {
    if name in env then Success(env[name]) else Failure("Environment variable " + name + " not found!")
  }

  datatype Settings = Settings(accountName: string, accountKey: string, containerName: string, shareName: string)

  /** The four variables `main` reads, in its order: the first unset one is reported. */
  function ReadSettings(env: map<string, string>): (r: Result<Settings, string>)
    ensures r.Success? <==> "ACCOUNT_NAME" in env && "ACCOUNT_KEY" in env && "CONTAINER_NAME" in env && "SHARE_NAME" in env
    ensures r.Success? ==> r.value == Settings(env["ACCOUNT_NAME"], env["ACCOUNT_KEY"], env["CONTAINER_NAME"], env["SHARE_NAME"])
    ensures "ACCOUNT_NAME" !in env ==> r == Failure("Environment variable ACCOUNT_NAME not found!")
  {
    assert "Environment variable " + "ACCOUNT_NAME" + " not found!" == "Environment variable ACCOUNT_NAME not found!";
    var accountName :- FindEnvVar(env, "ACCOUNT_NAME");
    var accountKey :- FindEnvVar(env, "ACCOUNT_KEY");
    var containerName :- FindEnvVar(env, "CONTAINER_NAME");
    var shareName :- FindEnvVar(env, "SHARE_NAME");
    Success(Settings(accountName, accountKey, containerName, shareName))
  }

  /** `contains(slice, toFind)`: a linear scan that stops at the first match. */
  method Contains(slice: seq<string>, toFind: string) returns (found: bool)
    ensures found <==> toFind in slice
  {
    var i := 0;
    while i < |slice|
      invariant 0 <= i <= |slice|
      invariant toFind !in slice[..i]
    {
      if slice[i] == toFind {
        return true;
      }
      assert slice[..i + 1] == slice[..i] + [slice[i]];
      i := i + 1;
    }
    assert slice[..i] == slice;
    return false;
  }

  // ---------------------------------------------------------------------
  // Folders on a blob's path

  /** `strings.Join(splitPath[:idx], "/")` for every `idx` from 1 to one less than the number of parts. */
  function FolderPrefixes(name: string): (r: seq<string>)
    ensures |r| == |Strings.Split(name, '/')| - 1
  {
    var parts := Strings.Split(name, '/');
    seq(|parts| - 1, i requires 0 <= i < |parts| - 1 => Strings.Join(parts[..i + 1], "/"))
  }

  /** A name without `/` needs no folder. */
  lemma NoSlashNoFolders(name: string)
    requires '/' !in name
    ensures FolderPrefixes(name) == []
  {
    Strings.SplitNoSeparator(name, '/');
  }

  /** Each folder extends the one before it by one more part. */
  lemma FolderPrefixStep(name: string, i: int)
    requires 0 <= i < |FolderPrefixes(name)| - 1
    ensures FolderPrefixes(name)[i + 1] == FolderPrefixes(name)[i] + "/" + Strings.Split(name, '/')[i + 1]
  {
    var parts := Strings.Split(name, '/');
    assert parts[..i + 2] == parts[..i + 1] + [parts[i + 1]];
    Strings.JoinAppend(parts[..i + 1], [parts[i + 1]], "/");
  }

  /** Every folder, followed by `/`, begins the blob's name: it is a real ancestor of the blob. */
  lemma FolderPrefixOfName(name: string, i: int)
    requires 0 <= i < |FolderPrefixes(name)|
    ensures Strings.StartsWith(name, FolderPrefixes(name)[i] + "/")
  {
    var parts := Strings.Split(name, '/');
    Strings.JoinSplit(name, '/');
    assert parts == parts[..i + 1] + parts[i + 1..];
    Strings.JoinAppend(parts[..i + 1], parts[i + 1..], "/");
    var p := FolderPrefixes(name)[i];
    assert name == p + "/" + Strings.Join(parts[i + 1..], "/");
    assert name[..|p + "/"|] == p + "/";
  }

  /** The folders come shortest first, so none is visited twice. */
  lemma {:induction false} FolderPrefixesIncreasing(name: string, i: int, j: int)
    requires 0 <= i < j < |FolderPrefixes(name)|
    ensures |FolderPrefixes(name)[i]| < |FolderPrefixes(name)[j]|
    decreases j - i
  {
    FolderPrefixStep(name, j - 1);
    if i < j - 1 {
      FolderPrefixesIncreasing(name, i, j - 1);
    }
  }

  /** `checkAndCreateFolder` on the set of folders: a folder is created only when it is missing. */
  datatype Creation = Creation(dirs: set<string>, created: bool)

  function CheckAndCreateFolder(dirs: set<string>, folderPath: string): (r: Creation)
    ensures r.created <==> folderPath !in dirs
    ensures r.dirs == dirs + {folderPath}
  {
    if folderPath in dirs then Creation(dirs, false) else Creation(dirs + {folderPath}, true)
  }

  /** Checking a folder a second time creates nothing. */
  lemma CheckAndCreateFolderIdempotent(dirs: set<string>, folderPath: string)
    ensures CheckAndCreateFolder(CheckAndCreateFolder(dirs, folderPath).dirs, folderPath) ==
      Creation(CheckAndCreateFolder(dirs, folderPath).dirs, false)
  {
  }

  /** The folder loop for one blob: returns the folders afterwards and the ones it had to create. */
  method EnsureFolders(dirs: set<string>, name: string) returns (r: set<string>, created: seq<string>)
    ensures r == dirs + set p | p in FolderPrefixes(name)
    ensures forall p :: p in created <==> p in FolderPrefixes(name) && p !in dirs
  {
    var prefixes := FolderPrefixes(name);
    var parts := Strings.Split(name, '/');
    r := dirs;
    created := [];
    var idx := 1;
    while idx < |parts|
      invariant 1 <= idx <= |parts|
      invariant r == dirs + set i | 0 <= i < idx - 1 :: prefixes[i]
      invariant forall p :: p in created <==> p in prefixes[..idx - 1] && p !in dirs
    {
      var folderPath := Strings.Join(parts[..idx], "/");
      assert folderPath == prefixes[idx - 1];
      assert folderPath !in prefixes[..idx - 1] by {
        forall k | 0 <= k < idx - 1
          ensures prefixes[k] != folderPath
        {
          FolderPrefixesIncreasing(name, k, idx - 1);
        }
      }
      var c := CheckAndCreateFolder(r, folderPath);
      if c.created {
        created := created + [folderPath];
      }
      r := c.dirs;
      assert prefixes[..idx] == prefixes[..idx - 1] + [folderPath];
      assert (set i | 0 <= i < idx :: prefixes[i]) == (set i | 0 <= i < idx - 1 :: prefixes[i]) + {folderPath};
      idx := idx + 1;
    }
    assert prefixes[..idx - 1] == prefixes;
    assert (set i | 0 <= i < idx - 1 :: prefixes[i]) == set p | p in prefixes;
  }

  // ---------------------------------------------------------------------
  // Upload

  type Bytes = seq<bv8>

  datatype Blob = Blob(name: string, data: Bytes)

  /** The share as the upload sees it: folder paths and file contents by path. */
  datatype Share = Share(dirs: set<string>, files: map<string, Bytes>)

  /**
   One blob: its folders are ensured, then the file is written at the
   blob's own name, replacing any file of that name.
   */
  method UploadBlob(share: Share, blob: Blob) returns (r: Share)
    ensures r.dirs == share.dirs + set p | p in FolderPrefixes(blob.name)
    ensures r.files == share.files[blob.name := blob.data]
  {
    var dirs, _ := EnsureFolders(share.dirs, blob.name);
    r := Share(dirs, share.files[blob.name := blob.data]);
  }

  // The upload's file address is `url.Parse(fmt.Sprintf(fileBaseUrl + shareName + "/" + name))`,
  // so the blob name is read as a format string and then as the tail of a URL.

  /** Where the upload as written sends a blob: a share path, or a nil address the job dereferences. */
  datatype Target = Target(path: string) | Panics

  /** The part of a name `url.Parse` keeps as the path: up to the first `#` (fragment) or `?` (query). */
  function UrlPath(name: string): (r: string)
    ensures |r| <= |name| && r == name[..|r|]
    ensures '#' !in r && '?' !in r
    ensures |r| < |name| ==> name[|r|] == '#' || name[|r|] == '?'
  {
    if |name| == 0 || name[0] == '#' || name[0] == '?' then ""
    else [name[0]] + UrlPath(name[1..])
  }

  /**
   The upload address as written. `Sprintf` without arguments turns a `%`
   into `%!…(MISSING)`, which `url.Parse` rejects; the error is dropped and
   the nil address is dereferenced. Otherwise the path is cut at `#` or `?`.
   */
  function UploadTargetAsWritten(name: string): Target {
    if '%' in name then Panics else Target(UrlPath(name))
  }

  /** The upload as written writes a blob to its own name exactly when the name has no `%`, `#` or `?`. */
  lemma AsWrittenTargetIsName(name: string)
    ensures UploadTargetAsWritten(name) == Target(name) <==> '%' !in name && '#' !in name && '?' !in name
  {
    if '%' !in name && UrlPath(name) == name {
      assert '#' !in name && '?' !in name;
    }
  }

  // The download address is `blobBaseUrl + containerName + "/" + name`, which the
  // SDK parses with `url.Parse` when it builds the request; a parse error ends the
  // job at `log.Fatal`. The service then serves the blob the decoded path names.
  // The query, after a `?`, goes to the service as well, which the model takes to ignore.

  /** What the download as written reads: the blob of some name, or the job stops. */
  datatype Download = Fetch(blob: string) | Fatal

  predicate IsHex(c: char) {
    '0' <= c <= '9' || 'a' <= c <= 'f' || 'A' <= c <= 'F'
  }

  function HexValue(c: char): (v: nat)
    requires IsHex(c)
    ensures v < 16
  {
    if c <= '9' then c as int - '0' as int
    else if c <= 'F' then c as int - 'A' as int + 10
    else c as int - 'a' as int + 10
  }

  /** Every `%` starts a two-hex-digit escape: what `url.Parse` demands of a path and of a fragment. */
  predicate ValidEscapes(s: string)
    decreases |s|
  {
    if |s| == 0 then true
    else if s[0] == '%' then |s| >= 3 && IsHex(s[1]) && IsHex(s[2]) && ValidEscapes(s[3..])
    else ValidEscapes(s[1..])
  }

  /** The path `url.Parse` decodes: each escape becomes the character of that code. */
  function PercentDecode(s: string): (r: string)
    requires ValidEscapes(s)
    ensures |r| <= |s|
    ensures '%' in s ==> |r| < |s|
    ensures '%' !in s ==> r == s
    decreases |s|
  {
    if |s| == 0 then ""
    else if s[0] == '%' then [(HexValue(s[1]) * 16 + HexValue(s[2])) as char] + PercentDecode(s[3..])
    else
      assert '%' in s[1..] ==> '%' in s;
      [s[0]] + PercentDecode(s[1..])
  }

  /** The text after the first `#`, empty when there is none. */
  function Fragment(name: string): (r: string)
    ensures '#' !in name ==> r == ""
    ensures |r| < |name| || r == ""
    decreases |name|
  {
    if |name| == 0 then ""
    else if name[0] == '#' then name[1..]
    else Fragment(name[1..])
  }

  /** The download as written: a bad escape in the path or the fragment stops the job. */
  function DownloadAsWritten(name: string): Download {
    var path := UrlPath(name);
    if !ValidEscapes(Fragment(name)) || !ValidEscapes(path) then Fatal
    else Fetch(PercentDecode(path))
  }

  /** The download as written reads the blob's own name exactly when the name has no `%`, `#` or `?`. */
  lemma AsWrittenDownloadIsName(name: string)
    ensures DownloadAsWritten(name) == Fetch(name) <==> '%' !in name && '#' !in name && '?' !in name
  {
    var path := UrlPath(name);
    if DownloadAsWritten(name) == Fetch(name) {
      assert ValidEscapes(path) && PercentDecode(path) == name;
      assert |name| <= |path|;
      assert path == name;
      assert '%' !in path;
    }
    if '%' !in name && '#' !in name && '?' !in name {
      assert path == name;
      NoPercentValid(name);
    }
  }

  lemma {:induction false} NoPercentValid(s: string)
    requires '%' !in s
    ensures ValidEscapes(s)
    decreases |s|
  {
    if |s| > 0 {
      assert s == [s[0]] + s[1..];
      NoPercentValid(s[1..]);
    }
  }

  /** One character of a path escape: `%`, `#` and `?` become escapes, the rest stay. */
  function EscapeChar(c: char): (r: string)
    ensures '#' !in r && '?' !in r
  {
    if c == '%' then "%25" else if c == '#' then "%23" else if c == '?' then "%3F" else [c]
  }

  /** The name with `%`, `#` and `?` escaped, as a path escape would leave it. */
  function EscapeName(name: string): (r: string)
    ensures '#' !in r && '?' !in r
    decreases |name|
  {
    if |name| == 0 then "" else EscapeChar(name[0]) + EscapeName(name[1..])
  }

  lemma EscapeCharDecodes(c: char, rest: string)
    requires ValidEscapes(rest)
    ensures ValidEscapes(EscapeChar(c) + rest) && PercentDecode(EscapeChar(c) + rest) == [c] + PercentDecode(rest)
  {
    var e := EscapeChar(c) + rest;
    if c == '%' || c == '#' || c == '?' {
      assert e[0] == '%' && e[3..] == rest;
    } else {
      assert e[0] == c && e[1..] == rest;
    }
  }

  lemma {:induction false} EscapeNameDecodes(name: string)
    ensures ValidEscapes(EscapeName(name)) && PercentDecode(EscapeName(name)) == name
    decreases |name|
  {
    if |name| > 0 {
      EscapeNameDecodes(name[1..]);
      EscapeCharDecodes(name[0], EscapeName(name[1..]));
      assert name == [name[0]] + name[1..];
    }
  }

  /** Escaped, every name downloads its own blob. */
  lemma EscapedDownload(name: string)
    ensures DownloadAsWritten(EscapeName(name)) == Fetch(name)
  {
    var e := EscapeName(name);
    EscapeNameDecodes(name);
    var path := UrlPath(e);
    assert |path| == |e| && path == e[..|path|];
    assert path == e;
    assert Fragment(e) == "";
    assert ValidEscapes("");
  }

  /** One pass of the listing loop as written, over the blobs the container holds. */
  datatype Copy = Copied(share: Share) | Stopped

  /**
   Download, folders from the raw name, then upload: a missing blob (404),
   a bad escape or the nil upload address stop the job.
   */
  function CopyAsWritten(share: Share, store: map<string, Bytes>, name: string): (r: Copy)
    ensures r.Copied? ==> r.share.dirs == share.dirs + (set p | p in FolderPrefixes(name))
  {
    match DownloadAsWritten(name)
    case Fatal => Stopped
    case Fetch(blob) =>
      if blob !in store then Stopped
      else match UploadTargetAsWritten(name)
        case Panics => Stopped
        case Target(path) =>
          Copied(Share(share.dirs + (set p | p in FolderPrefixes(name)), share.files[path := store[blob]]))
  }

  /** For a name without `%`, `#` or `?`, the copy as written is the corrected upload of that blob. */
  lemma CopyAsWrittenOfPlainName(share: Share, store: map<string, Bytes>, name: string)
    requires '%' !in name && '#' !in name && '?' !in name
    requires name in store
    ensures CopyAsWritten(share, store, name) ==
      Copied(Share(share.dirs + (set p | p in FolderPrefixes(name)), share.files[name := store[name]]))
  {
    AsWrittenDownloadIsName(name);
    AsWrittenTargetIsName(name);
  }

  /**
   Blob `a#b` is never copied under its own name: the download reads blob
   `a`, so the job stops when there is no blob `a`, and otherwise blob `a`'s
   bytes go to share file `a`, which the clean-up keeps. Blob `50%` stops
   the job at the download.
   */
  lemma AsWrittenLosesBlob(share: Share, store: map<string, Bytes>)
    ensures DownloadAsWritten("a#b") == Fetch("a") && UploadTargetAsWritten("a#b") == Target("a")
    ensures "a" !in store ==> CopyAsWritten(share, store, "a#b") == Stopped
    ensures "a" in store ==>
      CopyAsWritten(share, store, "a#b").Copied? &&
      CopyAsWritten(share, store, "a#b").share.files == share.files["a" := store["a"]] &&
      "a" !in Deleted(Dir(["a"], []), "", ["a#b", "a"])
    ensures DownloadAsWritten("50%") == Fatal && CopyAsWritten(share, store, "50%") == Stopped
  {
    assert "a#b"[1..] == "#b";
    assert UrlPath("#b") == "";
    assert UrlPath("a#b") == "a";
    assert Fragment("a#b") == "b" by {
      assert "a#b"[1..][1..] == "b";
    }
    assert ValidEscapes("b") by {
      assert "b"[1..] == "";
    }
    assert ValidEscapes("a") by {
      assert "a"[1..] == "";
    }
    assert '%' !in "a";
    assert '%' !in "a#b";
    assert FilePaths(["a"], "") == ["a"];
    assert "a" in ["a#b", "a"];
    assert "50%"[2] == '%';
    assert UrlPath("50%") == "50%" by {
      assert "50%"[1..] == "0%" && "0%"[1..] == "%" && "%"[1..] == "";
    }
    assert !ValidEscapes("50%") by {
      assert "50%"[1..] == "0%" && "0%"[1..] == "%";
    }
  }

  /** The files after writing `blobs` in order, each write replacing the file of that name. */
  function Written(files: map<string, Bytes>, blobs: seq<Blob>): map<string, Bytes>
    decreases |blobs|
  {
    if |blobs| == 0 then files
    else Written(files, blobs[..|blobs| - 1])[blobs[|blobs| - 1].name := blobs[|blobs| - 1].data]
  }

  lemma {:induction false} WrittenKeys(files: map<string, Bytes>, blobs: seq<Blob>)
    ensures Written(files, blobs).Keys == files.Keys + set i | 0 <= i < |blobs| :: blobs[i].name
    decreases |blobs|
  {
    if |blobs| > 0 {
      var init := blobs[..|blobs| - 1];
      WrittenKeys(files, init);
      assert (set i | 0 <= i < |blobs| :: blobs[i].name) ==
        (set i | 0 <= i < |init| :: init[i].name) + {blobs[|blobs| - 1].name};
    }
  }

  lemma {:induction false} WrittenOther(files: map<string, Bytes>, blobs: seq<Blob>, n: string)
    requires n in files && forall i :: 0 <= i < |blobs| ==> blobs[i].name != n
    ensures n in Written(files, blobs) && Written(files, blobs)[n] == files[n]
    decreases |blobs|
  {
    if |blobs| > 0 {
      WrittenOther(files, blobs[..|blobs| - 1], n);
    }
  }

  /** The last blob of a name decides the file's content. */
  lemma {:induction false} WrittenLast(files: map<string, Bytes>, blobs: seq<Blob>, i: int)
    requires 0 <= i < |blobs|
    requires forall j :: i < j < |blobs| ==> blobs[j].name != blobs[i].name
    ensures blobs[i].name in Written(files, blobs) && Written(files, blobs)[blobs[i].name] == blobs[i].data
    decreases |blobs|
  {
    if i < |blobs| - 1 {
      WrittenLast(files, blobs[..|blobs| - 1], i);
    }
  }

  /** The blob listing loop: blobs are copied in listing order, so a later blob of the same name wins. */
  method UploadAll(share: Share, blobs: seq<Blob>) returns (r: Share)
    ensures r.files.Keys == share.files.Keys + set i | 0 <= i < |blobs| :: blobs[i].name
    ensures forall n :: n in share.files && (forall i :: 0 <= i < |blobs| ==> blobs[i].name != n) ==>
      n in r.files && r.files[n] == share.files[n]
    ensures forall i :: 0 <= i < |blobs| && (forall j :: i < j < |blobs| ==> blobs[j].name != blobs[i].name) ==>
      blobs[i].name in r.files && r.files[blobs[i].name] == blobs[i].data
    ensures share.dirs <= r.dirs
    ensures forall i, p :: 0 <= i < |blobs| && p in FolderPrefixes(blobs[i].name) ==> p in r.dirs
  {
    r := share;
    var k := 0;
    while k < |blobs|
      invariant 0 <= k <= |blobs|
      invariant r.files == Written(share.files, blobs[..k])
      invariant share.dirs <= r.dirs
      invariant forall i, p :: 0 <= i < k && p in FolderPrefixes(blobs[i].name) ==> p in r.dirs
    {
      r := UploadBlob(r, blobs[k]);
      assert blobs[..k + 1][..k] == blobs[..k];
      k := k + 1;
    }
    assert blobs[..k] == blobs;
    WrittenKeys(share.files, blobs);
    forall n | n in share.files && (forall i :: 0 <= i < |blobs| ==> blobs[i].name != n)
      ensures n in r.files && r.files[n] == share.files[n]
    {
      WrittenOther(share.files, blobs, n);
    }
    forall i | 0 <= i < |blobs| && (forall j :: i < j < |blobs| ==> blobs[j].name != blobs[i].name)
      ensures blobs[i].name in r.files && r.files[blobs[i].name] == blobs[i].data
    {
      WrittenLast(share.files, blobs, i);
    }
  }

  // ---------------------------------------------------------------------
  // Clean-up walk

  /** A listed directory: the names of its files and its sub-directories. */
  datatype Dir = Dir(files: seq<string>, subdirs: seq<Sub>)

  datatype Sub = Sub(name: string, dir: Dir)

  /** The path of an entry: bare at the root, `folder/name` below it. */
  function PathOf(folder: string, name: string): (r: string)
    ensures |folder| == 0 ==> r == name
    ensures |folder| > 0 ==> Strings.StartsWith(r, folder + "/") && r[|folder| + 1..] == name
  {
    if |folder| > 0 then folder + "/" + name else name
  }

  /** The paths of a directory's own files. */
  function FilePaths(files: seq<string>, folder: string): (r: seq<string>)
    ensures |r| == |files|
    ensures forall i :: 0 <= i < |files| ==> r[i] == PathOf(folder, files[i])
  {
    seq(|files|, i requires 0 <= i < |files| => PathOf(folder, files[i]))
  }

  function Flatten(ss: seq<seq<string>>): seq<string> {
    if |ss| == 0 then [] else ss[0] + Flatten(ss[1..])
  }

  lemma {:induction false} FlattenMember(ss: seq<seq<string>>, x: string)
    ensures x in Flatten(ss) <==> exists i :: 0 <= i < |ss| && x in ss[i]
  {
    if |ss| > 0 {
      FlattenMember(ss[1..], x);
      if x in Flatten(ss[1..]) {
        var i :| 0 <= i < |ss[1..]| && x in ss[1..][i];
        assert x in ss[i + 1];
      }
      if exists i :: 0 <= i < |ss| && x in ss[i] {
        var i :| 0 <= i < |ss| && x in ss[i];
        if i > 0 {
          assert x in ss[1..][i - 1];
        }
      }
    }
  }

  /** Every file path below a directory, the directory's own files first. */
  function Paths(d: Dir, folder: string): seq<string>
    decreases d
  {
    FilePaths(d.files, folder) +
    Flatten(seq(|d.subdirs|, i requires 0 <= i < |d.subdirs| =>
      Paths(d.subdirs[i].dir, PathOf(folder, d.subdirs[i].name))))
  }

  /** Every folder path below a directory. */
  function Folders(d: Dir, folder: string): seq<string>
    decreases d
  {
    Flatten(seq(|d.subdirs|, i requires 0 <= i < |d.subdirs| =>
      [PathOf(folder, d.subdirs[i].name)] + Folders(d.subdirs[i].dir, PathOf(folder, d.subdirs[i].name))))
  }

  /** The paths not among the blob names, in order. */
  function Absent(paths: seq<string>, blobs: seq<string>): (r: seq<string>)
    ensures forall p :: p in r <==> p in paths && p !in blobs
  {
    if |paths| == 0 then []
    else if paths[0] in blobs then Absent(paths[1..], blobs)
    else [paths[0]] + Absent(paths[1..], blobs)
  }

  /** The names of the files a directory keeps. */
  function KeptNames(files: seq<string>, folder: string, blobs: seq<string>): (r: seq<string>)
    ensures forall f :: f in r <==> f in files && PathOf(folder, f) in blobs
  {
    if |files| == 0 then []
    else if PathOf(folder, files[0]) in blobs then [files[0]] + KeptNames(files[1..], folder, blobs)
    else KeptNames(files[1..], folder, blobs)
  }

  /** `checkFolderAgainstBlobs`: the files it deletes, in the order it deletes them. */
  function Deleted(d: Dir, folder: string, blobs: seq<string>): seq<string>
    decreases d
  {
    Absent(FilePaths(d.files, folder), blobs) +
    Flatten(seq(|d.subdirs|, i requires 0 <= i < |d.subdirs| =>
      Deleted(d.subdirs[i].dir, PathOf(folder, d.subdirs[i].name), blobs)))
  }

  /** `checkFolderAgainstBlobs`: the directory tree it leaves behind. */
  function Prune(d: Dir, folder: string, blobs: seq<string>): (r: Dir)
    ensures |r.subdirs| == |d.subdirs|
    ensures forall i :: 0 <= i < |d.subdirs| ==> r.subdirs[i].name == d.subdirs[i].name
    decreases d
  {
    Dir(KeptNames(d.files, folder, blobs),
        seq(|d.subdirs|, i requires 0 <= i < |d.subdirs| =>
          Sub(d.subdirs[i].name, Prune(d.subdirs[i].dir, PathOf(folder, d.subdirs[i].name), blobs))))
  }

  /** A share file is deleted exactly when its path is not a blob name. */
  lemma {:induction false} DeletedIff(d: Dir, folder: string, blobs: seq<string>, p: string)
    ensures p in Deleted(d, folder, blobs) <==> p in Paths(d, folder) && p !in blobs
    decreases d
  {
    var subDeleted := seq(|d.subdirs|, i requires 0 <= i < |d.subdirs| =>
      Deleted(d.subdirs[i].dir, PathOf(folder, d.subdirs[i].name), blobs));
    var subPaths := seq(|d.subdirs|, i requires 0 <= i < |d.subdirs| =>
      Paths(d.subdirs[i].dir, PathOf(folder, d.subdirs[i].name)));
    FlattenMember(subDeleted, p);
    FlattenMember(subPaths, p);
    forall i | 0 <= i < |d.subdirs|
      ensures p in subDeleted[i] <==> p in subPaths[i] && p !in blobs
    {
      DeletedIff(d.subdirs[i].dir, PathOf(folder, d.subdirs[i].name), blobs, p);
    }
  }

  /** The tree left behind holds exactly the share files whose paths are blob names. */
  lemma {:induction false} PrunePaths(d: Dir, folder: string, blobs: seq<string>, p: string)
    ensures p in Paths(Prune(d, folder, blobs), folder) <==> p in Paths(d, folder) && p in blobs
    decreases d
  {
    var r := Prune(d, folder, blobs);
    var kept := KeptNames(d.files, folder, blobs);
    assert r.files == kept;
    assert p in FilePaths(kept, folder) <==> p in FilePaths(d.files, folder) && p in blobs by {
      if p in FilePaths(kept, folder) {
        var i :| 0 <= i < |kept| && FilePaths(kept, folder)[i] == p;
        assert kept[i] in d.files;
        var j :| 0 <= j < |d.files| && d.files[j] == kept[i];
        assert FilePaths(d.files, folder)[j] == p;
      }
      if p in FilePaths(d.files, folder) && p in blobs {
        var j :| 0 <= j < |d.files| && FilePaths(d.files, folder)[j] == p;
        assert d.files[j] in kept;
        var i :| 0 <= i < |kept| && kept[i] == d.files[j];
        assert FilePaths(kept, folder)[i] == p;
      }
    }
    var subAfter := seq(|r.subdirs|, i requires 0 <= i < |r.subdirs| =>
      Paths(r.subdirs[i].dir, PathOf(folder, r.subdirs[i].name)));
    var subBefore := seq(|d.subdirs|, i requires 0 <= i < |d.subdirs| =>
      Paths(d.subdirs[i].dir, PathOf(folder, d.subdirs[i].name)));
    FlattenMember(subAfter, p);
    FlattenMember(subBefore, p);
    forall i | 0 <= i < |d.subdirs|
      ensures p in subAfter[i] <==> p in subBefore[i] && p in blobs
    {
      PrunePaths(d.subdirs[i].dir, PathOf(folder, d.subdirs[i].name), blobs, p);
    }
  }

  /** The walk deletes files only: every folder is still there afterwards. */
  lemma {:induction false} PruneKeepsFolders(d: Dir, folder: string, blobs: seq<string>)
    ensures Folders(Prune(d, folder, blobs), folder) == Folders(d, folder)
    decreases d
  {
    var r := Prune(d, folder, blobs);
    forall i | 0 <= i < |d.subdirs|
      ensures Folders(r.subdirs[i].dir, PathOf(folder, r.subdirs[i].name)) ==
        Folders(d.subdirs[i].dir, PathOf(folder, d.subdirs[i].name))
    {
      PruneKeepsFolders(d.subdirs[i].dir, PathOf(folder, d.subdirs[i].name), blobs);
    }
    assert seq(|r.subdirs|, i requires 0 <= i < |r.subdirs| =>
        [PathOf(folder, r.subdirs[i].name)] + Folders(r.subdirs[i].dir, PathOf(folder, r.subdirs[i].name))) ==
      seq(|d.subdirs|, i requires 0 <= i < |d.subdirs| =>
        [PathOf(folder, d.subdirs[i].name)] + Folders(d.subdirs[i].dir, PathOf(folder, d.subdirs[i].name)));
  }

  lemma {:induction false} AbsentAllPresent(paths: seq<string>, blobs: seq<string>)
    requires forall i :: 0 <= i < |paths| ==> paths[i] in blobs
    ensures Absent(paths, blobs) == []
  {
    if |paths| > 0 {
      AbsentAllPresent(paths[1..], blobs);
    }
  }

  lemma {:induction false} FlattenEmpty(ss: seq<seq<string>>)
    requires forall i :: 0 <= i < |ss| ==> ss[i] == []
    ensures Flatten(ss) == []
  {
    if |ss| > 0 {
      FlattenEmpty(ss[1..]);
    }
  }

  /** Walking the tree a second time deletes nothing more. */
  lemma {:induction false} PruneThenNothingDeleted(d: Dir, folder: string, blobs: seq<string>)
    ensures Deleted(Prune(d, folder, blobs), folder, blobs) == []
    decreases d
  {
    var r := Prune(d, folder, blobs);
    var paths := FilePaths(r.files, folder);
    forall i | 0 <= i < |paths|
      ensures paths[i] in blobs
    {
      assert r.files[i] in r.files;
    }
    AbsentAllPresent(paths, blobs);
    var subs := seq(|r.subdirs|, i requires 0 <= i < |r.subdirs| =>
      Deleted(r.subdirs[i].dir, PathOf(folder, r.subdirs[i].name), blobs));
    forall i | 0 <= i < |r.subdirs|
      ensures subs[i] == []
    {
      PruneThenNothingDeleted(d.subdirs[i].dir, PathOf(folder, d.subdirs[i].name), blobs);
    }
    FlattenEmpty(subs);
  }
}

=== FILE: check_tables_exist_adf.dfy ===
/**
 The Analytics-workspace table check that Data Factory runs for each new
 schema folder: it reads a `schema_path|item;item` string, works out which
 of the folder's tables the workspace does not know yet, and fails with a
 message listing them.
 */
module TableCheck {
  import opened Wrappers
  import Strings
  import Order
  import AdfPipelines

  datatype Error =
    | MalformedDetails(parts: nat)   // `split("|")` did not give exactly two pieces
    | MalformedItem(item: string)    // an item is not the folder JSON Data Factory writes
    | NewTablesFound(message: string)

  /** The schema (last path segment) and the table names an entry carries. */
  datatype Details = Details(schema: string, tables: seq<string>)

  const ItemPrefix: string := "{\"name\":\""
  const ItemSuffix: string := "\",\"type\":\"Folder\"}"

  /**
   A name JSON can carry between quotes without escapes: no quote, no
   backslash, and no control character below U+0020, which a JSON decoder
   rejects inside a string.
   */
  predicate PlainName(name: string) {
    '"' !in name && '\\' !in name && forall c :: c in name ==> c >= ' '
  }

  /** `loads(item)["name"]` for the folder objects Data Factory serialises. */
  function ItemName(item: string): (r: Option<string>)
    ensures r.Some? ==> PlainName(r.value) && item == AdfPipelines.FolderItemJson(r.value)
  {
    if |item| >= |ItemPrefix| + |ItemSuffix| && Strings.StartsWith(item, ItemPrefix) &&
       Strings.EndsWith(item, ItemSuffix) &&
       PlainName(item[|ItemPrefix|..|item| - |ItemSuffix|])
    then
      var name := item[|ItemPrefix|..|item| - |ItemSuffix|];
      assert item == ItemPrefix + name + ItemSuffix;
      Some(name)
    else None
  }

  lemma ItemNameOfFolderItem(name: string)
    requires PlainName(name)
    ensures ItemName(AdfPipelines.FolderItemJson(name)) == Some(name)
  {
    var item := AdfPipelines.FolderItemJson(name);
    assert item == ItemPrefix + name + ItemSuffix;
    assert item[|ItemPrefix|..|item| - |ItemSuffix|] == name;
  }

  /** A raw line break inside the name is not JSON, so the item is rejected. */
  lemma ControlCharacterItem()
    ensures ItemName(AdfPipelines.FolderItemJson("a\nb")).None?
  {
    var item := AdfPipelines.FolderItemJson("a\nb");
    assert item == ItemPrefix + "a\nb" + ItemSuffix;
    assert item[|ItemPrefix|..|item| - |ItemSuffix|] == "a\nb";
    assert !PlainName("a\nb") by {
      assert "a\nb"[1] == '\n' && '\n' < ' ';
      assert '\n' in "a\nb";
    }
  }

  /** The names of all items, or the first item that is not a folder object. */
  function ItemNames(items: seq<string>): (r: Result<seq<string>, Error>)
    ensures r.Success? ==> |r.value| == |items|
    ensures r.Success? ==> forall i :: 0 <= i < |items| ==> ItemName(items[i]) == Some(r.value[i])
    ensures r.Failure? ==>
      exists i :: 0 <= i < |items| && ItemName(items[i]).None? && r.error == MalformedItem(items[i])
  {
    if |items| == 0 then Success([])
    else match ItemName(items[0])
      case None => Failure(MalformedItem(items[0]))
      case Some(name) =>
        var rest := ItemNames(items[1..]);
        if rest.Failure? then
          var i :| 0 <= i < |items[1..]| && ItemName(items[1..][i]).None? &&
            rest.error == MalformedItem(items[1..][i]);
          assert items[i + 1] == items[1..][i];
          Failure(rest.error)
        else
          var r := [name] + rest.value;
          assert forall i :: 1 <= i < |items| ==> items[i] == items[1..][i - 1] && r[i] == rest.value[i - 1];
          Success(r)
  }

  /** The folder JSON of each name. */
  function FolderItems(names: seq<string>): (r: seq<string>)
    ensures |r| == |names|
    ensures forall i :: 0 <= i < |names| ==> r[i] == AdfPipelines.FolderItemJson(names[i])
  {
    seq(|names|, i requires 0 <= i < |names| => AdfPipelines.FolderItemJson(names[i]))
  }

  lemma ItemNamesOfFolderItems(names: seq<string>)
    requires forall i :: 0 <= i < |names| ==> PlainName(names[i])
    ensures ItemNames(FolderItems(names)) == Success(names)
  {
    var items := FolderItems(names);
    forall i | 0 <= i < |names|
      ensures ItemName(items[i]) == Some(names[i])
    {
      ItemNameOfFolderItem(names[i]);
    }
    ItemNamesAll(items, names);
  }

  lemma {:induction false} ItemNamesAll(items: seq<string>, names: seq<string>)
    requires |items| == |names|
    requires forall i :: 0 <= i < |items| ==> ItemName(items[i]) == Some(names[i])
    ensures ItemNames(items) == Success(names)
    decreases |items|
  {
    if |items| > 0 {
      ItemNamesAll(items[1..], names[1..]);
      assert names == [names[0]] + names[1..];
    }
  }

  /** `schema_path.split("/")[-1]` */
  function LastSegment(path: string): (r: string)
    ensures '/' !in r
  {
    var parts := Strings.Split(path, '/');
    parts[|parts| - 1]
  }

  /** Reads `schema_path|tables` into the schema and the table names. */
  function ParseTableDetails(details: string): (r: Result<Details, Error>)
    ensures r.Success? ==> '/' !in r.value.schema && |r.value.tables| >= 1
    ensures r.Success? ==> forall i :: 0 <= i < |r.value.tables| ==> PlainName(r.value.tables[i])
  {
    var parts := Strings.Split(details, '|');
    if |parts| != 2 then Failure(MalformedDetails(|parts|))
    else
      var names :- ItemNames(Strings.Split(parts[1], ';'));
      assert forall i :: 0 <= i < |names| ==> PlainName(names[i]) by {
        forall i | 0 <= i < |names|
          ensures PlainName(names[i])
        {
          assert ItemName(Strings.Split(parts[1], ';')[i]) == Some(names[i]);
        }
      }
      Success(Details(LastSegment(parts[0]), names))
  }

  /**
   `[table for table in folder if table not in known]`: each unknown table
   as often as the folder lists it, and no known one.
   */
  function NewTables(folder: seq<string>, known: set<string>): (r: seq<string>)
    ensures forall t :: t in r <==> t in folder && t !in known
    ensures forall t :: multiset(r)[t] == if t in known then 0 else multiset(folder)[t]
    ensures |r| <= |folder|
  {
    if |folder| == 0 then []
    else
      var rest := NewTables(folder[1..], known);
      assert forall t :: t in folder <==> t == folder[0] || t in folder[1..];
      assert folder == [folder[0]] + folder[1..];
      if folder[0] in known then rest else [folder[0]] + rest
  }

  /** The comprehension keeps the folder's order: the new tables of a split listing are those of each part, in turn. */
  lemma {:induction false} NewTablesAppend(a: seq<string>, b: seq<string>, known: set<string>)
    ensures NewTables(a + b, known) == NewTables(a, known) + NewTables(b, known)
    decreases |a|
  {
    if |a| > 0 {
      assert (a + b)[0] == a[0] && (a + b)[1..] == a[1..] + b;
      NewTablesAppend(a[1..], b, known);
    } else {
      assert a + b == b;
    }
  }

  /** `repr` of a string that needs no escapes. */
  function StrRepr(s: string): (r: string)
    ensures |r| == |s| + 2 && r[1..|r| - 1] == s
  {
    if '\'' in s && '"' !in s then "\"" + s + "\"" else "'" + s + "'"
  }

  /** `str(xs)` of a list of strings. */
  function ListRepr(xs: seq<string>): (r: string)
    ensures |r| >= 2 && r[0] == '[' && r[|r| - 1] == ']'
  {
    "[" + Strings.Join(seq(|xs|, i requires 0 <= i < |xs| => StrRepr(xs[i])), ", ") + "]"
  }

  const NewTablesHeadline: string := "New tables not in the Analytics workspace!"
  const MountTablesAdvice: string :=
    "Run the notebook at /Shared/Ingenii Engineering/mount_tables to make these available in the Analytics workspace"

  /** The exception text: headline, schema and sorted new tables, then what to run. */
  function NewTablesMessage(schema: string, newTables: seq<string>): string {
    Strings.Join([NewTablesHeadline,
      "Schema: " + schema + ", tables: " + ListRepr(Order.Sort(newTables)) + ".",
      MountTablesAdvice], " ")
  }

  /** Every table of the folder is one the workspace knows. */
  predicate AllKnown(tables: seq<string>, known: set<string>) {
    forall i :: 0 <= i < |tables| ==> tables[i] in known
  }

  /** The check proper, once the entry has been read. */
  function CheckDetails(d: Details, known: set<string>): (r: Result<string, Error>)
    ensures r.Success? <==> AllKnown(d.tables, known)
    ensures r.Success? ==> r.value == d.schema
    ensures r.Failure? ==> r.error == NewTablesFound(NewTablesMessage(d.schema, NewTables(d.tables, known)))
  {
    NoNewTables(d.tables, known);
    var missing := NewTables(d.tables, known);
    if |missing| > 0 then Failure(NewTablesFound(NewTablesMessage(d.schema, missing)))
    else Success(d.schema)
  }

  lemma {:induction false} NoNewTables(tables: seq<string>, known: set<string>)
    ensures |NewTables(tables, known)| == 0 <==> AllKnown(tables, known)
    decreases |tables|
  {
    if |tables| > 0 {
      NoNewTables(tables[1..], known);
      assert AllKnown(tables, known) <==> tables[0] in known && AllKnown(tables[1..], known) by {
        assert forall i :: 1 <= i < |tables| ==> tables[i] == tables[1..][i - 1];
      }
    }
  }

  /**
   The notebook: the schema it creates when the entry is well formed and
   every table is known, or why it fails; `known` is what `SHOW TABLES`
   lists for that schema.
   */
  function CheckTables(details: string, known: set<string>): (r: Result<string, Error>)
    ensures ParseTableDetails(details).Failure? ==> r == Failure(ParseTableDetails(details).error)
    ensures ParseTableDetails(details).Success? ==>
      (r.Success? <==> AllKnown(ParseTableDetails(details).value.tables, known))
    ensures r.Success? ==>
      ParseTableDetails(details).Success? && r.value == ParseTableDetails(details).value.schema
  {
    var d :- ParseTableDetails(details);
    CheckDetails(d, known)
  }

  /** A failing check names the tables missing from the workspace, sorted. */
  lemma CheckTablesMessage(details: string, known: set<string>)
    requires ParseTableDetails(details).Success?
    requires CheckTables(details, known).Failure?
    ensures var d := ParseTableDetails(details).value;
      CheckTables(details, known).error ==
        NewTablesFound(NewTablesMessage(d.schema, NewTables(d.tables, known)))
  {
  }

  /** Where the pieces of a Data Factory entry end up after splitting on `/`. */
  lemma MountPathSegments(container: string, folder: string)
    requires '/' !in container && '/' !in folder
    ensures LastSegment("/mnt/" + container + "/" + folder) == folder
  {
    var path := "/mnt/" + container + "/" + folder;
    assert path == "" + ['/'] + ("mnt" + ['/'] + (container + ['/'] + folder));
    Strings.SplitAtSeparator("", "mnt" + ['/'] + (container + ['/'] + folder), '/');
    Strings.SplitAtSeparator("mnt", container + ['/'] + folder, '/');
    Strings.SplitAtSeparator(container, folder, '/');
    Strings.SplitNoSeparator(folder, '/');
  }

  /**
   An entry the sync pipeline builds for a non-empty list of table folders
   reads back as the folder's name and the tables' names.
   */
  lemma ParseTableDetailsOfEntry(container: string, folder: string, names: seq<string>)
    requires '/' !in container && '|' !in container
    requires '/' !in folder && '|' !in folder
    requires |names| >= 1
    requires forall i :: 0 <= i < |names| ==>
      PlainName(names[i]) && '|' !in names[i] && ';' !in names[i]
    ensures ParseTableDetails(AdfPipelines.TableDetailsEntry(container, folder, FolderItems(names))) ==
      Success(Details(folder, names))
  {
    var items := FolderItems(names);
    var path := "/mnt/" + container + "/" + folder;
    var joined := Strings.Join(items, ";");
    forall i | 0 <= i < |items|
      ensures '|' !in items[i] && ';' !in items[i]
    {
      assert items[i] == ItemPrefix + names[i] + ItemSuffix;
    }
    Strings.JoinExcludes(items, ";", '|');
    assert AdfPipelines.TableDetailsEntry(container, folder, items) == path + ['|'] + joined;
    Strings.SplitAtSeparator(path, joined, '|');
    Strings.SplitNoSeparator(joined, '|');
    Strings.SplitJoin(items, ';');
    ItemNamesOfFolderItems(names);
    MountPathSegments(container, folder);
  }

  /** An entry with no table folders cannot be read: `loads("")` fails. */
  lemma ParseTableDetailsOfEmptyEntry(container: string, folder: string)
    requires '|' !in container && '|' !in folder
    ensures ParseTableDetails(AdfPipelines.TableDetailsEntry(container, folder, [])) ==
      Failure(MalformedItem(""))
  {
    var path := "/mnt/" + container + "/" + folder;
    assert AdfPipelines.TableDetailsEntry(container, folder, []) == path + ['|'] + "";
    Strings.SplitAtSeparator(path, "", '|');
  }

  /** Text with no `|`, or with two or more, is rejected before any table is looked at. */
  lemma ParseTableDetailsOfPipeCount(details: string)
    requires |Strings.Split(details, '|')| != 2
    ensures ParseTableDetails(details) == Failure(MalformedDetails(|Strings.Split(details, '|')|))
  {
  }
}

=== FILE: cidr.dfy ===
/**
 IPv4 subnetting in prefix notation (classless addressing, section 3.1 of
 RFC 4632), following Python's `ipaddress.ip_network(...).subnets(new_prefix)`
 as `generate_cidr` uses it: parse a network, list its subnets of a longer
 prefix, pick one by (possibly negative) list index, and print it.
 */
module Cidr {
  import opened Wrappers
  import Strings

  const AddressBits: nat := 32

  function Pow2(k: nat): (r: nat)
    ensures r >= 1
  {
    if k == 0 then 1 else 2 * Pow2(k - 1)
  }

  lemma {:induction false} Pow2Add(a: nat, b: nat)
    ensures Pow2(a + b) == Pow2(a) * Pow2(b)
    decreases a
  {
    if a > 0 {
      Pow2Add(a - 1, b);
      assert Pow2(a + b) == 2 * Pow2(a - 1 + b);
    }
  }

  lemma Pow2Values()
    ensures Pow2(8) == 256
    ensures Pow2(32) == 256 * 256 * 256 * 256
  {
    assert Pow2(8) == 256 by {
      assert Pow2(4) == 16;
    }
    Pow2Add(8, 8);
    Pow2Add(16, 16);
  }

  /**
   A network: the `index`-th block of `2^(32 - prefix)` consecutive
   addresses. Keeping the block number rather than the address makes the
   network address aligned by construction.
   */
  datatype Network = Network(index: nat, prefix: nat)

  predicate Valid(n: Network) {
    n.prefix <= AddressBits && n.index < Pow2(n.prefix)
  }

  function BlockSize(prefix: nat): nat
    requires prefix <= AddressBits
  {
    Pow2(AddressBits - prefix)
  }

  // Multiplication facts the subnet arithmetic rests on, stated over plain numbers.

  lemma {:induction false} MulAtLeast(x: int, d: nat)
    requires x >= 1
    ensures x * d >= d
    decreases x
  {
    if x > 1 {
      MulAtLeast(x - 1, d);
      assert x * d == (x - 1) * d + d;
    }
  }

  lemma MulMono(x: nat, y: nat, b: nat)
    requires x <= y
    ensures x * b <= y * b
  {
    if x < y {
      MulAtLeast(y - x, b);
      assert y * b == (y - x) * b + x * b;
    }
  }

  lemma MulLess(i: nat, m: nat, b: nat)
    requires i < m
    ensures i * b + b <= m * b
  {
    MulMono(i + 1, m, b);
    assert (i + 1) * b == i * b + b;
  }

  lemma DivBound(a: nat, m: nat, b: nat)
    requires b > 0 && a < m * b
    ensures a / b < m
  {
    var q := a / b;
    assert q * b <= a;
    if q >= m {
      MulMono(m, q, b);
    }
  }

  lemma MulNonzero(x: int, d: nat)
    requires x != 0
    ensures x * d >= d || x * d <= -(d as int)
  {
    if x > 0 {
      MulAtLeast(x, d);
    } else {
      MulAtLeast(-x, d);
      assert x * d == -((-x) * d);
    }
  }

  /** Euclidean division has only one answer. */
  lemma DivModUnique(a: nat, d: nat, q: nat, r: nat)
    requires d > 0 && r < d && a == q * d + r
    ensures a / d == q && a % d == r
  {
    var q', r' := a / d, a % d;
    assert (q - q') * d == r' - r;
    if q != q' {
      MulNonzero(q - q', d);
    }
  }

  /** The quotient of an offset below `m` blocks numbers the block holding it. */
  lemma BlockOfOffset(off: nat, m: nat, b: nat)
    requires b > 0 && off < m * b
    ensures off / b < m
    ensures (off / b) * b <= off < (off / b) * b + b
  {
    DivBound(off, m, b);
  }

  lemma MulDivExact(i: nat, b: nat)
    requires b > 0
    ensures (i * b) % b == 0 && (i * b) / b == i
  {
    DivModUnique(i * b, b, i, 0);
  }

  lemma Distribute(x: nat, m: nat, i: nat, b: nat)
    ensures (x * m + i) * b == x * (m * b) + i * b
  {
  }

  /** The network address, as a 32-bit number. */
  function Address(n: Network): (a: nat)
    requires Valid(n)
    ensures a + BlockSize(n.prefix) <= Pow2(AddressBits)
  {
    MulLess(n.index, Pow2(n.prefix), BlockSize(n.prefix));
    MulMono(0, n.index, BlockSize(n.prefix));
    Pow2Add(n.prefix, AddressBits - n.prefix);
    n.index * BlockSize(n.prefix)
  }

  /** A block of prefix `p` splits into `2^(k - p)` blocks of prefix `k`. */
  lemma BlockSplit(p: nat, k: nat)
    requires p <= k <= AddressBits
    ensures BlockSize(p) == Pow2(k - p) * BlockSize(k)
  {
    Pow2Add(k - p, AddressBits - k);
    assert (k - p) + (AddressBits - k) == AddressBits - p;
  }

  /** The addresses `n` covers. */
  predicate Covers(n: Network, a: nat)
    requires Valid(n)
  {
    Address(n) <= a < Address(n) + BlockSize(n.prefix)
  }

  datatype Error =
    | InvalidAddress(text: string)   // AddressValueError
    | InvalidPrefix(text: string)    // NetmaskValueError
    | HostBitsSet(text: string)      // ValueError: the address is not the network address
    | PrefixTooShort(newPrefix: int) // ValueError: new prefix must be longer
    | PrefixTooLong(newPrefix: int)  // ValueError: the prefix length difference is invalid
    | IndexOutOfRange(index: int)    // IndexError of the subnet list

  // ---------------------------------------------------------------------
  // Subnets
  // ---------------------------------------------------------------------

  /** The `i`-th subnet of `n` with prefix length `k`. */
  function Subnet(n: Network, k: nat, i: nat): (s: Network)
    requires Valid(n) && n.prefix <= k <= AddressBits && i < Pow2(k - n.prefix)
    ensures Valid(s) && s.prefix == k
  {
    MulLess(n.index, Pow2(n.prefix), Pow2(k - n.prefix));
    MulMono(0, n.index, Pow2(k - n.prefix));
    Pow2Add(n.prefix, k - n.prefix);
    Network(n.index * Pow2(k - n.prefix) + i, k)
  }

  /** `list(n.subnets(new_prefix=k))` */
  function Subnets(n: Network, k: int): (r: Result<seq<Network>, Error>)
    requires Valid(n)
    ensures r.Success? ==> forall j :: 0 <= j < |r.value| ==> Valid(r.value[j])
    ensures n.prefix == AddressBits ==> r == Success([n])
    ensures n.prefix < AddressBits ==> (r.Failure? <==> k < n.prefix || k > AddressBits)
    ensures n.prefix < AddressBits && n.prefix <= k <= AddressBits ==>
      |r.value| == Pow2(k - n.prefix) &&
      forall j :: 0 <= j < |r.value| ==> r.value[j] == Subnet(n, k, j)
  {
    if n.prefix == AddressBits then Success([n])
    else if k < n.prefix then Failure(PrefixTooShort(k))
    else if k > AddressBits then Failure(PrefixTooLong(k))
    else Success(seq(Pow2(k - n.prefix), j requires 0 <= j < Pow2(k - n.prefix) => Subnet(n, k, j)))
  }

  /** Where a subnet starts: `i` blocks of the new size after the parent's address. */
  lemma SubnetAddress(n: Network, k: nat, i: nat)
    requires Valid(n) && n.prefix <= k <= AddressBits && i < Pow2(k - n.prefix)
    ensures Address(Subnet(n, k, i)) == Address(n) + i * BlockSize(k)
  {
    Pow2Add(k - n.prefix, AddressBits - k);
    assert BlockSize(n.prefix) == Pow2(k - n.prefix) * BlockSize(k);
    Distribute(n.index, Pow2(k - n.prefix), i, BlockSize(k));
  }

  /** Every subnet lies inside its parent network. */
  lemma SubnetInside(n: Network, k: nat, i: nat)
    requires Valid(n) && n.prefix <= k <= AddressBits && i < Pow2(k - n.prefix)
    ensures forall a :: Covers(Subnet(n, k, i), a) ==> Covers(n, a)
  {
    SubnetAddress(n, k, i);
    Pow2Add(k - n.prefix, AddressBits - k);
    MulLess(i, Pow2(k - n.prefix), BlockSize(k));
  }

  /** Subnets at different positions share no address. */
  lemma SubnetsDisjoint(n: Network, k: nat, i: nat, j: nat)
    requires Valid(n) && n.prefix <= k <= AddressBits
    requires i < j < Pow2(k - n.prefix)
    ensures Address(Subnet(n, k, i)) + BlockSize(k) <= Address(Subnet(n, k, j))
    ensures forall a :: !(Covers(Subnet(n, k, i), a) && Covers(Subnet(n, k, j), a))
  {
    SubnetAddress(n, k, i);
    SubnetAddress(n, k, j);
    MulLess(i, j, BlockSize(k));
  }

  /** Every address of the parent lies in the subnet numbered by its offset. */
  lemma SubnetsCover(n: Network, k: nat, a: nat)
    requires Valid(n) && n.prefix <= k <= AddressBits && Covers(n, a)
    ensures exists i: nat :: i < Pow2(k - n.prefix) && Covers(Subnet(n, k, i), a)
  {
    BlockSplit(n.prefix, k);
    var base := Address(n);
    var b := BlockSize(k);
    var m := Pow2(k - n.prefix);
    assert base <= a < base + m * b;
    CoverStep(base, a, m, b);
    var i := (a - base) / b;
    assert i < m;
    SubnetAddress(n, k, i);
    assert Address(Subnet(n, k, i)) == base + i * b;
    assert Covers(Subnet(n, k, i), a);
  }

  lemma CoverStep(base: nat, a: nat, m: nat, b: nat)
    requires b > 0 && base <= a < base + m * b
    ensures 0 <= (a - base) / b < m
    ensures base + ((a - base) / b) * b <= a < base + ((a - base) / b) * b + b
  {
    BlockOfOffset(a - base, m, b);
  }

  // ---------------------------------------------------------------------
  // Text form
  // ---------------------------------------------------------------------

  /** The four bytes of an address, most significant first. */
  function Octets(a: nat): (r: seq<nat>)
    ensures |r| == 4 && r[1] < 256 && r[2] < 256 && r[3] < 256
  {
    [((a / 256) / 256) / 256, ((a / 256) / 256) % 256, (a / 256) % 256, a % 256]
  }

  function OctetsValue(o: seq<nat>): nat
    requires |o| == 4
  {
    ((o[0] * 256 + o[1]) * 256 + o[2]) * 256 + o[3]
  }

  lemma OctetsOfAddress(a: nat)
    requires a < Pow2(AddressBits)
    ensures Octets(a)[0] < 256 && OctetsValue(Octets(a)) == a
  {
    Pow2Values();
    var q1 := a / 256;
    var q2 := q1 / 256;
    assert q1 < 256 * 256 * 256;
    assert q2 < 256 * 256;
  }

  /** Dotted-quad text of an address. */
  function FormatAddress(a: nat): string
    requires a < Pow2(AddressBits)
  {
    OctetsOfAddress(a);
    Strings.Join(OctetTexts(Octets(a)), ".")
  }

  /** `network.exploded`: the network address, `/`, the prefix length. */
  function FormatNetwork(n: Network): string
    requires Valid(n)
  {
    FormatAddress(Address(n)) + "/" + Strings.NatToString(n.prefix)
  }

  /** One decimal byte: one to three digits, no leading zero, at most 255. */
  function ParseOctet(s: string): (r: Option<nat>)
    ensures r.Some? ==> r.value < 256
  {
    if 1 <= |s| <= 3 && Strings.AllDigits(s) && !(s != "0" && s[0] == '0') &&
       Strings.DigitsValue(s) < 256
    then Some(Strings.DigitsValue(s))
    else None
  }

  /** A dotted-quad address: exactly four octets. */
  function ParseAddress(s: string): (r: Option<nat>)
    ensures r.Some? ==> r.value < Pow2(AddressBits)
  {
    var parts := Strings.Split(s, '.');
    if |parts| != 4 then None
    else
      var o := seq(4, i requires 0 <= i < 4 => ParseOctet(parts[i]));
      if o[0].None? || o[1].None? || o[2].None? || o[3].None? then None
      else
        Pow2Values();
        Some(OctetsValue([o[0].value, o[1].value, o[2].value, o[3].value]))
  }

  /** A prefix length written as decimal digits (leading zeros allowed), at most 32. */
  function ParsePrefix(s: string): (r: Option<nat>)
    ensures r.Some? ==> r.value <= AddressBits
  {
    if |s| > 0 && Strings.AllDigits(s) && Strings.DigitsValue(s) <= AddressBits
    then Some(Strings.DigitsValue(s))
    else None
  }

  /** An address whose host bits are clear is the address of a valid network. */
  lemma AlignedNetwork(a: nat, prefix: nat)
    requires a < Pow2(AddressBits) && prefix <= AddressBits && a % BlockSize(prefix) == 0
    ensures Valid(Network(a / BlockSize(prefix), prefix))
    ensures Address(Network(a / BlockSize(prefix), prefix)) == a
  {
    Pow2Add(prefix, AddressBits - prefix);
    AlignedIndex(a, Pow2(prefix), BlockSize(prefix));
  }

  lemma AlignedIndex(a: nat, m: nat, b: nat)
    requires b > 0 && a < m * b && a % b == 0
    ensures a / b < m && (a / b) * b == a
  {
    DivBound(a, m, b);
  }

  /** `ip_network(text)` for IPv4 in prefix notation; a missing prefix means `/32`. */
  function ParseNetwork(text: string): (r: Result<Network, Error>)
    ensures r.Success? ==> Valid(r.value)
  {
    var parts := Strings.Split(text, '/');
    if |parts| > 2 then Failure(InvalidAddress(text))
    else match ParseAddress(parts[0])
      case None => Failure(InvalidAddress(parts[0]))
      case Some(a) =>
        if |parts| == 1 then NetworkAt(a, AddressBits, text)
        else match ParsePrefix(parts[1])
          case None => Failure(InvalidPrefix(parts[1]))
          case Some(prefix) => NetworkAt(a, prefix, text)
  }

  /** The network of an address and prefix length, unless host bits are set. */
  function NetworkAt(a: nat, prefix: nat, text: string): (r: Result<Network, Error>)
    requires a < Pow2(AddressBits) && prefix <= AddressBits
    ensures r.Success? ==> Valid(r.value) && Address(r.value) == a && r.value.prefix == prefix
    ensures r.Failure? <==> a % BlockSize(prefix) != 0
  {
    var size := BlockSize(prefix);
    if a % size != 0 then Failure(HostBitsSet(text))
    else
      AlignedNetwork(a, prefix);
      NatDiv(a, size);
      Success(Network(a / size, prefix))
  }

  lemma NatDiv(a: nat, b: nat)
    requires b > 0
    ensures a / b >= 0
  {
  }

  lemma OctetOfNatToString(v: nat)
    requires v < 256
    ensures ParseOctet(Strings.NatToString(v)) == Some(v)
  {
    Strings.NatToStringLength(v);
    Strings.DigitsValueOfNatToString(v);
  }

  lemma ParseAddressOfFormat(a: nat)
    requires a < Pow2(AddressBits)
    ensures ParseAddress(FormatAddress(a)) == Some(a)
    ensures '/' !in FormatAddress(a)
  {
    OctetsOfAddress(a);
    var o := Octets(a);
    var parts := OctetTexts(o);
    Strings.SplitJoin(parts, '.');
    Strings.JoinExcludes(parts, ".", '/');
    ParseAddressOfOctets(FormatAddress(a), parts, o);
  }

  /** The decimal texts of four octets: digit strings that read back as the octets. */
  function OctetTexts(o: seq<nat>): (parts: seq<string>)
    requires |o| == 4 && o[0] < 256 && o[1] < 256 && o[2] < 256 && o[3] < 256
    ensures |parts| == 4
    ensures forall i :: 0 <= i < 4 ==> '.' !in parts[i] && '/' !in parts[i] && ParseOctet(parts[i]) == Some(o[i])
  {
    var parts := [Strings.NatToString(o[0]), Strings.NatToString(o[1]),
                  Strings.NatToString(o[2]), Strings.NatToString(o[3])];
    DigitsAvoid(parts[0]);
    DigitsAvoid(parts[1]);
    DigitsAvoid(parts[2]);
    DigitsAvoid(parts[3]);
    OctetOfNatToString(o[0]);
    OctetOfNatToString(o[1]);
    OctetOfNatToString(o[2]);
    OctetOfNatToString(o[3]);
    parts
  }

  lemma ParseAddressOfOctets(s: string, parts: seq<string>, o: seq<nat>)
    requires |parts| == 4 && |o| == 4 && Strings.Split(s, '.') == parts
    requires forall i :: 0 <= i < 4 ==> ParseOctet(parts[i]) == Some(o[i])
    ensures ParseAddress(s) == Some(OctetsValue(o))
  {
    assert [o[0], o[1], o[2], o[3]] == o;
  }

  lemma DigitsAvoid(s: string)
    requires Strings.AllDigits(s)
    ensures '.' !in s && '/' !in s
  {
    assert forall i :: 0 <= i < |s| ==> s[i] != '.' && s[i] != '/' by {
      forall i | 0 <= i < |s|
        ensures s[i] != '.' && s[i] != '/'
      {
        assert Strings.IsDigit(s[i]);
      }
    }
  }


  /** Printing a network and reading it back gives the same network. */
  lemma ParseNetworkOfFormat(n: Network)
    requires Valid(n)
    ensures ParseNetwork(FormatNetwork(n)) == Success(n)
  {
    var a := Address(n);
    var p := Strings.NatToString(n.prefix);
    ParseAddressOfFormat(a);
    DigitsAvoid(p);
    Strings.SplitAtSeparator(FormatAddress(a), p, '/');
    Strings.SplitNoSeparator(p, '/');
    assert FormatNetwork(n) == FormatAddress(a) + ['/'] + p;
    Strings.DigitsValueOfNatToString(n.prefix);
    assert ParsePrefix(p) == Some(n.prefix);
    MulDivExact(n.index, BlockSize(n.prefix));
  }

  // ---------------------------------------------------------------------
  // generate_cidr
  // ---------------------------------------------------------------------

  /** Python list indexing: negative positions count from the end. */
  function ListIndex(length: nat, index: int): (r: Option<nat>)
    ensures r.Some? <==> -(length as int) <= index < length
    ensures r.Some? ==> r.value < length && (r.value == index || r.value == length + index)
  {
    if 0 <= index < length then Some(index)
    else if -(length as int) <= index < 0 then Some(length + index)
    else None
  }

  /** The text of the subnet of `n` with prefix `k` at list position `index`. */
  function PickSubnet(n: Network, k: int, index: int): (r: Result<string, Error>)
    requires Valid(n)
  {
    var subnets :- Subnets(n, k);
    match ListIndex(|subnets|, index)
      case None => Failure(IndexOutOfRange(index))
      case Some(j) => Success(FormatNetwork(subnets[j]))
  }

  /** `generate_cidr(cidr_subnet, new_prefix, network_number)` */
  function GenerateCidr(cidr: string, newPrefix: int, index: int): (r: Result<string, Error>)
    ensures ParseNetwork(cidr).Failure? ==> r == Failure(ParseNetwork(cidr).error)
    ensures ParseNetwork(cidr).Success? ==> r == PickSubnet(ParseNetwork(cidr).value, newPrefix, index)
  {
    var n :- ParseNetwork(cidr);
    PickSubnet(n, newPrefix, index)
  }

  lemma PickSubnetValue(n: Network, k: nat, i: nat)
    requires Valid(n) && n.prefix < AddressBits && n.prefix <= k <= AddressBits
    requires i < Pow2(k - n.prefix)
    ensures PickSubnet(n, k, i) == Success(FormatNetwork(Subnet(n, k, i)))
  {
    var subnets := Subnets(n, k);
    assert subnets.Success? && |subnets.value| == Pow2(k - n.prefix);
    assert subnets.value[i] == Subnet(n, k, i);
    assert ListIndex(|subnets.value|, i) == Some(i);
  }

  /**
   With a prefix between the parent's and 32 and an index in range, the
   result is the text of that subnet: it reads back as a network with the
   new prefix that lies inside the parent.
   */
  lemma GenerateCidrIsSubnet(cidr: string, n: Network, k: nat, i: nat)
    requires ParseNetwork(cidr) == Success(n)
    requires n.prefix < AddressBits && n.prefix <= k <= AddressBits
    requires i < Pow2(k - n.prefix)
    ensures Valid(n)
    ensures var s := Subnet(n, k, i);
      GenerateCidr(cidr, k, i) == Success(FormatNetwork(s)) && ParseNetwork(FormatNetwork(s)) == Success(s)
    ensures forall a :: Covers(Subnet(n, k, i), a) ==> Covers(n, a)
  {
    PickSubnetValue(n, k, i);
    ParseNetworkOfFormat(Subnet(n, k, i));
    SubnetInside(n, k, i);
  }

  /** An index past the end of the subnet list (or before its start) raises. */
  lemma GenerateCidrIndexOutOfRange(cidr: string, n: Network, k: nat, i: int)
    requires ParseNetwork(cidr) == Success(n)
    requires n.prefix < AddressBits && n.prefix <= k <= AddressBits
    requires i >= Pow2(k - n.prefix) || i < -(Pow2(k - n.prefix) as int)
    ensures GenerateCidr(cidr, k, i) == Failure(IndexOutOfRange(i))
  {
    assert Valid(n);
    assert |Subnets(n, k).value| == Pow2(k - n.prefix);
  }

  /** A new prefix shorter than the parent's, or longer than 32, raises. */
  lemma GenerateCidrBadPrefix(cidr: string, n: Network, k: int, i: int)
    requires n.prefix < AddressBits
    requires k < n.prefix || k > AddressBits
    ensures ParseNetwork(cidr) == Success(n) ==> GenerateCidr(cidr, k, i).Failure?
    ensures ParseNetwork(cidr) == Success(n) && k < n.prefix ==> GenerateCidr(cidr, k, i) == Failure(PrefixTooShort(k))
  {
    if ParseNetwork(cidr) == Success(n) {
      assert Valid(n);
    }
  }

  /** A single-address network is its own only subnet, whatever prefix is asked for. */
  lemma GenerateCidrOfHost(cidr: string, n: Network, k: int, i: int)
    requires ParseNetwork(cidr) == Success(n) && n.prefix == AddressBits
    ensures Valid(n)
    ensures GenerateCidr(cidr, k, i) ==
      if i == 0 || i == -1 then Success(FormatNetwork(n))
      else Failure(IndexOutOfRange(i))
  {
    assert Valid(n);
  }
}

=== FILE: config.dfy ===
/**
 The platform configuration: Azure regions and their short names, stack
 short names, the order in which configuration files are merged, the
 default environments of the shared stack, the read-only item access, and
 the nested lookup of outputs shared by the shared stack.
 */
module Config {
  import opened Wrappers
  import Strings
  import Json

  datatype Error =
    | RegionNotFound(name: string)   // CloudRegionException
    | ReadOnlyConfiguration          // `__setitem__`
    | InvalidInteger(text: string)   // `int(...)` of the environment variable
    | NotADictionary(key: string)    // `.get` on a value that is not a dictionary

  // ---------------------------------------------------------------------
  // Regions
  // ---------------------------------------------------------------------

  /** The regions with their canonical names and short names, in table order. */
  const Regions: seq<(string, string)> := [
    ("EastUS", "eus"),
    ("EastUS2", "eus2"),
    ("CentralUS", "cus"),
    ("NorthCentralUS", "ncus"),
    ("SouthCentralUS", "scus"),
    ("WestCentralUS", "wcus"),
    ("WestUS", "wus"),
    ("WestUS2", "wus2"),
    ("WestUS3", "wus3"),
    ("AustraliaEast", "aue"),
    ("AustraliaCentral", "auc"),
    ("AustraliaCentral2", "auc2"),
    ("AustraliaSouthEast", "ause"),
    ("SouthAfricaNorth", "san"),
    ("SouthAfricaWest", "saw"),
    ("CentralIndia", "cin"),
    ("SouthIndia", "sin"),
    ("WestIndia", "win"),
    ("EastAsia", "eas"),
    ("SouthEastAsia", "seas"),
    ("JapanEast", "jpe"),
    ("JapanWest", "jpw"),
    ("JioIndiaWest", "jinw"),
    ("JioIndiaCentral", "jinc"),
    ("KoreaCentral", "koc"),
    ("KoreaSouth", "kos"),
    ("CanadaCentral", "cac"),
    ("CanadaEast", "cae"),
    ("FranceCentral", "frc"),
    ("FranceSouth", "frs"),
    ("GermanyWestCentral", "gewc"),
    ("GermanyNorth", "gen"),
    ("NorwayEast", "nwye"),
    ("NorwayWest", "nwyw"),
    ("SwitzerlandNorth", "swn"),
    ("SwitzerlandWest", "sww"),
    ("UAENorth", "uaen"),
    ("UAECentral", "uaec"),
    ("BrazilSouth", "brs"),
    ("BrazilSouthEast", "brse"),
    ("NorthEurope", "neu"),
    ("WestEurope", "weu"),
    ("SwedenCentral", "swec"),
    ("SwedenSouth", "swes"),
    ("UKSouth", "uks"),
    ("UKWest", "ukw")
  ]

  /** `{k.lower(): v for k, v in rs}`: a later entry wins over an earlier one. */
  function LowercaseKeys(rs: seq<(string, string)>): (m: map<string, string>)
    ensures forall n :: n in m <==> exists i :: 0 <= i < |rs| && Strings.Lower(rs[i].0) == n
    decreases |rs|
  {
    if |rs| == 0 then map[]
    else
      var init := rs[..|rs| - 1];
      var last := rs[|rs| - 1];
      assert forall i :: 0 <= i < |init| ==> init[i] == rs[i];
      LowercaseKeys(init)[Strings.Lower(last.0) := last.1]
  }

  /** The value stored for `n` is that of the last entry whose key lower-cases to `n`. */
  lemma {:induction false} LowercaseKeysLast(rs: seq<(string, string)>, n: string)
    requires n in LowercaseKeys(rs)
    ensures exists j :: (0 <= j < |rs| && Strings.Lower(rs[j].0) == n &&
                         LowercaseKeys(rs)[n] == rs[j].1 &&
                         forall i :: j < i < |rs| ==> Strings.Lower(rs[i].0) != n)
    decreases |rs|
  {
    var init := rs[..|rs| - 1];
    var j := |rs| - 1;
    if Strings.Lower(rs[j].0) != n {
      LowercaseKeysLast(init, n);
      var k :| 0 <= k < |init| && Strings.Lower(init[k].0) == n && LowercaseKeys(init)[n] == init[k].1 &&
        forall i :: k < i < |init| ==> Strings.Lower(init[i].0) != n;
      assert rs[k] == init[k];
      assert forall i :: k < i < |rs| ==> Strings.Lower(rs[i].0) != n by {
        forall i | k < i < |rs|
          ensures Strings.Lower(rs[i].0) != n
        {
          if i < |init| {
            assert rs[i] == init[i];
          }
        }
      }
    }
  }

  /** The first key of `rs` that lower-cases to `n`, as `long_name` searches. */
  function FirstKey(rs: seq<(string, string)>, n: string): (r: Option<string>)
    ensures r.Some? ==> Strings.Lower(r.value) == n
    ensures r.None? <==> forall i :: 0 <= i < |rs| ==> Strings.Lower(rs[i].0) != n
  {
    if |rs| == 0 then None
    else if Strings.Lower(rs[0].0) == n then Some(rs[0].0)
    else
      assert forall i :: 1 <= i < |rs| ==> rs[i] == rs[1..][i - 1];
      FirstKey(rs[1..], n)
  }

  /** A region, by its lower-cased name. */
  datatype Region = Region(name: string)

  predicate KnownRegion(r: Region) {
    r.name in LowercaseKeys(Regions)
  }

  /** `CloudRegion(name)`: the name is lower-cased and must be in the table. */
  function CloudRegion(name: string): (r: Result<Region, Error>)
    ensures r.Success? <==> Strings.Lower(name) in LowercaseKeys(Regions)
    ensures r.Success? ==> r.value == Region(Strings.Lower(name)) && KnownRegion(r.value)
    ensures r.Failure? ==> r.error == RegionNotFound(Strings.Lower(name))
  {
    var n := Strings.Lower(name);
    if n in LowercaseKeys(Regions) then Success(Region(n)) else Failure(RegionNotFound(n))
  }

  /** The text of the region-not-found exception. */
  function RegionNotFoundMessage(name: string): string {
    "Region with name'" + name + "' not found!"
  }

  /** Region names are matched without regard to letter case. */
  lemma CloudRegionIgnoresCase(a: string, b: string)
    requires Strings.Lower(a) == Strings.Lower(b)
    ensures CloudRegion(a) == CloudRegion(b)
  {
  }

  /** `short_name`: the table value of the region. */
  function ShortName(r: Region): (s: string)
    requires KnownRegion(r)
    ensures exists j :: 0 <= j < |Regions| && Strings.Lower(Regions[j].0) == r.name && s == Regions[j].1
  {
    LowercaseKeysLast(Regions, r.name);
    LowercaseKeys(Regions)[r.name]
  }

  /** `long_name`: the canonical spelling of the region's name. */
  function LongName(r: Region): (s: Option<string>)
    ensures KnownRegion(r) ==> s.Some?
    ensures s.Some? ==> Strings.Lower(s.value) == r.name
  {
    FirstKey(Regions, r.name)
  }

  /** The long name of a region names the same region again. */
  lemma LongNameRoundTrip(r: Region)
    requires KnownRegion(r)
    ensures LongName(r).Some? && CloudRegion(LongName(r).value) == Success(r)
  {
  }

  // ---------------------------------------------------------------------
  // Stack names
  // ---------------------------------------------------------------------

  /** The stack short name of the current naming convention. */
  function StackShortName(stack: string): (r: string)
    ensures Strings.Lower(stack) == "test" ==> r == "tst"
    ensures Strings.Lower(stack) == "prod" ==> r == "prd"
    ensures Strings.Lower(stack) == "shared" ==> r == "shr"
    ensures Strings.Lower(stack) !in {"test", "prod", "shared"} ==> r == Strings.Lower(stack)
  {
    var s := Strings.Lower(stack);
    if s == "test" then "tst" else if s == "prod" then "prd" else if s == "shared" then "shr" else s
  }

  /** The short name is lower-case, and shortening it again changes nothing. */
  lemma StackShortNameIdempotent(stack: string)
    ensures Strings.Lower(StackShortName(stack)) == StackShortName(stack)
    ensures StackShortName(StackShortName(stack)) == StackShortName(stack)
  {
    Strings.LowerIdempotent(stack);
    var s := Strings.Lower(stack);
    assert Strings.Lower("tst") == "tst";
    assert Strings.Lower("prd") == "prd";
    assert Strings.Lower("shr") == "shr";
  }

  /** `stack_short_name`: the full lower-cased stack name under legacy naming. */
  function ReportedStackShortName(stack: string, useLegacyNaming: bool): (r: string)
    ensures useLegacyNaming ==> r == Strings.Lower(stack)
    ensures !useLegacyNaming ==> r == StackShortName(stack)
  {
    if useLegacyNaming then Strings.Lower(stack) else StackShortName(stack)
  }

  // ---------------------------------------------------------------------
  // Configuration files
  // ---------------------------------------------------------------------

  /** Where a stack-specific default would be: `defaults.yml` becomes `defaults.{stack}.yml`. */
  function StackDefaultPath(defaultPath: string, stack: string): string {
    Strings.Replace(defaultPath, "defaults.yml", "defaults." + stack + ".yml")
  }

  /**
   The files merged into the configuration, in merge order: the default,
   then the stack's own default if it exists and is not the default itself,
   then the custom file if one is given. `existing` stands for the files
   on disk.
   */
  function MergeFiles(defaultPath: string, stack: string, existing: set<string>,
                      custom: Option<string>): (r: seq<string>)
    ensures var sd := StackDefaultPath(defaultPath, stack);
      var withStack := sd in existing && sd != defaultPath;
      var withCustom := custom.Some? && |custom.value| > 0;
      |r| == 1 + (if withStack then 1 else 0) + (if withCustom then 1 else 0) &&
      r[0] == defaultPath &&
      (withStack ==> r[1] == sd) &&
      (withCustom ==> r[|r| - 1] == custom.value)
  {
    var files := [defaultPath];
    var sd := StackDefaultPath(defaultPath, stack);
    var files := if sd in existing && sd !in files then files + [sd] else files;
    if custom.Some? && |custom.value| > 0 then files + [custom.value] else files
  }

  /** A default file whose path does not mention `defaults.yml` never gets a stack file. */
  lemma NoStackFileWithoutDefaultsName(defaultPath: string, stack: string, existing: set<string>,
                                       custom: Option<string>)
    requires !Strings.Contains(defaultPath, "defaults.yml")
    ensures MergeFiles(defaultPath, stack, existing, custom) ==
      [defaultPath] + (if custom.Some? && |custom.value| > 0 then [custom.value] else [])
  {
    Strings.ReplaceAbsent(defaultPath, "defaults.yml", "defaults." + stack + ".yml");
  }

  // ---------------------------------------------------------------------
  // General settings
  // ---------------------------------------------------------------------

  const SharedEnvironments: seq<string> := ["dev", "test", "prod"]

  /**
   The `environments` setting after construction: the shared stack with no
   (or an empty) list gets `dev`, `test` and `prod`; anything else is kept.
   */
  function Environments(stack: string, configured: Json.Value): (r: Json.Value)
    ensures Strings.Lower(stack) == "shared" ==> Json.Truthy(r)
    ensures Json.Truthy(configured) ==> r == configured
    ensures Strings.Lower(stack) != "shared" ==> r == configured
  {
    if Strings.Lower(stack) == "shared" && !Json.Truthy(configured)
    then Json.List([Json.Str("dev"), Json.Str("test"), Json.Str("prod")])
    else configured
  }

  /** `config[key] = value` is refused. */
  function SetItem(key: string, value: Json.Value): (r: Result<(), Error>)
    ensures r == Failure(ReadOnlyConfiguration)
  {
    Failure(ReadOnlyConfiguration)
  }

  /**
   `bool(int(getenv("ENABLE_RESOURCE_PROTECTION", 1)))`: on unless the
   variable holds a zero.
   */
  function ResourceProtection(variable: Option<string>): (r: Result<bool, Error>)
    ensures variable.None? ==> r == Success(true)
    ensures variable.Some? ==> (r.Failure? <==> Strings.ParseInt(variable.value).None?)
    ensures variable.Some? && r.Success? ==> (r.value <==> Strings.ParseInt(variable.value).value != 0)
  {
    if variable.None? then Success(true)
    else match Strings.ParseInt(variable.value)
      case None => Failure(InvalidInteger(variable.value))
      case Some(i) => Success(i != 0)
  }

  /** Setting the variable to `0` switches protection off, and `1` keeps it on. */
  lemma ResourceProtectionSwitch()
    ensures ResourceProtection(Some("0")) == Success(false)
    ensures ResourceProtection(Some("1")) == Success(true)
  {
    assert Strings.ParseInt("0") == Some(0) by {
      Strings.ParseIntOfIntToString(0);
      assert Strings.IntToString(0) == "0";
    }
    assert Strings.ParseInt("1") == Some(1) by {
      Strings.ParseIntOfIntToString(1);
      assert Strings.IntToString(1) == "1";
    }
  }

  /**
   The value is read as Python reads an integer: surrounding whitespace and
   underscores between digits are accepted, a doubled underscore is not.
   */
  lemma ResourceProtectionPythonSyntax()
    ensures ResourceProtection(Some(" 0")) == Success(false)
    ensures ResourceProtection(Some("1_0")) == Success(true)
    ensures ResourceProtection(Some("1__0")) == Failure(InvalidInteger("1__0"))
  {
    assert ResourceProtection(Some(" 0")) == Success(false) by {
      Strings.ParseIntSpaces();
    }
    assert ResourceProtection(Some("1_0")) == Success(true) by {
      Strings.ParseIntUnderscores();
    }
    Strings.ParseIntRejectsUnderscores();
  }

  // ---------------------------------------------------------------------
  // Shared stack outputs
  // ---------------------------------------------------------------------

  /** A stack output: known, or not yet known during a preview. */
  datatype Output = Known(value: Json.Value) | Unknown

  /** One step of the lookup: `val.get(key, {})`, with unknown values staying unknown. */
  function Lift(current: Output, key: string): (r: Result<Output, Error>)
    ensures current.Unknown? ==> r == Success(Unknown)
    ensures current.Known? && current.value.Object? ==>
      r == Success(Known(if key in current.value.fields then current.value.fields[key] else Json.EmptyObject))
    ensures r.Failure? <==> current.Known? && !current.value.Object?
  {
    match current
    case Unknown => Success(Unknown)
    case Known(v) =>
      match Json.GetOr(v, key, Json.EmptyObject)
      case None => Failure(NotADictionary(key))
      case Some(w) => Success(Known(w))
  }

  /** The lookup through every key in turn. */
  function Follow(current: Output, keys: seq<string>): Result<Output, Error>
    decreases |keys|
  {
    if |keys| == 0 then Success(current)
    else
      var next :- Lift(current, keys[0]);
      Follow(next, keys[1..])
  }

  /**
   `SharedOutput.get(*keys, preview=...)`: an empty dictionary at the end of
   the lookup is replaced by `preview` during a dry run.
   */
  function SharedGet(outputs: Output, keys: seq<string>, preview: Json.Value, dryRun: bool): (r: Result<Output, Error>)
    ensures Follow(outputs, keys).Failure? ==> r.Failure?
    ensures Follow(outputs, keys).Success? && !dryRun ==> r == Follow(outputs, keys)
    ensures Follow(outputs, keys) == Success(Known(Json.EmptyObject)) && dryRun ==> r == Success(Known(preview))
    ensures Follow(outputs, keys).Success? && dryRun && Follow(outputs, keys).value != Known(Json.EmptyObject) ==>
      r == Follow(outputs, keys)
  {
    var found :- Follow(outputs, keys);
    if found == Known(Json.EmptyObject) && dryRun then Success(Known(preview)) else Success(found)
  }

  /** Strict nested indexing `v[k0][k1]...`: the reference the lookup is compared with. */
  function Index(v: Json.Value, keys: seq<string>): Option<Json.Value>
    decreases |keys|
  {
    if |keys| == 0 then Some(v)
    else if v.Object? && keys[0] in v.fields then Index(v.fields[keys[0]], keys[1..])
    else None
  }

  /** Where every key is present, the lookup finds what strict indexing finds. */
  lemma {:induction false} FollowPresent(v: Json.Value, keys: seq<string>)
    requires Index(v, keys).Some?
    ensures Follow(Known(v), keys) == Success(Known(Index(v, keys).value))
    decreases |keys|
  {
    if |keys| > 0 {
      FollowPresent(v.fields[keys[0]], keys[1..]);
    }
  }

  /** Once a key is missing the lookup stays at `{}` through any further keys. */
  lemma {:induction false} FollowEmpty(keys: seq<string>)
    ensures Follow(Known(Json.EmptyObject), keys) == Success(Known(Json.EmptyObject))
    decreases |keys|
  {
    if |keys| > 0 {
      FollowEmpty(keys[1..]);
    }
  }

  /** A lookup that starts from an unknown output stays unknown. */
  lemma {:induction false} FollowUnknown(keys: seq<string>)
    ensures Follow(Unknown, keys) == Success(Unknown)
    decreases |keys|
  {
    if |keys| > 0 {
      FollowUnknown(keys[1..]);
    }
  }

  /**
   A key missing at some depth gives `{}`, or `preview` during a dry run,
   whatever keys follow it.
   */
  lemma {:induction false} SharedGetMissing(v: Json.Value, keys: seq<string>, depth: nat,
                                            preview: Json.Value, dryRun: bool)
    requires depth < |keys|
    requires Index(v, keys[..depth]).Some? && Index(v, keys[..depth]).value.Object?
    requires keys[depth] !in Index(v, keys[..depth]).value.fields
    ensures SharedGet(Known(v), keys, preview, dryRun) ==
      Success(Known(if dryRun then preview else Json.EmptyObject))
  {
    FollowMissing(v, keys, depth);
  }

  /**
   Where every key is present, the value found is returned, except that a
   final `{}` becomes `preview` during a dry run.
   */
  lemma SharedGetPresent(v: Json.Value, keys: seq<string>, preview: Json.Value, dryRun: bool)
    requires Index(v, keys).Some?
    ensures SharedGet(Known(v), keys, preview, dryRun) ==
      Success(Known(if dryRun && Index(v, keys).value == Json.EmptyObject then preview else Index(v, keys).value))
  {
    FollowPresent(v, keys);
  }

  lemma {:induction false} FollowMissing(v: Json.Value, keys: seq<string>, depth: nat)
    requires depth < |keys|
    requires Index(v, keys[..depth]).Some? && Index(v, keys[..depth]).value.Object?
    requires keys[depth] !in Index(v, keys[..depth]).value.fields
    ensures Follow(Known(v), keys) == Success(Known(Json.EmptyObject))
    decreases depth
  {
    if depth == 0 {
      FollowEmpty(keys[1..]);
    } else {
      assert keys[..depth][0] == keys[0];
      assert keys[..depth][1..] == keys[1..][..depth - 1];
      FollowMissing(v.fields[keys[0]], keys[1..], depth - 1);
    }
  }
}

=== FILE: config_registry.dfy ===
/**
 The configuration-registry client: a key vault named by its resource id,
 read through the vault with a fallback to the values set during the
 current deployment.
 */
module ConfigRegistry {
  import opened Wrappers
  import Strings

  datatype Error =
    | SegmentMissing(segments: nat)   // IndexError: fewer than eight segments
    | WrongArgumentType               // TypeError of the constructor
    | KeyNotFound(message: string)    // KeyError of the fallback lookup
    | VaultError(message: string)     // the vault's own exception, re-raised

  /** What `_parse_key_vault_resource_id` extracts. */
  datatype KeyVault = KeyVault(id: string, name: string, resourceGroupName: string)

  /** `_parse_key_vault_resource_id`: the non-empty `/`-segments, name at 7, resource group at 3. */
  function ParseResourceId(resourceId: string): (r: Result<KeyVault, Error>)
    ensures var segs := Strings.Segments(resourceId);
      (r.Success? <==> |segs| >= 8) &&
      (r.Success? ==> r.value == KeyVault(resourceId, segs[7], segs[3])) &&
      (r.Failure? ==> r.error == SegmentMissing(|segs|))
  {
    var segs := Strings.Segments(resourceId);
    if |segs| < 8 then Failure(SegmentMissing(|segs|))
    else Success(KeyVault(resourceId, segs[7], segs[3]))
  }

  /** A resource id `/subscriptions/{s}/resourceGroups/{g}/providers/{p}/{t}/{n}`, with `/`s inside `p` allowed. */
  function ResourceId(parts: seq<string>): string {
    "/" + Strings.Join(parts, "/")
  }

  /** Parsing an id built from eight clean segments recovers the group and the name. */
  lemma ParseResourceIdOfParts(parts: seq<string>)
    requires |parts| == 8
    requires forall i :: 0 <= i < |parts| ==> parts[i] != "" && '/' !in parts[i]
    ensures ParseResourceId(ResourceId(parts)) == Success(KeyVault(ResourceId(parts), parts[7], parts[3]))
  {
    Strings.SegmentsOfRootedJoin(parts);
  }

  /** How the vault id reaches the constructor. */
  datatype Argument = Text(id: string) | Deferred(id: string) | OtherValue

  /**
   The constructor: a string is parsed at once, a deferred output when it
   resolves (the same parse), anything else is refused.
   */
  function Construct(arg: Argument): (r: Result<KeyVault, Error>)
    ensures arg.OtherValue? ==> r == Failure(WrongArgumentType)
    ensures !arg.OtherValue? ==> r == ParseResourceId(arg.id)
  {
    match arg
    case Text(id) => ParseResourceId(id)
    case Deferred(id) => ParseResourceId(id)
    case OtherValue => Failure(WrongArgumentType)
  }

  /**
   The values set through any client. The store is one class attribute,
   so it is passed here independently of the client.
   */
  type Store = map<string, string>

  /** A secret declared in the vault by `set_value`. */
  datatype Secret = Secret(resourceName: string, secretName: string, value: string,
                           resourceGroupName: string, vaultName: string)

  function NotFoundMessage(key: string): string {
    "The key '" + key + "' not found in the config registry vault."
  }

  /** Whether a vault error means the secret does not exist yet. */
  predicate MissingSecret(message: string) {
    Strings.Contains(message, "KeyVault") && Strings.Contains(message, "does not exist")
  }

  /**
   `get_value`: `fetched` is what reading the secret from the vault gave,
   a value or the text of the error raised.
   */
  function GetValue(values: Store, key: string, fetched: Result<string, string>): (r: Result<string, Error>)
    ensures fetched.Success? ==> r == Success(fetched.value)
    ensures fetched.Failure? && !MissingSecret(fetched.error) ==> r == Failure(VaultError(fetched.error))
    ensures fetched.Failure? && MissingSecret(fetched.error) ==>
      r == (if key in values then Success(values[key]) else Failure(KeyNotFound(NotFoundMessage(key))))
  {
    match fetched
    case Success(v) => Success(v)
    case Failure(message) =>
      if MissingSecret(message) then
        if key in values then Success(values[key]) else Failure(KeyNotFound(NotFoundMessage(key)))
      else Failure(VaultError(message))
  }

  /**
   `set_value`: records the value, then declares the secret. `declared`
   says whether declaring it succeeded; the value is recorded either way.
   */
  function SetValue(values: Store, vault: KeyVault, key: string, value: string,
                    declared: Result<(), string>): (r: (Store, Result<Secret, Error>))
    ensures r.0 == values[key := value]
    ensures declared.Success? ==>
      r.1 == Success(Secret("config-registry-" + key, key, value, vault.resourceGroupName, vault.name))
    ensures declared.Failure? ==> r.1 == Failure(VaultError(declared.error))
  {
    var stored := values[key := value];
    match declared
    case Success(_) => (stored, Success(Secret("config-registry-" + key, key, value, vault.resourceGroupName, vault.name)))
    case Failure(message) => (stored, Failure(VaultError(message)))
  }

  /**
   A value set through one client is read back through any other while
   the vault does not have the secret yet.
   */
  lemma GetAfterSet(values: Store, writer: KeyVault, key: string, value: string,
                    declared: Result<(), string>, message: string)
    requires MissingSecret(message)
    ensures GetValue(SetValue(values, writer, key, value, declared).0, key, Failure(message)) == Success(value)
  {
  }

  /** Setting one key leaves what the others read unchanged. */
  lemma GetOtherAfterSet(values: Store, writer: KeyVault, key: string, other: string, value: string,
                         declared: Result<(), string>, fetched: Result<string, string>)
    requires other != key
    ensures GetValue(SetValue(values, writer, key, value, declared).0, other, fetched) ==
      GetValue(values, other, fetched)
  {
  }

  /** Errors other than a missing secret are raised whatever has been stored. */
  lemma OtherErrorsRaised(a: Store, b: Store, key: string, message: string)
    requires !MissingSecret(message)
    ensures GetValue(a, key, Failure(message)) == GetValue(b, key, Failure(message)) == Failure(VaultError(message))
  {
  }
}

=== FILE: data_pipeline.dfy ===
/**
 The file-ingestion notebook of the engineering Databricks workspace.

 One run ingests one file increment of one source table. Its progress is
 kept in an orchestration ledger entry that moves through the stages
 NEW, ARCHIVED, STAGED, CLEANED, INSERTED and COMPLETED; each block of the
 notebook runs only when the entry is at the stage just before the one it
 sets, so a re-run resumes where a previous run stopped. A final re-read of
 the stage decides whether the run succeeded, and only then is the data
 propagated downstream.

 The Spark, dbt and Azure collaborators (archiving, staging, the dbt test
 runner, merging, tidying, propagation) are not modelled; their outcomes
 for this run are given as a `Collaborators` record, and the work the
 notebook asks of them is recorded, in order, as a trace of `Action`s.
 */
module Ingestion {
  import opened Wrappers
  import Strings

  // ---------------------------------------------------------------------
  // Stages
  // ---------------------------------------------------------------------

  datatype Stage = New | Archived | Staged | Cleaned | Inserted | Completed

  /** Position of a stage in the pipeline order. */
  function Rank(s: Stage): (n: nat)
    ensures n <= 5
    ensures n == 0 <==> s == New
    ensures n == 5 <==> s == Completed
  {
    match s
    case New => 0
    case Archived => 1
    case Staged => 2
    case Cleaned => 3
    case Inserted => 4
    case Completed => 5
  }

  /** The stage a block moves an entry to from stage `s`. */
  function Next(s: Stage): (t: Stage)
    requires s != Completed
    ensures Rank(t) == Rank(s) + 1
  {
    match s
    case New => Archived
    case Archived => Staged
    case Staged => Cleaned
    case Cleaned => Inserted
    case Inserted => Completed
  }

  /** Stages are identified by their rank. */
  lemma RankInjective(s: Stage, t: Stage)
    ensures Rank(s) == Rank(t) <==> s == t
  {
  }

  // ---------------------------------------------------------------------
  // Parameters
  // ---------------------------------------------------------------------

  /** The notebook widgets; an absent widget reads as `None`. */
  datatype Params = Params(
    fileName: Option<string>,
    increment: Option<string>,
    source: Option<string>,
    table: Option<string>,
    filePath: Option<string>)

  datatype Step =
    | ArchiveFile | PreProcessFile | CreateFileTable | PrepareYml | RunTests
    | MoveToReview | AddToSourceTable | RemoveFileTable | ProjectConfig | Propagate

  datatype Failure =
    | MalformedFilePath(path: string)
    | InvalidParameters
    | BadIncrement(increment: string)
    | SourceUnavailable
    | UnknownTable(message: string)
    | SchemaMismatch
    | CollaboratorFailed(step: Step)
    | TestsFailed(message: string)
    | Incomplete(stage: Stage)

  /**
   `file_path.replace("raw/", "").strip("/").split("/")` unpacked into two
   names; any other number of pieces fails the unpacking.
   */
  function SplitFilePath(path: string): (r: Option<(string, string)>)
    ensures r.Some? ==>
      var trimmed := Strings.Strip(Strings.Replace(path, "raw/", ""), '/');
      '/' !in r.value.0 && '/' !in r.value.1 &&
      r.value.0 + "/" + r.value.1 == trimmed
  {
    var trimmed := Strings.Strip(Strings.Replace(path, "raw/", ""), '/');
    var parts := Strings.Split(trimmed, '/');
    if |parts| == 2 then
      Strings.JoinSplit(trimmed, '/');
      Strings.JoinTwo(parts[0], parts[1], "/");
      Some((parts[0], parts[1]))
    else None
  }

  /**
   The source and table names: when either is missing and a file path is
   given, both are taken from the path; otherwise both are kept.
   */
  function SourceAndTable(p: Params): (r: Result<(Option<string>, Option<string>), Failure>)
    ensures (p.source.None? || p.table.None?) && p.filePath.Some? ==>
      match SplitFilePath(p.filePath.value)
      case Some(st) => r == Success((Some(st.0), Some(st.1)))
      case None => r == Failure(MalformedFilePath(p.filePath.value))
    ensures p.source.Some? && p.table.Some? ==> r == Success((p.source, p.table))
    ensures p.filePath.None? ==> r == Success((p.source, p.table))
  {
    if (p.source.None? || p.table.None?) && p.filePath.Some? then
      match SplitFilePath(p.filePath.value)
      case Some(st) => Success((Some(st.0), Some(st.1)))
      case None => Failure(MalformedFilePath(p.filePath.value))
    else Success((p.source, p.table))
  }

  lemma TrimmedRawPath(rest: string)
    requires !Strings.Contains(rest, "raw/")
    requires |rest| > 0 ==> rest[0] != '/' && rest[|rest| - 1] != '/'
    ensures Strings.Strip(Strings.Replace("raw/" + rest, "raw/", ""), '/') == rest
  {
    Strings.ReplaceAtStart("raw/", rest, "");
    Strings.ReplaceAbsent(rest, "raw/", "");
    assert "" + rest == rest;
    Strings.StripUnchanged(rest, '/');
  }

  lemma PrefixConcat(p: string, a: string, sep: string, b: string)
    ensures p + a + sep + b == p + (a + sep + b)
  {
  }

  /** A landing path `raw/<source>/<table>` yields exactly that source and table. */
  lemma SplitFilePathOfRawPath(source: string, table: string)
    requires source != "" && table != ""
    requires '/' !in source && '/' !in table
    requires !Strings.Contains(source + "/" + table, "raw/")
    ensures SplitFilePath("raw/" + source + "/" + table) == Some((source, table))
  {
    var rest := source + "/" + table;
    NoSlashAtEnds(source, table);
    TrimmedRawPath(rest);
    PrefixConcat("raw/", source, "/", table);
    SplitTwoNames(source, table);
  }

  lemma NoSlashAtEnds(source: string, table: string)
    requires source != "" && table != ""
    requires '/' !in source && '/' !in table
    ensures var rest := source + "/" + table; rest[0] != '/' && rest[|rest| - 1] != '/'
  {
    var rest := source + "/" + table;
    assert source[0] in source && table[|table| - 1] in table;
    assert rest[0] == source[0] && rest[|rest| - 1] == table[|table| - 1];
  }

  lemma SplitTwoNames(source: string, table: string)
    requires '/' !in source && '/' !in table
    ensures Strings.Split(source + "/" + table, '/') == [source, table]
  {
    assert source + ['/'] + table == source + "/" + table;
    Strings.SplitAtSeparator(source, table, '/');
    Strings.SplitNoSeparator(table, '/');
  }

  /** The file's key in the orchestration ledger. */
  datatype Key = Key(source: string, table: string, fileName: string, increment: int)

  function UnknownTableMessage(table: string, source: string): string {
    "Table schema '" + table + "' not found for source '" + source + "'"
  }

  // ---------------------------------------------------------------------
  // Collaborators, actions and the ledger
  // ---------------------------------------------------------------------

  /** What the dbt test runner reports. */
  datatype TestResult = TestResult(
    success: bool, errorSqlFiles: seq<string>, stdout: string, stderr: string)

  /**
   The outcome of every collaborator call for this run; `false` or `None`
   means the call raises.
   */
  datatype Collaborators = Collaborators(
    parametersValid: bool,              // check_parameters
    sourceTables: Option<set<string>>,  // get_source and check_source_schema
    schemaAccepts: bool,                // compare_schema_and_table
    archiveOk: bool,
    preProcessOk: bool,
    rowCount: Option<nat>,              // create_file_table
    prepareYmlOk: bool,
    token: string,                      // the dbt token in the secret scope
    testResult: Option<TestResult>,     // test_file_table
    reviewOk: bool,                     // move_rows_to_review
    mergeOk: bool,                      // add_to_source_table
    tidyOk: bool,                       // remove_file_table
    projectName: Option<string>,        // get_project_config(...)["name"]
    propagateOk: bool)

  /** The calls the notebook makes, in the order it makes them. */
  datatype Action =
    | Archive
    | PreProcess
    | CreateTable
    | SetRowsRead(rows: nat)
    | SetStatus(stage: Stage)
    | PrepareTableYml
    | FetchToken
    | Test(token: string)
    | RevertTableYml
    | Review(files: seq<string>)
    | Merge
    | RemoveTable
    | Optimize
    | PropagateData(token: string, project: string, source: string, table: string)

  datatype Entry = Entry(stage: Stage, rowsRead: Option<nat>)

  type Ledger = map<Key, Entry>

  /** The notebook's state between blocks. */
  datatype Run = Run(entry: Entry, trace: seq<Action>, token: Option<string>, failure: Option<Failure>)

  predicate IsPrefix(a: seq<Action>, b: seq<Action>) {
    |a| <= |b| && b[..|a|] == a
  }

  /** The actions appended between two states of a run. */
  function Added(r: Run, r': Run): (t: seq<Action>)
    requires IsPrefix(r.trace, r'.trace)
    ensures r'.trace == r.trace + t
  {
    r'.trace[|r.trace|..]
  }

  predicate NoPropagation(t: seq<Action>) {
    forall i :: 0 <= i < |t| ==> !t[i].PropagateData?
  }

  predicate NoFetch(t: seq<Action>) {
    forall i :: 0 <= i < |t| ==> t[i] != FetchToken
  }

  predicate NoStagedUpdate(t: seq<Action>) {
    forall i :: 0 <= i < |t| ==> t[i] != SetStatus(Staged)
  }

  /**
   What every stage block guarantees: it does nothing unless the run has not
   failed and the entry is at `from`; otherwise it either keeps the stage or
   advances it exactly one step; it only appends to the trace, and never
   propagates.
   */
  predicate BlockSpec(r: Run, r': Run, from: Stage)
    requires from != Completed
  {
    ((r.failure.Some? || r.entry.stage != from) ==> r' == r) &&
    (r'.entry.stage == r.entry.stage || (r'.entry.stage == Next(from) && r'.failure.None?)) &&
    (r.failure.Some? ==> r'.failure == r.failure) &&
    IsPrefix(r.trace, r'.trace) &&
    NoPropagation(Added(r, r'))
  }

  predicate Active(r: Run, at: Stage) {
    r.failure.None? && r.entry.stage == at
  }

  // ---------------------------------------------------------------------
  // The stage blocks
  // ---------------------------------------------------------------------

  /** NEW: archive the file, then mark it ARCHIVED. */
  function ArchiveBlock(r: Run, w: Collaborators): (r': Run)
    ensures BlockSpec(r, r', New)
    ensures Active(r, New) ==> (r'.entry.stage == Archived <==> w.archiveOk)
    ensures Active(r, New) && !w.archiveOk ==> r'.failure == Some(CollaboratorFailed(ArchiveFile))
    ensures r'.entry == r.entry || r'.entry == r.entry.(stage := Archived)
    ensures r'.token == r.token
    ensures NoFetch(Added(r, r')) && NoStagedUpdate(Added(r, r'))
  {
    if !Active(r, New) then r
    else if !w.archiveOk then
      r.(trace := r.trace + [Archive], failure := Some(CollaboratorFailed(ArchiveFile)))
    else
      r.(entry := r.entry.(stage := Archived), trace := r.trace + [Archive, SetStatus(Archived)])
  }

  /** ARCHIVED: pre-process, create the file table, record its row count, mark STAGED. */
  function StageBlock(r: Run, w: Collaborators): (r': Run)
    ensures BlockSpec(r, r', Archived)
    ensures Active(r, Archived) ==>
      (r'.entry.stage == Staged <==> w.preProcessOk && w.rowCount.Some?)
    ensures r'.entry.stage == Staged && r.entry.stage != Staged ==>
      r'.entry.rowsRead == w.rowCount &&
      Added(r, r') == [PreProcess, CreateTable, SetRowsRead(w.rowCount.value), SetStatus(Staged)]
    ensures r'.entry.stage == r.entry.stage ==> r'.entry == r.entry
    ensures r'.token == r.token
    ensures NoFetch(Added(r, r'))
    ensures r'.entry.stage == r.entry.stage ==> NoStagedUpdate(Added(r, r'))
  {
    if !Active(r, Archived) then r
    else if !w.preProcessOk then
      r.(trace := r.trace + [PreProcess], failure := Some(CollaboratorFailed(PreProcessFile)))
    else if w.rowCount.None? then
      r.(trace := r.trace + [PreProcess, CreateTable], failure := Some(CollaboratorFailed(CreateFileTable)))
    else
      var n := w.rowCount.value;
      r.(entry := Entry(Staged, Some(n)),
         trace := r.trace + [PreProcess, CreateTable, SetRowsRead(n), SetStatus(Staged)])
  }

  /** The exception text when tests fail and no failing rows can be isolated. */
  function TestFailureMessage(t: TestResult): (m: string)
    ensures m == "stdout:\n" + t.stdout + "\nstderr:\n" + t.stderr
  {
    var parts := ["stdout:", t.stdout, "stderr:", t.stderr];
    assert parts[1..] == [t.stdout, "stderr:", t.stderr];
    assert parts[1..][1..] == ["stderr:", t.stderr];
    Strings.JoinCons(parts[0], parts[1..], "\n");
    Strings.JoinCons(parts[1], parts[1..][1..], "\n");
    Strings.JoinTwo("stderr:", t.stderr, "\n");
    Strings.Join(parts, "\n")
  }

  /** Whether the STAGED block runs its tests: it is due and the yml was written. */
  predicate Tests(r: Run, w: Collaborators) {
    Active(r, Staged) && w.prepareYmlOk
  }

  /**
   The calls of the STAGED block once the yml is written: fetch the token,
   run the tests, then (unless the runner raised) revert the yml and act on
   the result.
   */
  function TestActions(w: Collaborators): (t: seq<Action>)
    ensures CountFetches(t) == 1 && NoStagedUpdate(t) && NoPropagation(t)
    ensures |t| >= 3 && t[..3] == [PrepareTableYml, FetchToken, Test(w.token)]
  {
    var tested := TestedActions(w.token);
    match w.testResult
    case None => tested
    case Some(res) =>
      var tail := TestTail(res);
      CountFetchesAppend(tested, tail);
      CountFetchesOfNoFetch(tail);
      NoStagedUpdateAppend(tested, tail);
      NoPropagationAppend(tested, tail);
      assert (tested + tail)[..3] == tested;
      tested + tail
  }

  /** The calls up to and including the test run. */
  function TestedActions(token: string): (t: seq<Action>)
    ensures t == [PrepareTableYml, FetchToken, Test(token)]
    ensures CountFetches(t) == 1 && NoStagedUpdate(t) && NoPropagation(t)
  {
    var t := [PrepareTableYml, FetchToken, Test(token)];
    assert CountFetches(t) == 1 by {
      assert t == [PrepareTableYml] + [FetchToken] + [Test(token)];
      CountFetchesAppend([PrepareTableYml], [FetchToken]);
      CountFetchesAppend([PrepareTableYml] + [FetchToken], [Test(token)]);
      CountFetchesSingle(PrepareTableYml);
      CountFetchesSingle(FetchToken);
      CountFetchesSingle(Test(token));
    }
    t
  }

  /** The calls after a test run that returned: revert the yml, then mark CLEANED or move rows to review. */
  function TestTail(res: TestResult): (t: seq<Action>)
    ensures NoFetch(t) && NoStagedUpdate(t) && NoPropagation(t)
    ensures |t| >= 1 && t[0] == RevertTableYml
    ensures res.success <==> SetStatus(Cleaned) in t
  {
    if res.success then [RevertTableYml, SetStatus(Cleaned)]
    else if |res.errorSqlFiles| > 0 then [RevertTableYml, Review(res.errorSqlFiles)]
    else [RevertTableYml]
  }

  /** Whether the test runner reported success. */
  predicate Passed(w: Collaborators) {
    w.testResult.Some? && w.testResult.value.success
  }

  /**
   How the STAGED block ends once the yml is written: the runner raising, the
   review move raising, or the tests failing without failing-row queries
   raise; a success or a review move that goes through do not.
   */
  function TestFailure(w: Collaborators): (f: Option<Failure>)
    ensures Passed(w) ==> f.None?
  {
    match w.testResult
    case None => Some(CollaboratorFailed(RunTests))
    case Some(res) =>
      if res.success then None
      else if |res.errorSqlFiles| > 0 then
        if w.reviewOk then None else Some(CollaboratorFailed(MoveToReview))
      else Some(TestsFailed(TestFailureMessage(res)))
  }

  /**
   STAGED: write the table's yml, fetch the dbt token, run the tests, revert
   the yml. Success marks CLEANED; a failure with failing-row queries moves
   those rows to review and leaves the stage alone; a failure without them
   raises with the runner's output. The yml is not reverted when the test
   runner itself raises.
   */
  function TestBlock(r: Run, w: Collaborators): (r': Run)
    ensures BlockSpec(r, r', Staged)
    ensures Active(r, Staged) ==>
      (r'.entry.stage == Cleaned <==> w.prepareYmlOk && Passed(w))
    ensures r'.entry == r.entry || r'.entry == r.entry.(stage := Cleaned)
    ensures Tests(r, w) ==> r'.token == Some(w.token)
    ensures !Tests(r, w) ==> r'.token == r.token
    ensures NoStagedUpdate(Added(r, r'))
    ensures CountFetches(Added(r, r')) == if Tests(r, w) then 1 else 0
  {
    if !Active(r, Staged) then r
    else if !w.prepareYmlOk then YmlFailed(r)
    else Tested(r, w)
  }

  /** The STAGED block when the yml cannot be written: that call raises. */
  function YmlFailed(r: Run): (r': Run)
    ensures IsPrefix(r.trace, r'.trace) && Added(r, r') == [PrepareTableYml]
    ensures CountFetches(Added(r, r')) == 0
  {
    var r' := r.(trace := r.trace + [PrepareTableYml], failure := Some(CollaboratorFailed(PrepareYml)));
    AddedOfAppend(r, r', [PrepareTableYml]);
    assert CountFetches([PrepareTableYml]) == 0 by {
      assert [PrepareTableYml][..0] == [];
    }
    r'
  }

  /** The STAGED block once the yml is written: the test calls, and CLEANED on success. */
  function Tested(r: Run, w: Collaborators): (r': Run)
    ensures IsPrefix(r.trace, r'.trace) && Added(r, r') == TestActions(w)
  {
    var r' := r.(entry := if Passed(w) then r.entry.(stage := Cleaned) else r.entry,
                 trace := r.trace + TestActions(w),
                 token := Some(w.token),
                 failure := TestFailure(w));
    AddedOfAppend(r, r', TestActions(w));
    r'
  }

  lemma AddedOfAppend(r: Run, r': Run, ext: seq<Action>)
    requires r'.trace == r.trace + ext
    ensures IsPrefix(r.trace, r'.trace) && Added(r, r') == ext
  {
    assert r'.trace[..|r.trace|] == r.trace;
  }

  /** CLEANED: merge into the source table, mark INSERTED. */
  function MergeBlock(r: Run, w: Collaborators): (r': Run)
    ensures BlockSpec(r, r', Cleaned)
    ensures Active(r, Cleaned) ==> (r'.entry.stage == Inserted <==> w.mergeOk)
    ensures r'.entry == r.entry || r'.entry == r.entry.(stage := Inserted)
    ensures r'.token == r.token
    ensures NoFetch(Added(r, r')) && NoStagedUpdate(Added(r, r'))
  {
    if !Active(r, Cleaned) then r
    else if !w.mergeOk then
      r.(trace := r.trace + [Merge], failure := Some(CollaboratorFailed(AddToSourceTable)))
    else
      r.(entry := r.entry.(stage := Inserted), trace := r.trace + [Merge, SetStatus(Inserted)])
  }

  /** INSERTED: drop the file table, mark COMPLETED, optimise the ledger table. */
  function TidyBlock(r: Run, w: Collaborators): (r': Run)
    ensures BlockSpec(r, r', Inserted)
    ensures Active(r, Inserted) ==> (r'.entry.stage == Completed <==> w.tidyOk)
    ensures r'.entry == r.entry || r'.entry == r.entry.(stage := Completed)
    ensures r'.token == r.token
    ensures NoFetch(Added(r, r')) && NoStagedUpdate(Added(r, r'))
  {
    if !Active(r, Inserted) then r
    else if !w.tidyOk then
      r.(trace := r.trace + [RemoveTable], failure := Some(CollaboratorFailed(RemoveFileTable)))
    else
      r.(entry := r.entry.(stage := Completed),
         trace := r.trace + [RemoveTable, SetStatus(Completed), Optimize])
  }

  /** The five stage blocks in notebook order. */
  function Blocks(r: Run, w: Collaborators): Run {
    TidyBlock(MergeBlock(TestBlock(StageBlock(ArchiveBlock(r, w), w), w), w), w)
  }

  /**
   The completion check and propagation: anything but COMPLETED raises; then
   the token is fetched unless the STAGED block already did, and the data
   is propagated under the dbt project's name with that token.
   */
  function Finish(r: Run, w: Collaborators, key: Key): (r': Run)
    ensures r.failure.Some? ==> r' == r
    ensures r.failure.None? && r.entry.stage != Completed ==>
      r' == r.(failure := Some(Incomplete(r.entry.stage)))
    ensures r'.failure.None? ==> r.entry.stage == Completed
    ensures r'.entry == r.entry && IsPrefix(r.trace, r'.trace)
    ensures !NoPropagation(Added(r, r')) ==> r.failure.None? && r.entry.stage == Completed
    ensures NoStagedUpdate(Added(r, r'))
    ensures CountFetches(Added(r, r')) ==
      if r.failure.None? && r.entry.stage == Completed && r.token.None? then 1 else 0
    ensures r.failure.None? && r.entry.stage == Completed && w.projectName.Some? ==>
      var token := if r.token.Some? then r.token.value else w.token;
      r'.token == Some(token) &&
      Added(r, r') == (if r.token.None? then [FetchToken] else []) +
        [PropagateData(token, w.projectName.value, key.source, key.table)]
    ensures r.failure.None? && r.entry.stage == Completed && w.projectName.None? ==>
      Added(r, r') == (if r.token.None? then [FetchToken] else [])
  {
    if r.failure.Some? then r
    else if r.entry.stage != Completed then r.(failure := Some(Incomplete(r.entry.stage)))
    else
      var token := if r.token.Some? then r.token.value else w.token;
      var fetch := if r.token.Some? then [] else [FetchToken];
      assert CountFetches(fetch) == if r.token.None? then 1 else 0 by {
        if r.token.None? {
          assert fetch[..0] == [];
        }
      }
      var r1 := r.(token := Some(token), trace := r.trace + fetch);
      match w.projectName
      case None => r1.(failure := Some(CollaboratorFailed(ProjectConfig)))
      case Some(project) =>
        var pr := [PropagateData(token, project, key.source, key.table)];
        assert CountFetches(pr) == 0 by {
          assert pr[..0] == [];
        }
        CountFetchesAppend(fetch, pr);
        assert r.trace + fetch + pr == r.trace + (fetch + pr);
        r1.(trace := r.trace + (fetch + pr),
            failure := if w.propagateOk then None else Some(CollaboratorFailed(Propagate)))
  }

  /**
   Everything before the ledger is touched: parameter derivation and
   checks, `int(increment)`, and the source schema lookup.
   */
  function Prepare(p: Params, w: Collaborators): (r: Result<Key, Failure>)
    ensures r.Success? ==>
      w.parametersValid && w.sourceTables.Some? && r.value.table in w.sourceTables.value &&
      p.fileName == Some(r.value.fileName) &&
      p.increment.Some? && Strings.ParseInt(p.increment.value) == Some(r.value.increment) &&
      SourceAndTable(p) == Success((Some(r.value.source), Some(r.value.table)))
  {
    var st :- SourceAndTable(p);
    if !w.parametersValid || st.0.None? || st.1.None? || p.fileName.None? || p.increment.None? then
      Failure(InvalidParameters)
    else
      match Strings.ParseInt(p.increment.value)
      case None => Failure(BadIncrement(p.increment.value))
      case Some(increment) =>
        if w.sourceTables.None? then Failure(SourceUnavailable)
        else if st.1.value !in w.sourceTables.value then
          Failure(UnknownTable(UnknownTableMessage(st.1.value, st.0.value)))
        else Success(Key(st.0.value, st.1.value, p.fileName.value, increment))
  }

  /** The outcome of one run of the notebook. */
  datatype Outcome = Outcome(ledger: Ledger, trace: seq<Action>, failure: Option<Failure>)

  /** The entry a run starts from: found in the ledger, or created at NEW. */
  function FindOrCreate(ledger: Ledger, key: Key): (e: Entry)
    ensures key in ledger ==> e == ledger[key]
    ensures key !in ledger ==> e == Entry(New, None)
  {
    if key in ledger then ledger[key] else Entry(New, None)
  }

  /** The state a run starts its blocks from. */
  function Start(ledger: Ledger, key: Key): Run {
    Run(FindOrCreate(ledger, key), [], None, None)
  }

  /** One run of the notebook against the orchestration ledger. */
  function Pipeline(p: Params, w: Collaborators, ledger: Ledger): (o: Outcome)
    ensures Prepare(p, w).Failure? ==> o == Outcome(ledger, [], Some(Prepare(p, w).error))
    ensures Prepare(p, w).Success? ==>
      var key := Prepare(p, w).value;
      key in o.ledger &&
      forall k :: k != key ==> (k in o.ledger <==> k in ledger) && (k in ledger ==> o.ledger[k] == ledger[k])
    ensures Prepare(p, w).Success? && !w.schemaAccepts ==>
      var key := Prepare(p, w).value;
      o == Outcome(ledger[key := FindOrCreate(ledger, key)], [], Some(SchemaMismatch))
    ensures Prepare(p, w).Success? && w.schemaAccepts ==>
      var key := Prepare(p, w).value;
      var f := Finish(Blocks(Start(ledger, key), w), w, key);
      o == Outcome(ledger[key := f.entry], f.trace, f.failure)
  {
    match Prepare(p, w)
    case Failure(f) => Outcome(ledger, [], Some(f))
    case Success(key) =>
      var entry := FindOrCreate(ledger, key);
      if !w.schemaAccepts then Outcome(ledger[key := entry], [], Some(SchemaMismatch))
      else
        var r := Finish(Blocks(Start(ledger, key), w), w, key);
        Outcome(ledger[key := r.entry], r.trace, r.failure)
  }

  // ---------------------------------------------------------------------
  // Properties of a run
  // ---------------------------------------------------------------------

  lemma NoPropagationAppend(a: seq<Action>, b: seq<Action>)
    requires NoPropagation(a) && NoPropagation(b)
    ensures NoPropagation(a + b)
  {
    forall i | 0 <= i < |a + b|
      ensures !(a + b)[i].PropagateData?
    {
      if i < |a| { assert (a + b)[i] == a[i]; } else { assert (a + b)[i] == b[i - |a|]; }
    }
  }

  lemma NoStagedUpdateAppend(a: seq<Action>, b: seq<Action>)
    requires NoStagedUpdate(a) && NoStagedUpdate(b)
    ensures NoStagedUpdate(a + b)
  {
    forall i | 0 <= i < |a + b|
      ensures (a + b)[i] != SetStatus(Staged)
    {
      if i < |a| { assert (a + b)[i] == a[i]; } else { assert (a + b)[i] == b[i - |a|]; }
    }
  }

  function CountFetches(t: seq<Action>): (n: nat)
    ensures n <= |t|
  {
    if |t| == 0 then 0
    else CountFetches(t[..|t| - 1]) + (if t[|t| - 1] == FetchToken then 1 else 0)
  }

  lemma {:induction false} CountFetchesAppend(t: seq<Action>, ext: seq<Action>)
    ensures CountFetches(t + ext) == CountFetches(t) + CountFetches(ext)
    decreases |ext|
  {
    if |ext| == 0 {
      assert t + ext == t;
    } else {
      assert (t + ext)[..|t + ext| - 1] == t + ext[..|ext| - 1];
      CountFetchesAppend(t, ext[..|ext| - 1]);
    }
  }

  lemma CountFetchesSingle(a: Action)
    ensures CountFetches([a]) == if a == FetchToken then 1 else 0
  {
    assert [a][..0] == [];
  }

  lemma {:induction false} CountFetchesOfNoFetch(t: seq<Action>)
    requires NoFetch(t)
    ensures CountFetches(t) == 0
    decreases |t|
  {
    if |t| > 0 {
      CountFetchesOfNoFetch(t[..|t| - 1]);
    }
  }

  /** The states a run passes through between its stage blocks. */
  datatype Trail = Trail(r0: Run, r1: Run, r2: Run, r3: Run, r4: Run, r5: Run)

  function TrailOf(r: Run, w: Collaborators): (t: Trail)
    ensures t.r5 == Blocks(r, w)
  {
    var r1 := ArchiveBlock(r, w);
    var r2 := StageBlock(r1, w);
    var r3 := TestBlock(r2, w);
    var r4 := MergeBlock(r3, w);
    Trail(r, r1, r2, r3, r4, TidyBlock(r4, w))
  }

  /** The actions of the five blocks, in order, make up the whole block trace. */
  lemma TrailTrace(r: Run, w: Collaborators)
    ensures var t := TrailOf(r, w);
      t.r5.trace == r.trace + Added(t.r0, t.r1) + Added(t.r1, t.r2) + Added(t.r2, t.r3) +
        Added(t.r3, t.r4) + Added(t.r4, t.r5)
  {
  }

  /** A single block never moves the stage backwards. */
  lemma BlockSpecForward(r: Run, r': Run, from: Stage)
    requires from != Completed && BlockSpec(r, r', from)
    ensures Rank(r'.entry.stage) >= Rank(r.entry.stage) && IsPrefix(r.trace, r'.trace)
  {
  }

  lemma IsPrefixTransitive(a: seq<Action>, b: seq<Action>, c: seq<Action>)
    requires IsPrefix(a, b) && IsPrefix(b, c)
    ensures IsPrefix(a, c)
  {
    assert c[..|a|] == c[..|b|][..|a|];
  }

  /** The blocks never move the stage backwards, and only append to the trace. */
  lemma BlocksForwardOnly(r: Run, w: Collaborators)
    ensures Rank(Blocks(r, w).entry.stage) >= Rank(r.entry.stage)
    ensures IsPrefix(r.trace, Blocks(r, w).trace)
  {
    var t := TrailOf(r, w);
    BlockSpecForward(t.r0, t.r1, New);
    BlockSpecForward(t.r1, t.r2, Archived);
    BlockSpecForward(t.r2, t.r3, Staged);
    BlockSpecForward(t.r3, t.r4, Cleaned);
    BlockSpecForward(t.r4, t.r5, Inserted);
    IsPrefixTransitive(t.r0.trace, t.r1.trace, t.r2.trace);
    IsPrefixTransitive(t.r0.trace, t.r2.trace, t.r3.trace);
    IsPrefixTransitive(t.r0.trace, t.r3.trace, t.r4.trace);
    IsPrefixTransitive(t.r0.trace, t.r4.trace, t.r5.trace);
  }

  /** The stage blocks never propagate. */
  lemma NoPropagationInBlocks(r: Run, w: Collaborators)
    requires NoPropagation(r.trace)
    ensures NoPropagation(Blocks(r, w).trace)
  {
    var t := TrailOf(r, w);
    TrailTrace(r, w);
    NoPropagationAppend(r.trace, Added(t.r0, t.r1));
    NoPropagationAppend(r.trace + Added(t.r0, t.r1), Added(t.r1, t.r2));
    NoPropagationAppend(r.trace + Added(t.r0, t.r1) + Added(t.r1, t.r2), Added(t.r2, t.r3));
    NoPropagationAppend(r.trace + Added(t.r0, t.r1) + Added(t.r1, t.r2) + Added(t.r2, t.r3),
                        Added(t.r3, t.r4));
    NoPropagationAppend(r.trace + Added(t.r0, t.r1) + Added(t.r1, t.r2) + Added(t.r2, t.r3) +
                        Added(t.r3, t.r4), Added(t.r4, t.r5));
  }

  /**
   Over the blocks the token is fetched once exactly when the STAGED block
   ran its tests, and that is when the run comes to hold the token.
   */
  lemma FetchesInBlocks(r: Run, w: Collaborators)
    requires r.token.None? && CountFetches(r.trace) == 0
    ensures var b := Blocks(r, w);
      CountFetches(b.trace) == (if b.token.Some? then 1 else 0) &&
      (b.token.Some? ==> b.token == Some(w.token))
  {
    var t := TrailOf(r, w);
    TrailTrace(r, w);
    CountFetchesOfNoFetch(Added(t.r0, t.r1));
    CountFetchesOfNoFetch(Added(t.r1, t.r2));
    CountFetchesOfNoFetch(Added(t.r3, t.r4));
    CountFetchesOfNoFetch(Added(t.r4, t.r5));
    var a := r.trace + Added(t.r0, t.r1);
    var b := a + Added(t.r1, t.r2);
    var c := b + Added(t.r2, t.r3);
    var d := c + Added(t.r3, t.r4);
    CountFetchesAppend(r.trace, Added(t.r0, t.r1));
    CountFetchesAppend(a, Added(t.r1, t.r2));
    CountFetchesAppend(b, Added(t.r2, t.r3));
    CountFetchesAppend(c, Added(t.r3, t.r4));
    CountFetchesAppend(d, Added(t.r4, t.r5));
  }

  /**
   The dbt token is fetched at most once per run: in the STAGED block, or
   before propagation when the STAGED block did not run.
   */
  lemma TokenFetchedAtMostOnce(p: Params, w: Collaborators, ledger: Ledger)
    ensures CountFetches(Pipeline(p, w, ledger).trace) <= 1
  {
    if Prepare(p, w).Success? && w.schemaAccepts {
      var key := Prepare(p, w).value;
      var r0 := Start(ledger, key);
      assert CountFetches(r0.trace) == 0;
      RunFetchesAtMostOnce(r0, w, key);
    }
  }

  lemma RunFetchesAtMostOnce(r: Run, w: Collaborators, key: Key)
    requires r.token.None? && CountFetches(r.trace) == 0
    ensures CountFetches(Finish(Blocks(r, w), w, key).trace) <= 1
  {
    var b := Blocks(r, w);
    FetchesInBlocks(r, w);
    var f := Finish(b, w, key);
    CountFetchesAppend(b.trace, Added(b, f));
  }

  /** The collaborators of a run in which every call succeeds and the tests pass. */
  predicate AllSucceed(w: Collaborators) {
    w.archiveOk && w.preProcessOk && w.rowCount.Some? && w.prepareYmlOk &&
    w.testResult.Some? && w.testResult.value.success &&
    w.mergeOk && w.tidyOk && w.projectName.Some? && w.propagateOk
  }

  /** The calls of each stage block for a new file when every call succeeds. */
  const ArchiveCalls: seq<Action> := [Archive, SetStatus(Archived)]

  function StageCalls(w: Collaborators): seq<Action>
    requires AllSucceed(w)
  {
    [PreProcess, CreateTable, SetRowsRead(w.rowCount.value), SetStatus(Staged)]
  }

  function TestCalls(w: Collaborators): seq<Action> {
    [PrepareTableYml, FetchToken, Test(w.token), RevertTableYml, SetStatus(Cleaned)]
  }

  const MergeTidyCalls: seq<Action> := [Merge, SetStatus(Inserted), RemoveTable, SetStatus(Completed), Optimize]

  /** The calls the stage blocks make for a new file when every call succeeds. */
  function HappyBlocksTrace(w: Collaborators): seq<Action>
    requires AllSucceed(w)
  {
    ArchiveCalls + StageCalls(w) + TestCalls(w) + MergeTidyCalls
  }

  /** The full sequence of calls of a run that starts at NEW and goes through. */
  function HappyTrace(w: Collaborators, key: Key): seq<Action>
    requires AllSucceed(w)
  {
    HappyBlocksTrace(w) + [PropagateData(w.token, w.projectName.value, key.source, key.table)]
  }

  lemma HappyArchive(t: seq<Action>, w: Collaborators)
    requires AllSucceed(w)
    ensures ArchiveBlock(Run(Entry(New, None), t, None, None), w) ==
      Run(Entry(Archived, None), t + ArchiveCalls, None, None)
  {
  }

  lemma HappyStage(t: seq<Action>, w: Collaborators)
    requires AllSucceed(w)
    ensures StageBlock(Run(Entry(Archived, None), t, None, None), w) ==
      Run(Entry(Staged, w.rowCount), t + StageCalls(w), None, None)
  {
  }

  lemma HappyTest(t: seq<Action>, w: Collaborators)
    requires AllSucceed(w)
    ensures TestBlock(Run(Entry(Staged, w.rowCount), t, None, None), w) ==
      Run(Entry(Cleaned, w.rowCount), t + TestCalls(w), Some(w.token), None)
  {
    assert TestActions(w) == TestCalls(w);
  }

  lemma HappyMergeTidy(t: seq<Action>, w: Collaborators)
    requires AllSucceed(w)
    ensures TidyBlock(MergeBlock(Run(Entry(Cleaned, w.rowCount), t, Some(w.token), None), w), w) ==
      Run(Entry(Completed, w.rowCount), t + MergeTidyCalls, Some(w.token), None)
  {
  }

  /** A new entry whose collaborators all succeed goes through every block to COMPLETED. */
  lemma HappyBlocks(r0: Run, w: Collaborators)
    requires AllSucceed(w) && r0 == Run(Entry(New, None), [], None, None)
    ensures Blocks(r0, w) == Run(Entry(Completed, w.rowCount), HappyBlocksTrace(w), Some(w.token), None)
  {
    var t1 := ArchiveCalls;
    var t2 := t1 + StageCalls(w);
    var t3 := t2 + TestCalls(w);
    HappyArchive([], w);
    assert [] + ArchiveCalls == t1;
    var r1 := ArchiveBlock(r0, w);
    assert r1 == Run(Entry(Archived, None), t1, None, None);
    HappyStage(t1, w);
    var r2 := StageBlock(r1, w);
    assert r2 == Run(Entry(Staged, w.rowCount), t2, None, None);
    HappyTest(t2, w);
    var r3 := TestBlock(r2, w);
    assert r3 == Run(Entry(Cleaned, w.rowCount), t3, Some(w.token), None);
    HappyMergeTidy(t3, w);
  }

  /** A new file whose collaborators all succeed is ingested completely in one run. */
  lemma NewFileCompletes(p: Params, w: Collaborators, ledger: Ledger)
    requires Prepare(p, w).Success? && w.schemaAccepts && AllSucceed(w)
    requires Prepare(p, w).value !in ledger
    ensures var key := Prepare(p, w).value;
      var o := Pipeline(p, w, ledger);
      o.failure.None? &&
      o.ledger[key] == Entry(Completed, w.rowCount) &&
      o.trace == HappyTrace(w, key)
  {
    var key := Prepare(p, w).value;
    var r0 := Start(ledger, key);
    HappyBlocks(r0, w);
    var r5 := Blocks(r0, w);
    var f := Finish(r5, w, key);
    assert f.trace == r5.trace + [PropagateData(w.token, w.projectName.value, key.source, key.table)];
  }

  /**
   Re-running a completed file repeats none of the archive, staging,
   testing, merging or tidying work: it only fetches the token and
   propagates, and passes the completion check.
   */
  lemma CompletedFileOnlyPropagates(p: Params, w: Collaborators, ledger: Ledger)
    requires Prepare(p, w).Success? && w.schemaAccepts
    requires Prepare(p, w).value in ledger && ledger[Prepare(p, w).value].stage == Completed
    ensures var key := Prepare(p, w).value;
      var o := Pipeline(p, w, ledger);
      o.ledger == ledger &&
      (o.failure.None? <==> w.projectName.Some? && w.propagateOk) &&
      (w.projectName.None? ==> o.trace == [FetchToken]) &&
      (w.projectName.Some? ==>
        o.trace == [FetchToken, PropagateData(w.token, w.projectName.value, key.source, key.table)])
  {
    var key := Prepare(p, w).value;
    BlocksSkipCompleted(Start(ledger, key), w);
    FinishCompleted(ledger, key, w);
  }

  /** The completion check on a run that starts at COMPLETED, and the ledger it leaves. */
  lemma FinishCompleted(ledger: Ledger, key: Key, w: Collaborators)
    requires key in ledger && ledger[key].stage == Completed
    ensures var f := Finish(Start(ledger, key), w, key);
      ledger[key := f.entry] == ledger &&
      (f.failure.None? <==> w.projectName.Some? && w.propagateOk) &&
      (w.projectName.None? ==> f.trace == [FetchToken]) &&
      (w.projectName.Some? ==>
        f.trace == [FetchToken, PropagateData(w.token, w.projectName.value, key.source, key.table)])
  {
    var r0 := Start(ledger, key);
    var f := Finish(r0, w, key);
    assert f.trace == [] + Added(r0, f);
    assert ledger[key := ledger[key]] == ledger;
  }

  /** A run that starts at COMPLETED passes through every stage block unchanged. */
  lemma BlocksSkipCompleted(r: Run, w: Collaborators)
    requires r.entry.stage == Completed
    ensures Blocks(r, w) == r
  {
    assert ArchiveBlock(r, w) == r;
    assert StageBlock(r, w) == r;
    assert TestBlock(r, w) == r;
    assert MergeBlock(r, w) == r;
  }

  /**
   Every `STAGED` status update is immediately preceded by recording the row
   count the staging table was created with.
   */
  predicate RowsRecordedBeforeStaged(t: seq<Action>, rows: Option<nat>) {
    forall i :: 0 <= i < |t| && t[i] == SetStatus(Staged) ==>
      i > 0 && rows.Some? && t[i - 1] == SetRowsRead(rows.value)
  }

  lemma RowsRecordedAppend(t: seq<Action>, ext: seq<Action>, rows: Option<nat>)
    requires RowsRecordedBeforeStaged(t, rows)
    requires RowsRecordedBeforeStaged(ext, rows)
    requires |ext| > 0 ==> ext[0] != SetStatus(Staged)
    ensures RowsRecordedBeforeStaged(t + ext, rows)
  {
    forall i | 0 <= i < |t + ext| && (t + ext)[i] == SetStatus(Staged)
      ensures i > 0 && rows.Some? && (t + ext)[i - 1] == SetRowsRead(rows.value)
    {
      if i < |t| {
        assert t[i] == SetStatus(Staged);
      } else {
        assert ext[i - |t|] == SetStatus(Staged);
        if i - |t| > 0 {
          assert (t + ext)[i - 1] == ext[i - |t| - 1];
        }
      }
    }
  }

  /** Appending actions other than a `STAGED` update keeps the ordering. */
  lemma RowsRecordedAppendOther(t: seq<Action>, ext: seq<Action>, rows: Option<nat>)
    requires RowsRecordedBeforeStaged(t, rows)
    requires NoStagedUpdate(ext)
    ensures RowsRecordedBeforeStaged(t + ext, rows)
  {
    RowsRecordedAppend(t, ext, rows);
  }

  /** The actions of the ARCHIVED block keep the row count before the STAGED update. */
  lemma RowsRecordedStage(r: Run, w: Collaborators)
    requires RowsRecordedBeforeStaged(r.trace, w.rowCount)
    ensures RowsRecordedBeforeStaged(StageBlock(r, w).trace, w.rowCount)
  {
    var r' := StageBlock(r, w);
    if r'.entry.stage == r.entry.stage {
      RowsRecordedAppendOther(r.trace, Added(r, r'), w.rowCount);
    } else {
      var ext := Added(r, r');
      assert RowsRecordedBeforeStaged(ext, w.rowCount) by {
        forall i | 0 <= i < |ext| && ext[i] == SetStatus(Staged)
          ensures i > 0 && ext[i - 1] == SetRowsRead(w.rowCount.value)
        {
          assert i == 3;
        }
      }
      RowsRecordedAppend(r.trace, ext, w.rowCount);
    }
  }

  lemma RowsRecordedBlocks(r: Run, w: Collaborators)
    requires RowsRecordedBeforeStaged(r.trace, w.rowCount)
    ensures RowsRecordedBeforeStaged(Blocks(r, w).trace, w.rowCount)
  {
    var t := TrailOf(r, w);
    RowsRecordedAppendOther(t.r0.trace, Added(t.r0, t.r1), w.rowCount);
    RowsRecordedStage(t.r1, w);
    RowsRecordedAppendOther(t.r2.trace, Added(t.r2, t.r3), w.rowCount);
    RowsRecordedAppendOther(t.r3.trace, Added(t.r3, t.r4), w.rowCount);
    RowsRecordedAppendOther(t.r4.trace, Added(t.r4, t.r5), w.rowCount);
  }

  /** In every run the `STAGED` update comes right after the row count is recorded. */
  lemma RowsReadBeforeStaged(p: Params, w: Collaborators, ledger: Ledger)
    requires Prepare(p, w).Success?
    ensures RowsRecordedBeforeStaged(Pipeline(p, w, ledger).trace, w.rowCount)
  {
    var key := Prepare(p, w).value;
    if w.schemaAccepts {
      var b := Blocks(Start(ledger, key), w);
      RowsRecordedBlocks(Start(ledger, key), w);
      var f := Finish(b, w, key);
      RowsRecordedAppendOther(b.trace, Added(b, f), w.rowCount);
    }
  }

  /** Over the blocks, an entry that gets to STAGED from before it carries the staging row count. */
  lemma BlocksStagedRowCount(r: Run, w: Collaborators)
    requires Rank(r.entry.stage) < Rank(Staged)
    ensures Rank(Blocks(r, w).entry.stage) >= Rank(Staged) ==> Blocks(r, w).entry.rowsRead == w.rowCount
  {
    var t := TrailOf(r, w);
    assert Rank(t.r1.entry.stage) <= Rank(Archived);
    assert t.r2.entry.stage == Staged ==> t.r2.entry.rowsRead == w.rowCount;
    assert Rank(t.r2.entry.stage) <= Rank(Archived) ==> t.r5 == t.r2;
    assert t.r5.entry.rowsRead == t.r2.entry.rowsRead;
  }

  /** Over the blocks, an entry gets to CLEANED from before it only when the tests passed. */
  lemma BlocksReachCleaned(r: Run, w: Collaborators)
    requires Rank(r.entry.stage) < Rank(Cleaned)
    ensures Rank(Blocks(r, w).entry.stage) >= Rank(Cleaned) ==> Passed(w)
  {
    var t := TrailOf(r, w);
    assert Rank(t.r2.entry.stage) <= Rank(Staged);
    assert Rank(t.r3.entry.stage) < Rank(Cleaned) ==> t.r5 == t.r3;
    assert Rank(t.r3.entry.stage) >= Rank(Cleaned) ==> Passed(w);
  }

  /** An entry this run moves to STAGED or beyond carries the staging row count. */
  lemma StagedEntryCarriesRowCount(p: Params, w: Collaborators, ledger: Ledger)
    requires Prepare(p, w).Success?
    requires Rank(FindOrCreate(ledger, Prepare(p, w).value).stage) < Rank(Staged)
    ensures Rank(Pipeline(p, w, ledger).ledger[Prepare(p, w).value].stage) >= Rank(Staged) ==>
      Pipeline(p, w, ledger).ledger[Prepare(p, w).value].rowsRead == w.rowCount
  {
    var key := Prepare(p, w).value;
    if w.schemaAccepts {
      BlocksStagedRowCount(Start(ledger, key), w);
    }
  }

  /**
   A run that starts before CLEANED reaches CLEANED or beyond only when the
   test runner reported success.
   */
  lemma CleanedOnlyOnSuccess(p: Params, w: Collaborators, ledger: Ledger)
    requires Prepare(p, w).Success?
    requires Rank(FindOrCreate(ledger, Prepare(p, w).value).stage) < Rank(Cleaned)
    ensures Rank(Pipeline(p, w, ledger).ledger[Prepare(p, w).value].stage) >= Rank(Cleaned) ==>
      w.testResult.Some? && w.testResult.value.success
  {
    var key := Prepare(p, w).value;
    if w.schemaAccepts {
      BlocksReachCleaned(Start(ledger, key), w);
    }
  }

  /**
   From STAGED, tests that fail leave the stage where it is, so the blocks
   after the STAGED one do nothing.
   */
  lemma FailedTestsBlocks(r: Run, w: Collaborators)
    requires Active(r, Staged) && w.prepareYmlOk && w.testResult.Some? && !w.testResult.value.success
    ensures Blocks(r, w) == r.(trace := r.trace + TestActions(w), token := Some(w.token), failure := TestFailure(w))
  {
    var r3 := TestBlock(StageBlock(ArchiveBlock(r, w), w), w);
    assert r3 == r.(trace := r.trace + TestActions(w), token := Some(w.token), failure := TestFailure(w));
  }

  /**
   A failed test run that names failing-row queries moves those rows to
   review and changes no status; the completion check then raises at STAGED.
   */
  lemma FailedTestsMoveRowsToReview(p: Params, w: Collaborators, ledger: Ledger)
    requires Prepare(p, w).Success? && w.schemaAccepts
    requires FindOrCreate(ledger, Prepare(p, w).value).stage == Staged
    requires w.prepareYmlOk && w.testResult.Some? && !w.testResult.value.success
    requires |w.testResult.value.errorSqlFiles| > 0
    ensures var key := Prepare(p, w).value;
      var o := Pipeline(p, w, ledger);
      o.trace == [PrepareTableYml, FetchToken, Test(w.token), RevertTableYml,
                  Review(w.testResult.value.errorSqlFiles)] &&
      o.ledger[key] == FindOrCreate(ledger, key) &&
      o.failure == Some(if w.reviewOk then Incomplete(Staged) else CollaboratorFailed(MoveToReview))
  {
    var key := Prepare(p, w).value;
    FailedTestsFinish(Start(ledger, key), w, key);
  }

  lemma ReviewActions(w: Collaborators)
    requires w.testResult.Some? && !w.testResult.value.success
    requires |w.testResult.value.errorSqlFiles| > 0
    ensures TestActions(w) == [PrepareTableYml, FetchToken, Test(w.token), RevertTableYml,
                               Review(w.testResult.value.errorSqlFiles)]
  {
  }

  lemma FailedTestsFinish(r: Run, w: Collaborators, key: Key)
    requires r.entry.stage == Staged && r.trace == [] && r.token.None? && r.failure.None?
    requires w.prepareYmlOk && w.testResult.Some? && !w.testResult.value.success
    requires |w.testResult.value.errorSqlFiles| > 0
    ensures var f := Finish(Blocks(r, w), w, key);
      f.trace == [PrepareTableYml, FetchToken, Test(w.token), RevertTableYml,
                  Review(w.testResult.value.errorSqlFiles)] &&
      f.entry == r.entry &&
      f.failure == Some(if w.reviewOk then Incomplete(Staged) else CollaboratorFailed(MoveToReview))
  {
    FailedTestsBlocks(r, w);
    ReviewActions(w);
    var b := Blocks(r, w);
    FinishAtStaged(b, w, key);
    assert b.trace == TestActions(w) by {
      assert [] + TestActions(w) == TestActions(w);
    }
  }

  lemma RaiseActions(w: Collaborators)
    requires w.testResult.Some? && !w.testResult.value.success
    requires |w.testResult.value.errorSqlFiles| == 0
    ensures TestActions(w) == [PrepareTableYml, FetchToken, Test(w.token), RevertTableYml]
    ensures TestFailure(w) == Some(TestsFailed(TestFailureMessage(w.testResult.value)))
  {
  }

  /** From a run left at STAGED, the completion check either keeps its failure or adds the incomplete-stage one. */
  lemma FinishAtStaged(b: Run, w: Collaborators, key: Key)
    requires b.entry.stage == Staged
    ensures Finish(b, w, key) == if b.failure.Some? then b else b.(failure := Some(Incomplete(Staged)))
  {
  }

  /** A failed test run without failing-row queries raises with the runner's output. */
  lemma FailedTestsWithoutQueriesRaise(p: Params, w: Collaborators, ledger: Ledger)
    requires Prepare(p, w).Success? && w.schemaAccepts
    requires FindOrCreate(ledger, Prepare(p, w).value).stage == Staged
    requires w.prepareYmlOk && w.testResult.Some? && !w.testResult.value.success
    requires |w.testResult.value.errorSqlFiles| == 0
    ensures var key := Prepare(p, w).value;
      var o := Pipeline(p, w, ledger);
      var res := w.testResult.value;
      o.failure == Some(TestsFailed("stdout:\n" + res.stdout + "\nstderr:\n" + res.stderr)) &&
      o.ledger[key] == FindOrCreate(ledger, key) &&
      o.trace == [PrepareTableYml, FetchToken, Test(w.token), RevertTableYml]
  {
    var key := Prepare(p, w).value;
    RaiseFinish(Start(ledger, key), w, key);
  }

  lemma RaiseFinish(r: Run, w: Collaborators, key: Key)
    requires r.entry.stage == Staged && r.trace == [] && r.token.None? && r.failure.None?
    requires w.prepareYmlOk && w.testResult.Some? && !w.testResult.value.success
    requires |w.testResult.value.errorSqlFiles| == 0
    ensures var f := Finish(Blocks(r, w), w, key);
      var res := w.testResult.value;
      f.trace == [PrepareTableYml, FetchToken, Test(w.token), RevertTableYml] &&
      f.entry == r.entry &&
      f.failure == Some(TestsFailed("stdout:\n" + res.stdout + "\nstderr:\n" + res.stderr))
  {
    FailedTestsBlocks(r, w);
    RaiseActions(w);
    var b := Blocks(r, w);
    FinishAtStaged(b, w, key);
    assert b.trace == TestActions(w) by {
      assert [] + TestActions(w) == TestActions(w);
    }
  }

  /**
   A run succeeds only with the entry at COMPLETED, and data is propagated
   only after the completion check has passed; a run whose blocks all went
   through but left the entry short of COMPLETED raises at the check.
   */
  lemma SucceedsOnlyWhenCompleted(p: Params, w: Collaborators, ledger: Ledger)
    requires Prepare(p, w).Success?
    ensures var key := Prepare(p, w).value;
      var o := Pipeline(p, w, ledger);
      (o.failure.None? || !NoPropagation(o.trace)) ==> o.ledger[key].stage == Completed
    ensures var key := Prepare(p, w).value;
      var o := Pipeline(p, w, ledger);
      var b := Blocks(Start(ledger, key), w);
      w.schemaAccepts && b.failure.None? && b.entry.stage != Completed ==>
        o.failure == Some(Incomplete(b.entry.stage)) && NoPropagation(o.trace)
  {
    var key := Prepare(p, w).value;
    if w.schemaAccepts {
      var b := Blocks(Start(ledger, key), w);
      NoPropagationInBlocks(Start(ledger, key), w);
      var f := Finish(b, w, key);
      assert f.trace == b.trace + Added(b, f);
      if NoPropagation(Added(b, f)) {
        NoPropagationAppend(b.trace, Added(b, f));
      }
    }
  }

  /** `int(increment)` strips whitespace, so a padded increment runs as the bare one. */
  lemma PaddedIncrement(p: Params, w: Collaborators)
    ensures Prepare(p.(increment := Some(" 3")), w) == Prepare(p.(increment := Some("3")), w)
  {
    Strings.ParseIntOfPadded(" ", "3", "");
    assert " " + "3" + "" == " 3";
  }

  /**
   A table the source does not declare raises before the ledger entry is
   found or created, naming the table and the source.
   */
  lemma UnknownTableLeavesLedger(p: Params, w: Collaborators, ledger: Ledger)
    requires SourceAndTable(p).Success?
    requires var st := SourceAndTable(p).value;
      w.parametersValid && st.0.Some? && st.1.Some? && p.fileName.Some? && p.increment.Some? &&
      Strings.ParseInt(p.increment.value).Some? &&
      w.sourceTables.Some? && st.1.value !in w.sourceTables.value
    ensures var st := SourceAndTable(p).value;
      Pipeline(p, w, ledger) ==
        Outcome(ledger, [], Some(UnknownTable(
          "Table schema '" + st.1.value + "' not found for source '" + st.0.value + "'")))
  {
  }
}

=== FILE: databricks.dfy ===
/**
 The settings of a Databricks cluster, assembled from the cluster's own
 configuration, the platform's cluster defaults and the caller's extra
 settings.
 */
module Databricks {
  import opened Wrappers
  import Json
  import Naming
  import Strings

  datatype Error =
    | NotADictionary(what: string)   // `.get` or `**` on a value that is not a dictionary
    | NotAList(what: string)         // `+` on a library list that is not a list
    | Unhashable                     // a whl entry that cannot go into a set
    | UnknownPool                    // `instance_pools[...]` without that key
    | DuplicateArgument(name: string)  // an extra setting clashing with an argument of the cluster
    | UnnamedResource(error: Naming.Error)

  /** A PyPI library: package and repository, `None` when not given. */
  datatype Pypi = Pypi(package: Json.Value, repo: Json.Value)

  /** One setting of the cluster resource. */
  datatype Setting =
    | Plain(value: Json.Value)
    | Libraries(pypi: seq<Pypi>, whl: set<Json.Value>)
    | LogDestination(destination: string)
    | Conf(entries: map<string, Json.Value>)
    | Autoscale(minWorkers: Json.Value, maxWorkers: Json.Value)
    | AzureAttributes(availability: string, firstOnDemand: Option<Json.Value>, spotBidMaxPrice: Json.Value)
    | DockerImage(url: Json.Value)
    | PoolId(id: string)

  datatype Cluster = Cluster(resourceName: string, settings: map<string, Setting>)

  /** The named arguments of `create_cluster`, which extra settings cannot use. */
  const Parameters: set<string> := {
    "databricks_provider", "platform_config", "resource_name", "cluster_config", "cluster_defaults",
    "cluster_name", "instance_pools", "is_pinned", "depends_on"
  }

  /** The keys of the dictionary literal in `create_cluster`. */
  const LiteralKeys: set<string> := {
    "autotermination_minutes", "cluster_name", "cluster_log_conf", "is_pinned", "libraries", "node_type_id",
    "single_user_name", "spark_conf", "spark_env_vars", "spark_version"
  }

  const LogDestinationPath: string := "dbfs:/mnt/cluster_logs"

  /** `get_config`: the cluster's value, else the defaults' value, else `default`. */
  function GetConfig(config: map<string, Json.Value>, defaults: map<string, Json.Value>, name: string,
                     default: Json.Value): (r: Json.Value)
    ensures name in config ==> r == config[name]
    ensures name !in config && name in defaults ==> r == defaults[name]
    ensures name !in config && name !in defaults ==> r == default
  {
    if name in config then config[name] else if name in defaults then defaults[name] else default
  }

  /** `m.get("libraries", {}).get(kind, [])`. */
  function LibraryList(m: map<string, Json.Value>, kind: string): (r: Result<seq<Json.Value>, Error>)
    ensures "libraries" !in m ==> r == Success([])
  {
    var libraries := if "libraries" in m then m["libraries"] else Json.EmptyObject;
    if !libraries.Object? then Failure(NotADictionary("libraries"))
    else if kind !in libraries.fields then Success([])
    else if libraries.fields[kind].List? then Success(libraries.fields[kind].items)
    else Failure(NotAList(kind))
  }

  /** `ClusterLibraryPypiArgs(package=lib.get("package"), repo=lib.get("repo"))` for each entry. */
  function PypiLibraries(entries: seq<Json.Value>): (r: Result<seq<Pypi>, Error>)
    ensures r.Success? <==> forall i :: 0 <= i < |entries| ==> entries[i].Object?
    ensures r.Success? ==> |r.value| == |entries|
    ensures r.Success? ==> forall i :: 0 <= i < |entries| ==>
      r.value[i] == Pypi(Field(entries[i], "package"), Field(entries[i], "repo"))
  {
    if forall i :: 0 <= i < |entries| ==> entries[i].Object? then
      Success(seq(|entries|, i requires 0 <= i < |entries| => Pypi(Field(entries[i], "package"), Field(entries[i], "repo"))))
    else Failure(NotADictionary("pypi"))
  }

  /** `d.get(key)` on a dictionary. */
  function Field(d: Json.Value, key: string): Json.Value
    requires d.Object?
  {
    if key in d.fields then d.fields[key] else Json.Null
  }

  /** Values Python can put into a set. */
  predicate Hashable(v: Json.Value) {
    !v.List? && !v.Object?
  }

  /**
   The cluster libraries: the cluster's PyPI libraries followed by the
   defaults', kept as they are, and the whl libraries of both as a set;
   `None` when there are none.
   */
  function ClusterLibraries(config: map<string, Json.Value>, defaults: map<string, Json.Value>): (r: Result<Setting, Error>)
    ensures r.Success? && r.value.Libraries? ==>
      LibraryList(config, "pypi").Success? && LibraryList(defaults, "pypi").Success? &&
      LibraryList(config, "whl").Success? && LibraryList(defaults, "whl").Success? &&
      PypiLibraries(LibraryList(config, "pypi").value + LibraryList(defaults, "pypi").value) == Success(r.value.pypi) &&
      (forall w :: w in r.value.whl <==> w in LibraryList(config, "whl").value + LibraryList(defaults, "whl").value) &&
      (|r.value.pypi| > 0 || |r.value.whl| > 0)
    ensures r.Success? && !r.value.Libraries? ==> r.value == Plain(Json.Null)
  {
    var configPypi :- LibraryList(config, "pypi");
    var defaultPypi :- LibraryList(defaults, "pypi");
    var pypi :- PypiLibraries(configPypi + defaultPypi);
    var configWhl :- LibraryList(config, "whl");
    var defaultWhl :- LibraryList(defaults, "whl");
    var whls := configWhl + defaultWhl;
    if exists i :: 0 <= i < |whls| && !Hashable(whls[i]) then Failure(Unhashable)
    else
      var whl := set i | 0 <= i < |whls| :: whls[i];
      if |pypi| == 0 && |whl| == 0 then Success(Plain(Json.Null))
      else Success(Libraries(pypi, whl))
  }

  /** `{**defaults.get(key, {}), **config.get(key, {})}`. */
  function MergedConf(config: map<string, Json.Value>, defaults: map<string, Json.Value>, key: string): (r: Result<map<string, Json.Value>, Error>)
    ensures r.Success? ==> forall k :: k in r.value <==> k in Json.FieldsOrEmpty(Lookup(defaults, key)) || k in Json.FieldsOrEmpty(Lookup(config, key))
    ensures r.Success? ==> forall k :: k in Json.FieldsOrEmpty(Lookup(config, key)) ==> r.value[k] == Json.FieldsOrEmpty(Lookup(config, key))[k]
    ensures r.Success? ==> forall k :: k in r.value && k !in Json.FieldsOrEmpty(Lookup(config, key)) ==>
      r.value[k] == Json.FieldsOrEmpty(Lookup(defaults, key))[k]
    ensures r.Success? <==> Lookup(defaults, key).Object? && Lookup(config, key).Object?
  {
    var d := Lookup(defaults, key);
    var c := Lookup(config, key);
    if !d.Object? || !c.Object? then Failure(NotADictionary(key))
    else Success(d.fields + c.fields)
  }

  /** `m.get(key, {})`. */
  function Lookup(m: map<string, Json.Value>, key: string): Json.Value {
    if key in m then m[key] else Json.EmptyObject
  }

  /** The settings before the type-specific rules: the dictionary literal, with the extra settings on top. */
  function BaseSettings(config: map<string, Json.Value>, defaults: map<string, Json.Value>, clusterName: Option<string>,
                        isPinned: bool, extra: map<string, Setting>): (r: Result<map<string, Setting>, Error>)
    ensures r.Success? <==>
      ClusterLibraries(config, defaults).Success? && MergedConf(config, defaults, "spark_conf").Success? &&
      MergedConf(config, defaults, "spark_env_vars").Success?
    ensures r.Success? ==> r.value.Keys == LiteralKeys + extra.Keys
    ensures r.Success? ==> forall k :: k in extra ==> r.value[k] == extra[k]
  {
    var libraries :- ClusterLibraries(config, defaults);
    var sparkConf :- MergedConf(config, defaults, "spark_conf");
    var sparkEnvVars :- MergedConf(config, defaults, "spark_env_vars");
    Success(Literal(config, defaults, clusterName, isPinned, libraries, sparkConf, sparkEnvVars) + extra)
  }

  /** The dictionary literal of `create_cluster`, given the libraries and the two merged configurations. */
  function Literal(config: map<string, Json.Value>, defaults: map<string, Json.Value>, clusterName: Option<string>,
                   isPinned: bool, libraries: Setting, sparkConf: map<string, Json.Value>,
                   sparkEnvVars: map<string, Json.Value>): (r: map<string, Setting>)
    ensures r.Keys == LiteralKeys
  {
    var name := if clusterName.Some? && clusterName.value != "" then Json.Str(clusterName.value)
                else GetConfig(config, defaults, "display_name", Json.Null);
    var pinned := if isPinned then Json.Bool(true) else GetConfig(config, defaults, "is_pinned", Json.Bool(true));
    map[
      "node_type_id" := Plain(GetConfig(config, defaults, "node_type_id", Json.Null)),
      "single_user_name" := Plain(GetConfig(config, defaults, "single_user_name", Json.Null)),
      "spark_version" := Plain(GetConfig(config, defaults, "spark_version", Json.Null)),
      "libraries" := libraries,
      "spark_conf" := Conf(sparkConf),
      "spark_env_vars" := Conf(sparkEnvVars),
      "cluster_log_conf" := LogDestination(LogDestinationPath),
      "is_pinned" := Plain(pinned),
      "cluster_name" := Plain(name),
      "autotermination_minutes" := Plain(GetConfig(config, defaults, "autotermination_minutes", Json.Int(15)))
    ]
  }

  /** Where no extra setting overrides them, the settings take the configured values, with the built-in defaults. */
  lemma BaseSettingsValues(config: map<string, Json.Value>, defaults: map<string, Json.Value>, clusterName: Option<string>,
                           isPinned: bool, extra: map<string, Setting>)
    requires BaseSettings(config, defaults, clusterName, isPinned, extra).Success?
    ensures var s := BaseSettings(config, defaults, clusterName, isPinned, extra).value;
      ("cluster_name" !in extra ==>
         s["cluster_name"] == Plain(if clusterName.Some? && clusterName.value != "" then Json.Str(clusterName.value)
                                    else GetConfig(config, defaults, "display_name", Json.Null))) &&
      ("autotermination_minutes" !in extra ==>
         s["autotermination_minutes"] == Plain(GetConfig(config, defaults, "autotermination_minutes", Json.Int(15))))
  {
    var lit := Literal(config, defaults, clusterName, isPinned, ClusterLibraries(config, defaults).value,
                       MergedConf(config, defaults, "spark_conf").value, MergedConf(config, defaults, "spark_env_vars").value);
    assert BaseSettings(config, defaults, clusterName, isPinned, extra).value == lit + extra;
    assert lit["cluster_name"] == Plain(if clusterName.Some? && clusterName.value != "" then Json.Str(clusterName.value)
                                        else GetConfig(config, defaults, "display_name", Json.Null));
    assert lit["autotermination_minutes"] == Plain(GetConfig(config, defaults, "autotermination_minutes", Json.Int(15)));
  }

  /** Where no extra setting overrides them, the pin flag and the log destination are the built-in ones. */
  lemma BaseSettingsFixed(config: map<string, Json.Value>, defaults: map<string, Json.Value>, clusterName: Option<string>,
                          isPinned: bool, extra: map<string, Setting>)
    requires BaseSettings(config, defaults, clusterName, isPinned, extra).Success?
    ensures var s := BaseSettings(config, defaults, clusterName, isPinned, extra).value;
      ("is_pinned" !in extra ==>
         s["is_pinned"] == Plain(if isPinned then Json.Bool(true) else GetConfig(config, defaults, "is_pinned", Json.Bool(true)))) &&
      ("cluster_log_conf" !in extra ==> s["cluster_log_conf"] == LogDestination(LogDestinationPath))
  {
    var lit := Literal(config, defaults, clusterName, isPinned, ClusterLibraries(config, defaults).value,
                       MergedConf(config, defaults, "spark_conf").value, MergedConf(config, defaults, "spark_env_vars").value);
    assert BaseSettings(config, defaults, clusterName, isPinned, extra).value == lit + extra;
    assert lit["is_pinned"] == Plain(if isPinned then Json.Bool(true) else GetConfig(config, defaults, "is_pinned", Json.Bool(true)));
    assert lit["cluster_log_conf"] == LogDestination(LogDestinationPath);
  }

  /** Where no extra setting overrides them, the libraries and the spark maps are the merged ones. */
  lemma BaseSettingsMerged(config: map<string, Json.Value>, defaults: map<string, Json.Value>, clusterName: Option<string>,
                           isPinned: bool, extra: map<string, Setting>)
    requires BaseSettings(config, defaults, clusterName, isPinned, extra).Success?
    ensures var s := BaseSettings(config, defaults, clusterName, isPinned, extra).value;
      ("libraries" !in extra ==> s["libraries"] == ClusterLibraries(config, defaults).value) &&
      ("spark_conf" !in extra ==> s["spark_conf"] == Conf(MergedConf(config, defaults, "spark_conf").value)) &&
      ("spark_env_vars" !in extra ==> s["spark_env_vars"] == Conf(MergedConf(config, defaults, "spark_env_vars").value))
  {
    var lit := Literal(config, defaults, clusterName, isPinned, ClusterLibraries(config, defaults).value,
                       MergedConf(config, defaults, "spark_conf").value, MergedConf(config, defaults, "spark_env_vars").value);
    assert BaseSettings(config, defaults, clusterName, isPinned, extra).value == lit + extra;
    LiteralMerged(config, defaults, clusterName, isPinned, ClusterLibraries(config, defaults).value,
                  MergedConf(config, defaults, "spark_conf").value, MergedConf(config, defaults, "spark_env_vars").value);
  }

  lemma LiteralMerged(config: map<string, Json.Value>, defaults: map<string, Json.Value>, clusterName: Option<string>,
                      isPinned: bool, libraries: Setting, sparkConf: map<string, Json.Value>,
                      sparkEnvVars: map<string, Json.Value>)
    ensures var lit := Literal(config, defaults, clusterName, isPinned, libraries, sparkConf, sparkEnvVars);
      lit["libraries"] == libraries && lit["spark_conf"] == Conf(sparkConf) && lit["spark_env_vars"] == Conf(sparkEnvVars)
  {
  }

  /** Workers and the Azure availability, for clusters that are not single-node. */
  function WorkerSettings(config: map<string, Json.Value>, defaults: map<string, Json.Value>,
                          settings: map<string, Setting>): (r: Result<map<string, Setting>, Error>)
    ensures r.Success? ==> Keeps(settings, r.value, {"autoscale", "num_workers", "azure_attributes"})
    ensures r.Success? ==>
      var min := GetConfig(config, defaults, "auto_scale_min_workers", Json.Null);
      var max := GetConfig(config, defaults, "auto_scale_max_workers", Json.Null);
      if Json.Truthy(min) && Json.Truthy(max) then "autoscale" in r.value && r.value["autoscale"] == Autoscale(min, max)
      else "num_workers" in r.value && r.value["num_workers"] == Plain(GetConfig(config, defaults, "num_workers", Json.Null))
    ensures var spot := GetConfig(config, defaults, "use_spot_instances", Json.Null);
      (r.Success? <==> !Json.Truthy(spot) || spot.Object?) &&
      (r.Success? ==> "azure_attributes" in r.value) &&
      (r.Success? && Json.Truthy(spot) ==>
         r.value["azure_attributes"] == AzureAttributes("SPOT_WITH_FALLBACK_AZURE",
           Some(if "first_on_demand" in spot.fields then spot.fields["first_on_demand"] else Json.Int(1)),
           if "spot_bid_max_price" in spot.fields then spot.fields["spot_bid_max_price"] else Json.Int(100))) &&
      (r.Success? && !Json.Truthy(spot) ==>
         r.value["azure_attributes"] == AzureAttributes("ON_DEMAND_AZURE", None, Json.Int(100)))
  {
    var min := GetConfig(config, defaults, "auto_scale_min_workers", Json.Null);
    var max := GetConfig(config, defaults, "auto_scale_max_workers", Json.Null);
    var sized := if Json.Truthy(min) && Json.Truthy(max) then settings["autoscale" := Autoscale(min, max)]
                 else settings["num_workers" := Plain(GetConfig(config, defaults, "num_workers", Json.Null))];
    var spot := GetConfig(config, defaults, "use_spot_instances", Json.Null);
    if !Json.Truthy(spot) then
      Success(sized["azure_attributes" := AzureAttributes("ON_DEMAND_AZURE", None, Json.Int(100))])
    else if !spot.Object? then Failure(NotADictionary("use_spot_instances"))
    else
      var first := if "first_on_demand" in spot.fields then spot.fields["first_on_demand"] else Json.Int(1);
      var bid := if "spot_bid_max_price" in spot.fields then spot.fields["spot_bid_max_price"] else Json.Int(100);
      Success(sized["azure_attributes" := AzureAttributes("SPOT_WITH_FALLBACK_AZURE", Some(first), bid)])
  }

  /** An instance-pool reference: the pool id replaces the node type. */
  function PoolSettings(settings: map<string, Setting>, ref: Json.Value, key: string,
                        instancePools: map<string, string>): (r: Result<map<string, Setting>, Error>)
    requires key != "node_type_id"
    ensures r.Success? ==> Keeps(settings, r.value, {key, "node_type_id"})
    ensures !Json.Truthy(ref) ==> r == Success(settings)
    ensures Json.Truthy(ref) ==> (r.Success? <==> ref.Str? && ref.s in instancePools)
    ensures r.Success? && Json.Truthy(ref) ==>
      key in r.value && r.value[key] == PoolId(instancePools[ref.s]) &&
      ("node_type_id" !in r.value || r.value["node_type_id"] == Plain(Json.Null))
  {
    if !Json.Truthy(ref) then Success(settings)
    else if !(ref.Str? && ref.s in instancePools) then Failure(UnknownPool)
    else
      var pooled := settings[key := PoolId(instancePools[ref.s])];
      if "node_type_id" in pooled && pooled["node_type_id"] != Plain(Json.Null) then Success(pooled - {"node_type_id"})
      else Success(pooled)
  }

  /** The keys the type-specific rules set after the extra settings are merged in. */
  const RuleKeys: set<string> := {
    "autoscale", "num_workers", "azure_attributes", "docker_image", "instance_pool_id",
    "driver_instance_pool_id", "node_type_id"
  }

  /** The type-specific rules, applied to the settings after the extra settings are merged in. */
  function Rules(config: map<string, Json.Value>, defaults: map<string, Json.Value>,
                 base: map<string, Setting>, instancePools: map<string, string>): (r: Result<map<string, Setting>, Error>)
    ensures r.Success? ==> Keeps(base, r.value, RuleKeys)
  {
    var sized :- Sized(config, defaults, base);
    var imaged := Imaged(config, defaults, sized);
    var pooled :- PoolSettings(imaged, GetConfig(config, defaults, "instance_pool_ref_key", Json.Null),
                               "instance_pool_id", instancePools);
    var r := PoolSettings(pooled, GetConfig(config, defaults, "driver_instance_pool_ref_key", Json.Null),
                          "driver_instance_pool_id", instancePools);
    if r.Success? then
      KeepsTransitive(base, sized, imaged, {"autoscale", "num_workers", "azure_attributes"}, {"docker_image"});
      KeepsTransitive(base, imaged, pooled, {"autoscale", "num_workers", "azure_attributes", "docker_image"},
                      {"instance_pool_id", "node_type_id"});
      KeepsTransitive(base, pooled, r.value,
                      {"autoscale", "num_workers", "azure_attributes", "docker_image", "instance_pool_id", "node_type_id"},
                      {"driver_instance_pool_id", "node_type_id"});
      assert {"autoscale", "num_workers", "azure_attributes", "docker_image", "instance_pool_id", "node_type_id"} +
             {"driver_instance_pool_id", "node_type_id"} == RuleKeys;
      r
    else r
  }

  /**
   `after` keeps every setting of `before` outside `touched`, and has no
   keys but those of `before` and `touched`.
   */
  predicate Keeps(before: map<string, Setting>, after: map<string, Setting>, touched: set<string>) {
    after.Keys <= before.Keys + touched &&
    forall k :: k in before && k !in touched ==> k in after && after[k] == before[k]
  }

  lemma KeepsTransitive(a: map<string, Setting>, b: map<string, Setting>, c: map<string, Setting>,
                        s: set<string>, t: set<string>)
    requires Keeps(a, b, s) && Keeps(b, c, t)
    ensures Keeps(a, c, s + t)
  {
  }

  /** The worker rules, which a single-node cluster skips. */
  function Sized(config: map<string, Json.Value>, defaults: map<string, Json.Value>,
                 settings: map<string, Setting>): (r: Result<map<string, Setting>, Error>)
    ensures GetConfig(config, defaults, "type", Json.Null) == Json.Str("single_node") ==> r == Success(settings)
    ensures GetConfig(config, defaults, "type", Json.Null) != Json.Str("single_node") ==>
      r == WorkerSettings(config, defaults, settings)
    ensures r.Success? ==> Keeps(settings, r.value, {"autoscale", "num_workers", "azure_attributes"})
  {
    if GetConfig(config, defaults, "type", Json.Null) != Json.Str("single_node")
    then WorkerSettings(config, defaults, settings) else Success(settings)
  }

  /** The docker image rule. */
  function Imaged(config: map<string, Json.Value>, defaults: map<string, Json.Value>,
                  settings: map<string, Setting>): (r: map<string, Setting>)
    ensures Keeps(settings, r, {"docker_image"})
    ensures var url := GetConfig(config, defaults, "docker_image_url", Json.Null);
      Json.Truthy(url) ==> "docker_image" in r && r["docker_image"] == DockerImage(url)
  {
    var url := GetConfig(config, defaults, "docker_image_url", Json.Null);
    if Json.Truthy(url) then settings["docker_image" := DockerImage(url)] else settings
  }

  /** The generated name of a cluster resource: the type `databricks_cluster` abbreviates to `dbwc`. */
  method ClusterName(resourceName: string, p: Naming.Platform) returns (name: string)
    ensures Naming.ResourceName("databricks_cluster", resourceName, p) == Success(name)
    ensures name == p.prefix + "-" + p.stack + "-" + p.regionShortName + "-dbwc-" + Strings.Lower(resourceName)
  {
    ClusterAbbreviation();
    Naming.AbbreviatedName("databricks_cluster", resourceName, p);
    var head := p.prefix + "-" + p.stack + "-" + p.regionShortName;
    name := head + "-dbwc-" + Strings.Lower(resourceName);
    InfixAssociates(head, "-", "dbwc", "-", Strings.Lower(resourceName));
    assert "-" + "dbwc" + "-" == "-dbwc-";
  }

  lemma InfixAssociates(a: string, x: string, y: string, z: string, b: string)
    ensures a + x + y + z + b == a + (x + y + z) + b
  {
  }

  lemma ClusterAbbreviation()
    ensures Strings.Lower("databricks_cluster") == "databricks_cluster"
    ensures "databricks_cluster" in Naming.Abbreviations.Keys - Naming.SpecialTypes
    ensures Naming.Abbreviations["databricks_cluster"] == "dbwc"
  {
    LowerClusterType();
  }

  lemma LowerClusterType()
    ensures Strings.Lower("databricks_cluster") == "databricks_cluster"
  {
  }

  /**
   `create_cluster`: the generated name first, then the keyword arguments,
   where an extra setting called `opts` clashes with the resource options.
   */
  method CreateCluster(p: Naming.Platform, resourceName: string, config: map<string, Json.Value>,
                       defaults: map<string, Json.Value>, clusterName: Option<string>,
                       instancePools: map<string, string>, isPinned: bool,
                       extra: map<string, Setting>) returns (r: Result<Cluster, Error>)
    requires forall k :: k in extra ==> k !in Parameters
    ensures r.Success? ==>
      r.value.resourceName == p.prefix + "-" + p.stack + "-" + p.regionShortName + "-dbwc-" + Strings.Lower(resourceName)
    ensures r.Success? <==>
      BaseSettings(config, defaults, clusterName, isPinned, extra).Success? &&
      Rules(config, defaults, BaseSettings(config, defaults, clusterName, isPinned, extra).value, instancePools).Success? &&
      "opts" !in extra
    ensures r.Success? ==>
      r.value.settings == Rules(config, defaults, BaseSettings(config, defaults, clusterName, isPinned, extra).value, instancePools).value
    ensures r.Failure? && BaseSettings(config, defaults, clusterName, isPinned, extra).Success? &&
            Rules(config, defaults, BaseSettings(config, defaults, clusterName, isPinned, extra).value, instancePools).Success? ==>
      r == Failure(DuplicateArgument("opts"))
  {
    var name := ClusterName(resourceName, p);
    var base :- BaseSettings(config, defaults, clusterName, isPinned, extra);
    var settings :- Rules(config, defaults, base, instancePools);
    OptsKept(base, settings, extra);
    if "opts" in settings {
      return Failure(DuplicateArgument("opts"));
    }
    r := Success(Cluster(name, settings));
  }

  /** Neither the dictionary literal nor the rules set `opts`: it is there only when an extra setting is. */
  lemma OptsKept(base: map<string, Setting>, settings: map<string, Setting>, extra: map<string, Setting>)
    requires base.Keys == LiteralKeys + extra.Keys
    requires Keeps(base, settings, RuleKeys)
    ensures "opts" in settings <==> "opts" in extra
  {
    assert "opts" !in RuleKeys;
    assert "opts" !in LiteralKeys;
  }

  /** A single-node cluster gets no worker settings beyond those passed as extra settings. */
  lemma SingleNodeHasNoWorkers(config: map<string, Json.Value>, defaults: map<string, Json.Value>,
                               base: map<string, Setting>, instancePools: map<string, string>)
    requires GetConfig(config, defaults, "type", Json.Null) == Json.Str("single_node")
    requires Rules(config, defaults, base, instancePools).Success?
    ensures var s := Rules(config, defaults, base, instancePools).value;
      ("autoscale" in s <==> "autoscale" in base) && ("num_workers" in s <==> "num_workers" in base) &&
      ("azure_attributes" in s <==> "azure_attributes" in base)
  {
  }

  /** Any cluster that is not single-node is sized, by autoscale or by a worker count, and has Azure attributes. */
  lemma WorkersOfMultiNode(config: map<string, Json.Value>, defaults: map<string, Json.Value>,
                           base: map<string, Setting>, instancePools: map<string, string>)
    requires GetConfig(config, defaults, "type", Json.Null) != Json.Str("single_node")
    ensures Rules(config, defaults, base, instancePools).Success? ==>
      var s := Rules(config, defaults, base, instancePools).value;
      "azure_attributes" in s && ("autoscale" in s || "num_workers" in s)
  {
    if Rules(config, defaults, base, instancePools).Success? {
      RulesAfterSizing(config, defaults, base, instancePools);
      var sized := Sized(config, defaults, base).value;
      assert "azure_attributes" in sized && ("autoscale" in sized || "num_workers" in sized);
    }
  }

  /** After the worker rules, the rules touch only the image, the pools and the node type. */
  lemma RulesAfterSizing(config: map<string, Json.Value>, defaults: map<string, Json.Value>,
                         base: map<string, Setting>, instancePools: map<string, string>)
    requires Rules(config, defaults, base, instancePools).Success?
    ensures Sized(config, defaults, base).Success?
    ensures Keeps(Sized(config, defaults, base).value, Rules(config, defaults, base, instancePools).value,
                  {"docker_image", "instance_pool_id", "node_type_id", "driver_instance_pool_id"})
  {
    var sized := Sized(config, defaults, base).value;
    var imaged := Imaged(config, defaults, sized);
    var pooled := PoolSettings(imaged, GetConfig(config, defaults, "instance_pool_ref_key", Json.Null),
                               "instance_pool_id", instancePools).value;
    var r := Rules(config, defaults, base, instancePools).value;
    KeepsTransitive(sized, imaged, pooled, {"docker_image"}, {"instance_pool_id", "node_type_id"});
    KeepsTransitive(sized, pooled, r, {"docker_image", "instance_pool_id", "node_type_id"},
                    {"driver_instance_pool_id", "node_type_id"});
    assert {"docker_image", "instance_pool_id", "node_type_id"} + {"driver_instance_pool_id", "node_type_id"} ==
           {"docker_image", "instance_pool_id", "node_type_id", "driver_instance_pool_id"};
  }

  /** Either pool reference leaves no node type in the settings. */
  lemma PoolsDropNodeType(config: map<string, Json.Value>, defaults: map<string, Json.Value>,
                          base: map<string, Setting>, instancePools: map<string, string>)
    requires Json.Truthy(GetConfig(config, defaults, "instance_pool_ref_key", Json.Null)) ||
             Json.Truthy(GetConfig(config, defaults, "driver_instance_pool_ref_key", Json.Null))
    ensures Rules(config, defaults, base, instancePools).Success? ==>
      var s := Rules(config, defaults, base, instancePools).value;
      "node_type_id" !in s || s["node_type_id"] == Plain(Json.Null)
  {
  }

  /** The spark configuration has the keys of both maps, and the cluster's own value wins. */
  lemma SparkConfPrecedence(config: map<string, Json.Value>, defaults: map<string, Json.Value>, key: string, k: string)
    requires MergedConf(config, defaults, key).Success?
    ensures var m := MergedConf(config, defaults, key).value;
      var c := Json.FieldsOrEmpty(Lookup(config, key));
      var d := Json.FieldsOrEmpty(Lookup(defaults, key));
      (k in m <==> k in c || k in d) &&
      (k in c ==> m[k] == c[k]) &&
      (k !in c && k in d ==> m[k] == d[k])
  {
  }

  /** A pool reference drops the node type, whatever set it. */
  lemma PoolDropsNodeType(settings: map<string, Setting>, ref: Json.Value, instancePools: map<string, string>)
    requires Json.Truthy(ref) && ref.Str? && ref.s in instancePools
    requires "node_type_id" in settings && settings["node_type_id"] != Plain(Json.Null)
    ensures var r := PoolSettings(settings, ref, "instance_pool_id", instancePools);
      r.Success? && "node_type_id" !in r.value && r.value["instance_pool_id"] == PoolId(instancePools[ref.s])
  {
  }
}

=== FILE: devops_deployment.dfy ===
/**
 The user-assigned managed identities of the deployment scale set: one
 per environment, with their names, resource ids and the pipeline
 variables that publish them.
 */
module DevopsDeployment {
  import opened Wrappers
  import Strings
  import ConfigRegistry

  const IdentityKind: string := "devops-deployment-managed-identity"
  /** `providers/Microsoft.ManagedIdentity/userAssignedIdentities`, spelled by its segments. */
  const IdentityProvider: string := "providers" + "/" + "Microsoft.ManagedIdentity" + "/" + "userAssignedIdentities"

  /** `generate_user_assigned_identity_name`. */
  function IdentityName(prefix: string, environment: string): string {
    Strings.Join([prefix, IdentityKind, environment], "-")
  }

  /** `generate_user_assigned_identity_id`. */
  function IdentityId(subscriptionId: string, resourceGroupName: string, prefix: string, environment: string): string {
    Strings.Join(["/subscriptions", subscriptionId, "resourceGroups", resourceGroupName, IdentityProvider,
                  IdentityName(prefix, environment)], "/")
  }

  /** Different environments get different identity names. */
  lemma IdentityNameInjective(prefix: string, a: string, b: string)
    requires IdentityName(prefix, a) == IdentityName(prefix, b)
    ensures a == b
  {
    var head := prefix + "-" + IdentityKind + "-";
    IdentityNameShape(prefix, a);
    IdentityNameShape(prefix, b);
    assert a == IdentityName(prefix, a)[|head|..];
    assert b == IdentityName(prefix, b)[|head|..];
  }

  lemma IdentityNameShape(prefix: string, environment: string)
    ensures IdentityName(prefix, environment) == prefix + "-" + IdentityKind + "-" + environment
  {
    Strings.JoinCons(prefix, [IdentityKind, environment], "-");
    Strings.JoinTwo(IdentityKind, environment, "-");
  }

  /** Different environments get different identity ids. */
  lemma IdentityIdInjective(subscriptionId: string, resourceGroupName: string, prefix: string, a: string, b: string)
    requires IdentityId(subscriptionId, resourceGroupName, prefix, a) == IdentityId(subscriptionId, resourceGroupName, prefix, b)
    ensures a == b
  {
    var head := Strings.Join(["/subscriptions", subscriptionId, "resourceGroups", resourceGroupName, IdentityProvider], "/") + "/";
    IdentityIdShape(subscriptionId, resourceGroupName, prefix, a);
    IdentityIdShape(subscriptionId, resourceGroupName, prefix, b);
    assert IdentityName(prefix, a) == IdentityId(subscriptionId, resourceGroupName, prefix, a)[|head|..];
    assert IdentityName(prefix, b) == IdentityId(subscriptionId, resourceGroupName, prefix, b)[|head|..];
    IdentityNameInjective(prefix, a, b);
  }

  lemma IdentityIdShape(subscriptionId: string, resourceGroupName: string, prefix: string, environment: string)
    ensures IdentityId(subscriptionId, resourceGroupName, prefix, environment) ==
      Strings.Join(["/subscriptions", subscriptionId, "resourceGroups", resourceGroupName, IdentityProvider], "/") + "/" +
      IdentityName(prefix, environment)
  {
    var head := ["/subscriptions", subscriptionId, "resourceGroups", resourceGroupName, IdentityProvider];
    assert ["/subscriptions", subscriptionId, "resourceGroups", resourceGroupName, IdentityProvider,
            IdentityName(prefix, environment)] == head + [IdentityName(prefix, environment)];
    Strings.JoinAppend(head, [IdentityName(prefix, environment)], "/");
  }

  /** The identity id in the segment form the registry parser reads. */
  lemma IdentityIdSegments(subscriptionId: string, resourceGroupName: string, prefix: string, environment: string)
    ensures IdentityId(subscriptionId, resourceGroupName, prefix, environment) ==
      ConfigRegistry.ResourceId(["subscriptions", subscriptionId, "resourceGroups", resourceGroupName,
                                 "providers", "Microsoft.ManagedIdentity", "userAssignedIdentities",
                                 IdentityName(prefix, environment)])
  {
    var name := IdentityName(prefix, environment);
    var provider := ["providers", "Microsoft.ManagedIdentity", "userAssignedIdentities"];
    ProviderSegments();
    var front := ["subscriptions", subscriptionId, "resourceGroups", resourceGroupName];
    // "/".join(["/subscriptions", ...]) == "/" + "/".join(["subscriptions", ...])
    Strings.JoinCons("/subscriptions", [subscriptionId, "resourceGroups", resourceGroupName, IdentityProvider, name], "/");
    Strings.JoinCons("subscriptions", [subscriptionId, "resourceGroups", resourceGroupName, IdentityProvider, name], "/");
    assert "/subscriptions" == "/" + "subscriptions";
    // the provider part is itself three segments
    var six := front + [IdentityProvider, name];
    assert ["subscriptions", subscriptionId, "resourceGroups", resourceGroupName, IdentityProvider, name] == six;
    Strings.JoinAppend(front, [IdentityProvider, name], "/");
    Strings.JoinTwo(IdentityProvider, name, "/");
    Strings.JoinAppend(provider, [name], "/");
    Strings.JoinAppend(front, provider + [name], "/");
    assert front + (provider + [name]) ==
      ["subscriptions", subscriptionId, "resourceGroups", resourceGroupName,
       "providers", "Microsoft.ManagedIdentity", "userAssignedIdentities", name];
  }

  lemma ProviderSegments()
    ensures IdentityProvider == Strings.Join(["providers", "Microsoft.ManagedIdentity", "userAssignedIdentities"], "/")
  {
    Strings.JoinCons("providers", ["Microsoft.ManagedIdentity", "userAssignedIdentities"], "/");
    Strings.JoinTwo("Microsoft.ManagedIdentity", "userAssignedIdentities", "/");
  }

  /**
   An identity id parses back into the security resource group and the
   identity's name when the parts contain no `/`.
   */
  lemma IdentityIdRoundTrip(subscriptionId: string, resourceGroupName: string, prefix: string, environment: string)
    requires subscriptionId != "" && '/' !in subscriptionId
    requires resourceGroupName != "" && '/' !in resourceGroupName
    requires '/' !in prefix && '/' !in environment
    ensures var id := IdentityId(subscriptionId, resourceGroupName, prefix, environment);
      ConfigRegistry.ParseResourceId(id) ==
        Success(ConfigRegistry.KeyVault(id, IdentityName(prefix, environment), resourceGroupName))
  {
    var name := IdentityName(prefix, environment);
    IdentityIdSegments(subscriptionId, resourceGroupName, prefix, environment);
    IdentityNameShape(prefix, environment);
    assert '/' !in IdentityKind;
    assert '/' !in name by {
      Strings.JoinExcludes([prefix, IdentityKind, environment], "-", '/');
    }
    var parts := ["subscriptions", subscriptionId, "resourceGroups", resourceGroupName,
                  "providers", "Microsoft.ManagedIdentity", "userAssignedIdentities", name];
    assert name != "" by {
      assert |name| == |prefix| + 1 + |IdentityKind| + 1 + |environment|;
    }
    FixedSegmentsPlain();
    assert forall i :: 0 <= i < |parts| ==> parts[i] != "" && '/' !in parts[i];
    ConfigRegistry.ParseResourceIdOfParts(parts);
  }

  lemma FixedSegmentsPlain()
    ensures '/' !in "subscriptions" && '/' !in "resourceGroups" && '/' !in "providers"
    ensures '/' !in "Microsoft.ManagedIdentity" && '/' !in "userAssignedIdentities"
  {
  }

  // ---------------------------------------------------------------------
  // One identity per environment
  // ---------------------------------------------------------------------

  /** The keys of a dictionary built from `envs`, in first-insertion order. */
  function Distinct(envs: seq<string>): (r: seq<string>)
    ensures forall x :: x in r <==> x in envs
    ensures forall i, j :: 0 <= i < j < |r| ==> r[i] != r[j]
  {
    if |envs| == 0 then []
    else
      var init := Distinct(envs[..|envs| - 1]);
      var last := envs[|envs| - 1];
      assert envs == envs[..|envs| - 1] + [last];
      if last in init then init else init + [last]
  }

  /** A user-assigned identity, as declared. */
  datatype Identity = Identity(environment: string, name: string)

  /** The identities, one per distinct environment, keyed by environment. */
  function Identities(prefix: string, envs: seq<string>): (r: map<string, Identity>)
    ensures r.Keys == set e | e in envs
    ensures forall e :: e in r ==> r[e] == Identity(e, IdentityName(prefix, e))
  {
    map e | e in envs :: Identity(e, IdentityName(prefix, e))
  }

  /** The pipeline variable that publishes an environment's identity client id. */
  function VariableName(environment: string): string {
    "USER_ASSIGNED_MANAGED_IDENTITY_" + Strings.Upper(environment)
  }

  /** The variables of the managed-identity variable group, in environment order. */
  function Variables(envs: seq<string>): (r: seq<string>)
    ensures |r| == |Distinct(envs)|
    ensures forall i :: 0 <= i < |r| ==> r[i] == VariableName(Distinct(envs)[i])
  {
    var keys := Distinct(envs);
    seq(|keys|, i requires 0 <= i < |keys| => VariableName(keys[i]))
  }

  /** The identities attached to the scale set, by id. */
  function ScaleSetIdentities(subscriptionId: string, resourceGroupName: string, prefix: string,
                              envs: seq<string>): (r: set<string>)
    ensures forall e :: e in envs ==> IdentityId(subscriptionId, resourceGroupName, prefix, e) in r
    ensures forall id :: id in r ==> exists e :: e in envs && id == IdentityId(subscriptionId, resourceGroupName, prefix, e)
  {
    set e | e in envs :: IdentityId(subscriptionId, resourceGroupName, prefix, e)
  }

  /** The scale set carries exactly one identity per distinct environment. */
  lemma ScaleSetIdentityCount(subscriptionId: string, resourceGroupName: string, prefix: string, envs: seq<string>)
    ensures |ScaleSetIdentities(subscriptionId, resourceGroupName, prefix, envs)| == |Distinct(envs)|
  {
    var keys := Distinct(envs);
    var ids := ScaleSetIdentities(subscriptionId, resourceGroupName, prefix, envs);
    var f := (e: string) => IdentityId(subscriptionId, resourceGroupName, prefix, e);
    forall a, b | a in keys && b in keys && f(a) == f(b)
      ensures a == b
    {
      IdentityIdInjective(subscriptionId, resourceGroupName, prefix, a, b);
    }
    ImageCount(keys, f);
    assert ids == set e | e in keys :: f(e);
  }

  /** An injective function maps a duplicate-free list onto a set of the same size. */
  lemma {:induction false} ImageCount(keys: seq<string>, f: string -> string)
    requires forall i, j :: 0 <= i < j < |keys| ==> keys[i] != keys[j]
    requires forall a, b :: a in keys && b in keys && f(a) == f(b) ==> a == b
    ensures |set e | e in keys :: f(e)| == |keys|
    decreases |keys|
  {
    if |keys| > 0 {
      var rest := keys[1..];
      DistinctTail(keys);
      ImageCount(rest, f);
      ImageCons(keys, f);
      assert f(keys[0]) !in (set e | e in rest :: f(e));
    }
  }

  lemma DistinctTail(keys: seq<string>)
    requires |keys| > 0
    requires forall i, j :: 0 <= i < j < |keys| ==> keys[i] != keys[j]
    ensures forall i, j :: 0 <= i < j < |keys[1..]| ==> keys[1..][i] != keys[1..][j]
    ensures keys[0] !in keys[1..]
  {
    var rest := keys[1..];
    forall i, j | 0 <= i < j < |rest|
      ensures rest[i] != rest[j]
    {
      assert rest[i] == keys[i + 1] && rest[j] == keys[j + 1];
    }
    forall i | 0 <= i < |rest|
      ensures rest[i] != keys[0]
    {
      assert rest[i] == keys[i + 1];
    }
  }

  lemma ImageCons(keys: seq<string>, f: string -> string)
    requires |keys| > 0
    ensures (set e | e in keys :: f(e)) == (set e | e in keys[1..] :: f(e)) + {f(keys[0])}
  {
    assert keys == [keys[0]] + keys[1..];
  }
}

=== FILE: extensions.dfy ===
/**
 Loading the platform's extension packages: each package listed in the
 configuration registers its name as a namespace, which must be new, and
 is then initialised with that namespace and its own configuration.
 */
module Extensions {
  import opened Wrappers
  import Json

  datatype Error =
    | NamespaceTaken(namespace: Json.Value)  // `PackageNamespaceDuplicateError`
    | NotADictionary                         // `.get` on a package entry that is not a dictionary
    | NotIterable                            // `for package in packages` over a scalar
    | NotImportable(name: Json.Value)        // `import_module` on a name that is not a module path

  /** The arguments one package's `init` receives from this loop. */
  datatype Init = Init(namespace: Json.Value, config: Json.Value)

  /** The state after the loop: the packages initialised, the namespaces taken, and the error that stopped it, if any. */
  datatype Run = Run(inits: seq<Init>, namespaces: seq<Json.Value>, error: Option<Error>)

  /** The error message of a duplicate namespace. */
  function TakenMessage(namespace: string): (r: string)
    ensures |r| > |namespace|
  {
    "The namespace " + namespace + " is already taken."
  }

  /** `register_namespace`: appends a namespace the list does not hold yet; comparison is exact, so case matters. */
  function RegisterNamespace(namespace: Json.Value, namespaces: seq<Json.Value>): (r: Result<seq<Json.Value>, Error>)
    ensures r.Success? <==> namespace !in namespaces
    ensures r.Success? ==> |r.value| == |namespaces| + 1 && r.value[..|namespaces|] == namespaces &&
                           r.value[|namespaces|] == namespace
    ensures r.Failure? ==> r.error == NamespaceTaken(namespace)
  {
    if namespace !in namespaces then Success(namespaces + [namespace])
    else Failure(NamespaceTaken(namespace))
  }

  predicate Distinct(s: seq<Json.Value>) {
    forall i, j :: 0 <= i < j < |s| ==> s[i] != s[j]
  }

  /** Registration keeps the namespace list free of duplicates. */
  lemma RegisterKeepsDistinct(namespace: Json.Value, namespaces: seq<Json.Value>)
    requires Distinct(namespaces)
    requires RegisterNamespace(namespace, namespaces).Success?
    ensures Distinct(RegisterNamespace(namespace, namespaces).value)
  {
  }

  /** Two namespaces that differ only in letter case are both accepted. */
  lemma CaseSensitive()
    ensures RegisterNamespace(Json.Str("Sales"), [Json.Str("sales")]) == Success([Json.Str("sales"), Json.Str("Sales")])
  {
    assert "Sales"[0] != "sales"[0];
    assert Json.Str("Sales") !in [Json.Str("sales")];
    assert [Json.Str("sales")] + [Json.Str("Sales")] == [Json.Str("sales"), Json.Str("Sales")];
  }

  /** `package.get(key)` on a package entry known to be a dictionary. */
  function Field(package: Json.Value, key: string): Json.Value
    requires package.Object?
  {
    if key in package.fields then package.fields[key] else Json.Null
  }

  /**
   The names `import_module` can take: a non-empty string that is not a
   relative module path. `None` or a number raises, `""` is an empty module
   name and a leading dot needs a package.
   */
  predicate ImportableName(name: Json.Value) {
    name.Str? && |name.s| > 0 && name.s[0] != '.'
  }

  /** The namespace left registered by a package whose import failed. */
  function Unimported(error: Option<Error>): (r: seq<Json.Value>)
    ensures |r| <= 1
    ensures |r| == 1 <==> error.Some? && error.value.NotImportable?
  {
    if error.Some? && error.value.NotImportable? then [error.value.name] else []
  }

  function Namespaces(inits: seq<Init>): (r: seq<Json.Value>)
    ensures |r| == |inits|
    ensures forall i :: 0 <= i < |inits| ==> r[i] == inits[i].namespace
  {
    seq(|inits|, i requires 0 <= i < |inits| => inits[i].namespace)
  }

  lemma NamespacesCons(init: Init, inits: seq<Init>)
    ensures Namespaces([init] + inits) == [init.namespace] + Namespaces(inits)
  {
    var a, b := Namespaces([init] + inits), [init.namespace] + Namespaces(inits);
    forall i | 0 <= i < |a| ensures a[i] == b[i] {
      if i > 0 { assert ([init] + inits)[i] == inits[i - 1]; }
    }
  }

  /**
   The registration loop over `packages`, starting from the namespaces
   already taken: each package registers its `name`, is imported by that
   name and then gets its `init`; the first failure stops the loop. A
   failed import comes after the registration, so its name stays taken.
   */
  function Register(packages: seq<Json.Value>, namespaces: seq<Json.Value>): (r: Run)
    ensures |r.inits| <= |packages|
    ensures r.namespaces == namespaces + Namespaces(r.inits) + Unimported(r.error)
    ensures r.error.None? ==> |r.inits| == |packages|
    ensures r.error.Some? ==> |r.inits| < |packages| && r.error.value != NotIterable
    decreases |packages|
  {
    if |packages| == 0 then Run([], namespaces, None)
    else
      var package := packages[0];
      if !package.Object? then Run([], namespaces, Some(NotADictionary))
      else
        var name := Field(package, "name");
        match RegisterNamespace(name, namespaces)
        case Failure(e) => Run([], namespaces, Some(e))
        case Success(taken) =>
          if !ImportableName(name) then Run([], taken, Some(NotImportable(name)))
          else
            var rest := Register(packages[1..], taken);
            var inits := [Init(name, Field(package, "config"))] + rest.inits;
            TakenStep(namespaces, Init(name, Field(package, "config")), rest.inits, Unimported(rest.error));
            Run(inits, rest.namespaces, rest.error)
  }

  /** The namespaces after one more initialised package. */
  lemma TakenStep(namespaces: seq<Json.Value>, init: Init, inits: seq<Init>, failed: seq<Json.Value>)
    ensures namespaces + [init.namespace] + Namespaces(inits) + failed == namespaces + Namespaces([init] + inits) + failed
  {
    NamespacesCons(init, inits);
    assert namespaces + [init.namespace] + Namespaces(inits) == namespaces + ([init.namespace] + Namespaces(inits));
  }

  /** The packages initialised are the first ones, in order, each with its own name and configuration. */
  lemma {:induction false} RegisterInits(packages: seq<Json.Value>, namespaces: seq<Json.Value>)
    ensures var r := Register(packages, namespaces);
      forall i :: 0 <= i < |r.inits| ==>
        packages[i].Object? && r.inits[i] == Init(Field(packages[i], "name"), Field(packages[i], "config"))
    decreases |packages|
  {
    var r := Register(packages, namespaces);
    if |packages| > 0 && packages[0].Object? {
      var name := Field(packages[0], "name");
      if RegisterNamespace(name, namespaces).Success? && ImportableName(name) {
        var taken := RegisterNamespace(name, namespaces).value;
        var rest := Register(packages[1..], taken);
        RegisterCons(packages, namespaces);
        RegisterInits(packages[1..], taken);
        var init := Init(name, Field(packages[0], "config"));
        assert r.inits == [init] + rest.inits;
        forall i | 1 <= i < |r.inits|
          ensures packages[i].Object? && r.inits[i] == Init(Field(packages[i], "name"), Field(packages[i], "config"))
        {
          assert packages[i] == packages[1..][i - 1];
          assert r.inits[i] == rest.inits[i - 1];
        }
      }
    }
  }

  /** After a package that registers and imports, its init comes first and the rest of the loop decides the rest. */
  lemma RegisterCons(packages: seq<Json.Value>, namespaces: seq<Json.Value>)
    requires |packages| > 0 && packages[0].Object?
    requires RegisterNamespace(Field(packages[0], "name"), namespaces).Success?
    requires ImportableName(Field(packages[0], "name"))
    ensures var rest := Register(packages[1..], RegisterNamespace(Field(packages[0], "name"), namespaces).value);
      Register(packages, namespaces) ==
        Run([Init(Field(packages[0], "name"), Field(packages[0], "config"))] + rest.inits, rest.namespaces, rest.error)
  {
  }

  /**
   The loop stops at the first package that is not a dictionary, whose
   name is already taken, or whose name cannot be imported.
   */
  lemma {:induction false} RegisterStops(packages: seq<Json.Value>, namespaces: seq<Json.Value>)
    ensures var r := Register(packages, namespaces);
      r.error == Some(NotADictionary) ==> !packages[|r.inits|].Object?
    ensures var r := Register(packages, namespaces);
      r.error.Some? && r.error.value.NamespaceTaken? ==>
        packages[|r.inits|].Object? && r.error.value.namespace == Field(packages[|r.inits|], "name") &&
        Field(packages[|r.inits|], "name") in r.namespaces
    ensures var r := Register(packages, namespaces);
      r.error.Some? && r.error.value.NotImportable? ==>
        packages[|r.inits|].Object? && r.error.value.name == Field(packages[|r.inits|], "name") &&
        !ImportableName(r.error.value.name)
    decreases |packages|
  {
    if |packages| > 0 && packages[0].Object? {
      var name := Field(packages[0], "name");
      if RegisterNamespace(name, namespaces).Success? && ImportableName(name) {
        StopsStep(packages, namespaces);
      }
    }
  }

  /** The inductive step of `RegisterStops`: after a package that registers and imports, the rest of the loop decides. */
  lemma {:induction false} StopsStep(packages: seq<Json.Value>, namespaces: seq<Json.Value>)
    requires |packages| > 0 && packages[0].Object?
    requires RegisterNamespace(Field(packages[0], "name"), namespaces).Success?
    requires ImportableName(Field(packages[0], "name"))
    ensures var r := Register(packages, namespaces);
      r.error == Some(NotADictionary) ==> !packages[|r.inits|].Object?
    ensures var r := Register(packages, namespaces);
      r.error.Some? && r.error.value.NamespaceTaken? ==>
        packages[|r.inits|].Object? && r.error.value.namespace == Field(packages[|r.inits|], "name") &&
        Field(packages[|r.inits|], "name") in r.namespaces
    ensures var r := Register(packages, namespaces);
      r.error.Some? && r.error.value.NotImportable? ==>
        packages[|r.inits|].Object? && r.error.value.name == Field(packages[|r.inits|], "name") &&
        !ImportableName(r.error.value.name)
    decreases |packages|, 0
  {
    var taken := RegisterNamespace(Field(packages[0], "name"), namespaces).value;
    var r := Register(packages, namespaces);
    var rest := Register(packages[1..], taken);
    RegisterStops(packages[1..], taken);
    assert |r.inits| == |rest.inits| + 1 && r.error == rest.error && r.namespaces == rest.namespaces;
    if r.error.Some? {
      assert packages[|r.inits|] == packages[1..][|rest.inits|];
    }
  }

  /** The namespaces taken after the loop are distinct whenever the ones before were. */
  lemma {:induction false} RegisterDistinct(packages: seq<Json.Value>, namespaces: seq<Json.Value>)
    requires Distinct(namespaces)
    ensures Distinct(Register(packages, namespaces).namespaces)
    decreases |packages|
  {
    if |packages| > 0 && packages[0].Object? {
      var name := Field(packages[0], "name");
      if RegisterNamespace(name, namespaces).Success? {
        RegisterKeepsDistinct(name, namespaces);
        if ImportableName(name) {
          RegisterDistinct(packages[1..], RegisterNamespace(name, namespaces).value);
        }
      }
    }
  }

  /** The names of the packages, or `None` if some entry is not a dictionary. */
  function Names(packages: seq<Json.Value>): (r: Option<seq<Json.Value>>)
    ensures r.Some? <==> forall i :: 0 <= i < |packages| ==> packages[i].Object?
    ensures r.Some? ==> |r.value| == |packages| && forall i :: 0 <= i < |packages| ==> r.value[i] == Field(packages[i], "name")
  {
    if forall i :: 0 <= i < |packages| ==> packages[i].Object? then
      Some(seq(|packages|, i requires 0 <= i < |packages| => Field(packages[i], "name")))
    else None
  }

  predicate AllImportable(names: seq<Json.Value>) {
    forall i :: 0 <= i < |names| ==> ImportableName(names[i])
  }

  /** The names of a list that starts with a dictionary are its name followed by the others'. */
  lemma NamesCons(packages: seq<Json.Value>)
    requires |packages| > 0 && packages[0].Object?
    ensures Names(packages).Some? <==> Names(packages[1..]).Some?
    ensures Names(packages).Some? ==>
      Names(packages).value == [Field(packages[0], "name")] + Names(packages[1..]).value
  {
    var names, tail := Names(packages), Names(packages[1..]);
    if tail.Some? {
      forall i | 0 <= i < |packages| ensures packages[i].Object? {
        if i > 0 { assert packages[1..][i - 1] == packages[i]; }
      }
    }
    if names.Some? {
      forall i | 1 <= i < |packages| ensures names.value[i] == tail.value[i - 1] {
        assert packages[1..][i - 1] == packages[i];
      }
    }
  }

  lemma AllImportableCons(name: Json.Value, names: seq<Json.Value>)
    ensures AllImportable([name] + names) <==> ImportableName(name) && AllImportable(names)
  {
    if ImportableName(name) && AllImportable(names) {
      forall i | 1 <= i < |names| + 1 ensures ImportableName(([name] + names)[i]) {
        assert ([name] + names)[i] == names[i - 1];
      }
    }
    if AllImportable([name] + names) {
      assert ([name] + names)[0] == name;
      forall i | 0 <= i < |names| ensures ImportableName(names[i]) {
        assert ([name] + names)[i + 1] == names[i];
      }
    }
  }

  /**
   Every package is initialised exactly when all entries are dictionaries,
   every name can be imported, and no name repeats or is already taken.
   */
  lemma {:induction false} RegisterSucceeds(packages: seq<Json.Value>, namespaces: seq<Json.Value>)
    requires Distinct(namespaces)
    ensures Register(packages, namespaces).error.None? <==>
      Names(packages).Some? && AllImportable(Names(packages).value) &&
      Distinct(namespaces + Names(packages).value)
    decreases |packages|
  {
    if |packages| > 0 {
      var names := Names(packages);
      if packages[0].Object? {
        var name := Field(packages[0], "name");
        var tail := Names(packages[1..]);
        NamesCons(packages);
        if names.Some? {
          AllImportableCons(name, tail.value);
          assert namespaces + names.value == (namespaces + [name]) + tail.value;
          assert names.value[0] == name;
        }
        if name !in namespaces {
          if ImportableName(name) {
            RegisterSucceeds(packages[1..], namespaces + [name]);
          }
        } else if names.Some? {
          TakenNotDistinct(namespaces, names.value);
        }
      } else {
        assert names.None?;
      }
    }
  }

  /** A list whose first name is already taken does not stay free of duplicates. */
  lemma TakenNotDistinct(namespaces: seq<Json.Value>, names: seq<Json.Value>)
    requires |names| > 0 && names[0] in namespaces
    ensures !Distinct(namespaces + names)
  {
    var k :| 0 <= k < |namespaces| && namespaces[k] == names[0];
    assert (namespaces + names)[k] == (namespaces + names)[|namespaces|];
  }

  /** A package without a name registers `None` as a namespace and then fails to import. */
  lemma NamelessPackage()
    ensures Register([Json.Object(map[])], []) == Run([], [Json.Null], Some(NotImportable(Json.Null)))
  {
    assert Field(Json.Object(map[]), "name") == Json.Null;
  }

  /** The entries the loop iterates: a list's items, a dictionary's keys, a string's characters. */
  function Packages(fromYml: map<string, Json.Value>): (r: Result<seq<Json.Value>, Error>)
    ensures "packages" !in fromYml ==> r == Success([])
    ensures r.Success? && "packages" in fromYml && fromYml["packages"].List? ==> r.value == fromYml["packages"].items
    ensures r.Failure? <==>
      "packages" in fromYml && !fromYml["packages"].List? &&
      (Json.Truthy(fromYml["packages"]) || !(fromYml["packages"].Object? || fromYml["packages"].Str?))
  {
    if "packages" !in fromYml then Success([])
    else
      match fromYml["packages"]
      case List(items) => Success(items)
      // A non-empty dictionary or string yields strings, and `.get` on a string fails.
      case Object(fields) => if |fields| == 0 then Success([]) else Failure(NotADictionary)
      case Str(s) => if |s| == 0 then Success([]) else Failure(NotADictionary)
      case _ => Failure(NotIterable)
  }

  /** The whole script: the configured packages, registered from an empty namespace list. */
  function LoadPackages(fromYml: map<string, Json.Value>): (r: Run)
    ensures Packages(fromYml).Failure? ==> r == Run([], [], Some(Packages(fromYml).error))
    ensures Packages(fromYml).Success? ==> r == Register(Packages(fromYml).value, [])
  {
    match Packages(fromYml)
    case Failure(e) => Run([], [], Some(e))
    case Success(packages) => Register(packages, [])
  }
}

=== FILE: iam.dfy ===
/**
 Role assignments: how their resource names are built, how the role
 definition is found by name or by id, and the lookup cache shared by all
 assignments, which maps role names to ids and ids to names.
 */
module Iam {
  import opened Wrappers
  import Strings

  datatype Error =
    | RoleNotFound(message: string)   // the lookup found no role definition
    | RoleMissing                     // ValueError: neither a role name nor a role id

  /** A role definition, as the authorization API lists it. */
  datatype Role = Role(id: string, roleName: string)

  /** The role definitions visible to the deployment; queries return the first match. */
  type Directory = seq<Role>

  /** The shared cache: role names to ids and role ids to names, in one dictionary. */
  type Cache = map<string, string>

  /** The outcome of a lookup: the answer, the cache afterwards, and whether the API was queried. */
  datatype Lookup = Lookup(result: Result<string, Error>, cache: Cache, queried: bool)

  /** `role_definitions.list(scope, filter="roleName eq '...'")`, first result. */
  function QueryByName(dir: Directory, name: string): (r: Option<Role>)
    ensures r.Some? ==> r.value in dir && r.value.roleName == name
    ensures r.None? ==> forall i :: 0 <= i < |dir| ==> dir[i].roleName != name
  {
    if |dir| == 0 then None
    else if dir[0].roleName == name then Some(dir[0])
    else
      assert forall i :: 1 <= i < |dir| ==> dir[i] == dir[1..][i - 1];
      QueryByName(dir[1..], name)
  }

  /** `role_definitions.list(scope, filter="name eq '...'")`, first result. */
  function QueryById(dir: Directory, id: string): (r: Option<Role>)
    ensures r.Some? ==> r.value in dir && r.value.id == id
    ensures r.None? ==> forall i :: 0 <= i < |dir| ==> dir[i].id != id
  {
    if |dir| == 0 then None
    else if dir[0].id == id then Some(dir[0])
    else
      assert forall i :: 1 <= i < |dir| ==> dir[i] == dir[1..][i - 1];
      QueryById(dir[1..], id)
  }

  function NameNotFound(name: string, scope: string): string {
    "role '" + name + "' not found at scope '" + scope + "'"
  }

  function IdNotFound(id: string, scope: string): string {
    "role id '" + id + "' not found at scope '" + scope + "'"
  }

  /** `get_role_id_by_name`. */
  function RoleIdByName(cache: Cache, dir: Directory, name: string, scope: string): (r: Lookup)
    ensures name in cache ==> r == Lookup(Success(cache[name]), cache, false)
    ensures name !in cache ==> r.queried
    ensures r.result.Failure? ==> r.cache == cache && r.result.error == RoleNotFound(NameNotFound(name, scope))
    ensures name !in cache && r.result.Success? ==>
      exists role :: role in dir && role.roleName == name && r.result.value == role.id &&
        r.cache == cache[name := role.id][role.id := name]
  {
    if name in cache then Lookup(Success(cache[name]), cache, false)
    else
      match QueryByName(dir, name)
      case None => Lookup(Failure(RoleNotFound(NameNotFound(name, scope))), cache, true)
      case Some(role) => Lookup(Success(role.id), cache[name := role.id][role.id := name], true)
  }

  /** `get_role_name_by_id`. */
  function RoleNameById(cache: Cache, dir: Directory, id: string, scope: string): (r: Lookup)
    ensures id in cache ==> r == Lookup(Success(cache[id]), cache, false)
    ensures id !in cache ==> r.queried
    ensures r.result.Failure? ==> r.cache == cache && r.result.error == RoleNotFound(IdNotFound(id, scope))
    ensures id !in cache && r.result.Success? ==>
      exists role :: role in dir && role.id == id && r.result.value == role.roleName &&
        r.cache == cache[role.roleName := role.id][role.id := role.roleName]
  {
    if id in cache then Lookup(Success(cache[id]), cache, false)
    else
      match QueryById(dir, id)
      case None => Lookup(Failure(RoleNotFound(IdNotFound(id, scope))), cache, true)
      case Some(role) => Lookup(Success(role.roleName), cache[role.roleName := role.id][role.id := role.roleName], true)
  }

  /** Every cache entry maps a role's name to its id or its id to its name. */
  predicate Sound(cache: Cache, dir: Directory) {
    forall k :: k in cache ==>
      exists role :: role in dir && ((k == role.roleName && cache[k] == role.id) || (k == role.id && cache[k] == role.roleName))
  }

  /**
   The directory names each role once, and no role id is also a role
   name, as with role definitions identified by GUIDs.
   */
  predicate WellFormed(dir: Directory) {
    (forall a, b :: a in dir && b in dir && (a.id == b.id || a.roleName == b.roleName) ==> a == b) &&
    (forall a, b :: a in dir && b in dir ==> a.id != b.roleName)
  }

  /** Lookups keep the cache sound. */
  lemma LookupsKeepSound(cache: Cache, dir: Directory, key: string, scope: string)
    requires Sound(cache, dir)
    ensures Sound(RoleIdByName(cache, dir, key, scope).cache, dir)
    ensures Sound(RoleNameById(cache, dir, key, scope).cache, dir)
  {
    var byName := RoleIdByName(cache, dir, key, scope).cache;
    if key !in cache && QueryByName(dir, key).Some? {
      var role := QueryByName(dir, key).value;
      assert byName == cache[key := role.id][role.id := key];
      forall k | k in byName
        ensures exists r :: r in dir && ((k == r.roleName && byName[k] == r.id) || (k == r.id && byName[k] == r.roleName))
      {
        if k != key && k != role.id {
          assert k in cache;
        } else {
          assert role in dir;
        }
      }
    }
    var byId := RoleNameById(cache, dir, key, scope).cache;
    if key !in cache && QueryById(dir, key).Some? {
      var role := QueryById(dir, key).value;
      assert byId == cache[role.roleName := role.id][role.id := role.roleName];
      forall k | k in byId
        ensures exists r :: r in dir && ((k == r.roleName && byId[k] == r.id) || (k == r.id && byId[k] == r.roleName))
      {
        if k != role.roleName && k != role.id {
          assert k in cache;
        } else {
          assert role in dir;
        }
      }
    }
  }

  /**
   With a sound cache over a well-formed directory, the cache never changes
   an answer: a lookup gives what a lookup with an empty cache gives.
   */
  lemma CacheTransparent(cache: Cache, dir: Directory, name: string, id: string, scope: string)
    requires Sound(cache, dir) && WellFormed(dir)
    requires forall role :: role in dir ==> role.id != name
    requires forall role :: role in dir ==> role.roleName != id
    ensures RoleIdByName(cache, dir, name, scope).result == RoleIdByName(map[], dir, name, scope).result
    ensures RoleNameById(cache, dir, id, scope).result == RoleNameById(map[], dir, id, scope).result
  {
    if name in cache {
      var role :| role in dir && ((name == role.roleName && cache[name] == role.id) || (name == role.id && cache[name] == role.roleName));
      var answer := QueryByName(dir, name);
      assert answer.Some? by {
        assert role == dir[IndexOf(dir, role)];
      }
    }
    if id in cache {
      var role :| role in dir && ((id == role.roleName && cache[id] == role.id) || (id == role.id && cache[id] == role.roleName));
      var answer := QueryById(dir, id);
      assert answer.Some? by {
        assert role == dir[IndexOf(dir, role)];
      }
    }
  }

  function IndexOf(dir: Directory, role: Role): (i: nat)
    requires role in dir
    ensures i < |dir| && dir[i] == role
  {
    if dir[0] == role then 0 else 1 + IndexOf(dir[1..], role)
  }

  /** After a successful lookup the cache answers both ways. */
  lemma LookupCachesBothWays(cache: Cache, dir: Directory, name: string, scope: string)
    requires name !in cache
    requires RoleIdByName(cache, dir, name, scope).result.Success?
    ensures var l := RoleIdByName(cache, dir, name, scope);
      var id := l.result.value;
      RoleIdByName(l.cache, dir, name, scope) == Lookup(Success(id), l.cache, false) &&
      RoleNameById(l.cache, dir, id, scope) == Lookup(Success(name), l.cache, false)
  {
  }

  // ---------------------------------------------------------------------
  // Role assignments
  // ---------------------------------------------------------------------

  /** The principal kinds of the four assignment classes. */
  datatype PrincipalKind = User | Group | ServicePrincipal | UserAssignedIdentity

  /** The principal type each assignment class passes on. */
  function PrincipalType(kind: PrincipalKind): (t: string)
    ensures kind == User ==> t == "User"
    ensures kind == Group ==> t == "Group"
    ensures kind == ServicePrincipal || kind == UserAssignedIdentity ==> t == "ServicePrincipal"
  {
    match kind
    case User => "User"
    case Group => "Group"
    case ServicePrincipal => "ServicePrincipal"
    case UserAssignedIdentity => "ServicePrincipal"
  }

  /** `{title}-[{name}]`. */
  function Field(title: string, name: string): string {
    title + "-[" + name + "]"
  }

  /** The resource name of an assignment: the four fields joined by `-`, lower-cased, spaces made `-`. */
  function AssignmentName(principalName: string, principalType: string, roleName: string, scopeDescription: string): string {
    var joined := Strings.Join([Field("principal", principalName), Field("type", principalType),
                                Field("role", roleName), Field("to", scopeDescription)], "-");
    Strings.Replace(Strings.Lower(joined), " ", "-")
  }

  /** The resource name holds no space and no upper-case letter. */
  lemma AssignmentNameClean(principalName: string, principalType: string, roleName: string, scopeDescription: string)
    ensures var n := AssignmentName(principalName, principalType, roleName, scopeDescription);
      ' ' !in n && forall i :: 0 <= i < |n| ==> !Strings.IsUpper(n[i])
  {
    var joined := Strings.Join([Field("principal", principalName), Field("type", principalType),
                                Field("role", roleName), Field("to", scopeDescription)], "-");
    ReplaceRemovesChar(Strings.Lower(joined), ' ', "-");
    ReplaceKeepsLower(Strings.Lower(joined), " ", "-");
  }

  /** Replacing a character by text without it leaves none of it. */
  lemma {:induction false} ReplaceRemovesChar(s: string, c: char, rep: string)
    requires c !in rep
    ensures c !in Strings.Replace(s, [c], rep)
    decreases |s|
  {
    if |s| >= 1 {
      ReplaceRemovesChar(s[1..], c, rep);
      if s[..1] == [c] {
        assert s[1..] == s[|[c]|..];
      } else {
        assert s[0] != c by {
          assert s[..1] == [s[0]];
        }
      }
    }
  }

  /** Replacing with lower-case text keeps lower-case text lower-case. */
  lemma {:induction false} ReplaceKeepsLower(s: string, pat: string, rep: string)
    requires |pat| > 0
    requires forall i :: 0 <= i < |s| ==> !Strings.IsUpper(s[i])
    requires forall i :: 0 <= i < |rep| ==> !Strings.IsUpper(rep[i])
    ensures forall i :: 0 <= i < |Strings.Replace(s, pat, rep)| ==> !Strings.IsUpper(Strings.Replace(s, pat, rep)[i])
    decreases |s|
  {
    if |s| >= |pat| {
      var head := if s[..|pat|] == pat then rep else [s[0]];
      var tail := if s[..|pat|] == pat then s[|pat|..] else s[1..];
      ReplaceKeepsLower(tail, pat, rep);
      var rest := Strings.Replace(tail, pat, rep);
      assert Strings.Replace(s, pat, rep) == head + rest;
      forall i | 0 <= i < |head + rest|
        ensures !Strings.IsUpper((head + rest)[i])
      {
        if i < |head| {
          assert (head + rest)[i] == head[i];
        } else {
          assert (head + rest)[i] == rest[i - |head|];
        }
      }
    }
  }

  datatype Assignment = Assignment(
    resourceName: string,
    principalId: string,
    scope: string,
    roleDefinitionId: string,
    principalType: string)

  /**
   `RoleAssignment(...)`: the role name comes from the id when only the id
   is given; the role definition id is the given id when it is non-empty,
   otherwise the id looked up by name. Returns the cache afterwards too.
   */
  function CreateRoleAssignment(cache: Cache, dir: Directory, principalName: string, principalType: string,
                                principalId: string, scope: string, scopeDescription: string,
                                roleName: Option<string>, roleId: Option<string>): (r: (Result<Assignment, Error>, Cache))
    ensures roleName.None? && roleId.None? ==> r == (Failure(RoleMissing), cache)
    ensures r.0.Success? ==>
      (r.0.value.principalType == principalType && r.0.value.principalId == principalId && r.0.value.scope == scope)
    ensures r.0.Success? && roleName.Some? ==>
      r.0.value.resourceName == AssignmentName(principalName, principalType, roleName.value, scopeDescription)
    ensures r.0.Success? && roleId.Some? && roleId.value != "" ==> r.0.value.roleDefinitionId == roleId.value
    ensures roleName.Some? && (roleId.None? || roleId.value == "") ==>
      var l := RoleIdByName(cache, dir, roleName.value, "");
      r.1 == l.cache && (r.0.Success? <==> l.result.Success?) &&
      (r.0.Success? ==> r.0.value.roleDefinitionId == l.result.value)
  {
    if roleName.None? && roleId.None? then (Failure(RoleMissing), cache)
    else
      var named := if roleName.Some? then Lookup(Success(roleName.value), cache, false)
                   else RoleNameById(cache, dir, roleId.value, "");
      match named.result
      case Failure(e) => (Failure(e), named.cache)
      case Success(name) =>
        var resourceName := AssignmentName(principalName, principalType, name, scopeDescription);
        if roleId.Some? && roleId.value != "" then
          (Success(Assignment(resourceName, principalId, scope, roleId.value, principalType)), named.cache)
        else
          var found := RoleIdByName(named.cache, dir, name, "");
          match found.result
          case Failure(e) => (Failure(e), found.cache)
          case Success(id) => (Success(Assignment(resourceName, principalId, scope, id, principalType)), found.cache)
  }

  /** The four assignment classes: the same assignment with the principal type fixed by the class. */
  function AssignRole(kind: PrincipalKind, cache: Cache, dir: Directory, principalName: string, principalId: string,
                      scope: string, scopeDescription: string, roleName: Option<string>,
                      roleId: Option<string>): (r: (Result<Assignment, Error>, Cache))
    ensures r.0.Success? ==> r.0.value.principalType == PrincipalType(kind)
    ensures r.0.Success? && kind != Group && kind != User ==> r.0.value.principalType == "ServicePrincipal"
  {
    CreateRoleAssignment(cache, dir, principalName, PrincipalType(kind), principalId, scope, scopeDescription, roleName, roleId)
  }

  /** Given only an id, the name used in the resource name is the one the id looks up. */
  lemma AssignmentByIdNamesRole(cache: Cache, dir: Directory, principalName: string, principalType: string,
                                principalId: string, scope: string, scopeDescription: string, roleId: string)
    requires roleId != ""
    requires RoleNameById(cache, dir, roleId, "").result.Success?
    ensures var r := CreateRoleAssignment(cache, dir, principalName, principalType, principalId, scope,
                                          scopeDescription, None, Some(roleId));
      r.0.Success? && r.0.value.roleDefinitionId == roleId &&
      r.0.value.resourceName ==
        AssignmentName(principalName, principalType, RoleNameById(cache, dir, roleId, "").result.value, scopeDescription) &&
      r.1 == RoleNameById(cache, dir, roleId, "").cache
  {
  }
}

=== FILE: json.dfy ===
/**
 The nested dictionaries, lists and scalars the platform reads from YAML
 configuration and Pulumi stack outputs, with Python's truthiness and the
 `d[key]` / `d.get(key, default)` lookups.
 */
module Json {
  import opened Wrappers

  /** A decoded value; `Object` fields are unordered. */
  datatype Value =
    | Null
    | Bool(b: bool)
    | Int(i: int)
    | Str(s: string)
    | List(items: seq<Value>)
    | Object(fields: map<string, Value>)

  const EmptyObject: Value := Object(map[])

  /** Python's `bool(v)`: `None`, `False`, `0`, `""`, `[]` and `{}` are false. */
  predicate Truthy(v: Value) {
    match v
    case Null => false
    case Bool(b) => b
    case Int(i) => i != 0
    case Str(s) => |s| > 0
    case List(items) => |items| > 0
    case Object(fields) => |fields| > 0
  }

  /** `v.get(key, default)` on a dictionary; `None` when `v` is not one. */
  function GetOr(v: Value, key: string, default: Value): (r: Option<Value>)
    ensures r.Some? <==> v.Object?
    ensures r.Some? && key in v.fields ==> r.value == v.fields[key]
    ensures r.Some? && key !in v.fields ==> r.value == default
  {
    if v.Object? then Some(if key in v.fields then v.fields[key] else default) else None
  }

  /** `v.get(key)` read as a flag: absent keys and non-dictionaries give `default`. */
  function Flag(v: Value, key: string, default: bool): (r: bool)
    ensures v.Object? && key in v.fields ==> r == Truthy(v.fields[key])
    ensures !(v.Object? && key in v.fields) ==> r == default
  {
    if v.Object? && key in v.fields then Truthy(v.fields[key]) else default
  }

  /** The dictionary behind a value that may be `None`: `(v or {})`. */
  function FieldsOrEmpty(v: Value): (r: map<string, Value>)
    ensures v.Object? ==> r == v.fields
    ensures !v.Object? ==> r == map[]
  {
    if v.Object? then v.fields else map[]
  }
}

=== FILE: kubernetes.dfy ===
/**
 Whether the shared Kubernetes cluster is needed, and whether it needs a
 Windows node pool, from the two services that run on it.
 */
module Kubernetes {
  import opened Wrappers
  import Json

  datatype OsType = Windows | Linux

  /** The operating system each service's workloads run on. */
  const ConfigOs: map<string, OsType> := map["datafactory_runtime" := Windows, "jupyterlab" := Linux]

  datatype Error = MissingEnabled(service: string)   // `config["enabled"]` raised

  datatype ClusterConfig = ClusterConfig(enabled: bool, windows: bool, configs: map<string, Json.Value>)

  /** `config["enabled"]`, read for its truth value. */
  function EnabledOf(service: string, config: Json.Value): (r: Result<bool, Error>)
    ensures r.Success? <==> config.Object? && "enabled" in config.fields
    ensures r.Success? ==> r.value == Json.Truthy(config.fields["enabled"])
  {
    if config.Object? && "enabled" in config.fields then Success(Json.Truthy(config.fields["enabled"]))
    else Failure(MissingEnabled(service))
  }

  /** `any(config["enabled"] for ...)`: stops at the first enabled service. */
  function AnyEnabled(cs: seq<(string, Json.Value)>): (r: Result<bool, Error>)
    ensures r == Success(true) ==> exists i :: 0 <= i < |cs| && EnabledOf(cs[i].0, cs[i].1) == Success(true)
    ensures r == Success(false) ==> forall i :: 0 <= i < |cs| ==> EnabledOf(cs[i].0, cs[i].1) == Success(false)
  {
    if |cs| == 0 then Success(false)
    else
      var e :- EnabledOf(cs[0].0, cs[0].1);
      if e then Success(true)
      else
        var rest := AnyEnabled(cs[1..]);
        assert forall i :: 1 <= i < |cs| ==> cs[i] == cs[1..][i - 1];
        rest
  }

  /** `any(config["enabled"] and config_os[name] == WINDOWS for ...)`. */
  function AnyWindows(cs: seq<(string, Json.Value)>): (r: Result<bool, Error>)
    requires forall i :: 0 <= i < |cs| ==> cs[i].0 in ConfigOs
    ensures r == Success(true) ==>
      exists i :: 0 <= i < |cs| && EnabledOf(cs[i].0, cs[i].1) == Success(true) && ConfigOs[cs[i].0] == Windows
    ensures r == Success(false) ==>
      forall i :: 0 <= i < |cs| ==>
        (EnabledOf(cs[i].0, cs[i].1).Success? &&
         (EnabledOf(cs[i].0, cs[i].1).value ==> ConfigOs[cs[i].0] != Windows))
  {
    if |cs| == 0 then Success(false)
    else
      var e :- EnabledOf(cs[0].0, cs[0].1);
      if e && ConfigOs[cs[0].0] == Windows then Success(true)
      else
        assert forall i :: 1 <= i < |cs| ==> cs[i] == cs[1..][i - 1];
        AnyWindows(cs[1..])
  }

  /** The two services in the order `get_cluster_config` lists them. */
  function Services(datafactoryRuntime: Json.Value, jupyterlab: Json.Value): seq<(string, Json.Value)> {
    [("datafactory_runtime", datafactoryRuntime), ("jupyterlab", jupyterlab)]
  }

  /** `get_cluster_config`, given the data factory runtime and JupyterLab settings. */
  function GetClusterConfig(datafactoryRuntime: Json.Value, jupyterlab: Json.Value): (r: Result<ClusterConfig, Error>)
    ensures r.Success? ==> r.value.configs == map["datafactory_runtime" := datafactoryRuntime, "jupyterlab" := jupyterlab]
  {
    var cs := Services(datafactoryRuntime, jupyterlab);
    var enabled :- AnyEnabled(cs);
    var windows :- AnyWindows(cs);
    Success(ClusterConfig(enabled, windows, map["datafactory_runtime" := datafactoryRuntime, "jupyterlab" := jupyterlab]))
  }

  /** Both scans over the two services, unrolled. */
  lemma ServicesScans(datafactoryRuntime: Json.Value, jupyterlab: Json.Value)
    ensures var cs := Services(datafactoryRuntime, jupyterlab);
      var d := EnabledOf("datafactory_runtime", datafactoryRuntime);
      var j := EnabledOf("jupyterlab", jupyterlab);
      AnyEnabled(cs) == (if d == Success(false) then j else d) &&
      AnyWindows(cs) ==
        (if d.Failure? then Failure(d.error)
         else if d.value then Success(true)
         else if j.Failure? then Failure(j.error)
         else Success(false))
  {
    var cs := Services(datafactoryRuntime, jupyterlab);
    var rest := [("jupyterlab", jupyterlab)];
    assert cs[1..] == rest && rest[1..] == [];
    assert AnyEnabled(rest) == EnabledOf("jupyterlab", jupyterlab);
    assert ConfigOs["jupyterlab"] == Linux && ConfigOs["datafactory_runtime"] == Windows;
    assert AnyWindows(rest) ==
      (if EnabledOf("jupyterlab", jupyterlab).Failure? then Failure(EnabledOf("jupyterlab", jupyterlab).error)
       else Success(false));
  }

  /**
   The cluster is enabled iff either service is, and it needs Windows iff
   the data factory runtime is enabled; so Windows implies enabled.
   */
  lemma ClusterConfigFlags(datafactoryRuntime: Json.Value, jupyterlab: Json.Value)
    requires GetClusterConfig(datafactoryRuntime, jupyterlab).Success?
    ensures var c := GetClusterConfig(datafactoryRuntime, jupyterlab).value;
      (c.enabled <==> EnabledOf("datafactory_runtime", datafactoryRuntime) == Success(true) ||
                      EnabledOf("jupyterlab", jupyterlab) == Success(true)) &&
      (c.windows <==> EnabledOf("datafactory_runtime", datafactoryRuntime) == Success(true)) &&
      (c.windows ==> c.enabled)
  {
    ServicesScans(datafactoryRuntime, jupyterlab);
  }

  /**
   Only a service whose `enabled` is actually read can make the lookup
   fail: with the runtime enabled, JupyterLab's settings are never read.
   */
  lemma ClusterConfigFailure(datafactoryRuntime: Json.Value, jupyterlab: Json.Value)
    ensures GetClusterConfig(datafactoryRuntime, jupyterlab).Failure? <==>
      EnabledOf("datafactory_runtime", datafactoryRuntime).Failure? ||
      (EnabledOf("datafactory_runtime", datafactoryRuntime) == Success(false) &&
       EnabledOf("jupyterlab", jupyterlab).Failure?)
  {
    ServicesScans(datafactoryRuntime, jupyterlab);
  }
}

=== FILE: logs.dfy ===
/**
 Diagnostic settings that send a resource's logs and metrics to the Log
 Analytics workspace: whether one is created, which categories it lists,
 and what it is called.
 */
module Logs {
  import opened Wrappers
  import Json
  import Strings
  import Order

  datatype Error =
    | NotADictionary(what: string)  // `.get` on a value that is not a dictionary
    | BadCategories(what: string)   // configured categories that are not iterable, or a list holding a non-string

  /** The categories a resource offers, as the monitoring API reports them. */
  datatype Categories = Categories(logs: seq<string>, metrics: seq<string>)

  /** One category entry of a setting. */
  datatype CategorySetting = CategorySetting(category: string, enabled: bool, retentionDays: nat, retentionEnabled: bool)

  datatype DiagnosticSetting = DiagnosticSetting(
    resourceName: string,
    name: string,
    workspaceId: string,
    resourceUri: string,
    destinationType: string,
    logs: seq<CategorySetting>,
    metrics: seq<CategorySetting>)

  /** A created setting, and whether the resource's categories had to be fetched for it. */
  datatype Outcome = Outcome(setting: DiagnosticSetting, fetched: bool)

  /** What is common to all settings of one call: the platform switches and the two configs. */
  datatype Request = Request(resourceTypes: Json.Value, workspaceId: string, logsConfig: Json.Value, metricsConfig: Json.Value)

  /** `v.get(key, default)`. */
  function Get(v: Json.Value, key: string, default: Json.Value, what: string): (r: Result<Json.Value, Error>)
    ensures r.Success? <==> v.Object?
    ensures r.Success? ==> r.value == if key in v.fields then v.fields[key] else default
  {
    match Json.GetOr(v, key, default)
    case None => Failure(NotADictionary(what))
    case Some(w) => Success(w)
  }

  /**
   The categories `sorted(...)` iterates over in a configured value: the
   strings of a list, each character of a string, the keys of a dictionary.
   Other values are not iterable, or hold items that are not category names.
   */
  function CategoryNames(v: Json.Value, what: string): (r: Result<seq<string>, Error>)
    ensures r.Success? <==> (v.List? && forall i :: 0 <= i < |v.items| ==> v.items[i].Str?) || v.Str? || v.Object?
    ensures r.Success? && v.List? ==>
      |r.value| == |v.items| && forall i :: 0 <= i < |r.value| ==> v.items[i] == Json.Str(r.value[i])
    ensures r.Success? && v.Str? ==>
      |r.value| == |v.s| && forall i :: 0 <= i < |r.value| ==> r.value[i] == [v.s[i]]
    ensures r.Success? && v.Object? ==>
      Order.StrictlySorted(r.value) && forall k :: k in r.value <==> k in v.fields
  {
    match v
    case List(items) =>
      if forall i :: 0 <= i < |items| ==> items[i].Str? then
        Success(seq(|items|, i requires 0 <= i < |items| => items[i].s))
      else Failure(BadCategories(what))
    case Str(text) => Success(seq(|text|, i requires 0 <= i < |text| => [text[i]]))
    case Object(fields) => Success(Order.SortedKeys(fields.Keys))
    case _ => Failure(BadCategories(what))
  }

  /** Each category switched on, with a retention policy of 0 days, disabled. */
  function Enable(categories: seq<string>): (r: seq<CategorySetting>)
    ensures |r| == |categories|
    ensures forall i :: 0 <= i < |r| ==> r[i] == CategorySetting(categories[i], true, 0, false)
  {
    seq(|categories|, i requires 0 <= i < |categories| => CategorySetting(categories[i], true, 0, false))
  }

  /** The categories a list of entries names, in order. */
  function CategoriesOf(settings: seq<CategorySetting>): (r: seq<string>)
    ensures |r| == |settings|
    ensures forall i :: 0 <= i < |r| ==> r[i] == settings[i].category
  {
    seq(|settings|, i requires 0 <= i < |settings| => settings[i].category)
  }

  lemma CategoriesOfEnable(categories: seq<string>)
    ensures CategoriesOf(Enable(categories)) == categories
  {
  }

  /** `All` when the categories come from the resource, `Configured` when they come from the config. */
  function Label(configured: bool): string {
    if configured then "Configured" else "All"
  }

  function SettingName(logsConfigured: bool, metricsConfigured: bool): string {
    Label(logsConfigured) + " Logs, " + Label(metricsConfigured) + " Metrics"
  }

  /**
   The entries of one kind: none when that kind is switched off, otherwise
   the configured categories, or all the resource offers, sorted.
   */
  function Entries(config: Json.Value, offered: seq<string>, what: string): (r: Result<seq<CategorySetting>, Error>)
    requires config.Object?
    ensures r.Success? && !Json.Flag(config, "enabled", true) ==> r.value == []
    ensures r.Success? && Json.Flag(config, "enabled", true) ==>
      Order.Sorted(CategoriesOf(r.value)) &&
      (forall i :: 0 <= i < |r.value| ==> r.value[i].enabled && r.value[i].retentionDays == 0 && !r.value[i].retentionEnabled)
    ensures Json.Flag(config, "enabled", true) && ConfiguredCategories(config) == Json.Null ==>
      r.Success? && multiset(CategoriesOf(r.value)) == multiset(offered)
  {
    if !Json.Flag(config, "enabled", true) then Success([])
    else
      var listed := ConfiguredCategories(config);
      var categories :- if listed == Json.Null then Success(offered) else CategoryNames(listed, what);
      var sorted := Order.Sort(categories);
      CategoriesOfEnable(sorted);
      Success(Enable(sorted))
  }

  /** `config.get("categories")`: `Null` when the list is not given. */
  function ConfiguredCategories(config: Json.Value): Json.Value
    requires config.Object?
  {
    if "categories" in config.fields then config.fields["categories"] else Json.Null
  }

  /** A configured list of categories is listed exactly, sorted, when its kind is switched on. */
  lemma ConfiguredEntries(config: Json.Value, offered: seq<string>, what: string, names: seq<string>)
    requires config.Object? && Json.Flag(config, "enabled", true)
    requires ConfiguredCategories(config) != Json.Null
    requires CategoryNames(ConfiguredCategories(config), what) == Success(names)
    ensures Entries(config, offered, what).Success?
    ensures CategoriesOf(Entries(config, offered, what).value) == Order.Sort(names)
  {
    CategoriesOfEnable(Order.Sort(names));
  }

  /** A dictionary of categories lists its keys, in sorted order. */
  lemma DictionaryCategories(config: Json.Value, offered: seq<string>, what: string)
    requires config.Object? && Json.Flag(config, "enabled", true)
    requires ConfiguredCategories(config).Object?
    ensures Entries(config, offered, what).Success?
    ensures CategoriesOf(Entries(config, offered, what).value) == Order.SortedKeys(ConfiguredCategories(config).fields.Keys)
  {
    var keys := Order.SortedKeys(ConfiguredCategories(config).fields.Keys);
    ConfiguredEntries(config, offered, what, keys);
    Order.StrictlySortedIsSorted(keys);
    Order.SortIdempotent(keys);
  }

  /** A string of categories lists one category per character, in sorted order. */
  lemma StringCategories(config: Json.Value, offered: seq<string>, what: string)
    requires config.Object? && Json.Flag(config, "enabled", true)
    requires ConfiguredCategories(config).Str?
    ensures var text := ConfiguredCategories(config).s;
      Entries(config, offered, what).Success? &&
      CategoriesOf(Entries(config, offered, what).value) == Order.Sort(seq(|text|, i requires 0 <= i < |text| => [text[i]]))
  {
    var text := ConfiguredCategories(config).s;
    ConfiguredEntries(config, offered, what, seq(|text|, i requires 0 <= i < |text| => [text[i]]));
  }

  /**
   The setting itself, once the call has been let through: `None` configs
   count as `{}`, and the resource's categories are fetched only when one
   of the two category lists is not given.
   */
  function Setting(q: Request, resourceId: string, resourceName: string, offered: Categories): (r: Result<Outcome, Error>)
    ensures r.Success? ==> r.value.setting.resourceName == resourceName + "-diagnostic-setting"
    ensures r.Success? ==> r.value.setting.resourceUri == resourceId && r.value.setting.workspaceId == q.workspaceId
  {
    var logsConfig := if Json.Truthy(q.logsConfig) then q.logsConfig else Json.EmptyObject;
    var metricsConfig := if Json.Truthy(q.metricsConfig) then q.metricsConfig else Json.EmptyObject;
    var logCategories :- Get(logsConfig, "categories", Json.Null, "logs");
    var metricCategories :- Get(metricsConfig, "categories", Json.Null, "metrics");
    var fetched := logCategories == Json.Null || metricCategories == Json.Null;
    var available := if fetched then offered else Categories([], []);
    var logs :- Entries(logsConfig, available.logs, "logs");
    var metrics :- Entries(metricsConfig, available.metrics, "metrics");
    Success(Outcome(
      DiagnosticSetting(
        resourceName + "-diagnostic-setting",
        SettingName(logCategories != Json.Null, metricCategories != Json.Null),
        q.workspaceId, resourceId, "Dedicated", logs, metrics),
      fetched))
  }

  /**
   `log_diagnostic_settings`: `None` when the resource type is switched off
   and neither kind is explicitly switched on, or when both kinds are
   switched off; otherwise the setting.
   */
  function LogDiagnosticSettings(q: Request, resourceType: string, resourceId: string, resourceName: string,
                                 offered: Categories): (r: Result<Option<Outcome>, Error>)
    ensures r.Success? <==>
      (q.resourceTypes.Object? && q.logsConfig.Object? && q.metricsConfig.Object? &&
       (Switches(q, resourceType) ==> Setting(q, resourceId, resourceName, offered).Success?))
    ensures r.Success? ==> (r.value.Some? <==> Switches(q, resourceType))
    ensures r.Success? && r.value.Some? ==> r.value.value == Setting(q, resourceId, resourceName, offered).value
  {
    var typeOn :- Get(q.resourceTypes, resourceType, Json.Bool(true), "resource_types");
    var logsOn :- Get(q.logsConfig, "enabled", Json.Bool(false), "logs");
    var metricsOn :- Get(q.metricsConfig, "enabled", Json.Bool(false), "metrics");
    if !(Json.Truthy(typeOn) || Json.Truthy(logsOn) || Json.Truthy(metricsOn)) then Success(None)
    else if !Json.Flag(q.logsConfig, "enabled", true) && !Json.Flag(q.metricsConfig, "enabled", true) then Success(None)
    else
      var outcome :- Setting(q, resourceId, resourceName, offered);
      Success(Some(outcome))
  }

  /** Whether a call gets past both switches. */
  predicate Switches(q: Request, resourceType: string)
    requires q.resourceTypes.Object? && q.logsConfig.Object? && q.metricsConfig.Object?
  {
    (Json.Flag(q.resourceTypes, resourceType, true) || Json.Flag(q.logsConfig, "enabled", false) ||
     Json.Flag(q.metricsConfig, "enabled", false)) &&
    (Json.Flag(q.logsConfig, "enabled", true) || Json.Flag(q.metricsConfig, "enabled", true))
  }

  /** A resource type switched off is logged only when logs or metrics are explicitly switched on. */
  lemma ResourceTypeOff(q: Request, resourceType: string, resourceId: string, resourceName: string, offered: Categories)
    requires q.resourceTypes.Object? && q.logsConfig.Object? && q.metricsConfig.Object?
    requires !Json.Flag(q.resourceTypes, resourceType, true)
    requires !Json.Flag(q.logsConfig, "enabled", false) && !Json.Flag(q.metricsConfig, "enabled", false)
    ensures LogDiagnosticSettings(q, resourceType, resourceId, resourceName, offered) == Success(None)
  {
  }

  /** With both logs and metrics switched off nothing is created. */
  lemma BothOff(q: Request, resourceType: string, resourceId: string, resourceName: string, offered: Categories)
    requires q.resourceTypes.Object? && q.logsConfig.Object? && q.metricsConfig.Object?
    requires !Json.Flag(q.logsConfig, "enabled", true) && !Json.Flag(q.metricsConfig, "enabled", true)
    ensures LogDiagnosticSettings(q, resourceType, resourceId, resourceName, offered) == Success(None)
  {
  }

  /**
   The categories are fetched iff a list is missing, and the name says for
   each kind whether its list was configured.
   */
  lemma SettingNameAndFetch(q: Request, resourceId: string, resourceName: string, offered: Categories)
    requires Setting(q, resourceId, resourceName, offered).Success?
    ensures var o := Setting(q, resourceId, resourceName, offered).value;
      var logsConfigured := Json.Truthy(q.logsConfig) && ConfiguredCategories(q.logsConfig) != Json.Null;
      var metricsConfigured := Json.Truthy(q.metricsConfig) && ConfiguredCategories(q.metricsConfig) != Json.Null;
      (o.fetched <==> !logsConfigured || !metricsConfigured) &&
      o.setting.name == SettingName(logsConfigured, metricsConfigured)
  {
  }

  /** With nothing configured, a setting lists every category the resource offers, sorted. */
  lemma AllCategories(q: Request, resourceId: string, resourceName: string, offered: Categories)
    requires !Json.Truthy(q.logsConfig) && !Json.Truthy(q.metricsConfig)
    ensures var r := Setting(q, resourceId, resourceName, offered);
      r.Success? && r.value.fetched &&
      r.value.setting.name == SettingName(false, false) &&
      CategoriesOf(r.value.setting.logs) == Order.Sort(offered.logs) &&
      CategoriesOf(r.value.setting.metrics) == Order.Sort(offered.metrics)
  {
    EntriesOfEmpty(offered.logs, "logs");
    EntriesOfEmpty(offered.metrics, "metrics");
  }

  lemma EntriesOfEmpty(offered: seq<string>, what: string)
    ensures Entries(Json.EmptyObject, offered, what) == Success(Enable(Order.Sort(offered)))
  {
    assert ConfiguredCategories(Json.EmptyObject) == Json.Null;
  }

  // ---------------------------------------------------------------------
  // Network interfaces
  // ---------------------------------------------------------------------

  const NetworkInterfaceType: string := "Microsoft.Network/networkInterfaces"

  /** The name of the setting for the network interface at position `idx`. */
  function InterfaceName(resourceName: string, idx: nat): string {
    resourceName + "-network_interface-" + Strings.NatToString(idx)
  }

  /** Interfaces at different positions get different names. */
  lemma InterfaceNamesDistinct(resourceName: string, i: nat, j: nat)
    requires i != j
    ensures InterfaceName(resourceName, i) != InterfaceName(resourceName, j)
  {
    var prefix := resourceName + "-network_interface-";
    if InterfaceName(resourceName, i) == InterfaceName(resourceName, j) {
      assert InterfaceName(resourceName, i)[|prefix|..] == Strings.NatToString(i);
      assert InterfaceName(resourceName, j)[|prefix|..] == Strings.NatToString(j);
      Strings.DigitsValueOfNatToString(i);
      Strings.DigitsValueOfNatToString(j);
    }
  }

  /**
   `log_network_interfaces`, from position `from` on: one setting per
   interface, in order; `offered` gives each interface's categories.
   */
  function InterfaceSettings(q: Request, resourceName: string, interfaceIds: seq<string>,
                             offered: seq<Categories>, from: nat): (r: Result<seq<Option<Outcome>>, Error>)
    requires |offered| == |interfaceIds| && from <= |interfaceIds|
    ensures r.Success? ==> |r.value| == |interfaceIds| - from
    decreases |interfaceIds| - from
  {
    if from == |interfaceIds| then Success([])
    else
      var first :- LogDiagnosticSettings(q, NetworkInterfaceType, interfaceIds[from], InterfaceName(resourceName, from), offered[from]);
      var rest :- InterfaceSettings(q, resourceName, interfaceIds, offered, from + 1);
      Success([first] + rest)
  }

  /** The setting at each position is the one made for the interface there. */
  lemma {:induction false} InterfaceSettingsAt(q: Request, resourceName: string, interfaceIds: seq<string>,
                                               offered: seq<Categories>, from: nat, k: nat)
    requires |offered| == |interfaceIds| && from <= k < |interfaceIds|
    requires InterfaceSettings(q, resourceName, interfaceIds, offered, from).Success?
    ensures var s := LogDiagnosticSettings(q, NetworkInterfaceType, interfaceIds[k], InterfaceName(resourceName, k), offered[k]);
      s.Success? && InterfaceSettings(q, resourceName, interfaceIds, offered, from).value[k - from] == s.value
    decreases k - from
  {
    InterfaceSettingsStep(q, resourceName, interfaceIds, offered, from);
    if k > from {
      InterfaceSettingsAt(q, resourceName, interfaceIds, offered, from + 1, k);
    }
  }

  lemma InterfaceSettingsStep(q: Request, resourceName: string, interfaceIds: seq<string>,
                              offered: seq<Categories>, from: nat)
    requires |offered| == |interfaceIds| && from < |interfaceIds|
    requires InterfaceSettings(q, resourceName, interfaceIds, offered, from).Success?
    ensures var first := LogDiagnosticSettings(q, NetworkInterfaceType, interfaceIds[from], InterfaceName(resourceName, from), offered[from]);
      var rest := InterfaceSettings(q, resourceName, interfaceIds, offered, from + 1);
      first.Success? && rest.Success? &&
      InterfaceSettings(q, resourceName, interfaceIds, offered, from).value == [first.value] + rest.value
  {
  }

  function LogNetworkInterfaces(q: Request, resourceName: string, interfaceIds: seq<string>,
                                offered: seq<Categories>): (r: Result<seq<Option<Outcome>>, Error>)
    requires |offered| == |interfaceIds|
    ensures r.Success? ==> |r.value| == |interfaceIds|
  {
    InterfaceSettings(q, resourceName, interfaceIds, offered, 0)
  }

  /**
   One setting per interface, in order: each is the one made for the
   interface at that position, under that position's name.
   */
  lemma LogNetworkInterfacesAt(q: Request, resourceName: string, interfaceIds: seq<string>,
                               offered: seq<Categories>, k: nat)
    requires |offered| == |interfaceIds| && k < |interfaceIds|
    requires LogNetworkInterfaces(q, resourceName, interfaceIds, offered).Success?
    ensures var s := LogDiagnosticSettings(q, NetworkInterfaceType, interfaceIds[k], InterfaceName(resourceName, k), offered[k]);
      s.Success? && LogNetworkInterfaces(q, resourceName, interfaceIds, offered).value[k] == s.value
  {
    InterfaceSettingsAt(q, resourceName, interfaceIds, offered, 0, k);
  }

  /** Every setting created for an interface is named after the interface's position. */
  lemma InterfaceSettingNames(q: Request, resourceName: string, interfaceIds: seq<string>,
                              offered: seq<Categories>, k: nat)
    requires |offered| == |interfaceIds| && k < |interfaceIds|
    requires LogNetworkInterfaces(q, resourceName, interfaceIds, offered).Success?
    requires LogNetworkInterfaces(q, resourceName, interfaceIds, offered).value[k].Some?
    ensures LogNetworkInterfaces(q, resourceName, interfaceIds, offered).value[k].value.setting.resourceName ==
      InterfaceName(resourceName, k) + "-diagnostic-setting"
  {
    LogNetworkInterfacesAt(q, resourceName, interfaceIds, offered, k);
  }
}

=== FILE: migration.dfy ===
/**
 The one-off migration of a Pulumi stack file from version 0.2.0 to 0.4.0
 of the Databricks provider: resource type tokens move from the
 `databricks:databricks/` module to `databricks:index/`, and the mount
 resource is renamed from `databricksMount:DatabricksMount` to
 `mount:Mount`, without touching the resources' contents.
 */
module Migration {
  import opened Wrappers
  import Strings
  import Json
  import Order

  /** Why the script stops: a `TypeError`/`AttributeError`, a `KeyError`, a `ValueError` on unpacking, a missing file. */
  datatype Error =
    | NotADictionary
    | NotAList
    | NotAString
    | KeyNotFound(key: string)
    | WrongPartCount(parts: nat)
    | FileNotFound(name: string)

  const OldPrefix: string := "databricks:databricks/"
  const NewPrefix: string := "databricks:index/"
  const OldMount: string := "databricksMount:DatabricksMount"
  const NewMount: string := "mount:Mount"
  const SecretType: string := "secret:Secret"

  // ---------------------------------------------------------------------
  // change: the module rename

  /** `change(string)`: every old module prefix becomes the new one. */
  function Change(s: string): (r: string)
    ensures !Strings.Contains(r, OldPrefix)
    ensures !Strings.Contains(s, OldPrefix) ==> r == s
  {
    ChangeRemovesAll(s);
    if !Strings.Contains(s, OldPrefix) then
      Strings.ReplaceAbsent(s, OldPrefix, NewPrefix);
      Strings.Replace(s, OldPrefix, NewPrefix)
    else
      Strings.Replace(s, OldPrefix, NewPrefix)
  }

  /** Running the rename twice gives the same as running it once. */
  lemma ChangeIdempotent(s: string)
    ensures Change(Change(s)) == Change(s)
  {
  }

  /** The positions of `d` in the two prefixes. */
  lemma OldPrefixD(k: int)
    requires 0 <= k < |OldPrefix|
    ensures OldPrefix[k] == 'd' <==> k == 0 || k == 11
  {
  }

  lemma NewPrefixD(k: int)
    requires 0 <= k < |NewPrefix|
    ensures NewPrefix[k] == 'd' <==> k == 0 || k == 13
  {
  }

  lemma {:induction false} ShortNotContains(s: string, t: string)
    requires |s| < |t|
    ensures !Strings.Contains(s, t)
    decreases |s|
  {
    if |s| > 0 {
      ShortNotContains(s[1..], t);
    }
  }

  /** No old prefix starts inside a new prefix, whatever follows it. */
  lemma NewNotOld(i: int, z: string)
    requires 0 <= i < |NewPrefix|
    ensures !Strings.StartsWith(NewPrefix[i..] + z, OldPrefix)
  {
    var y := NewPrefix[i..] + z;
    NewPrefixD(i);
    if i == 0 {
      assert |y| >= 17 && y[11] == 'i';
    } else if i == 13 {
      assert |y| >= 4 && y[1] == 'e';
    } else {
      assert y[0] == NewPrefix[i] != 'd';
    }
  }

  /** A new prefix never starts with a proper tail of the old one. */
  lemma NewNotOldTail(j: int, z: string)
    requires 1 <= j < |OldPrefix|
    ensures !Strings.StartsWith(NewPrefix + z, OldPrefix[j..])
  {
    var y := NewPrefix + z;
    OldPrefixD(j);
    if j == 11 {
      assert y[10] == ':' && OldPrefix[j..][10] == '/';
    } else {
      assert y[0] == 'd' && OldPrefix[j..][0] != 'd';
    }
  }

  /** Writing a new prefix in front of old-prefix-free text keeps it old-prefix-free. */
  lemma {:induction false} NotContainsAfterNew(x: string, i: int)
    requires 0 <= i <= |NewPrefix|
    requires !Strings.Contains(x, OldPrefix)
    ensures !Strings.Contains(NewPrefix[i..] + x, OldPrefix)
    decreases |NewPrefix| - i
  {
    if i == |NewPrefix| {
      assert NewPrefix[i..] + x == x;
    } else {
      NotContainsAfterNew(x, i + 1);
      NewNotOld(i, x);
      assert (NewPrefix[i..] + x)[1..] == NewPrefix[i + 1..] + x;
    }
  }

  /**
   The rename never creates the tail of an old prefix at the start of its
   output that was not already at the start of its input.
   */
  lemma {:induction false} ChangePrefix(x: string, j: nat)
    requires 1 <= j < |OldPrefix|
    ensures Strings.StartsWith(Strings.Replace(x, OldPrefix, NewPrefix), OldPrefix[j..]) ==>
      Strings.StartsWith(x, OldPrefix[j..])
    decreases |x|
  {
    var t := OldPrefix[j..];
    var r := Strings.Replace(x, OldPrefix, NewPrefix);
    if |x| < |OldPrefix| {
    } else if x[..|OldPrefix|] == OldPrefix {
      var y := Strings.Replace(x[|OldPrefix|..], OldPrefix, NewPrefix);
      assert r == NewPrefix + y;
      NewNotOldTail(j, y);
    } else {
      var y := Strings.Replace(x[1..], OldPrefix, NewPrefix);
      assert r == [x[0]] + y;
      assert x == [x[0]] + x[1..];
      Strings.StartsWithCons(x[0], y, t);
      Strings.StartsWithCons(x[0], x[1..], t);
      assert t[1..] == OldPrefix[j + 1..];
      if j + 1 < |OldPrefix| {
        ChangePrefix(x[1..], j + 1);
      }
    }
  }

  /** After the rename no old prefix is left anywhere. */
  lemma {:induction false} ChangeRemovesAll(s: string)
    ensures !Strings.Contains(Strings.Replace(s, OldPrefix, NewPrefix), OldPrefix)
    decreases |s|
  {
    var r := Strings.Replace(s, OldPrefix, NewPrefix);
    if |s| < |OldPrefix| {
      ShortNotContains(s, OldPrefix);
    } else if s[..|OldPrefix|] == OldPrefix {
      ChangeRemovesAll(s[|OldPrefix|..]);
      NotContainsAfterNew(Strings.Replace(s[|OldPrefix|..], OldPrefix, NewPrefix), 0);
      assert NewPrefix[0..] == NewPrefix;
    } else {
      var y := Strings.Replace(s[1..], OldPrefix, NewPrefix);
      ChangeRemovesAll(s[1..]);
      assert r == [s[0]] + y;
      assert s == [s[0]] + s[1..];
      Strings.StartsWithCons(s[0], y, OldPrefix);
      Strings.StartsWithCons(s[0], s[1..], OldPrefix);
      ChangePrefix(s[1..], 1);
      assert r[1..] == y;
    }
  }

  /** A type token of the 0.2.0 provider moves to the same name in the `index` module. */
  lemma ChangeRenamesModule(name: string)
    requires '/' !in name
    ensures Change(OldPrefix + name) == NewPrefix + name
  {
    Strings.ReplaceAtStart(OldPrefix, name, NewPrefix);
    Strings.NotContainsForChar(name, OldPrefix, 21);
    Strings.ReplaceAbsent(name, OldPrefix, NewPrefix);
  }

  // ---------------------------------------------------------------------
  // change_list and the dependency lists

  /**
   The strings `for x in v` visits: the items of a list, each character of
   a string, the keys of a dictionary. `None` when `v` is not iterable or a
   list item is not a string, where `x.replace` would raise.
   */
  function Strs(v: Json.Value): (r: Option<seq<string>>)
    ensures r.Some? <==> (v.List? && forall i :: 0 <= i < |v.items| ==> v.items[i].Str?) || v.Str? || v.Object?
    ensures r.Some? && v.List? ==> |r.value| == |v.items| && forall i :: 0 <= i < |v.items| ==> Json.Str(r.value[i]) == v.items[i]
    ensures r.Some? && v.Str? ==> |r.value| == |v.s| && forall i :: 0 <= i < |v.s| ==> r.value[i] == [v.s[i]]
    ensures r.Some? && v.Object? ==> Order.StrictlySorted(r.value) && forall k :: k in r.value <==> k in v.fields
  {
    match v
    case List(items) =>
      if forall i :: 0 <= i < |items| ==> items[i].Str? then
        Some(seq(|items|, i requires 0 <= i < |items| => items[i].s))
      else None
    case Str(text) => Some(seq(|text|, i requires 0 <= i < |text| => [text[i]]))
    case Object(fields) => Some(Order.SortedKeys(fields.Keys))
    case _ => None
  }

  /** `[f(x) for x in v]`: a list of the rewritten strings `v` iterates over. */
  function MapStrings(v: Json.Value, f: string -> string): (r: Result<Json.Value, Error>)
    ensures r.Success? <==> Strs(v).Some?
    ensures r.Success? ==> r.value.List? && |r.value.items| == |Strs(v).value|
    ensures r.Success? ==> forall i :: 0 <= i < |r.value.items| ==> r.value.items[i] == Json.Str(f(Strs(v).value[i]))
  {
    var xs := Strs(v);
    if xs.None? then Failure(if v.List? then NotAString else NotAList)
    else Success(Json.List(seq(|xs.value|, i requires 0 <= i < |xs.value| => Json.Str(f(xs.value[i])))))
  }

  /** `change_list(string_list)`. */
  function ChangeList(v: Json.Value): (r: Result<Json.Value, Error>)
    ensures r.Success? <==> Strs(v).Some?
    ensures r.Success? ==> r.value.List? && |r.value.items| == |Strs(v).value|
    ensures r.Success? ==> forall i :: 0 <= i < |r.value.items| ==> r.value.items[i] == Json.Str(Change(Strs(v).value[i]))
  {
    MapStrings(v, Change)
  }

  /** A string is iterated by character, so `change_list("ab")` is `["a", "b"]`. */
  lemma ChangeListOfString()
    ensures ChangeList(Json.Str("ab")) == Success(Json.List([Json.Str("a"), Json.Str("b")]))
  {
    var xs := Strs(Json.Str("ab")).value;
    assert xs == ["a", "b"];
    ShortNotContains("a", OldPrefix);
    ShortNotContains("b", OldPrefix);
    assert Change("a") == "a" && Change("b") == "b";
    var r := ChangeList(Json.Str("ab")).value;
    assert |r.items| == 2 && r.items[0] == Json.Str("a") && r.items[1] == Json.Str("b");
    assert r.items == [Json.Str("a"), Json.Str("b")];
  }

  /** A dictionary is iterated by key: each key, changed, is an item, and every item is one. */
  lemma ChangeListOfDictionary(v: Json.Value)
    requires v.Object?
    ensures ChangeList(v).Success?
    ensures forall k :: k in v.fields ==> Json.Str(Change(k)) in ChangeList(v).value.items
    ensures forall i :: 0 <= i < |ChangeList(v).value.items| ==>
      exists k :: k in v.fields && ChangeList(v).value.items[i] == Json.Str(Change(k))
  {
    var keys := Strs(v).value;
    var items := ChangeList(v).value.items;
    forall k | k in v.fields
      ensures Json.Str(Change(k)) in items
    {
      var i :| 0 <= i < |keys| && keys[i] == k;
      assert items[i] == Json.Str(Change(k));
    }
    forall i | 0 <= i < |items|
      ensures exists k :: k in v.fields && items[i] == Json.Str(Change(k))
    {
      assert keys[i] in keys;
    }
  }

  /** A changed list holds no old prefix, and changing it again changes nothing. */
  lemma ChangeListIdempotent(v: Json.Value)
    requires ChangeList(v).Success?
    ensures forall i :: 0 <= i < |ChangeList(v).value.items| ==>
      !Strings.Contains(ChangeList(v).value.items[i].s, OldPrefix)
    ensures ChangeList(ChangeList(v).value) == ChangeList(v)
  {
    var w := ChangeList(v).value;
    assert Strs(w).Some?;
    var w2 := ChangeList(w).value;
    assert w2.items == w.items;
  }

  /** The renaming applied to each dependency: module first, then the mount resource. */
  function ChangeDependency(s: string): (r: string)
    ensures !Strings.Contains(Change(s), OldMount) ==> r == Change(s)
  {
    var changed := Change(s);
    if !Strings.Contains(changed, OldMount) then
      Strings.ReplaceAbsent(changed, OldMount, NewMount);
      Strings.Replace(changed, OldMount, NewMount)
    else
      Strings.Replace(changed, OldMount, NewMount)
  }

  // ---------------------------------------------------------------------
  // update_resource

  /** `d[key]` on a resource's fields. */
  function Field(fields: map<string, Json.Value>, key: string): (r: Result<Json.Value, Error>)
    ensures r.Success? <==> key in fields
    ensures r.Success? ==> r.value == fields[key]
  {
    if key in fields then Success(fields[key]) else Failure(KeyNotFound(key))
  }

  /** The `dependencies` rewrite at the top of `update_resource`. */
  function RewriteDependencies(fields: map<string, Json.Value>): (r: Result<map<string, Json.Value>, Error>)
    ensures r.Success? ==> r.value.Keys == fields.Keys
    ensures r.Success? ==> forall k :: k in fields && k != "dependencies" ==> r.value[k] == fields[k]
    ensures "dependencies" !in fields ==> r == Success(fields)
    ensures "dependencies" in fields ==> (r.Success? <==> Strs(fields["dependencies"]).Some?)
    ensures "dependencies" in fields && r.Success? ==>
      var deps := Strs(fields["dependencies"]).value;
      r.value["dependencies"].List? && |r.value["dependencies"].items| == |deps| &&
      forall i :: 0 <= i < |deps| ==> r.value["dependencies"].items[i] == Json.Str(ChangeDependency(deps[i]))
  {
    if "dependencies" !in fields then Success(fields)
    else
      var deps :- MapStrings(fields["dependencies"], ChangeDependency);
      Success(fields["dependencies" := deps])
  }

  /** `resource_type in ("secret:Secret")`: the parentheses make no tuple, so this is a substring test. */
  predicate IsSecret(resourceType: string) {
    Strings.Contains(SecretType, resourceType)
  }

  /** `resource_type in ("databricksMount:DatabricksMount")`, again a substring test. */
  predicate IsMount(resourceType: string) {
    Strings.Contains(OldMount, resourceType)
  }

  /** The secret branch's test selects the secret resource and not the mount one. */
  lemma SecretTestOfSecret()
    ensures IsSecret(SecretType) && !IsMount(SecretType)
  {
    Strings.OccursContains(SecretType, SecretType, 0);
    Strings.NotContainsForChar(OldMount, SecretType, 7);
  }

  /** The mount branch's test selects the mount resource and not the secret one. */
  lemma MountTestOfMount()
    ensures IsMount(OldMount) && !IsSecret(OldMount)
  {
    Strings.OccursContains(OldMount, OldMount, 0);
    ShortNotContains(SecretType, OldMount);
  }

  /** Other resource types, such as a cluster, select neither branch. */
  lemma ClusterIsNoSecret()
    ensures !IsSecret("cluster:Cluster")
  {
    ShortNotContains(SecretType, "cluster:Cluster");
  }

  lemma ClusterIsNoMount()
    ensures !IsMount("cluster:Cluster")
  {
    Strings.NotContainsForChar(OldMount, "cluster:Cluster", 1);
  }

  /** An empty type name, or a fragment such as `Mount`, selects a branch as well. */
  lemma TestsOfFragments()
    ensures IsSecret("") && IsMount("")
    ensures IsMount("Mount")
  {
    Strings.OccursContains(SecretType, "", 0);
    Strings.OccursContains(OldMount, "", 0);
    Strings.OccursContains(OldMount, "Mount", 10);
  }

  /** `d[key] = change_list(d[key])` on the `propertyDependencies` dictionary. */
  function RewriteEntry(pd: Json.Value, key: string): (r: Result<Json.Value, Error>)
    ensures r.Success? <==> pd.Object? && key in pd.fields && Strs(pd.fields[key]).Some?
    ensures r.Success? ==> r.value.Object? && r.value.fields.Keys == pd.fields.Keys
    ensures r.Success? ==> r.value.fields[key] == ChangeList(pd.fields[key]).value
    ensures r.Success? ==> forall k :: k in pd.fields && k != key ==> r.value.fields[k] == pd.fields[k]
  {
    if !pd.Object? then Failure(NotADictionary)
    else
      var entry :- Field(pd.fields, key);
      var changed :- ChangeList(entry);
      Success(Json.Object(pd.fields[key := changed]))
  }

  /** The mount branch: `clusterId` always, `abfs` when present. */
  function RewriteMountEntries(pd: Json.Value): (r: Result<Json.Value, Error>)
    ensures r.Success? ==> pd.Object? && "clusterId" in pd.fields && r.value.Object?
    ensures r.Success? ==> r.value.fields.Keys == pd.fields.Keys
    ensures r.Success? ==> ChangeList(pd.fields["clusterId"]) == Success(r.value.fields["clusterId"])
    ensures r.Success? && "abfs" in pd.fields ==> ChangeList(pd.fields["abfs"]) == Success(r.value.fields["abfs"])
    ensures r.Success? ==> forall k :: k in pd.fields && k != "clusterId" && k != "abfs" ==> r.value.fields[k] == pd.fields[k]
  {
    var pd1 :- RewriteEntry(pd, "clusterId");
    if "abfs" in pd1.fields then RewriteEntry(pd1, "abfs") else Success(pd1)
  }

  /** The `propertyDependencies` rewrites of the secret and mount branches, in the script's order. */
  function RewriteProperties(fields: map<string, Json.Value>, secret: bool, mount: bool): (r: Result<map<string, Json.Value>, Error>)
    ensures r.Success? ==> r.value.Keys == fields.Keys
    ensures r.Success? ==> forall k :: k in fields && k != "propertyDependencies" ==> r.value[k] == fields[k]
    ensures !secret && !mount ==> r == Success(fields)
  {
    if !secret && !mount then Success(fields)
    else
      var pd :- Field(fields, "propertyDependencies");
      var pd1 :- if secret then RewriteEntry(pd, "scope") else Success(pd);
      var pd2 :- if mount then RewriteMountEntries(pd1) else Success(pd1);
      Success(fields["propertyDependencies" := pd2])
  }

  /** The final `urn` or `type` of a provider resource. */
  function Retyped(s: string, mount: bool): (r: string)
    ensures !mount ==> r == Change(s)
  {
    if mount then Strings.Replace(Change(s), OldMount, NewMount) else Change(s)
  }

  /** The fields `update_resource` names. */
  const Touched: set<string> := {"dependencies", "type", "urn", "sequenceNumber", "propertyDependencies"}

  /** The three assignments every provider resource receives. */
  function Stamp(props: map<string, Json.Value>, urn: string, ty: string): (r: map<string, Json.Value>)
    ensures r.Keys == props.Keys + {"urn", "type", "sequenceNumber"}
    ensures forall k :: k in props && k !in {"urn", "type", "sequenceNumber"} ==> r[k] == props[k]
    ensures r["urn"] == Json.Str(urn) && r["type"] == Json.Str(ty) && r["sequenceNumber"] == Json.Int(1)
  {
    props["urn" := Json.Str(urn)]["type" := Json.Str(ty)]["sequenceNumber" := Json.Int(1)]
  }

  /** The part of `update_resource` after the provider test, on the fields with dependencies rewritten. */
  function Retype(fields: map<string, Json.Value>, ty: string): (r: Result<map<string, Json.Value>, Error>)
    ensures r.Success? ==> r.value.Keys == fields.Keys + {"urn", "type", "sequenceNumber"}
    ensures r.Success? ==> forall k :: k in fields && k !in Touched ==> r.value[k] == fields[k]
    ensures |Strings.Split(ty, '/')| != 2 ==> r == Failure(WrongPartCount(|Strings.Split(ty, '/')|))
    ensures r.Success? ==>
      var parts := Strings.Split(ty, '/');
      |parts| == 2 && "urn" in fields && fields["urn"].Str? &&
      var mount := IsMount(parts[1]);
      r.value["sequenceNumber"] == Json.Int(1) &&
      r.value["type"] == Json.Str(Retyped(ty, mount)) &&
      r.value["urn"] == Json.Str(Retyped(fields["urn"].s, mount))
  {
    var parts := Strings.Split(ty, '/');
    if |parts| != 2 then Failure(WrongPartCount(|parts|))
    else
      var mount := IsMount(parts[1]);
      var urn :- Field(fields, "urn");
      if !urn.Str? then Failure(NotAString)
      else
        var props :- RewriteProperties(fields, IsSecret(parts[1]), mount);
        Success(Stamp(props, Retyped(urn.s, mount), Retyped(ty, mount)))
  }

  /** `update_resource(resource)`. */
  function UpdateResource(resource: Json.Value): (r: Result<Json.Value, Error>)
    ensures r.Success? ==> resource.Object? && r.value.Object?
    ensures r.Success? ==> "type" in resource.fields && resource.fields["type"].Str?
    ensures r.Success? ==> RewriteDependencies(resource.fields).Success?
    ensures r.Success? && !Strings.StartsWith(resource.fields["type"].s, "databricks") ==>
      r.value.fields == RewriteDependencies(resource.fields).value
    ensures r.Success? && Strings.StartsWith(resource.fields["type"].s, "databricks") ==>
      Retype(RewriteDependencies(resource.fields).value, resource.fields["type"].s) == Success(r.value.fields)
  {
    if !resource.Object? then Failure(NotADictionary)
    else
      var fields :- RewriteDependencies(resource.fields);
      var ty :- Field(fields, "type");
      if !ty.Str? then Failure(NotAString)
      else if !Strings.StartsWith(ty.s, "databricks") then Success(Json.Object(fields))
      else
        var retyped :- Retype(fields, ty.s);
        Success(Json.Object(retyped))
  }

  /** A resource outside the provider whose dependencies are a string gets them as a list of its characters. */
  lemma StringDependencies()
    ensures UpdateResource(Json.Object(map["dependencies" := Json.Str("ab"), "type" := Json.Str("x")])) ==
      Success(Json.Object(map["dependencies" := Json.List([Json.Str("a"), Json.Str("b")]), "type" := Json.Str("x")]))
  {
    var fields := map["dependencies" := Json.Str("ab"), "type" := Json.Str("x")];
    ShortNotContains("a", OldPrefix);
    ShortNotContains("b", OldPrefix);
    ShortNotContains("a", OldMount);
    ShortNotContains("b", OldMount);
    assert Strs(Json.Str("ab")).value == ["a", "b"];
    assert ChangeDependency("a") == "a" && ChangeDependency("b") == "b";
    var r := RewriteDependencies(fields).value;
    assert r["dependencies"].items == [Json.Str("a"), Json.Str("b")];
    assert r == map["dependencies" := Json.List([Json.Str("a"), Json.Str("b")]), "type" := Json.Str("x")];
    assert !Strings.StartsWith("x", "databricks");
  }

  /** A provider resource is renumbered, and its type loses the old module prefix unless it is a mount. */
  lemma ProviderResourceRetyped(resource: Json.Value)
    ensures UpdateResource(resource).Success? && Strings.StartsWith(resource.fields["type"].s, "databricks") ==>
      var fields := UpdateResource(resource).value.fields;
      "sequenceNumber" in fields && fields["sequenceNumber"] == Json.Int(1) &&
      "type" in fields && fields["type"].Str? &&
      (!IsMount(Strings.Split(resource.fields["type"].s, '/')[1]) ==> !Strings.Contains(fields["type"].s, OldPrefix))
  {
  }

  /** Fields the script does not name are carried over unchanged. */
  lemma OtherFieldsKept(resource: Json.Value, k: string)
    requires k !in Touched
    ensures UpdateResource(resource).Success? && k in resource.fields ==>
      k in UpdateResource(resource).value.fields && UpdateResource(resource).value.fields[k] == resource.fields[k]
  {
  }

  // ---------------------------------------------------------------------
  // the stack file

  /** `[f(x) for x in xs]` where `f` may raise: the first failure stops the comprehension. */
  function MapAll(f: Json.Value -> Result<Json.Value, Error>, xs: seq<Json.Value>): (r: Result<seq<Json.Value>, Error>)
    ensures r.Success? <==> forall i :: 0 <= i < |xs| ==> f(xs[i]).Success?
    ensures r.Success? ==> |r.value| == |xs|
    ensures r.Success? ==> forall i :: 0 <= i < |xs| ==> f(xs[i]) == Success(r.value[i])
  {
    if |xs| == 0 then Success([])
    else
      assert forall i :: 1 <= i < |xs| ==> xs[i] == xs[1..][i - 1];
      var first :- f(xs[0]);
      var rest :- MapAll(f, xs[1..]);
      Success([first] + rest)
  }

  /** `[update_resource(resource) for resource in resources]`: the first failing resource stops the script. */
  function UpdateAll(resources: seq<Json.Value>): (r: Result<seq<Json.Value>, Error>)
    ensures r.Success? <==> forall i :: 0 <= i < |resources| ==> UpdateResource(resources[i]).Success?
    ensures r.Success? ==> |r.value| == |resources|
    ensures r.Success? ==> forall i :: 0 <= i < |resources| ==> UpdateResource(resources[i]) == Success(r.value[i])
  {
    MapAll(UpdateResource, resources)
  }

  /** The edit of the decoded stack: `stack_json["deployment"]["resources"]` is replaced, nothing else. */
  function Migrate(stack: Json.Value): (r: Result<Json.Value, Error>)
    ensures r.Success? ==> stack.Object? && r.value.Object? && r.value.fields.Keys == stack.fields.Keys
    ensures r.Success? ==> forall k :: k in stack.fields && k != "deployment" ==> r.value.fields[k] == stack.fields[k]
    ensures r.Success? ==>
      "deployment" in stack.fields && stack.fields["deployment"].Object? &&
      "resources" in stack.fields["deployment"].fields && stack.fields["deployment"].fields["resources"].List?
    ensures r.Success? ==>
      var deployment := stack.fields["deployment"].fields;
      UpdateAll(deployment["resources"].items).Success? &&
      r.value.fields["deployment"] == Json.Object(deployment["resources" := Json.List(UpdateAll(deployment["resources"].items).value)])
  {
    if !stack.Object? then Failure(NotADictionary)
    else
      var deployment :- Field(stack.fields, "deployment");
      if !deployment.Object? then Failure(NotADictionary)
      else
        var resources :- Field(deployment.fields, "resources");
        if !resources.List? then Failure(NotAList)
        else
          var updated :- UpdateAll(resources.items);
          Success(Json.Object(stack.fields["deployment" := Json.Object(deployment.fields["resources" := Json.List(updated)])]))
  }

  /** A migrated stack keeps its resources, one for one and in order. */
  lemma MigrateKeepsResources(stack: Json.Value)
    requires Migrate(stack).Success?
    ensures var after := Migrate(stack).value.fields["deployment"].fields["resources"];
      after.List? && |after.items| == |stack.fields["deployment"].fields["resources"].items|
  {
  }

  /** The stack the script is written for. */
  const Stack: string := "dev"

  /** The file name the script reads: `f"pulumi.stack.core.dtap.{stack}.json"`. */
  function StackFileName(stack: string): string {
    "pulumi.stack.core.dtap." + stack + ".json"
  }

  /** Different stacks are kept in different files. */
  lemma StackFileNameInjective(a: string, b: string)
    requires StackFileName(a) == StackFileName(b)
    ensures a == b
  {
    var p := "pulumi.stack.core.dtap.";
    assert a == StackFileName(a)[|p|..|StackFileName(a)| - 5];
    assert b == StackFileName(b)[|p|..|StackFileName(b)| - 5];
  }

  /** The name the script writes to: the same template without the `f` prefix, so `{stack}` stays literal. */
  const OutputFileNameAsWritten: string := "pulumi.stack.core.dtap.{stack}.json"

  /** The script as written: reads the `dev` stack file and writes the result under the literal name. */
  function RunAsWritten(files: map<string, Json.Value>): (r: Result<map<string, Json.Value>, Error>)
    ensures r.Success? ==> r.value.Keys == files.Keys + {OutputFileNameAsWritten}
    ensures r.Success? ==> StackFileName(Stack) in files
    ensures r.Success? ==> Migrate(files[StackFileName(Stack)]) == Success(r.value[OutputFileNameAsWritten])
    ensures r.Success? ==> forall name :: name in files && name != OutputFileNameAsWritten ==> r.value[name] == files[name]
  {
    var input := StackFileName(Stack);
    if input !in files then Failure(FileNotFound(input))
    else
      var migrated :- Migrate(files[input]);
      Success(files[OutputFileNameAsWritten := migrated])
  }

  /** As written, the stack file itself is left as it was and a new, oddly named file appears. */
  lemma AsWrittenLeavesStackFileStale(files: map<string, Json.Value>)
    requires RunAsWritten(files).Success?
    ensures StackFileName(Stack) != OutputFileNameAsWritten
    ensures RunAsWritten(files).value[StackFileName(Stack)] == files[StackFileName(Stack)]
  {
    StackFileNameDiffers();
  }

  lemma StackFileNameDiffers()
    ensures StackFileName(Stack) != OutputFileNameAsWritten
  {
    assert StackFileName(Stack)[23] == 'd' != OutputFileNameAsWritten[23];
  }

  /** The script as intended: the stack file is migrated in place and no other file changes. */
  function Run(files: map<string, Json.Value>, stack: string): (r: Result<map<string, Json.Value>, Error>)
    ensures r.Success? ==> StackFileName(stack) in files && r.value.Keys == files.Keys
    ensures r.Success? ==> Migrate(files[StackFileName(stack)]) == Success(r.value[StackFileName(stack)])
    ensures r.Success? ==> forall name :: name in files && name != StackFileName(stack) ==> r.value[name] == files[name]
    ensures StackFileName(stack) in files ==> (r.Success? <==> Migrate(files[StackFileName(stack)]).Success?)
    ensures StackFileName(stack) !in files ==> r == Failure(FileNotFound(StackFileName(stack)))
  {
    var input := StackFileName(stack);
    if input !in files then Failure(FileNotFound(input))
    else
      var migrated :- Migrate(files[input]);
      Success(files[input := migrated])
  }
}

=== FILE: naming.dfy ===
/**
 The platform's resource-naming convention: a resource type and a name,
 together with the platform's prefix, stack short name, region short name
 and unique id, give the Azure name of the resource.
 */
module Naming {
  import opened Wrappers
  import Strings

  /** The parts of the platform configuration the names are built from. */
  datatype Platform = Platform(
    prefix: string,
    stack: string,            // the stack short name, as the configuration reports it
    regionShortName: string,
    uniqueId: string,
    useLegacyNaming: bool)

  datatype Error = UnknownResourceType(resourceType: string)

  /** The abbreviations of the table-driven resource types. */
  const Abbreviations: map<string, string> := map[
    "action_group" := "ag",
    "container_registry" := "cr",
    "databricks_cluster" := "dbwc",
    "databricks_directory" := "dbd",
    "databricks_instance_pool" := "dbwip",
    "databricks_job" := "dbj",
    "databricks_notebook" := "dbn",
    "databricks_workspace" := "dbw",
    "devops_pipeline" := "adopipe",
    "devops_project" := "adoproj",
    "devops_repo" := "adorepo",
    "devops_variable_group" := "adovg",
    "dns_zone" := "dz",
    "kubernetes_agent_pool" := "kap",
    "kubernetes_cluster" := "kc",
    "kubernetes_job" := "kj",
    "kubernetes_persistent_volume" := "kpv",
    "log_analytics_workspace" := "law",
    "metric_alert" := "ma",
    "nat_gateway" := "ngw",
    "network_security_group" := "nsg",
    "private_dns_zone" := "prdz",
    "private_endpoint" := "pe",
    "public_ip" := "pip",
    "quantum_workspace" := "qw",
    "random_password" := "rp",
    "random_string" := "rs",
    "resource_group" := "rg",
    "route_table" := "rt",
    "service_principal" := "sp",
    "static_site" := "sts",
    "static_site_custom_domain" := "stscd",
    "storage_blob" := "sb",
    "storage_blob_container" := "sbc",
    "storage_file_share" := "sfs",
    "storage_management_policy" := "smp",
    "subnet" := "snet",
    "user_assigned_managed_identity" := "uami",
    "virtual_machine_scale_set" := "vmss",
    "virtual_network" := "vnet"
  ]

  /** The types with a naming rule of their own, checked before the table. */
  const SpecialTypes: set<string> := {
    "user_group", "gateway_subnet", "key_vault", "datafactory",
    "adf_integration_runtime", "storage_account", "log_analytics_workspace"
  }

  /** `generate_resource_name`; the type is compared lower-cased. */
  function ResourceName(resourceType: string, name: string, p: Platform): (r: Result<string, Error>)
    ensures r.Failure? <==> Strings.Lower(resourceType) !in SpecialTypes + Abbreviations.Keys
    ensures r.Failure? ==> r.error == UnknownResourceType(Strings.Lower(resourceType))
  {
    var t := Strings.Lower(resourceType);
    if t == "user_group" then
      Success(Strings.Upper(p.prefix) + "-" + Strings.Title(p.stack) + "-" + Strings.Title(name))
    else if t == "gateway_subnet" then Success("Gateway")
    else if t == "key_vault" then
      Success(p.prefix + "-" + p.stack + "-" + p.regionShortName + "-kv-" + name + "-" + p.uniqueId)
    else if t == "datafactory" then
      if p.useLegacyNaming then
        Success(p.prefix + "-" + p.stack + "-" + p.regionShortName + "-adf-" + Strings.Lower(name))
      else
        Success(p.prefix + "-" + p.stack + "-" + p.regionShortName + "-adf-" + name + "-" + p.uniqueId)
    else if t == "adf_integration_runtime" then
      Success(p.prefix + "-" + p.stack + "-" + name + "-" + p.uniqueId)
    else if t == "storage_account" then
      Success(p.prefix + p.stack + name + p.uniqueId)
    else if t == "log_analytics_workspace" then
      Success(p.prefix + "-" + p.stack + "-" + p.regionShortName + "-law-" + Strings.Lower(name) + "-" + p.uniqueId)
    else if t in Abbreviations then
      Success(p.prefix + "-" + p.stack + "-" + p.regionShortName + "-" + Abbreviations[t] + "-" + Strings.Lower(name))
    else Failure(UnknownResourceType(t))
  }

  /** Types that differ only in letter case name resources alike. */
  lemma ResourceNameIgnoresCase(a: string, b: string, name: string, p: Platform)
    requires Strings.Lower(a) == Strings.Lower(b)
    ensures ResourceName(a, name, p) == ResourceName(b, name, p)
  {
  }

  /** Upper-casing a type does not change the name it yields. */
  lemma ResourceNameOfUpper(t: string, name: string, p: Platform)
    ensures ResourceName(Strings.Upper(t), name, p) == ResourceName(t, name, p)
  {
    Strings.LowerOfUpper(t);
  }

  /** A table-driven type names a resource by its abbreviation. */
  lemma AbbreviatedName(resourceType: string, name: string, p: Platform)
    requires Strings.Lower(resourceType) in Abbreviations.Keys - SpecialTypes
    ensures ResourceName(resourceType, name, p) ==
      Success(p.prefix + "-" + p.stack + "-" + p.regionShortName + "-" + Abbreviations[Strings.Lower(resourceType)] +
              "-" + Strings.Lower(name))
  {
  }

  /** Pieces joined with `-` when none of them holds a `-`. */
  predicate DashFree(s: string) {
    '-' !in s
  }

  /**
   A table-driven name is the platform's prefix, stack and region, the
   type's abbreviation and the lower-cased name, `-`-separated: splitting on
   `-` gives those fields back.
   */
  lemma TableDrivenName(resourceType: string, name: string, p: Platform)
    requires Strings.Lower(resourceType) in Abbreviations.Keys - SpecialTypes
    requires DashFree(p.prefix) && DashFree(p.stack) && DashFree(p.regionShortName)
    ensures var t := Strings.Lower(resourceType);
      ResourceName(resourceType, name, p).Success? &&
      Strings.Split(ResourceName(resourceType, name, p).value, '-') ==
        [p.prefix, p.stack, p.regionShortName, Abbreviations[t]] + Strings.Split(Strings.Lower(name), '-')
  {
    var t := Strings.Lower(resourceType);
    AbbreviationsDashFree();
    assert ResourceName(resourceType, name, p) ==
      Success(p.prefix + "-" + p.stack + "-" + p.regionShortName + "-" + Abbreviations[t] + "-" + Strings.Lower(name));
    SplitFiveFields(p.prefix, p.stack, p.regionShortName, Abbreviations[t], Strings.Lower(name));
  }

  lemma SplitFiveFields(a: string, b: string, c: string, d: string, n: string)
    requires DashFree(a) && DashFree(b) && DashFree(c) && DashFree(d)
    ensures Strings.Split(a + "-" + b + "-" + c + "-" + d + "-" + n, '-') == [a, b, c, d] + Strings.Split(n, '-')
  {
    assert a + "-" + b + "-" + c + "-" + d + "-" + n == a + ['-'] + (b + ['-'] + (c + ['-'] + (d + ['-'] + n)));
    Strings.SplitAtSeparator(d, n, '-');
    Strings.SplitAtSeparator(c, d + ['-'] + n, '-');
    Strings.SplitAtSeparator(b, c + ['-'] + (d + ['-'] + n), '-');
    Strings.SplitAtSeparator(a, b + ['-'] + (c + ['-'] + (d + ['-'] + n)), '-');
  }

  /** Every abbreviation is a single `-`-free field. */
  lemma AbbreviationsDashFree()
    ensures forall t :: t in Abbreviations ==> DashFree(Abbreviations[t]) && |Abbreviations[t]| > 0
  {
  }

  /** The user group name: upper-cased prefix, then title-cased stack and name. */
  lemma UserGroupName(resourceType: string, name: string, p: Platform)
    requires Strings.Lower(resourceType) == "user_group"
    ensures ResourceName(resourceType, name, p) ==
      Success(Strings.Upper(p.prefix) + "-" + Strings.Title(p.stack) + "-" + Strings.Title(name))
  {
  }

  /** The gateway subnet is called `Gateway`, whatever name is asked for. */
  lemma GatewaySubnetName(resourceType: string, a: string, b: string, p: Platform, q: Platform)
    requires Strings.Lower(resourceType) == "gateway_subnet"
    ensures ResourceName(resourceType, a, p) == ResourceName(resourceType, b, q) == Success("Gateway")
  {
  }

  /**
   A data factory under legacy naming has the lower-cased name and no unique
   id; otherwise the name is kept as given and the unique id comes last.
   */
  lemma DatafactoryName(resourceType: string, name: string, p: Platform)
    requires Strings.Lower(resourceType) == "datafactory"
    ensures var base := p.prefix + "-" + p.stack + "-" + p.regionShortName + "-adf-";
      ResourceName(resourceType, name, p) ==
        if p.useLegacyNaming then Success(base + Strings.Lower(name))
        else Success(base + name + "-" + p.uniqueId)
  {
  }

  /** A storage account name has no separator: it is `-`-free when its parts are. */
  lemma StorageAccountName(resourceType: string, name: string, p: Platform)
    requires Strings.Lower(resourceType) == "storage_account"
    ensures ResourceName(resourceType, name, p) == Success(p.prefix + p.stack + name + p.uniqueId)
    ensures DashFree(p.prefix) && DashFree(p.stack) && DashFree(name) && DashFree(p.uniqueId) ==>
      DashFree(ResourceName(resourceType, name, p).value)
  {
  }

  /** The log analytics workspace rule comes before its table entry and adds the unique id. */
  lemma LogAnalyticsWorkspaceName(resourceType: string, name: string, p: Platform)
    requires Strings.Lower(resourceType) == "log_analytics_workspace"
    ensures ResourceName(resourceType, name, p) ==
      Success(p.prefix + "-" + p.stack + "-" + p.regionShortName + "-law-" + Strings.Lower(name) + "-" + p.uniqueId)
  {
  }
}

=== FILE: network.dfy ===
/**
 The platform firewall settings: access lists kept sorted, a `+` that merges
 two settings, and the `bypass` value Azure expects.
 */
module Firewall {
  import opened Wrappers
  import Order

  /**
   A firewall. `resourceAccessList` entries are rule descriptions, kept as
   strings so that they can be ordered.
   */
  datatype Firewall = Firewall(
    enabled: bool,
    ipAccessList: seq<string>,
    vnetAccessList: seq<string>,
    resourceAccessList: seq<string>,
    defaultAction: string,
    trustAzureServices: bool)

  const DefaultAction: string := "Deny"

  /** The lists as the constructor leaves them. */
  predicate Normalized(f: Firewall) {
    Order.StrictlySorted(f.ipAccessList) && Order.StrictlySorted(f.vnetAccessList) &&
    Order.Sorted(f.resourceAccessList)
  }

  /** `x or []` for an optional list. */
  function OrEmpty(xs: Option<seq<string>>): seq<string> {
    if xs.Some? then xs.value else []
  }

  /**
   `PlatformFirewall(...)`; an absent argument is `None`, and an absent
   default action is `Deny`.
   */
  function Create(enabled: bool, ips: Option<seq<string>>, vnets: Option<seq<string>>,
                  resources: Option<seq<string>>, defaultAction: Option<string>,
                  trustAzureServices: bool): (f: Firewall)
    ensures Normalized(f)
    ensures forall x :: x in f.ipAccessList <==> x in OrEmpty(ips)
    ensures forall x :: x in f.vnetAccessList <==> x in OrEmpty(vnets)
    ensures multiset(f.resourceAccessList) == multiset(OrEmpty(resources))
    ensures f.enabled == enabled && f.trustAzureServices == trustAzureServices
    ensures f.defaultAction == if defaultAction.Some? then defaultAction.value else DefaultAction
  {
    Firewall(enabled, Order.SortedSet(OrEmpty(ips)), Order.SortedSet(OrEmpty(vnets)),
             Order.Sort(OrEmpty(resources)),
             if defaultAction.Some? then defaultAction.value else DefaultAction,
             trustAzureServices)
  }

  /** A firewall built with no arguments: disabled, empty, `Deny`, no trust. */
  lemma DefaultFirewall()
    ensures Create(false, None, None, None, None, false) == Firewall(false, [], [], [], "Deny", false)
  {
    assert Order.SortedSet([]) == [];
    assert Order.Sort([]) == [];
  }

  /**
   `a + b`: when `a` is enabled the lists are the union of both; otherwise
   they are `b`'s. The flags and the default action are always `b`'s.
   `list(set(...))` followed by the constructor's sort is `SortedSet`,
   whatever order the set is iterated in (see `SetOrderIrrelevant`).
   */
  function Add(a: Firewall, b: Firewall): (r: Firewall)
    ensures Normalized(r)
    ensures r.enabled == b.enabled && r.defaultAction == b.defaultAction
    ensures r.trustAzureServices == b.trustAzureServices
    ensures a.enabled ==> forall x :: x in r.ipAccessList <==> x in a.ipAccessList || x in b.ipAccessList
    ensures a.enabled ==> forall x :: x in r.vnetAccessList <==> x in a.vnetAccessList || x in b.vnetAccessList
    ensures a.enabled ==> forall x :: x in r.resourceAccessList <==>
      x in a.resourceAccessList || x in b.resourceAccessList
    ensures !a.enabled ==> forall x :: x in r.ipAccessList <==> x in b.ipAccessList
    ensures !a.enabled ==> forall x :: x in r.vnetAccessList <==> x in b.vnetAccessList
    ensures !a.enabled ==> multiset(r.resourceAccessList) == multiset(b.resourceAccessList)
  {
    if a.enabled then
      Firewall(b.enabled,
               Order.SortedSet(a.ipAccessList + b.ipAccessList),
               Order.SortedSet(a.vnetAccessList + b.vnetAccessList),
               Order.SortedSet(a.resourceAccessList + b.resourceAccessList),
               b.defaultAction, b.trustAzureServices)
    else
      Create(b.enabled, Some(b.ipAccessList), Some(b.vnetAccessList), Some(b.resourceAccessList),
             Some(b.defaultAction), b.trustAzureServices)
  }

  /**
   Sorting the contents of a set gives the same list whatever order the set
   hands them out in: any duplicate-free listing of the elements of `xs`
   sorts to `SortedSet(xs)`.
   */
  lemma SetOrderIrrelevant(xs: seq<string>, listing: seq<string>)
    requires forall i, j :: 0 <= i < j < |listing| ==> listing[i] != listing[j]
    requires forall x :: x in listing <==> x in xs
    ensures Order.Sort(listing) == Order.SortedSet(xs)
  {
    Order.SortOfDistinct(listing);
    Order.SortedSetOfSameElements(listing, xs);
  }

  /** A disabled firewall added to a constructed one gives that one back unchanged. */
  lemma AddDisabledIdentity(a: Firewall, b: Firewall)
    requires !a.enabled && Normalized(b)
    ensures Add(a, b) == b
  {
    Order.SortedSetIdempotent(b.ipAccessList);
    Order.SortedSetIdempotent(b.vnetAccessList);
    Order.SortIdempotent(b.resourceAccessList);
  }

  /**
   Adding an enabled firewall with no resource duplicates to itself changes
   nothing.
   */
  lemma AddSelf(a: Firewall)
    requires a.enabled && Normalized(a) && Order.StrictlySorted(a.resourceAccessList)
    ensures Add(a, a) == a
  {
    Order.SortedSetOfSameElements(a.ipAccessList + a.ipAccessList, a.ipAccessList);
    Order.SortedSetIdempotent(a.ipAccessList);
    Order.SortedSetOfSameElements(a.vnetAccessList + a.vnetAccessList, a.vnetAccessList);
    Order.SortedSetIdempotent(a.vnetAccessList);
    Order.SortedSetOfSameElements(a.resourceAccessList + a.resourceAccessList, a.resourceAccessList);
    Order.SortedSetIdempotent(a.resourceAccessList);
  }

  /** `bypass_services`: `AzureServices` exactly when Azure services are trusted. */
  function BypassServices(f: Firewall): (r: Option<string>)
    ensures r.Some? <==> f.trustAzureServices
    ensures r.Some? ==> r.value == "AzureServices"
  {
    if f.trustAzureServices then Some("AzureServices") else None
  }
}

=== FILE: orchestration_pipelines.dfy ===
/**
 The Data Factory helpers of the orchestration pipelines: the activity
 timeout encoding, success dependencies between activities, and the
 workspace-syncing pipeline that lists each container's table folders and
 hands them to the table check as `schema|item;item` strings.
 */
module AdfPipelines {
  import opened Wrappers
  import Strings

  // ---------------------------------------------------------------------
  // Timeouts
  // ---------------------------------------------------------------------

  const MinutesPerHour: nat := 60
  const MinutesPerDay: nat := 24 * MinutesPerHour

  /** `minutes_to_string`: `D.HH:MM:00`, the TimeSpan form Data Factory reads. */
  function MinutesToString(n: nat): string {
    var days := n / MinutesPerDay;
    var rest := n % MinutesPerDay;
    var hours := rest / MinutesPerHour;
    var minutes := rest % MinutesPerHour;
    Strings.NatToString(days) + "." +
    Strings.ZFill(Strings.NatToString(hours), 2) + ":" +
    Strings.ZFill(Strings.NatToString(minutes), 2) + ":00"
  }

  /** A Data Factory TimeSpan `D.HH:MM:SS`, field by field. */
  datatype TimeSpan = TimeSpan(days: nat, hours: nat, minutes: nat, seconds: nat)

  predicate Field(s: string) {
    |s| > 0 && Strings.AllDigits(s)
  }

  /** Reads a TimeSpan back: a day count, a dot, then three colon-separated fields. */
  function ParseTimeSpan(s: string): (t: Option<TimeSpan>)
    ensures t.Some? ==> '.' in s
  {
    var top := Strings.Split(s, '.');
    if |top| != 2 then None
    else
      var clock := Strings.Split(top[1], ':');
      if |clock| != 3 || !Field(top[0]) || !Field(clock[0]) || !Field(clock[1]) || !Field(clock[2]) then
        None
      else
        Strings.JoinSplit(s, '.');
        Strings.JoinTwo(top[0], top[1], ['.']);
        Some(TimeSpan(Strings.DigitsValue(top[0]), Strings.DigitsValue(clock[0]),
                      Strings.DigitsValue(clock[1]), Strings.DigitsValue(clock[2])))
  }

  function TotalMinutes(t: TimeSpan): nat {
    t.days * MinutesPerDay + t.hours * MinutesPerHour + t.minutes
  }

  lemma NoSeparatorInDigits(s: string, c: char)
    requires Strings.AllDigits(s) && !Strings.IsDigit(c)
    ensures c !in s
  {
  }

  lemma {:induction false} DigitsValueLeadingZero(s: string)
    requires Strings.AllDigits(s)
    ensures Strings.AllDigits("0" + s)
    ensures Strings.DigitsValue("0" + s) == Strings.DigitsValue(s)
    decreases |s|
  {
    if |s| > 0 {
      var z := "0" + s;
      assert z[..|z| - 1] == "0" + s[..|s| - 1];
      DigitsValueLeadingZero(s[..|s| - 1]);
    }
  }

  /** A number below 100 zero-filled to width two: two digits, same value. */
  lemma TwoDigits(k: nat)
    requires k < 100
    ensures var f := Strings.ZFill(Strings.NatToString(k), 2);
      |f| == 2 && Strings.AllDigits(f) && Strings.DigitsValue(f) == k
  {
    Strings.NatToStringLength(k);
    Strings.DigitsValueOfNatToString(k);
    var s := Strings.NatToString(k);
    if k < 10 {
      assert Strings.ZFill(s, 2) == "0" + s;
      DigitsValueLeadingZero(s);
    }
  }

  /** The parts of a rendered timeout: day count, hours and minutes. */
  function DayField(n: nat): string {
    Strings.NatToString(n / MinutesPerDay)
  }

  function HourField(n: nat): string {
    Strings.ZFill(Strings.NatToString((n % MinutesPerDay) / MinutesPerHour), 2)
  }

  function MinuteField(n: nat): string {
    Strings.ZFill(Strings.NatToString((n % MinutesPerDay) % MinutesPerHour), 2)
  }

  lemma DayFieldValue(n: nat)
    ensures Field(DayField(n)) && Strings.DigitsValue(DayField(n)) == n / MinutesPerDay
  {
    Strings.DigitsValueOfNatToString(n / MinutesPerDay);
  }

  lemma HourFieldValue(n: nat)
    ensures |HourField(n)| == 2 && Strings.AllDigits(HourField(n))
    ensures Strings.DigitsValue(HourField(n)) == (n % MinutesPerDay) / MinutesPerHour
  {
    TwoDigits((n % MinutesPerDay) / MinutesPerHour);
  }

  lemma MinuteFieldValue(n: nat)
    ensures |MinuteField(n)| == 2 && Strings.AllDigits(MinuteField(n))
    ensures Strings.DigitsValue(MinuteField(n)) == (n % MinutesPerDay) % MinutesPerHour
  {
    TwoDigits((n % MinutesPerDay) % MinutesPerHour);
  }

  lemma MinutesToStringParts(n: nat)
    ensures MinutesToString(n) == DayField(n) + "." + HourField(n) + ":" + MinuteField(n) + ":00"
    ensures Field(DayField(n)) && Strings.DigitsValue(DayField(n)) == n / MinutesPerDay
    ensures |HourField(n)| == 2 && Strings.AllDigits(HourField(n))
    ensures Strings.DigitsValue(HourField(n)) == (n % MinutesPerDay) / MinutesPerHour
    ensures |MinuteField(n)| == 2 && Strings.AllDigits(MinuteField(n))
    ensures Strings.DigitsValue(MinuteField(n)) == (n % MinutesPerDay) % MinutesPerHour
  {
    DayFieldValue(n);
    HourFieldValue(n);
    MinuteFieldValue(n);
  }

  /** Where the separators of a `D.HH:MM:SS` string with two-digit fields sit. */
  lemma TimeSpanLayout(d: string, h: string, m: string)
    requires |h| == 2 && |m| == 2
    ensures var s := d + "." + h + ":" + m + ":00";
      |s| == |d| + 9 && s[..|d|] == d && s[|d|] == '.' && s[|d| + 1..|d| + 3] == h &&
      s[|d| + 3] == ':' && s[|d| + 4..|d| + 6] == m && s[|d| + 6..] == ":00"
  {
  }

  /** Splitting a `D.HH:MM:00` string gives back its digit fields. */
  lemma ParseTimeSpanFields(d: string, h: string, m: string)
    requires Field(d) && Field(h) && Field(m)
    ensures ParseTimeSpan(d + "." + h + ":" + m + ":00") ==
      Some(TimeSpan(Strings.DigitsValue(d), Strings.DigitsValue(h), Strings.DigitsValue(m), 0))
  {
    var clock := h + ":" + m + ":00";
    ClockSplit(h, m);
    DaySplit(d, clock);
    assert d + "." + h + ":" + m + ":00" == d + "." + clock;
    ZeroSeconds();
  }

  /** The clock part `HH:MM:00` splits on `:` into its three fields and holds no `.`. */
  lemma ClockSplit(h: string, m: string)
    requires Field(h) && Field(m)
    ensures '.' !in h + ":" + m + ":00"
    ensures Strings.Split(h + ":" + m + ":00", ':') == [h, m, "00"]
  {
    NoSeparatorInDigits(h, '.');
    NoSeparatorInDigits(m, '.');
    NoSeparatorInDigits(h, ':');
    NoSeparatorInDigits(m, ':');
    var clock := h + ":" + m + ":00";
    assert clock == h + [':'] + (m + [':'] + "00");
    Strings.SplitAtSeparator(h, m + [':'] + "00", ':');
    Strings.SplitAtSeparator(m, "00", ':');
    Strings.SplitNoSeparator("00", ':');
  }

  /** A day count, a dot and a dot-free clock split on `.` into the two. */
  lemma DaySplit(d: string, clock: string)
    requires Field(d) && '.' !in clock
    ensures Strings.Split(d + "." + clock, '.') == [d, clock]
  {
    NoSeparatorInDigits(d, '.');
    assert d + "." + clock == d + ['.'] + clock;
    Strings.SplitAtSeparator(d, clock, '.');
    Strings.SplitNoSeparator(clock, '.');
  }

  lemma ZeroSeconds()
    ensures Field("00") && Strings.DigitsValue("00") == 0
  {
    assert "00"[..1] == "0";
  }

  lemma DayHourMinute(n: nat)
    ensures (n / MinutesPerDay) * MinutesPerDay + ((n % MinutesPerDay) / MinutesPerHour) * MinutesPerHour +
      (n % MinutesPerDay) % MinutesPerHour == n
    ensures (n % MinutesPerDay) / MinutesPerHour < 24
  {
  }

  /**
   Reading the encoded timeout back gives days, hours below 24, minutes
   below 60 and zero seconds, which together make up exactly `n` minutes.
   */
  lemma MinutesToStringRoundTrip(n: nat)
    ensures var t := ParseTimeSpan(MinutesToString(n));
      t == Some(TimeSpan(n / MinutesPerDay, (n % MinutesPerDay) / MinutesPerHour,
                         (n % MinutesPerDay) % MinutesPerHour, 0)) &&
      t.value.hours < 24 && t.value.minutes < 60 && TotalMinutes(t.value) == n
  {
    MinutesToStringParts(n);
    ParseTimeSpanFields(DayField(n), HourField(n), MinuteField(n));
    DayHourMinute(n);
  }

  /** The ingestion notebook's default timeout of 20 minutes. */
  lemma IngestionTimeoutDefault()
    ensures MinutesToString(20) == "0.00:20:00"
  {
    UnderAnHour(20);
    assert Strings.NatToString(20) == "20" by {
      assert Strings.NatToString(20) == Strings.NatToString(2) + [Strings.DigitChar(0)];
    }
    assert MinuteField(20) == "20";
  }

  /** The sync activities' default timeout of 1 minute. */
  lemma SyncTimeoutDefault()
    ensures MinutesToString(1) == "0.00:01:00"
  {
    UnderAnHour(1);
    assert MinuteField(1) == "01";
  }

  /** Below an hour, the day and hour fields are zero. */
  lemma UnderAnHour(n: nat)
    requires n < MinutesPerHour
    ensures MinutesToString(n) == "0.00:" + MinuteField(n) + ":00"
    ensures MinuteField(n) == Strings.ZFill(Strings.NatToString(n), 2)
  {
    MinutesToStringParts(n);
    UnderAnHourFields(n);
    var mf := MinuteField(n);
    assert MinutesToString(n) == "0" + "." + "00" + ":" + mf + ":00";
    LiteralHead(mf);
  }

  lemma LiteralHead(mf: string)
    ensures "0" + "." + "00" + ":" + mf + ":00" == "0.00:" + mf + ":00"
  {
    assert "0" + "." + "00" + ":" == "0.00:";
  }

  lemma UnderAnHourFields(n: nat)
    requires n < MinutesPerHour
    ensures DayField(n) == "0" && HourField(n) == "00"
    ensures MinuteField(n) == Strings.ZFill(Strings.NatToString(n), 2)
  {
    UnderAnHourArithmetic(n);
    ZeroFields();
  }

  lemma UnderAnHourArithmetic(n: nat)
    requires n < MinutesPerHour
    ensures n / MinutesPerDay == 0 && (n % MinutesPerDay) / MinutesPerHour == 0
    ensures (n % MinutesPerDay) % MinutesPerHour == n
  {
    assert MinutesPerDay == 1440 && MinutesPerHour == 60;
    assert n / 1440 == 0 && n % 1440 == n && n / 60 == 0 && n % 60 == n;
  }

  lemma ZeroFields()
    ensures Strings.NatToString(0) == "0" && Strings.ZFill("0", 2) == "00"
  {
  }

  // ---------------------------------------------------------------------
  // Dependencies and activities
  // ---------------------------------------------------------------------

  datatype Condition = Succeeded | Failed | Skipped | Completed

  datatype Dependency = Dependency(activity: string, conditions: seq<Condition>)

  /** `depends_successful(*names)`: one SUCCEEDED dependency per name, in order. */
  function DependsSuccessful(names: seq<string>): (r: seq<Dependency>)
    ensures |r| == |names|
    ensures forall i :: 0 <= i < |r| ==> r[i].conditions == [Succeeded]
  {
    seq(|names|, i requires 0 <= i < |names| => Dependency(names[i], [Succeeded]))
  }

  /** The activity names a dependency list refers to. */
  function DependencyNames(deps: seq<Dependency>): (r: seq<string>)
    ensures |r| == |deps|
  {
    seq(|deps|, i requires 0 <= i < |deps| => deps[i].activity)
  }

  /** The dependencies name the given activities, in argument order. */
  lemma DependsSuccessfulNames(names: seq<string>)
    ensures DependencyNames(DependsSuccessful(names)) == names
  {
  }

  datatype Kind = GetMetadata | ForEach | Filter | IfCondition | SetVariable | DatabricksNotebook

  /**
   An activity of a pipeline; `variable` is the variable a SetVariable
   activity writes, and `children` are the activities a ForEach runs or an
   IfCondition runs on its true branch.
   */
  datatype Activity = Activity(
    name: string, kind: Kind, dependsOn: seq<Dependency>,
    variable: Option<string>, value: string, children: seq<Activity>)

  function TablesVariable(c: string): string { c + "Tables" }

  function TablesTempVariable(c: string): string { c + "TablesTemp" }

  /** The ADF expression that adds one table-details entry to the container's list by `union`, which drops an entry already there. */
  function AppendEntryExpression(c: string): string {
    "@union(variables('" + TablesVariable(c) + "'), array(concat('/mnt/" + c +
    "/', item().Name, '|', join(activity('Find only " + c +
    " table folders').output.Value, ';'))))"
  }

  /** `per_container_activities`: list, record and check a container's table folders. */
  function PerContainerActivities(c: string): (r: seq<Activity>)
    ensures |r| == 3
    ensures r[0].name == "Get " + c + " top-level folders" && r[0].dependsOn == []
    ensures r[1].name == "Find new " + c + " table folders"
    ensures DependencyNames(r[1].dependsOn) == [r[0].name]
    ensures r[2].name == "For each new " + c + " schema"
    ensures DependencyNames(r[2].dependsOn) == [r[1].name]
    ensures |r[1].children| == 3 && r[1].children[2].children ==
      [Activity("Set found " + c + " folders temp", SetVariable, [],
         Some(TablesTempVariable(c)), AppendEntryExpression(c), []),
       Activity("Set found " + c + " folders", SetVariable,
         DependsSuccessful(["Set found " + c + " folders temp"]), Some(TablesVariable(c)),
         "@variables('" + TablesTempVariable(c) + "')", [])]
  {
    var get := Activity("Get " + c + " top-level folders", GetMetadata, [], None, "", []);
    var list := Activity("List " + c + " table folders", GetMetadata, [], None, "", []);
    var only := Activity("Find only " + c + " table folders", Filter,
      DependsSuccessful([list.name]), None, "", []);
    var setTemp := Activity("Set found " + c + " folders temp", SetVariable, [],
      Some(TablesTempVariable(c)), AppendEntryExpression(c), []);
    var setFound := Activity("Set found " + c + " folders", SetVariable,
      DependsSuccessful([setTemp.name]), Some(TablesVariable(c)),
      "@variables('" + TablesTempVariable(c) + "')", []);
    var ifNew := Activity("If new " + c + " tables", IfCondition,
      DependsSuccessful([only.name]), None, "", [setTemp, setFound]);
    var find := Activity("Find new " + c + " table folders", ForEach,
      DependsSuccessful([get.name]), None, "", [list, only, ifNew]);
    var check := Activity("Check " + c + " tables exist in Analytics workspace",
      DatabricksNotebook, [], None, "", []);
    var each := Activity("For each new " + c + " schema", ForEach,
      DependsSuccessful([find.name]), None, "", [check]);
    DependsSuccessfulNames([get.name]);
    DependsSuccessfulNames([find.name]);
    [get, find, each]
  }

  /** The activity lists one after another. */
  function Concat(parts: seq<seq<Activity>>): seq<Activity> {
    if |parts| == 0 then [] else parts[0] + Concat(parts[1..])
  }

  /** In a concatenation of three-activity lists, position `k` is in list `k / 3`. */
  lemma {:induction false} ConcatAt(parts: seq<seq<Activity>>, k: int)
    requires forall i :: 0 <= i < |parts| ==> |parts[i]| == 3
    ensures |Concat(parts)| == 3 * |parts|
    ensures 0 <= k < 3 * |parts| ==> Concat(parts)[k] == parts[k / 3][k % 3]
    decreases |parts|
  {
    if |parts| > 0 {
      ConcatAt(parts[1..], k - 3);
      if 3 <= k < 3 * |parts| {
        assert (k - 3) / 3 == k / 3 - 1 && (k - 3) % 3 == k % 3;
        assert parts[1..][k / 3 - 1] == parts[k / 3];
      } else if 0 <= k < 3 {
        assert k / 3 == 0 && k % 3 == k;
      }
    }
  }

  function PerContainer(containers: seq<string>): (parts: seq<seq<Activity>>)
    ensures |parts| == |containers|
    ensures forall i :: 0 <= i < |containers| ==> parts[i] == PerContainerActivities(containers[i])
  {
    seq(|containers|, i requires 0 <= i < |containers| => PerContainerActivities(containers[i]))
  }

  /** The sync pipeline's activities: each container's activities, containers in order. */
  function SyncActivities(containers: seq<string>): (r: seq<Activity>)
    ensures |r| == 3 * |containers|
  {
    ConcatAt(PerContainer(containers), 0);
    Concat(PerContainer(containers))
  }

  /** Activity `k` of the sync pipeline is activity `k % 3` of container `k / 3`. */
  lemma SyncActivitiesAt(containers: seq<string>, k: int)
    requires 0 <= k < 3 * |containers|
    ensures SyncActivities(containers)[k] == PerContainerActivities(containers[k / 3])[k % 3]
  {
    ConcatAt(PerContainer(containers), k);
  }

  /** Every dependency of an activity in `acts` names the activity just before it. */
  predicate DependsOnPrevious(acts: seq<Activity>) {
    forall k, d :: 0 <= k < |acts| && 0 <= d < |acts[k].dependsOn| ==>
      0 < k && acts[k - 1].name == acts[k].dependsOn[d].activity
  }

  /** The sync pipeline chains each container's activities, so every dependency points back. */
  lemma SyncDependenciesPointBack(containers: seq<string>)
    ensures DependsOnPrevious(SyncActivities(containers))
  {
    forall k, d | 0 <= k < |SyncActivities(containers)| &&
      0 <= d < |SyncActivities(containers)[k].dependsOn|
      ensures 0 < k && SyncActivities(containers)[k - 1].name ==
        SyncActivities(containers)[k].dependsOn[d].activity
    {
      DependencyPointsBack(containers, k, d);
    }
  }

  /** Within one container's activities, each dependency names the activity before it. */
  lemma OwnDependencyPointsBack(c: string, j: int, d: int)
    requires 0 <= j < 3
    requires 0 <= d < |PerContainerActivities(c)[j].dependsOn|
    ensures 0 < j
    ensures PerContainerActivities(c)[j - 1].name == PerContainerActivities(c)[j].dependsOn[d].activity
  {
    var own := PerContainerActivities(c);
    assert DependencyNames(own[j].dependsOn)[d] == own[j].dependsOn[d].activity;
  }

  lemma DependencyPointsBack(containers: seq<string>, k: int, d: int)
    requires 0 <= k < |SyncActivities(containers)|
    requires 0 <= d < |SyncActivities(containers)[k].dependsOn|
    ensures 0 < k
    ensures SyncActivities(containers)[k - 1].name == SyncActivities(containers)[k].dependsOn[d].activity
  {
    var i, j := k / 3, k % 3;
    SyncActivitiesAt(containers, k);
    OwnDependencyPointsBack(containers[i], j, d);
    SyncActivitiesAt(containers, k - 1);
    assert (k - 1) / 3 == i && (k - 1) % 3 == j - 1;
  }

  datatype VariableType = ArrayVariable

  /** The sync pipeline's variables: `{c}Tables` and `{c}TablesTemp` per container. */
  function SyncVariables(containers: seq<string>): (v: map<string, VariableType>)
    ensures forall name :: name in v <==>
      exists c :: c in containers && (name == TablesVariable(c) || name == TablesTempVariable(c))
  {
    if |containers| == 0 then map[]
    else
      var rest := SyncVariables(containers[1..]);
      var c := containers[0];
      assert forall d :: d in containers <==> d == c || d in containers[1..];
      rest[TablesVariable(c) := ArrayVariable][TablesTempVariable(c) := ArrayVariable]
  }

  /** Every variable a sync activity writes is declared by the pipeline. */
  lemma SetVariablesDeclared(containers: seq<string>, i: int)
    requires 0 <= i < |containers|
    ensures var find := SyncActivities(containers)[3 * i + 1];
      |find.children| == 3 &&
      forall a :: a in find.children[2].children ==>
        a.variable.Some? && a.variable.value in SyncVariables(containers)
  {
    var c := containers[i];
    SyncActivitiesAt(containers, 3 * i + 1);
    assert (3 * i + 1) / 3 == i && (3 * i + 1) % 3 == 1;
    assert SyncActivities(containers)[3 * i + 1] == PerContainerActivities(c)[1];
  }

  /** A `Tables` name and a `TablesTemp` name never coincide. */
  lemma VariableNamesDisjoint(c: string, d: string)
    ensures TablesVariable(c) != TablesTempVariable(d)
  {
    var a := TablesVariable(c);
    var b := TablesTempVariable(d);
    assert a[|a| - 1] == 's';
    assert b[|b| - 1] == 'p';
  }

  /** Distinct containers declare distinct variables. */
  lemma VariableNamesInjective(c: string, d: string)
    ensures TablesVariable(c) == TablesVariable(d) ==> c == d
    ensures TablesTempVariable(c) == TablesTempVariable(d) ==> c == d
  {
    if TablesVariable(c) == TablesVariable(d) {
      assert c == TablesVariable(c)[..|c|];
    }
    if TablesTempVariable(c) == TablesTempVariable(d) {
      assert c == TablesTempVariable(c)[..|c|];
    }
  }

  const SyncContainers: seq<string> := ["models", "snapshots", "source"]

  /** The deployed sync pipeline declares exactly six array variables. */
  lemma DeployedSyncVariables()
    ensures SyncVariables(SyncContainers).Keys ==
      {"modelsTables", "snapshotsTables", "sourceTables",
       "modelsTablesTemp", "snapshotsTablesTemp", "sourceTablesTemp"}
  {
    var c := SyncContainers;
    assert c[1..][1..] == ["source"] && c[1..][1..][1..] == [];
    assert TablesVariable("source") == "sourceTables";
    assert TablesTempVariable("source") == "sourceTablesTemp";
    assert TablesVariable("snapshots") == "snapshotsTables";
    assert TablesTempVariable("snapshots") == "snapshotsTablesTemp";
    assert TablesVariable("models") == "modelsTables";
    assert TablesTempVariable("models") == "modelsTablesTemp";
    assert SyncVariables(c[1..][1..]).Keys == {"sourceTables", "sourceTablesTemp"};
    assert SyncVariables(c[1..]).Keys ==
      {"snapshotsTables", "snapshotsTablesTemp", "sourceTables", "sourceTablesTemp"};
  }

  // ---------------------------------------------------------------------
  // Table details
  // ---------------------------------------------------------------------

  /**
   The JSON text Data Factory writes for one child folder of a listing, as
   in `{"name":"table1","type":"Folder"}`.
   */
  function FolderItemJson(name: string): string {
    "{\"name\":\"" + name + "\",\"type\":\"Folder\"}"
  }

  /**
   One entry of `{c}Tables`: the folder's mount path, `|`, then the JSON of
   its table folders joined with `;`.
   */
  function TableDetailsEntry(container: string, folder: string, items: seq<string>): (e: string)
    ensures Strings.StartsWith(e, "/mnt/" + container + "/" + folder + "|")
  {
    "/mnt/" + container + "/" + folder + "|" + Strings.Join(items, ";")
  }
}

=== FILE: order.dfy ===
/**
 Python's ordering of strings (lexicographic by code point) and the two ways
 the platform code orders string lists: `sorted(xs)`, which keeps duplicates,
 and `sorted(set(xs))`, which does not.
 */
module Order {

  /** `a <= b` on Python strings. */
  predicate Leq(a: string, b: string)
    decreases |a|
  {
    |a| == 0 || (|b| > 0 && (a[0] < b[0] || (a[0] == b[0] && Leq(a[1..], b[1..]))))
  }

  predicate Less(a: string, b: string) {
    Leq(a, b) && a != b
  }

  lemma {:induction false} LeqReflexive(a: string)
    ensures Leq(a, a)
    decreases |a|
  {
    if |a| > 0 {
      LeqReflexive(a[1..]);
    }
  }

  lemma {:induction false} LeqTotal(a: string, b: string)
    ensures Leq(a, b) || Leq(b, a)
    decreases |a|
  {
    if |a| > 0 && |b| > 0 && a[0] == b[0] {
      LeqTotal(a[1..], b[1..]);
    }
  }

  lemma {:induction false} LeqAntisymmetric(a: string, b: string)
    requires Leq(a, b) && Leq(b, a)
    ensures a == b
    decreases |a|
  {
    if |a| > 0 {
      LeqAntisymmetric(a[1..], b[1..]);
      assert a == [a[0]] + a[1..];
      assert b == [b[0]] + b[1..];
    }
  }

  lemma {:induction false} LeqTransitive(a: string, b: string, c: string)
    requires Leq(a, b) && Leq(b, c)
    ensures Leq(a, c)
    decreases |a|
  {
    if |a| > 0 && a[0] == b[0] && b[0] == c[0] {
      LeqTransitive(a[1..], b[1..], c[1..]);
    }
  }

  /** The order `sorted` produces: non-decreasing. */
  predicate Sorted(s: seq<string>) {
    forall i, j :: 0 <= i < j < |s| ==> Leq(s[i], s[j])
  }

  /** The order `sorted(set(...))` produces: increasing, hence duplicate-free. */
  predicate StrictlySorted(s: seq<string>) {
    forall i, j :: 0 <= i < j < |s| ==> Less(s[i], s[j])
  }

  /** Every element of `s` is at least `x`. */
  predicate Bounds(x: string, s: seq<string>) {
    forall i :: 0 <= i < |s| ==> Leq(x, s[i])
  }

  lemma BoundsOfSameElements(x: string, s: seq<string>, t: seq<string>)
    requires Bounds(x, s)
    requires multiset(t) <= multiset(s)
    ensures Bounds(x, t)
  {
    forall i | 0 <= i < |t|
      ensures Leq(x, t[i])
    {
      assert t[i] in multiset(t);
      assert t[i] in multiset(s);
      var j :| 0 <= j < |s| && s[j] == t[i];
    }
  }

  lemma SortedCons(x: string, s: seq<string>)
    requires Sorted(s) && Bounds(x, s)
    ensures Sorted([x] + s)
  {
    forall i, j | 0 <= i < j < |[x] + s|
      ensures Leq(([x] + s)[i], ([x] + s)[j])
    {
      if i > 0 {
        assert ([x] + s)[i] == s[i - 1];
      }
      assert ([x] + s)[j] == s[j - 1];
    }
  }

  /** Inserts `x` into a sorted list before the first element it does not exceed. */
  function Insert(x: string, s: seq<string>): (r: seq<string>)
    requires Sorted(s)
    ensures Sorted(r)
    ensures multiset(r) == multiset(s) + multiset{x}
  {
    if |s| == 0 then [x]
    else if Leq(x, s[0]) then
      InsertFirst(x, s);
      [x] + s
    else
      var rest := Insert(x, s[1..]);
      InsertLater(x, s, rest);
      [s[0]] + rest
  }

  lemma InsertFirst(x: string, s: seq<string>)
    requires Sorted(s) && |s| > 0 && Leq(x, s[0])
    ensures Sorted([x] + s)
  {
    assert Bounds(x, s) by {
      forall i | 0 <= i < |s|
        ensures Leq(x, s[i])
      {
        if i > 0 {
          LeqTransitive(x, s[0], s[i]);
        }
      }
    }
    SortedCons(x, s);
  }

  lemma InsertLater(x: string, s: seq<string>, rest: seq<string>)
    requires Sorted(s) && |s| > 0 && !Leq(x, s[0])
    requires Sorted(rest) && multiset(rest) == multiset(s[1..]) + multiset{x}
    ensures Sorted([s[0]] + rest)
    ensures multiset([s[0]] + rest) == multiset(s) + multiset{x}
  {
    assert s == [s[0]] + s[1..];
    LeqTotal(x, s[0]);
    assert Bounds(s[0], s[1..] + [x]) by {
      forall i | 0 <= i < |s[1..] + [x]|
        ensures Leq(s[0], (s[1..] + [x])[i])
      {
        if i < |s| - 1 {
          assert (s[1..] + [x])[i] == s[i + 1];
        }
      }
    }
    assert multiset(s[1..] + [x]) == multiset(s[1..]) + multiset{x};
    BoundsOfSameElements(s[0], s[1..] + [x], rest);
    SortedCons(s[0], rest);
  }

  /** `sorted(s)`: the sorted permutation of `s`. */
  function Sort(s: seq<string>): (r: seq<string>)
    ensures Sorted(r)
    ensures multiset(r) == multiset(s)
  {
    if |s| == 0 then []
    else
      assert s == [s[0]] + s[1..];
      Insert(s[0], Sort(s[1..]))
  }

  /** Removes repeated neighbours from a sorted list. */
  function Dedup(s: seq<string>): (r: seq<string>)
    requires Sorted(s)
    ensures StrictlySorted(r)
    ensures forall x :: x in r <==> x in s
    ensures |s| > 0 ==> |r| > 0 && r[0] == s[0]
  {
    if |s| <= 1 then s
    else
      var rest := Dedup(s[1..]);
      if s[0] == s[1] then
        assert s[1] in s[1..];
        rest
      else
        assert Bounds(s[0], rest) by {
          forall i | 0 <= i < |rest|
            ensures Leq(s[0], rest[i])
          {
            assert rest[i] in s[1..];
            var j :| 0 <= j < |s[1..]| && s[1..][j] == rest[i];
            assert s[j + 1] == rest[i];
          }
        }
        assert forall i :: 0 <= i < |rest| ==> s[0] != rest[i] by {
          forall i | 0 <= i < |rest|
            ensures s[0] != rest[i]
          {
            assert Leq(s[0], s[1]);
            assert Leq(s[1], rest[i]) by {
              assert rest[i] in s[1..];
              var j :| 0 <= j < |s[1..]| && s[1..][j] == rest[i];
              if j > 0 {
                assert s[j + 1] == rest[i];
              } else {
                LeqReflexive(s[1]);
              }
            }
            if s[0] == rest[i] {
              LeqAntisymmetric(s[0], s[1]);
            }
          }
        }
        assert s == [s[0]] + s[1..];
        [s[0]] + rest
  }

  /** `sorted(set(s))`: the distinct elements of `s`, increasing. */
  function SortedSet(s: seq<string>): (r: seq<string>)
    ensures StrictlySorted(r)
    ensures forall x :: x in r <==> x in s
  {
    var sorted := Sort(s);
    assert forall x :: x in sorted <==> x in s by {
      forall x
        ensures x in sorted <==> x in s
      {
        assert x in sorted <==> x in multiset(sorted);
        assert x in s <==> x in multiset(s);
      }
    }
    Dedup(sorted)
  }

  /** `x` is the least element of `s`. */
  predicate Least(x: string, s: set<string>) {
    x in s && forall y :: y in s ==> Leq(x, y)
  }

  lemma {:induction false} LeastExists(s: set<string>)
    requires s != {}
    ensures exists x :: Least(x, s)
    decreases |s|
  {
    var y :| y in s;
    var t := s - {y};
    if t == {} {
      LeqReflexive(y);
      assert s == {y};
      assert Least(y, s);
    } else {
      LeastExists(t);
      var x :| Least(x, t);
      LeqTotal(x, y);
      if Leq(x, y) {
        assert Least(x, s);
      } else {
        forall z | z in s
          ensures Leq(y, z)
        {
          if z == y {
            LeqReflexive(y);
          } else {
            LeqTransitive(y, x, z);
          }
        }
        assert Least(y, s);
      }
    }
  }

  lemma LeastUnique(s: set<string>)
    ensures forall a, b :: Least(a, s) && Least(b, s) ==> a == b
  {
    forall a, b | Least(a, s) && Least(b, s)
      ensures a == b
    {
      LeqAntisymmetric(a, b);
    }
  }

  /** `sorted(d)` of a dictionary: its keys, increasing. */
  function SortedKeys(s: set<string>): (r: seq<string>)
    ensures StrictlySorted(r)
    ensures forall x :: x in r <==> x in s
    decreases |s|
  {
    if s == {} then []
    else
      LeastExists(s);
      LeastUnique(s);
      var x :| Least(x, s);
      var rest := SortedKeys(s - {x});
      assert forall i :: 0 <= i < |rest| ==> Less(x, rest[i]) by {
        forall i | 0 <= i < |rest|
          ensures Less(x, rest[i])
        {
          assert rest[i] in s - {x};
        }
      }
      [x] + rest
  }

  /** The keys sorted are the sorted listing of the keys, whatever order the listing has. */
  lemma SortedKeysOfListing(s: set<string>, listing: seq<string>)
    requires forall i, j :: 0 <= i < j < |listing| ==> listing[i] != listing[j]
    requires forall x :: x in listing <==> x in s
    ensures Sort(listing) == SortedKeys(s)
  {
    SortOfDistinct(listing);
    StrictlySortedUnique(SortedSet(listing), SortedKeys(s));
  }

  lemma StrictlySortedIsSorted(s: seq<string>)
    requires StrictlySorted(s)
    ensures Sorted(s)
  {
  }

  /** An increasing list is determined by its elements. */
  lemma {:induction false} StrictlySortedUnique(a: seq<string>, b: seq<string>)
    requires StrictlySorted(a) && StrictlySorted(b)
    requires forall x :: x in a <==> x in b
    ensures a == b
    decreases |a|
  {
    assert |a| > 0 ==> a[0] in b;
    assert |b| > 0 ==> b[0] in a;
    if |a| > 0 {
      // both heads are the least element of the common element set
      assert b[0] in a;
      var i :| 0 <= i < |a| && a[i] == b[0];
      assert a[0] in b;
      var j :| 0 <= j < |b| && b[j] == a[0];
      if a[0] != b[0] {
        assert i > 0 && j > 0;
        assert Leq(a[0], a[i]) && Leq(b[0], b[j]);
        LeqAntisymmetric(a[0], b[0]);
      }
      forall x
        ensures x in a[1..] <==> x in b[1..]
      {
        assert a == [a[0]] + a[1..];
        assert b == [b[0]] + b[1..];
        if x in a[1..] {
          var k :| 0 <= k < |a[1..]| && a[1..][k] == x;
          assert a[k + 1] == x && x != a[0];
          assert x in b;
        }
        if x in b[1..] {
          var k :| 0 <= k < |b[1..]| && b[1..][k] == x;
          assert b[k + 1] == x && x != b[0];
          assert x in a;
        }
      }
      StrictlySortedUnique(a[1..], b[1..]);
      assert a == [a[0]] + a[1..];
      assert b == [b[0]] + b[1..];
    }
  }

  /** `sorted(set(s))` depends only on the elements of `s`. */
  lemma SortedSetOfSameElements(s: seq<string>, t: seq<string>)
    requires forall x :: x in s <==> x in t
    ensures SortedSet(s) == SortedSet(t)
  {
    StrictlySortedUnique(SortedSet(s), SortedSet(t));
  }

  /** Normalising an already normalised list changes nothing. */
  lemma SortedSetIdempotent(s: seq<string>)
    requires StrictlySorted(s)
    ensures SortedSet(s) == s
  {
    StrictlySortedUnique(SortedSet(s), s);
  }

  /** Two sorted lists with the same elements start with the same element. */
  lemma SortedHeads(a: seq<string>, b: seq<string>)
    requires Sorted(a) && Sorted(b)
    requires multiset(a) == multiset(b) && |a| > 0
    ensures |b| > 0 && a[0] == b[0]
  {
    assert a[0] in multiset(b);
    assert b[0] in multiset(a);
    var i :| 0 <= i < |a| && a[i] == b[0];
    var j :| 0 <= j < |b| && b[j] == a[0];
    if i > 0 {
      assert Leq(a[0], a[i]);
    } else {
      LeqReflexive(a[0]);
    }
    if j > 0 {
      assert Leq(b[0], b[j]);
    } else {
      LeqReflexive(b[0]);
    }
    LeqAntisymmetric(a[0], b[0]);
  }

  /** A sorted list is determined by its multiset of elements. */
  lemma {:induction false} SortedUnique(a: seq<string>, b: seq<string>)
    requires Sorted(a) && Sorted(b)
    requires multiset(a) == multiset(b)
    ensures a == b
    decreases |a|
  {
    if |a| > 0 {
      SortedHeads(a, b);
      assert a == [a[0]] + a[1..];
      assert b == [b[0]] + b[1..];
      assert multiset(a[1..]) == multiset(a) - multiset{a[0]};
      assert multiset(b[1..]) == multiset(b) - multiset{b[0]};
      SortedUnique(a[1..], b[1..]);
    } else {
      assert |multiset(b)| == 0;
    }
  }

  /** Sorting an already sorted list changes nothing. */
  lemma SortIdempotent(s: seq<string>)
    requires Sorted(s)
    ensures Sort(s) == s
  {
    SortedUnique(Sort(s), s);
  }

  /** Sorting a duplicate-free list gives `sorted(set(...))` of it. */
  lemma SortOfDistinct(s: seq<string>)
    requires forall i, j :: 0 <= i < j < |s| ==> s[i] != s[j]
    ensures Sort(s) == SortedSet(s)
  {
    var r := Sort(s);
    forall i, j | 0 <= i < j < |r|
      ensures r[i] != r[j]
    {
      DistinctCount(s, r[i]);
      RepeatCount(r, i, j);
    }
    forall x
      ensures x in r <==> x in s
    {
      assert x in r <==> x in multiset(r);
    }
    StrictlySortedUnique(r, SortedSet(s));
  }

  lemma RepeatCount(r: seq<string>, i: int, j: int)
    requires 0 <= i < j < |r|
    ensures r[i] == r[j] ==> multiset(r)[r[i]] >= 2
  {
    assert r == r[..j] + [r[j]] + r[j + 1..];
    assert r[i] in r[..j];
    assert multiset(r) == multiset(r[..j]) + multiset{r[j]} + multiset(r[j + 1..]);
  }

  lemma {:induction false} DistinctCount(s: seq<string>, x: string)
    requires forall i, j :: 0 <= i < j < |s| ==> s[i] != s[j]
    ensures multiset(s)[x] <= 1
    decreases |s|
  {
    if |s| > 0 {
      DistinctCount(s[1..], x);
      assert s == [s[0]] + s[1..];
      assert forall k :: 0 <= k < |s[1..]| ==> s[1..][k] != s[0] by {
        forall k | 0 <= k < |s[1..]|
          ensures s[1..][k] != s[0]
        {
          assert s[1..][k] == s[k + 1];
        }
      }
      assert s[0] !in s[1..];
    }
  }
}

=== FILE: private_endpoints.dfy ===
/**
 Private endpoints: whether one is created for a resource, which of the
 resource's sub-resources (group ids) it connects, where it lives, and
 whether a private DNS zone group comes with it.
 */
module PrivateEndpoints {
  import opened Wrappers
  import Strings
  import Json
  import Naming

  datatype Error =
    | NotADictionary(what: string)      // `.get` on a value that is not a dictionary
    | NotAContainer                     // `gi in allowed_resources` on a value that has no `in`
    | UnnamedResource(error: Naming.Error)

  /** What the caller asks for. Text arguments that may be `None` are empty when absent. */
  datatype Request = Request(
    name: string,
    resourceId: string,
    groupIds: seq<string>,
    location: string,
    vnetName: string,
    subnetId: string,
    privateDnsZoneId: string)

  datatype Endpoint = Endpoint(
    name: string,
    location: string,
    groupIds: seq<string>,
    serviceId: string,
    connectionName: string,
    subnetId: string,
    locked: bool)

  datatype DnsZoneGroup = DnsZoneGroup(name: string, zoneId: string, endpointName: string, locked: bool)

  /** The pair `create_private_endpoint` returns. */
  datatype Created = Created(endpoint: Option<Endpoint>, dnsZoneGroup: Option<DnsZoneGroup>)

  const NothingCreated: Created := Created(None, None)

  /** `v.get(key, default)`. */
  function Get(v: Json.Value, key: string, default: Json.Value): (r: Result<Json.Value, Error>)
    ensures r.Success? <==> v.Object?
    ensures r.Success? ==> r.value == if key in v.fields then v.fields[key] else default
  {
    match Json.GetOr(v, key, default)
    case None => Failure(NotADictionary(key))
    case Some(w) => Success(w)
  }

  /** Whether Python's `in` is defined on `allowed`: lists, dictionaries and strings. */
  predicate IsContainer(allowed: Json.Value) {
    allowed.List? || allowed.Object? || allowed.Str?
  }

  /** `gi in allowed`: list membership, a dictionary key, or a substring. */
  predicate Admits(allowed: Json.Value, gi: string)
    requires IsContainer(allowed)
  {
    match allowed
    case List(items) => Json.Str(gi) in items
    case Object(fields) => gi in fields
    case Str(s) => Strings.Contains(s, gi)
  }

  /** `[gi for gi in groupIds if gi in allowed]`. */
  function Filter(allowed: Json.Value, groupIds: seq<string>): (r: Result<seq<string>, Error>)
    ensures r.Success? <==> IsContainer(allowed) || |groupIds| == 0
    ensures r.Success? ==> forall x :: x in r.value <==> x in groupIds && Admits(allowed, x)
    ensures r.Success? ==> |r.value| <= |groupIds|
  {
    if |groupIds| == 0 then Success([])
    else if !IsContainer(allowed) then Failure(NotAContainer)
    else
      var rest := Filter(allowed, groupIds[1..]).value;
      assert groupIds == [groupIds[0]] + groupIds[1..];
      if Admits(allowed, groupIds[0]) then Success([groupIds[0]] + rest) else Success(rest)
  }

  /** Filtering keeps the order: filtering a concatenation concatenates the filtered parts. */
  lemma {:induction false} FilterAppend(allowed: Json.Value, a: seq<string>, b: seq<string>)
    requires IsContainer(allowed)
    ensures Filter(allowed, a + b).Success? && Filter(allowed, a).Success? && Filter(allowed, b).Success?
    ensures Filter(allowed, a + b).value == Filter(allowed, a).value + Filter(allowed, b).value
    decreases |a|
  {
    if |a| > 0 {
      FilterAppend(allowed, a[1..], b);
      assert (a + b)[1..] == a[1..] + b;
      assert (a + b)[0] == a[0];
    } else {
      assert a + b == b;
    }
  }

  /** Filtering by a list that admits every group id changes nothing. */
  lemma {:induction false} FilterAllAdmitted(allowed: Json.Value, groupIds: seq<string>)
    requires IsContainer(allowed)
    requires forall i :: 0 <= i < |groupIds| ==> Admits(allowed, groupIds[i])
    ensures Filter(allowed, groupIds) == Success(groupIds)
    decreases |groupIds|
  {
    if |groupIds| > 0 {
      FilterAllAdmitted(allowed, groupIds[1..]);
      assert groupIds == [groupIds[0]] + groupIds[1..];
    }
  }

  /** The group ids left after the allowed-types filter; unchanged without a (non-empty) filter. */
  function AllowedGroupIds(config: Json.Value, groupIds: seq<string>): (r: Result<seq<string>, Error>)
    requires config.Object?
    ensures var allowed := if "resource_types" in config.fields then config.fields["resource_types"] else Json.Null;
      (!Json.Truthy(allowed) ==> r == Success(groupIds)) &&
      (Json.Truthy(allowed) ==> r == Filter(allowed, groupIds))
  {
    var allowed := if "resource_types" in config.fields then config.fields["resource_types"] else Json.Null;
    if Json.Truthy(allowed) then Filter(allowed, groupIds) else Success(groupIds)
  }

  /**
   `create_private_endpoint`. `network` is the platform's `network`
   settings, `regionLongName` the platform region's long name and
   `protection` whether resources are locked.
   */
  function CreatePrivateEndpoint(network: Json.Value, q: Request, regionLongName: string, protection: bool,
                                 p: Naming.Platform): (r: Result<Created, Error>)
    ensures r.Success? && r.value.endpoint.None? ==> r.value.dnsZoneGroup.None?
    ensures r.Success? && r.value.endpoint.Some? ==>
      r.value.endpoint.value.location == (if q.location != "" then q.location else regionLongName) &&
      r.value.endpoint.value.serviceId == q.resourceId &&
      r.value.endpoint.value.locked == protection &&
      (|r.value.endpoint.value.groupIds| > 0 || |q.groupIds| == 0)
    ensures r.Success? && r.value.endpoint.Some? ==>
      Naming.ResourceName("private_endpoint", q.name, p) == Success(r.value.endpoint.value.name)
    ensures r.Success? && r.value.endpoint.Some? ==>
      (r.value.dnsZoneGroup.Some? <==> q.privateDnsZoneId != "")
    ensures r.Success? && r.value.dnsZoneGroup.Some? ==>
      r.value.dnsZoneGroup.value.zoneId == q.privateDnsZoneId &&
      r.value.dnsZoneGroup.value.endpointName == r.value.endpoint.value.name &&
      r.value.dnsZoneGroup.value.locked == protection &&
      Naming.ResourceName("private_dns_zone", q.name, p) == Success(r.value.dnsZoneGroup.value.name)
  {
    var config :- Get(network, "private_endpoints", Json.EmptyObject);
    var enabled :- Get(config, "enabled", Json.Bool(true));
    if !Json.Truthy(enabled) then Success(NothingCreated)
    else
      var groupIds :- AllowedGroupIds(config, q.groupIds);
      var filtered := "resource_types" in config.fields && Json.Truthy(config.fields["resource_types"]);
      if filtered && |groupIds| == 0 then Success(NothingCreated)
      else
        var location := if q.location != "" then q.location else regionLongName;
        match Naming.ResourceName("private_endpoint", q.name, p)
        case Failure(e) => Failure(UnnamedResource(e))
        case Success(endpointName) =>
          var endpoint := Endpoint(endpointName, location, groupIds, q.resourceId, q.vnetName, q.subnetId, protection);
          if q.privateDnsZoneId == "" then Success(Created(Some(endpoint), None))
          else
            match Naming.ResourceName("private_dns_zone", q.name, p)
            case Failure(e) => Failure(UnnamedResource(e))
            case Success(groupName) =>
              Success(Created(Some(endpoint), Some(DnsZoneGroup(groupName, q.privateDnsZoneId, endpointName, protection))))
  }

  /** The platform's private-endpoint settings, `{}` when absent. */
  function EndpointSettings(network: Json.Value): Json.Value
    requires network.Object?
  {
    if "private_endpoints" in network.fields then network.fields["private_endpoints"] else Json.EmptyObject
  }

  /** Switched off for the whole environment, nothing is created. */
  lemma DisabledCreatesNothing(network: Json.Value, q: Request, regionLongName: string, protection: bool, p: Naming.Platform)
    requires network.Object? && EndpointSettings(network).Object?
    requires !Json.Flag(EndpointSettings(network), "enabled", true)
    ensures CreatePrivateEndpoint(network, q, regionLongName, protection, p) == Success(NothingCreated)
  {
  }

  /** When the filter leaves no group id, nothing is created. */
  lemma FilteredOutCreatesNothing(network: Json.Value, q: Request, regionLongName: string, protection: bool,
                                  p: Naming.Platform)
    requires network.Object? && EndpointSettings(network).Object?
    requires Json.Flag(EndpointSettings(network), "enabled", true)
    requires var c := EndpointSettings(network).fields;
      "resource_types" in c && Json.Truthy(c["resource_types"]) && Filter(c["resource_types"], q.groupIds) == Success([])
    ensures CreatePrivateEndpoint(network, q, regionLongName, protection, p) == Success(NothingCreated)
  {
  }

  /**
   An enabled endpoint without a (non-empty) allowed list connects exactly
   the requested group ids; with one it connects those the list admits, in
   their requested order.
   */
  lemma ConnectedGroupIds(network: Json.Value, q: Request, regionLongName: string, protection: bool,
                          p: Naming.Platform)
    requires network.Object? && EndpointSettings(network).Object?
    requires Json.Flag(EndpointSettings(network), "enabled", true)
    requires CreatePrivateEndpoint(network, q, regionLongName, protection, p).Success?
    requires CreatePrivateEndpoint(network, q, regionLongName, protection, p).value.endpoint.Some?
    ensures var c := EndpointSettings(network).fields;
      var ids := CreatePrivateEndpoint(network, q, regionLongName, protection, p).value.endpoint.value.groupIds;
      (!("resource_types" in c && Json.Truthy(c["resource_types"])) ==> ids == q.groupIds) &&
      ("resource_types" in c && Json.Truthy(c["resource_types"]) ==>
         Success(ids) == Filter(c["resource_types"], q.groupIds) && |ids| > 0)
  {
  }
}

=== FILE: storage.dfy ===
/** The resource id of a container registry. */
module Storage {
  import opened Wrappers
  import ConfigRegistry

  /**
   `get_container_registry_resource_id`:
   `/subscriptions/{s}/resourceGroups/{g}/providers/Microsoft.ContainerRegistry/registries/{n}`,
   written as its eight `/`-separated segments after a leading `/`.
   */
  function ContainerRegistryResourceId(subscriptionId: string, resourceGroupName: string, registryName: string): string {
    ConfigRegistry.ResourceId(["subscriptions", subscriptionId, "resourceGroups", resourceGroupName,
                               "providers", "Microsoft.ContainerRegistry", "registries", registryName])
  }

  /**
   The id parses back, by the configuration registry's parser, into the
   resource group and the registry name, when no part is empty or holds
   a `/`.
   */
  lemma ContainerRegistryIdRoundTrip(subscriptionId: string, resourceGroupName: string, registryName: string)
    requires subscriptionId != "" && '/' !in subscriptionId
    requires resourceGroupName != "" && '/' !in resourceGroupName
    requires registryName != "" && '/' !in registryName
    ensures var id := ContainerRegistryResourceId(subscriptionId, resourceGroupName, registryName);
      ConfigRegistry.ParseResourceId(id) == Success(ConfigRegistry.KeyVault(id, registryName, resourceGroupName))
  {
    var parts := ["subscriptions", subscriptionId, "resourceGroups", resourceGroupName,
                  "providers", "Microsoft.ContainerRegistry", "registries", registryName];
    assert forall i :: 0 <= i < |parts| ==> parts[i] != "" && '/' !in parts[i];
    ConfigRegistry.ParseResourceIdOfParts(parts);
  }
}

=== FILE: strings.dfy ===
/**
 The string operations of Python (and Go's `strings`) that the platform code
 relies on: case mapping (restricted to the ASCII letters), `split`/`join` on
 a single-character separator, `replace`, `strip`, `startswith`, substring
 tests, decimal rendering of integers and `int()` of decimal text.
 */
module Strings {
  import opened Wrappers

  predicate IsUpper(c: char) { 'A' <= c <= 'Z' }

  predicate IsLower(c: char) { 'a' <= c <= 'z' }

  predicate IsDigit(c: char) { '0' <= c <= '9' }

  /** Python calls these characters "cased". */
  predicate IsLetter(c: char) { IsUpper(c) || IsLower(c) }

  predicate AllDigits(s: string) {
    forall i :: 0 <= i < |s| ==> IsDigit(s[i])
  }

  function ToLowerChar(c: char): (r: char)
    ensures !IsUpper(r)
    ensures IsLetter(c) <==> IsLetter(r)
    ensures !IsLetter(c) ==> r == c
  {
    if IsUpper(c) then (c as int + 32) as char else c
  }

  function ToUpperChar(c: char): (r: char)
    ensures !IsLower(r)
    ensures IsLetter(c) <==> IsLetter(r)
    ensures !IsLetter(c) ==> r == c
  {
    if IsLower(c) then (c as int - 32) as char else c
  }

  /** `str.lower()` */
  function Lower(s: string): (r: string)
    ensures |r| == |s|
    ensures forall i :: 0 <= i < |s| ==> r[i] == ToLowerChar(s[i])
  {
    seq(|s|, i requires 0 <= i < |s| => ToLowerChar(s[i]))
  }

  /** `str.upper()` */
  function Upper(s: string): (r: string)
    ensures |r| == |s|
    ensures forall i :: 0 <= i < |s| ==> r[i] == ToUpperChar(s[i])
  {
    seq(|s|, i requires 0 <= i < |s| => ToUpperChar(s[i]))
  }

  lemma LowerIdempotent(s: string)
    ensures Lower(Lower(s)) == Lower(s)
  {
  }

  lemma LowerConcat(a: string, b: string)
    ensures Lower(a + b) == Lower(a) + Lower(b)
  {
  }

  lemma LowerOfUpper(s: string)
    ensures Lower(Upper(s)) == Lower(s)
  {
  }

  /**
   `str.title()`: a letter is upper-cased when it does not follow a letter and
   lower-cased when it does; other characters are kept.
   */
  function TitleFrom(s: string, afterLetter: bool): (r: string)
    ensures |r| == |s|
  {
    if |s| == 0 then ""
    else
      var c := if afterLetter then ToLowerChar(s[0]) else ToUpperChar(s[0]);
      [c] + TitleFrom(s[1..], IsLetter(s[0]))
  }

  function Title(s: string): string {
    TitleFrom(s, false)
  }

  function StartsWith(s: string, prefix: string): bool {
    |prefix| <= |s| && s[..|prefix|] == prefix
  }

  /** A prefix test peels one character at a time. */
  lemma StartsWithCons(c: char, s: string, prefix: string)
    requires |prefix| > 0
    ensures StartsWith([c] + s, prefix) <==> c == prefix[0] && StartsWith(s, prefix[1..])
  {
    if StartsWith([c] + s, prefix) {
      assert ([c] + s)[..|prefix|] == [c] + s[..|prefix| - 1];
      assert prefix == [prefix[0]] + prefix[1..];
    }
    if c == prefix[0] && StartsWith(s, prefix[1..]) {
      assert prefix == [c] + prefix[1..];
      assert ([c] + s)[..|prefix|] == [c] + s[..|prefix| - 1];
    }
  }

  function EndsWith(s: string, suffix: string): bool {
    |suffix| <= |s| && s[|s| - |suffix|..] == suffix
  }

  /** `t` occurs in `s` starting at index `i`. */
  predicate OccursAt(s: string, t: string, i: int) {
    0 <= i && i + |t| <= |s| && s[i..i + |t|] == t
  }

  lemma SliceOfTail(s: string, i: int, j: int)
    requires 0 <= i <= j <= |s| - 1
    ensures s[1..][i..j] == s[i + 1..j + 1]
  {
  }

  /** `t in s` for strings, i.e. `s.find(t) != -1`. */
  function Contains(s: string, t: string): bool
    decreases |s|
  {
    StartsWith(s, t) || (|s| > 0 && Contains(s[1..], t))
  }

  /** `Contains` holds exactly when `t` occurs at some index of `s`. */
  lemma {:induction false} ContainsOccurs(s: string, t: string)
    ensures Contains(s, t) <==> exists i :: OccursAt(s, t, i)
    decreases |s|
  {
    if StartsWith(s, t) {
      assert OccursAt(s, t, 0);
    } else if |s| > 0 {
      ContainsOccurs(s[1..], t);
      if Contains(s[1..], t) {
        var i :| OccursAt(s[1..], t, i);
        SliceOfTail(s, i, i + |t|);
        assert OccursAt(s, t, i + 1);
      } else {
        forall i | OccursAt(s, t, i)
          ensures false
        {
          assert i != 0;
          SliceOfTail(s, i - 1, i - 1 + |t|);
          assert OccursAt(s[1..], t, i - 1);
        }
      }
    }
  }

  lemma OccursContains(s: string, t: string, i: int)
    requires OccursAt(s, t, i)
    ensures Contains(s, t)
  {
    ContainsOccurs(s, t);
  }

  /** A text lacking one of the characters of `t` does not contain `t`. */
  lemma NotContainsForChar(s: string, t: string, k: int)
    requires 0 <= k < |t| && t[k] !in s
    ensures !Contains(s, t)
  {
    ContainsOccurs(s, t);
    forall i | 0 <= i && i + |t| <= |s|
      ensures !OccursAt(s, t, i)
    {
      assert s[i + k] in s;
      assert s[i..i + |t|][k] == s[i + k] != t[k];
    }
  }

  /**
   `s.split(sep)` for a one-character separator: the pieces between
   separators, always at least one.
   */
  function Split(s: string, sep: char): (r: seq<string>)
    ensures |r| >= 1
    ensures forall i :: 0 <= i < |r| ==> sep !in r[i]
    decreases |s|
  {
    if |s| == 0 then [""]
    else
      var rest := Split(s[1..], sep);
      if s[0] == sep then [""] + rest
      else
        [[s[0]] + rest[0]] + rest[1..]
  }

  /** `sep.join(parts)` */
  function Join(parts: seq<string>, sep: string): string {
    if |parts| == 0 then ""
    else if |parts| == 1 then parts[0]
    else parts[0] + sep + Join(parts[1..], sep)
  }

  lemma {:induction false} JoinSplit(s: string, sep: char)
    ensures Join(Split(s, sep), [sep]) == s
    decreases |s|
  {
    if |s| > 0 {
      JoinSplit(s[1..], sep);
      var rest := Split(s[1..], sep);
      if s[0] == sep {
        assert Split(s, sep) == [""] + rest;
        assert s == [sep] + s[1..];
      } else if |rest| == 1 {
        assert Split(s, sep) == [[s[0]] + rest[0]];
        assert s == [s[0]] + s[1..];
      } else {
        var r := Split(s, sep);
        assert r == [[s[0]] + rest[0]] + rest[1..];
        assert r[1..] == rest[1..];
        assert s == [s[0]] + s[1..];
      }
    }
  }

  /** Splitting text that starts with a separator-free piece. */
  lemma {:induction false} SplitPrefix(a: string, t: string, sep: char)
    requires sep !in a
    ensures Split(a + t, sep) == [a + Split(t, sep)[0]] + Split(t, sep)[1..]
    decreases |a|
  {
    if |a| > 0 {
      SplitPrefix(a[1..], t, sep);
      assert a[0] in a;
      assert (a + t)[0] == a[0] != sep;
      assert (a + t)[1..] == a[1..] + t;
      var rest := Split(a[1..] + t, sep);
      var st := Split(t, sep);
      assert Split(a + t, sep) == [[a[0]] + rest[0]] + rest[1..];
      assert rest == [a[1..] + st[0]] + st[1..];
      assert rest[1..] == st[1..];
      assert a == [a[0]] + a[1..];
      assert [a[0]] + rest[0] == a + st[0];
    } else {
      var st := Split(t, sep);
      assert a == "";
      assert a + t == t;
      assert a + st[0] == st[0];
      assert st == [st[0]] + st[1..];
    }
  }

  lemma SplitNoSeparator(a: string, sep: char)
    requires sep !in a
    ensures Split(a, sep) == [a]
  {
    SplitPrefix(a, "", sep);
    assert a + "" == a;
  }

  /** One separator between two pieces splits back into the first piece. */
  lemma SplitAtSeparator(a: string, b: string, sep: char)
    requires sep !in a
    ensures Split(a + [sep] + b, sep) == [a] + Split(b, sep)
  {
    SplitPrefix(a, [sep] + b, sep);
    assert a + [sep] + b == a + ([sep] + b);
    assert ([sep] + b)[1..] == b;
    assert Split([sep] + b, sep) == [""] + Split(b, sep);
    assert a + "" == a;
  }

  /** `split` undoes `join` when no part contains the separator. */
  lemma {:induction false} SplitJoin(parts: seq<string>, sep: char)
    requires |parts| >= 1
    requires forall i :: 0 <= i < |parts| ==> sep !in parts[i]
    ensures Split(Join(parts, [sep]), sep) == parts
    decreases |parts|
  {
    if |parts| == 1 {
      SplitNoSeparator(parts[0], sep);
    } else {
      SplitJoin(parts[1..], sep);
      SplitAtSeparator(parts[0], Join(parts[1..], [sep]), sep);
      assert parts == [parts[0]] + parts[1..];
    }
  }

  /** A character in neither the parts nor the separator is not in the joined string. */
  lemma {:induction false} JoinExcludes(parts: seq<string>, sep: string, c: char)
    requires c !in sep
    requires forall i :: 0 <= i < |parts| ==> c !in parts[i]
    ensures c !in Join(parts, sep)
    decreases |parts|
  {
    if |parts| > 1 {
      JoinExcludes(parts[1..], sep, c);
    }
  }

  lemma JoinTwo(a: string, b: string, sep: string)
    ensures Join([a, b], sep) == a + sep + b
  {
    assert [a, b][1..] == [b];
  }

  lemma JoinCons(p: string, ps: seq<string>, sep: string)
    requires |ps| >= 1
    ensures Join([p] + ps, sep) == p + sep + Join(ps, sep)
  {
    assert ([p] + ps)[1..] == ps;
  }

  /** Joining two non-empty lists joins their joins. */
  lemma {:induction false} JoinAppend(x: seq<string>, y: seq<string>, sep: string)
    requires |x| >= 1 && |y| >= 1
    ensures Join(x + y, sep) == Join(x, sep) + sep + Join(y, sep)
    decreases |x|
  {
    if |x| == 1 {
      JoinCons(x[0], y, sep);
      assert x + y == [x[0]] + y;
    } else {
      JoinAppend(x[1..], y, sep);
      assert x + y == [x[0]] + (x[1..] + y);
      JoinCons(x[0], x[1..] + y, sep);
      JoinCons(x[0], x[1..], sep);
      assert x == [x[0]] + x[1..];
    }
  }

  /** The non-empty pieces, in order: `filter(None, pieces)`. */
  function NonEmpty(parts: seq<string>): (r: seq<string>)
    ensures forall i :: 0 <= i < |r| ==> r[i] != ""
    ensures |r| <= |parts|
  {
    if |parts| == 0 then []
    else if parts[0] == "" then NonEmpty(parts[1..])
    else [parts[0]] + NonEmpty(parts[1..])
  }

  lemma NonEmptyOfNonEmpty(parts: seq<string>)
    requires forall i :: 0 <= i < |parts| ==> parts[i] != ""
    ensures NonEmpty(parts) == parts
  {
  }

  /** The non-empty `/`-separated segments of a path or resource id. */
  function Segments(s: string): seq<string> {
    NonEmpty(Split(s, '/'))
  }

  /**
   A leading `/` followed by `/`-joined non-empty, slash-free parts segments
   back into exactly those parts.
   */
  lemma SegmentsOfRootedJoin(parts: seq<string>)
    requires |parts| >= 1
    requires forall i :: 0 <= i < |parts| ==> parts[i] != "" && '/' !in parts[i]
    ensures Segments("/" + Join(parts, "/")) == parts
  {
    SplitJoin(parts, '/');
    SplitAtSeparator("", Join(parts, "/"), '/');
    assert "" + ['/'] + Join(parts, "/") == "/" + Join(parts, "/");
    NonEmptyOfNonEmpty(parts);
    assert ([""] + parts)[1..] == parts;
  }

  /**
   `s.replace(pat, rep)`: scans left to right and replaces each
   non-overlapping occurrence of `pat` with `rep`.
   */
  function Replace(s: string, pat: string, rep: string): string
    requires |pat| > 0
    decreases |s|
  {
    if |s| < |pat| then s
    else if s[..|pat|] == pat then rep + Replace(s[|pat|..], pat, rep)
    else [s[0]] + Replace(s[1..], pat, rep)
  }

  lemma {:induction false} ReplaceAbsent(s: string, pat: string, rep: string)
    requires |pat| > 0
    requires !Contains(s, pat)
    ensures Replace(s, pat, rep) == s
    decreases |s|
  {
    if |s| >= |pat| {
      assert !StartsWith(s, pat) && !Contains(s[1..], pat);
      ReplaceAbsent(s[1..], pat, rep);
      assert s == [s[0]] + s[1..];
    }
  }

  lemma ReplaceAtStart(pat: string, rest: string, rep: string)
    requires |pat| > 0
    ensures Replace(pat + rest, pat, rep) == rep + Replace(rest, pat, rep)
  {
    assert (pat + rest)[..|pat|] == pat;
    assert (pat + rest)[|pat|..] == rest;
  }

  lemma ReplaceSkipChar(c: char, rest: string, pat: string, rep: string)
    requires |pat| > 0
    requires !StartsWith([c] + rest, pat)
    ensures Replace([c] + rest, pat, rep) == [c] + Replace(rest, pat, rep)
  {
    assert ([c] + rest)[1..] == rest;
  }

  /** `str.strip(c)` for a single character. */
  function StripLeft(s: string, c: char): (r: string)
    ensures |r| <= |s|
    ensures |r| > 0 ==> r[0] != c
  {
    if |s| > 0 && s[0] == c then StripLeft(s[1..], c) else s
  }

  function StripRight(s: string, c: char): (r: string)
    ensures |r| <= |s|
    ensures |r| > 0 ==> r[|r| - 1] != c
    ensures |s| > 0 && s[0] != c ==> |r| > 0 && r[0] == s[0]
  {
    if |s| > 0 && s[|s| - 1] == c then StripRight(s[..|s| - 1], c) else s
  }

  function Strip(s: string, c: char): (r: string)
    ensures |r| > 0 ==> r[0] != c && r[|r| - 1] != c
  {
    StripRight(StripLeft(s, c), c)
  }

  /** Stripping a string that neither starts nor ends with `c` changes nothing. */
  lemma StripUnchanged(s: string, c: char)
    requires |s| > 0 ==> s[0] != c && s[|s| - 1] != c
    ensures Strip(s, c) == s
  {
  }

  function DigitChar(d: nat): (c: char)
    requires d < 10
    ensures IsDigit(c)
  {
    ('0' as int + d) as char
  }

  function DigitValue(c: char): (d: nat)
    requires IsDigit(c)
    ensures d < 10
  {
    c as int - '0' as int
  }

  /** `str(n)` for a natural number: decimal, no leading zeros. */
  function NatToString(n: nat): (r: string)
    ensures |r| >= 1 && AllDigits(r)
    ensures |r| > 1 ==> r[0] != '0'
  {
    if n < 10 then [DigitChar(n)]
    else NatToString(n / 10) + [DigitChar(n % 10)]
  }

  /** `str(i)` for any integer. */
  function IntToString(i: int): string {
    if i < 0 then "-" + NatToString(-i) else NatToString(i)
  }

  /** The value of a string of decimal digits: `int(s)`. */
  function DigitsValue(s: string): nat
    requires AllDigits(s)
  {
    if |s| == 0 then 0
    else DigitsValue(s[..|s| - 1]) * 10 + DigitValue(s[|s| - 1])
  }

  lemma {:induction false} DigitsValueOfNatToString(n: nat)
    ensures DigitsValue(NatToString(n)) == n
  {
    if n >= 10 {
      DigitsValueOfNatToString(n / 10);
      var s := NatToString(n);
      assert s[..|s| - 1] == NatToString(n / 10);
    }
  }

  /** The characters `str.isspace()` accepts, which `int()` strips from both ends. */
  predicate IsSpace(c: char) {
    c == ' ' || '\t' <= c <= '\r' || '\U{001C}' <= c <= '\U{001F}' || c == '\U{0085}' || c == '\U{00A0}' ||
    (c >= '\U{1680}' &&
     (c == '\U{1680}' || '\U{2000}' <= c <= '\U{200A}' || c == '\U{2028}' || c == '\U{2029}' ||
      c == '\U{202F}' || c == '\U{205F}' || c == '\U{3000}'))
  }

  /** Where `s.lstrip()` would start, looking from `lo`: the first non-whitespace index. */
  function SkipSpace(s: string, lo: nat): (r: nat)
    requires lo <= |s|
    ensures lo <= r <= |s|
    decreases |s| - lo
  {
    if lo < |s| && IsSpace(s[lo]) then SkipSpace(s, lo + 1) else lo
  }

  /** Where `s.rstrip()` would end, looking down from `hi` to `lo`. */
  function TrimSpace(s: string, lo: nat, hi: nat): (r: nat)
    requires lo <= hi <= |s|
    ensures lo <= r <= hi
    decreases hi
  {
    if lo < hi && IsSpace(s[hi - 1]) then TrimSpace(s, lo, hi - 1) else hi
  }

  /** Leading whitespace is skipped up to the first character that is not whitespace. */
  lemma {:induction false} SkipSpaceOfPadded(s: string, lo: nat, end: nat)
    requires lo <= end < |s|
    requires forall k :: lo <= k < end ==> IsSpace(s[k])
    requires !IsSpace(s[end])
    ensures SkipSpace(s, lo) == end
    decreases end - lo
  {
    if lo < end {
      SkipSpaceOfPadded(s, lo + 1, end);
    }
  }

  /** Trailing whitespace is trimmed down to the last character that is not whitespace. */
  lemma {:induction false} TrimSpaceOfPadded(s: string, lo: nat, end: nat, hi: nat)
    requires lo < end <= hi <= |s|
    requires forall k :: end <= k < hi ==> IsSpace(s[k])
    requires !IsSpace(s[end - 1])
    ensures TrimSpace(s, lo, hi) == end
    decreases hi
  {
    if end < hi {
      TrimSpaceOfPadded(s, lo, end, hi - 1);
    }
  }

  /**
   `int()` of the digits `s[lo..hi]`: decimal digits with each underscore
   standing alone between two digits, read with the underscores ignored;
   `None` for any other text.
   */
  function GroupsParse(s: string, lo: nat, hi: nat): Option<nat>
    requires lo <= hi <= |s|
    decreases hi
  {
    if hi <= lo || !IsDigit(s[hi - 1]) then None
    else if hi - lo == 1 then Some(DigitValue(s[lo]))
    else
      var prev := if s[hi - 2] != '_' then GroupsParse(s, lo, hi - 1)
                  else if hi - lo > 2 then GroupsParse(s, lo, hi - 2)
                  else None;
      if prev.None? then None else Some(prev.value * 10 + DigitValue(s[hi - 1]))
  }

  /** `int()` of `s[lo..hi]`, a text without surrounding whitespace: an optional sign, then digit groups. */
  function ParseRange(s: string, lo: nat, hi: nat): Option<int>
    requires lo <= hi <= |s|
  {
    if lo < hi && (s[lo] == '-' || s[lo] == '+') && GroupsParse(s, lo + 1, hi).Some? then
      var v := GroupsParse(s, lo + 1, hi).value;
      Some(if s[lo] == '-' then -(v as int) else v)
    else GroupsParse(s, lo, hi)
  }

  /**
   `int(s)` on a string: surrounding whitespace, then an optional sign and
   decimal digits with single underscores between them; anything else is a
   ValueError, here `None`.
   */
  function ParseInt(s: string): (r: Option<int>)
    ensures r.Some? ==> |s| > 0
  {
    var lo := SkipSpace(s, 0);
    var hi := TrimSpace(s, lo, |s|);
    if lo < hi then ParseRange(s, lo, hi) else None
  }

  /** Digit groups read the same wherever their characters sit. */
  lemma {:induction false} GroupsShift(s: string, lo: nat, hi: nat, t: string, d: nat)
    requires lo <= hi <= |s| && hi + d <= |t|
    requires forall k :: lo <= k < hi ==> s[k] == t[k + d]
    ensures GroupsParse(s, lo, hi) == GroupsParse(t, lo + d, hi + d)
    decreases hi
  {
    if lo < hi {
      assert s[hi - 1] == t[hi - 1 + d];
      if hi - lo > 1 {
        assert s[hi - 2] == t[hi - 2 + d];
        GroupsShift(s, lo, hi - 1, t, d);
        if hi - lo > 2 {
          GroupsShift(s, lo, hi - 2, t, d);
        }
      } else {
        assert s[lo] == t[lo + d];
      }
    }
  }

  lemma ParseRangeShift(s: string, t: string, d: nat)
    requires |s| > 0 && |s| + d <= |t|
    requires forall k :: 0 <= k < |s| ==> s[k] == t[k + d]
    ensures ParseRange(s, 0, |s|) == ParseRange(t, d, |s| + d)
  {
    GroupsShift(s, 0, |s|, t, d);
    GroupsShift(s, 1, |s|, t, d);
    assert s[0] == t[d];
  }

  /** A text with no whitespace at its ends is read whole. */
  lemma ParseIntOfBare(s: string)
    requires |s| > 0 && !IsSpace(s[0]) && !IsSpace(s[|s| - 1])
    ensures ParseInt(s) == ParseRange(s, 0, |s|)
  {
    SkipSpaceOfPadded(s, 0, 0);
    TrimSpaceOfPadded(s, 0, |s|, |s|);
  }

  /** A sign or a digit is never whitespace, so `int()` reads a digit text the same with any padding. */
  lemma ParseIntOfPadded(pre: string, s: string, post: string)
    requires forall k :: 0 <= k < |pre| ==> IsSpace(pre[k])
    requires forall k :: 0 <= k < |post| ==> IsSpace(post[k])
    requires |s| > 0 && !IsSpace(s[0]) && !IsSpace(s[|s| - 1])
    ensures ParseInt(pre + s + post) == ParseInt(s)
  {
    var x := pre + s + post;
    var a, b := |pre|, |pre| + |s|;
    assert forall k :: 0 <= k < a ==> x[k] == pre[k];
    assert forall k :: b <= k < |x| ==> x[k] == post[k - b];
    assert forall k :: 0 <= k < |s| ==> s[k] == x[k + a];
    SkipSpaceOfPadded(x, 0, a);
    TrimSpaceOfPadded(x, a, b, |x|);
    ParseRangeShift(s, x, a);
    ParseIntOfBare(s);
  }

  /** Plain digits are digit groups worth their plain value. */
  lemma {:induction false} GroupsOfDigits(s: string, hi: nat)
    requires AllDigits(s) && 0 < hi <= |s|
    ensures AllDigits(s[..hi])
    ensures GroupsParse(s, 0, hi) == Some(DigitsValue(s[..hi]))
    decreases hi
  {
    var p := s[..hi];
    assert forall k :: 0 <= k < hi ==> p[k] == s[k];
    if hi > 1 {
      GroupsOfDigits(s, hi - 1);
      assert IsDigit(s[hi - 2]);
      assert p[..hi - 1] == s[..hi - 1];
    } else {
      assert p[..0] == [];
    }
  }

  /** Surrounding whitespace is ignored. */
  lemma ParseIntSpaces()
    ensures ParseInt(" 0") == Some(0) && ParseInt(" 3") == Some(3)
  {
    ParseIntDigitPadded('0');
    ParseIntDigitPadded('3');
  }

  lemma ParseIntDigitPadded(c: char)
    requires IsDigit(c)
    ensures ParseInt([' ', c]) == Some(DigitValue(c))
  {
    ParseIntOfPadded(" ", [c], "");
    assert " " + [c] + "" == [' ', c];
    ParseIntOfBare([c]);
  }

  /** Underscores between digits are ignored. */
  lemma ParseIntUnderscores()
    ensures ParseInt("1_0") == Some(10)
  {
    var s := "1_0";
    ParseIntOfBare(s);
    assert s[0] == '1' && s[1] == '_' && s[2] == '0';
    assert GroupsParse(s, 0, 1) == Some(1);
    assert GroupsParse(s, 0, 3) == Some(10);
  }

  /** Doubled, leading or trailing underscores are a ValueError. */
  lemma ParseIntRejectsUnderscores()
    ensures ParseInt("1__0") == None && ParseInt("_1") == None && ParseInt("1_") == None
  {
    ParseIntOfBare("1__0");
    assert GroupsParse("1__0", 0, 2) == None && GroupsParse("1__0", 1, 2) == None;
    ParseIntOfBare("_1");
    ParseIntOfBare("1_");
  }

  /** `int(str(i)) == i`. */
  lemma ParseIntOfIntToString(i: int)
    ensures ParseInt(IntToString(i)) == Some(i)
  {
    if i < 0 {
      var n: nat := -i;
      assert IntToString(i) == "-" + NatToString(n);
      ParseIntOfNegative(n);
    } else {
      ParseIntOfNatToString(i);
    }
  }

  lemma ParseIntOfNatToString(n: nat)
    ensures ParseInt(NatToString(n)) == Some(n)
  {
    var s := NatToString(n);
    assert IsDigit(s[0]) && IsDigit(s[|s| - 1]);
    ParseIntOfBare(s);
    GroupsOfDigits(s, |s|);
    assert s[..|s|] == s;
    DigitsValueOfNatToString(n);
  }

  lemma ParseIntOfNegative(n: nat)
    requires n > 0
    ensures ParseInt("-" + NatToString(n)) == Some(-(n as int))
  {
    var d := NatToString(n);
    var s := "-" + d;
    assert IsDigit(d[|d| - 1]) && s[|s| - 1] == d[|d| - 1];
    ParseIntOfBare(s);
    NegativeRange(d, n);
  }

  lemma NegativeRange(d: string, n: nat)
    requires d == NatToString(n)
    ensures ParseRange("-" + d, 0, |d| + 1) == Some(-(n as int))
  {
    SignedRange('-', d);
    DigitsValueOfNatToString(n);
  }

  /** A sign followed by digits. */
  lemma SignedRange(c: char, d: string)
    requires c == '-' || c == '+'
    requires |d| > 0 && AllDigits(d)
    ensures ParseRange([c] + d, 0, |d| + 1) == Some(if c == '-' then -(DigitsValue(d) as int) else DigitsValue(d))
  {
    DigitsAfter(c, d);
  }

  lemma DigitsAfter(c: char, d: string)
    requires |d| > 0 && AllDigits(d)
    ensures GroupsParse([c] + d, 1, |d| + 1) == Some(DigitsValue(d))
  {
    var s := [c] + d;
    assert forall k :: 0 <= k < |d| ==> d[k] == s[k + 1];
    GroupsShift(d, 0, |d|, s, 1);
    assert d[..|d|] == d;
    GroupsOfDigits(d, |d|);
    var v := GroupsParse(d, 0, |d|);
    assert v == Some(DigitsValue(d));
    assert GroupsParse(s, 1, |d| + 1) == v;
  }

  lemma NatToStringSmall(n: nat)
    requires n < 10
    ensures NatToString(n) == [DigitChar(n)]
  {
  }

  lemma NatToStringLength(n: nat)
    ensures n < 10 ==> |NatToString(n)| == 1
    ensures 10 <= n < 100 ==> |NatToString(n)| == 2
    ensures 100 <= n < 1000 ==> |NatToString(n)| == 3
  {
  }

  /** `s.zfill(width)` for an unsigned digit string. */
  function ZFill(s: string, width: nat): (r: string)
    ensures |r| == if |s| >= width then |s| else width
    ensures EndsWith(r, s)
  {
    if |s| >= width then s
    else seq(width - |s|, _ => '0') + s
  }
}

=== FILE: ui_outputs.dfy ===
/**
 The export of platform outputs for the UI: a few URLs and names are picked
 out of the stack outputs into a payload keyed by environment, and that
 payload is merged into the row the UI reads from table storage.
 */
module UiOutputs {
  import opened Wrappers
  import Json
  import Strings

  datatype Error =
    | KeyNotFound(key: string)      // `d[key]` on a dictionary without `key`
    | NotADictionary(key: string)   // `d[key]` or `d.get(key)` on a value that is not a dictionary
    | PayloadNotADictionary         // `existing | new` with a stored payload that is not a dictionary

  /** The result of `parse_platform_outputs`. */
  datatype Parsed = Parsed(orgId: Json.Value, projectId: Json.Value, payload: map<string, Json.Value>)

  /** `d[key]`. */
  function Index(d: Json.Value, key: string): (r: Result<Json.Value, Error>)
    ensures r.Success? <==> d.Object? && key in d.fields
    ensures r.Success? ==> r.value == d.fields[key]
  {
    if !d.Object? then Failure(NotADictionary(key))
    else if key !in d.fields then Failure(KeyNotFound(key))
    else Success(d.fields[key])
  }

  /** `d.get(key, default)`. */
  function Get(d: Json.Value, key: string, default: Json.Value): (r: Result<Json.Value, Error>)
    ensures r.Success? <==> d.Object?
    ensures r.Success? ==> r.value == (if key in d.fields then d.fields[key] else default)
  {
    match Json.GetOr(d, key, default)
    case Some(v) => Success(v)
    case None => Failure(NotADictionary(key))
  }

  /** `d.get(outer, {}).get(inner)`: `None` when `outer` is absent. */
  function NestedUrl(d: Json.Value, outer: string): (r: Result<Json.Value, Error>)
    ensures d.Object? && outer !in d.fields ==> r == Success(Json.Null)
    ensures r.Success? <==> d.Object? && (outer in d.fields ==> d.fields[outer].Object?)
    ensures r.Success? && outer in d.fields ==>
      r.value == (if "url" in d.fields[outer].fields then d.fields[outer].fields["url"] else Json.Null)
  {
    var section :- Get(d, outer, Json.EmptyObject);
    Get(section, "url", Json.Null)
  }

  /** The environments whose payload holds the analytics URLs. */
  const DtapEnvironments: seq<string> := ["dev", "test", "prod"]

  /** The seven fields of a dev, test or prod payload. */
  const DtapFields: set<string> := {
    "credentials_store_name", "databricks_eng_workspace_url", "databricks_atc_workspace_url",
    "datafactory_data_studio_url", "datalake_containers_view_url", "dbt_docs_url", "jupyterlab_url"
  }

  /** `outputs[k1][k2]...`. */
  function Path(d: Json.Value, keys: seq<string>): (r: Result<Json.Value, Error>)
    decreases |keys|
  {
    if |keys| == 0 then Success(d)
    else
      var next :- Index(d, keys[0]);
      Path(next, keys[1..])
  }

  /** The sections of the outputs file a DTAP payload reads, in the order they are looked up. */
  datatype Sections = Sections(
    credentialsStore: Json.Value, databricks: Json.Value, datafactory: Json.Value,
    datalake: Json.Value, dbt: Json.Value, jupyterlab: Json.Value)

  function DtapSections(outputs: Json.Value): (r: Result<Sections, Error>)
    ensures r.Success? ==> Path(outputs, ["security", "credentials_store"]) == Success(r.value.credentialsStore)
    ensures r.Success? ==> Path(outputs, ["analytics", "databricks", "workspaces"]) == Success(r.value.databricks)
    ensures r.Success? ==> Path(outputs, ["analytics", "datafactory", "user_factories"]) == Success(r.value.datafactory)
    ensures r.Success? ==> Path(outputs, ["storage", "datalake"]) == Success(r.value.datalake)
    ensures r.Success? ==> Path(outputs, ["analytics", "dbt", "documentation"]) == Success(r.value.dbt)
    ensures r.Success? ==>
      Path(outputs, ["analytics"]).Success? && Path(outputs, ["analytics"]).value.Object? &&
      ("jupyterlab" !in Path(outputs, ["analytics"]).value.fields ==> r.value.jupyterlab == Json.EmptyObject)
  {
    var credentialsStore :- Path(outputs, ["security", "credentials_store"]);
    var databricks :- Path(outputs, ["analytics", "databricks", "workspaces"]);
    var datafactory :- Path(outputs, ["analytics", "datafactory", "user_factories"]);
    var datalake :- Path(outputs, ["storage", "datalake"]);
    var dbt :- Path(outputs, ["analytics", "dbt", "documentation"]);
    var analytics :- Path(outputs, ["analytics"]);
    var jupyterlab :- Get(analytics, "jupyterlab", Json.EmptyObject);
    Success(Sections(credentialsStore, databricks, datafactory, datalake, dbt, jupyterlab))
  }

  function DtapFieldsOf(sections: Sections): (r: Result<Json.Value, Error>)
    ensures r.Success? ==> r.value.Object? && r.value.fields.Keys == DtapFields
    ensures r.Success? ==> Index(sections.credentialsStore, "key_vault_name") == Success(r.value.fields["credentials_store_name"])
    ensures r.Success? ==> NestedUrl(sections.databricks, "engineering") == Success(r.value.fields["databricks_eng_workspace_url"])
    ensures r.Success? ==> NestedUrl(sections.databricks, "analytics") == Success(r.value.fields["databricks_atc_workspace_url"])
    ensures r.Success? ==> NestedUrl(sections.datafactory, "data") == Success(r.value.fields["datafactory_data_studio_url"])
    ensures r.Success? ==> Get(sections.datalake, "containers_view_url", Json.Null) == Success(r.value.fields["datalake_containers_view_url"])
    ensures r.Success? ==> Get(sections.dbt, "url", Json.Null) == Success(r.value.fields["dbt_docs_url"])
    ensures r.Success? ==> Get(sections.jupyterlab, "url", Json.EmptyObject) == Success(r.value.fields["jupyterlab_url"])
    ensures r.Success? && sections.jupyterlab == Json.EmptyObject ==> r.value.fields["jupyterlab_url"] == Json.EmptyObject
    ensures r.Success? <==>
      Index(sections.credentialsStore, "key_vault_name").Success? &&
      NestedUrl(sections.databricks, "engineering").Success? && NestedUrl(sections.databricks, "analytics").Success? &&
      NestedUrl(sections.datafactory, "data").Success? &&
      sections.datalake.Object? && sections.dbt.Object? && sections.jupyterlab.Object?
  {
    var keyVaultName :- Index(sections.credentialsStore, "key_vault_name");
    var engineering :- NestedUrl(sections.databricks, "engineering");
    var atc :- NestedUrl(sections.databricks, "analytics");
    var dataStudio :- NestedUrl(sections.datafactory, "data");
    var containersView :- Get(sections.datalake, "containers_view_url", Json.Null);
    var dbtDocs :- Get(sections.dbt, "url", Json.Null);
    var jupyterlabUrl :- Get(sections.jupyterlab, "url", Json.EmptyObject);
    Success(Json.Object(map[
      "credentials_store_name" := keyVaultName,
      "databricks_eng_workspace_url" := engineering,
      "databricks_atc_workspace_url" := atc,
      "datafactory_data_studio_url" := dataStudio,
      "datalake_containers_view_url" := containersView,
      "dbt_docs_url" := dbtDocs,
      "jupyterlab_url" := jupyterlabUrl
    ]))
  }

  /** The payload of a dev, test or prod environment: every section is looked up before any field. */
  function DtapPayload(outputs: Json.Value): (r: Result<Json.Value, Error>)
    ensures r.Success? ==> r.value.Object? && r.value.fields.Keys == DtapFields
    ensures r.Success? ==>
      Path(outputs, ["security", "credentials_store"]).Success? &&
      Index(Path(outputs, ["security", "credentials_store"]).value, "key_vault_name") ==
        Success(r.value.fields["credentials_store_name"])
    ensures r.Success? ==>
      Path(outputs, ["analytics"]).Success? && Path(outputs, ["analytics"]).value.Object? &&
      ("jupyterlab" !in Path(outputs, ["analytics"]).value.fields ==> r.value.fields["jupyterlab_url"] == Json.EmptyObject)
  {
    var sections :- DtapSections(outputs);
    DtapFieldsOf(sections)
  }

  /** The five URLs of a dev, test or prod payload, each read from its section of the outputs. */
  lemma DtapPayloadUrls(outputs: Json.Value)
    requires DtapPayload(outputs).Success?
    ensures Path(outputs, ["analytics", "databricks", "workspaces"]).Success? &&
      NestedUrl(Path(outputs, ["analytics", "databricks", "workspaces"]).value, "engineering") ==
        Success(DtapPayload(outputs).value.fields["databricks_eng_workspace_url"]) &&
      NestedUrl(Path(outputs, ["analytics", "databricks", "workspaces"]).value, "analytics") ==
        Success(DtapPayload(outputs).value.fields["databricks_atc_workspace_url"])
    ensures Path(outputs, ["analytics", "datafactory", "user_factories"]).Success? &&
      NestedUrl(Path(outputs, ["analytics", "datafactory", "user_factories"]).value, "data") ==
        Success(DtapPayload(outputs).value.fields["datafactory_data_studio_url"])
    ensures Path(outputs, ["storage", "datalake"]).Success? &&
      Get(Path(outputs, ["storage", "datalake"]).value, "containers_view_url", Json.Null) ==
        Success(DtapPayload(outputs).value.fields["datalake_containers_view_url"])
    ensures Path(outputs, ["analytics", "dbt", "documentation"]).Success? &&
      Get(Path(outputs, ["analytics", "dbt", "documentation"]).value, "url", Json.Null) ==
        Success(DtapPayload(outputs).value.fields["dbt_docs_url"])
  {
  }

  /**
   Every section a dictionary, every workspace or factory entry present a
   dictionary, and a key vault name: the payload can be built.
   */
  lemma DtapFieldsSucceed(sections: Sections)
    requires sections.credentialsStore.Object? && "key_vault_name" in sections.credentialsStore.fields
    requires sections.databricks.Object? && sections.datafactory.Object?
    requires sections.datalake.Object? && sections.dbt.Object? && sections.jupyterlab.Object?
    requires "engineering" in sections.databricks.fields ==> sections.databricks.fields["engineering"].Object?
    requires "analytics" in sections.databricks.fields ==> sections.databricks.fields["analytics"].Object?
    requires "data" in sections.datafactory.fields ==> sections.datafactory.fields["data"].Object?
    ensures DtapFieldsOf(sections).Success?
  {
  }

  /** Without its workspaces or factory entries, the payload holds no URL for them. */
  lemma DtapFieldsMissingSections(sections: Sections)
    requires DtapFieldsOf(sections).Success?
    requires sections.databricks == Json.EmptyObject && sections.datafactory == Json.EmptyObject
    ensures DtapFieldsOf(sections).value.fields["databricks_eng_workspace_url"] == Json.Null
    ensures DtapFieldsOf(sections).value.fields["databricks_atc_workspace_url"] == Json.Null
    ensures DtapFieldsOf(sections).value.fields["datafactory_data_studio_url"] == Json.Null
  {
  }

  lemma PathStep(d: Json.Value, key: string, rest: seq<string>)
    requires d.Object? && key in d.fields
    ensures Path(d, [key] + rest) == Path(d.fields[key], rest)
  {
    assert ([key] + rest)[1..] == rest;
  }

  /** The payload of the shared environment. */
  function SharedPayload(outputs: Json.Value): (r: Result<Json.Value, Error>)
    ensures r.Success? ==> outputs.Object?
    ensures r.Success? ==> r.value.Object? && r.value.fields.Keys == {"devops_project_url"}
    ensures outputs.Object? && "devops" !in outputs.fields ==>
      r == Success(Json.Object(map["devops_project_url" := Json.Null]))
  {
    var devops :- Get(outputs, "devops", Json.EmptyObject);
    var project :- Get(devops, "project", Json.EmptyObject);
    var url :- Get(project, "url", Json.Null);
    Success(Json.Object(map["devops_project_url" := url]))
  }

  /** `parse_platform_outputs`, given the decoded outputs file. */
  function ParsePlatformOutputs(document: Json.Value, envName: string): (r: Result<Parsed, Error>)
    ensures r.Success? ==> Path(document, ["root", "metadata", "org_id"]) == Success(r.value.orgId)
    ensures r.Success? ==> Path(document, ["root", "metadata", "project_id"]) == Success(r.value.projectId)
    ensures r.Success? && envName in DtapEnvironments ==>
      r.value.payload.Keys == {envName} && r.value.payload[envName].Object? &&
      r.value.payload[envName].fields.Keys == DtapFields
    ensures r.Success? && envName == "shared" ==>
      r.value.payload.Keys == {"shared"} && r.value.payload["shared"].Object? &&
      r.value.payload["shared"].fields.Keys == {"devops_project_url"}
    ensures r.Success? && envName !in DtapEnvironments && envName != "shared" ==> r.value.payload == map[]
  {
    var outputs :- Index(document, "root");
    var orgId :- Path(outputs, ["metadata", "org_id"]);
    var projectId :- Path(outputs, ["metadata", "project_id"]);
    PathStep(document, "root", ["metadata", "org_id"]);
    PathStep(document, "root", ["metadata", "project_id"]);
    if envName in DtapEnvironments then
      var payload :- DtapPayload(outputs);
      Success(Parsed(orgId, projectId, map[envName := payload]))
    else if envName == "shared" then
      var payload :- SharedPayload(outputs);
      Success(Parsed(orgId, projectId, map[envName := payload]))
    else Success(Parsed(orgId, projectId, map[]))
  }

  /** An environment other than dev, test, prod and shared only needs the metadata. */
  lemma OtherEnvironmentNeedsOnlyMetadata(document: Json.Value, envName: string)
    requires envName !in DtapEnvironments && envName != "shared"
    requires Path(document, ["root", "metadata", "org_id"]).Success?
    requires Path(document, ["root", "metadata", "project_id"]).Success?
    ensures ParsePlatformOutputs(document, envName).Success?
  {
    assert document.Object? && "root" in document.fields;
    PathStep(document, "root", ["metadata", "org_id"]);
    PathStep(document, "root", ["metadata", "project_id"]);
  }

  /** Python's `str(v)` of a scalar; a list or dictionary is only marked, not given its repr. */
  function Str(v: Json.Value): (r: string)
    ensures v.Str? ==> r == v.s
    ensures v.Int? ==> r == Strings.IntToString(v.i)
  {
    match v
    case Null => "None"
    case Bool(b) => if b then "True" else "False"
    case Int(i) => Strings.IntToString(i)
    case Str(s) => s
    case List(_) => "[...]"
    case Object(_) => "{...}"
  }

  /** The row written to table storage; the payload column is serialised JSON, kept here decoded. */
  datatype Entity = Entity(partitionKey: string, rowKey: string, payload: map<string, Json.Value>)

  /** What the table holds for the row before the write. */
  datatype Existing =
    | NoRow                          // `ResourceNotFoundError`
    | NoPayload                      // a row without a payload column (`KeyError`)
    | Payload(decoded: Json.Value)   // the decoded payload column

  /** `existing | new`: the keys of both, the new value winning. */
  function Merge(existing: map<string, Json.Value>, incoming: map<string, Json.Value>): (r: map<string, Json.Value>)
    ensures r.Keys == existing.Keys + incoming.Keys
    ensures forall k :: k in incoming ==> r[k] == incoming[k]
    ensures forall k :: k in existing && k !in incoming ==> r[k] == existing[k]
  {
    existing + incoming
  }

  /** `save_platform_outputs`: the entity upserted, given what the table held. */
  function SavePlatformOutputs(parsed: Parsed, existing: Existing): (r: Result<Entity, Error>)
    ensures r.Success? ==> r.value.partitionKey == Str(parsed.orgId) && r.value.rowKey == Str(parsed.projectId)
    ensures r.Failure? <==> existing.Payload? && !existing.decoded.Object?
    ensures r.Success? && !existing.Payload? ==> r.value.payload == parsed.payload
    ensures r.Success? && existing.Payload? ==> r.value.payload == Merge(existing.decoded.fields, parsed.payload)
  {
    var partitionKey := Str(parsed.orgId);
    var rowKey := Str(parsed.projectId);
    match existing
    case NoRow => Success(Entity(partitionKey, rowKey, parsed.payload))
    case NoPayload => Success(Entity(partitionKey, rowKey, parsed.payload))
    case Payload(decoded) =>
      if decoded.Object? then Success(Entity(partitionKey, rowKey, Merge(decoded.fields, parsed.payload)))
      else Failure(PayloadNotADictionary)
  }

  /** Saving one environment's payload keeps every other environment already stored. */
  lemma SaveKeepsOtherEnvironments(parsed: Parsed, stored: map<string, Json.Value>, env: string)
    requires env in stored && env !in parsed.payload
    ensures var r := SavePlatformOutputs(parsed, Payload(Json.Object(stored)));
      r.Success? && env in r.value.payload && r.value.payload[env] == stored[env]
  {
  }

  /** Saving the same payload twice stores what saving it once does. */
  lemma SaveIdempotent(parsed: Parsed, existing: Existing)
    requires SavePlatformOutputs(parsed, existing).Success?
    ensures var once := SavePlatformOutputs(parsed, existing).value;
      SavePlatformOutputs(parsed, Payload(Json.Object(once.payload))) == Success(once)
  {
    var once := SavePlatformOutputs(parsed, existing).value;
    var twice := SavePlatformOutputs(parsed, Payload(Json.Object(once.payload))).value;
    assert twice.payload == once.payload;
  }
}

=== FILE: wrappers.dfy ===
/** Failure-compatible datatypes used to model Python exceptions and `None`. */
module Wrappers {

  /** A value that may be absent; `None` models Python's `None`. */
  datatype Option<+T> = None | Some(value: T) {

    function GetOr(default: T): T {
      match this
      case Some(v) => v
      case None => default
    }
  }

  /** Either a value or the exception raised while computing it. */
  datatype Result<+T, +E> = Success(value: T) | Failure(error: E) {

    predicate IsFailure() {
      Failure?
    }

    function PropagateFailure<U>(): Result<U, E>
      requires Failure?
    {
      Failure(error)
    }

    function Extract(): T
      requires Success?
    {
      value
    }
  }
}
